=== FILE: README.md ===
# A verified model of a block-based blog CMS

This project models the core of a small Next.js blog CMS in Dafny. Its posts are sequences of typed content blocks: paragraph, heading, quote, code, image, video, embed and divider. The model covers five parts of the system:

- **The data model.** The post and block records and the enumerations of kinds (`PostTypes`). The Mongoose schema's field rules and its pre-save hook, which derives the reading time, excerpt and publication date (`PostModel`).
- **Validation.** The Joi schemas for blocks, posts and uploads, which collect every error rather than stopping at the first (`PostSchemas`, `UploadSchemas`). The slug and error-reply helpers (`Utils`).
- **The API routes.**
  - `GET /api/posts` filters, sorts newest first and paginates (`PostsListing`).
  - `POST /api/posts` checks, validates, moves draft images and saves (`PostsCreation`).
  - The draft image sweep (`ImageCleanup`).
  - The admin route guard (`RouteGuard`).
- **The client state machines.**
  - The login form (`LoginForm`).
  - The post editor: blocks, tags, the pre-submit check and the JSON payload (`PostEditor`).
  - The video, image and text block editors (`VideoBlock`, `ImageBlock`, `RichText`).
  - The infinite-scrolling public feed (`Feed`) and a post's card (`PostCard`).
- **The client helpers.** Code highlighting and its HTML escaping (`UiUtils`).

Each module follows one source file. JavaScript measures strings in UTF-16 code units, where a character outside the Basic Multilingual Plane, such as an emoji, counts twice. Every length limit and cut is stated in those units (`Text.JsLength`, `Text.JsTake`). Operations are pure functions over immutable datatypes, and the steps that loop are methods with invariants. I/O is never performed. The database, Cloudinary, `fetch` and the clock become explicit inputs: a sequence of stored posts, an inventory of stored images, a delete outcome per batch, a reply per request, and an integer `now`. The signed-in user is an explicit optional `{email, role}`.

The proved properties include:

- **Round trips.** A typed block and its wire form encode and decode to each other. `escapeHtml` is an entity-per-character map, and undoing its replacements recovers the code.
- **Pagination.** Each answered page is a slice of the newest-first selection. The feed, loading page after page, shows a gap-free prefix of that selection and stops exactly at its end.
- **Validation.** Valid input yields no errors, and each rule maps to its own error. The editor's pre-submit check is weaker than the server's schema, and the schema is weaker than the model's.
- **The sweep.** It reports exactly one result per unused draft, whatever each batch call does.
- **The editor.** Undo-style laws hold: removing undoes adding, toggling a tag twice restores it, and patches compose.

Three places where the code evidently does something other than intended are recorded under "## Findings". Each is modelled both as written and as corrected.

## Model

| member | source | states |
|---|---|---|
| PostTypes.ParseBlockType | app/types/post.ts:4-7 | A string read as a block kind gives a kind whose name it is; a string that names none of the eight kinds gives nothing |
| PostTypes.ParseEmbedType | app/types/post.ts:9 | A string read as an embed kind gives a kind whose name it is; any other string gives nothing |
| PostTypes.KindsEnumerated | app/types/post.ts:4-9 | There are exactly eight block kinds and three embed kinds, each listed once |
| PostTypes.KindNamesRoundTrip | app/types/post.ts:4-12 | Reading back a kind's name gives the kind, and two kinds never share a name |
| PostTypes.Encode | app/models/Post.ts:53-61 | A block's JSON object carries its kind's name, the same content, url and publicId, and an embed kind exactly when the block has one |
| PostTypes.Decode | app/types/post.ts:14-26 | A JSON block decodes exactly when its kind is present and known and its embed kind, if any, is known |
| PostTypes.EncodeDecodeRoundTrip | app/types/post.ts:14-26 | Decoding an encoded block gives it back, and encoding a decodable object gives the object back |
| PostTypes.EncodeCreateInput | app/types/post.ts:45-58 | A create-input block never has a publicId or author key, and decodes to the same block with those absent |
| Text.JsLength | app/components/admin/PostEditor.tsx:98 | A string's `length` counts UTF-16 code units, at least one and at most two per character |
| Text.JsLengthAppend | app/components/admin/PostEditor.tsx:98 | The length of a concatenation is the sum of the lengths |
| Text.JsLengthBmp | app/components/admin/PostEditor.tsx:98 | Inside the Basic Multilingual Plane the length is the number of characters |
| Text.JsLengthOfEmoji | app/components/admin/PostEditor.tsx:98 | An emoji is one character but has length two |
| Text.JsLengthAstral | app/components/admin/PostEditor.tsx:98 | A string made only of characters outside the Basic Multilingual Plane has twice as many code units as characters |
| Text.JsTake | app/models/Post.ts:89 | `substring(0, n)` gives a prefix of at most n code units. It gives the whole string when that fits, and otherwise stops only where the next character would not fit |
| Text.JsTakeBmp | app/models/Post.ts:89 | Inside the Basic Multilingual Plane the cut keeps exactly n characters, or all of them when there are fewer |
| PostModel.HttpUrlIgnoresCase | app/models/Post.ts:32 | The http(s) test gives the same answer on an address and on its lower-cased form |
| PostModel.HttpUrlExamples | app/models/Post.ts:32 | An upper-case `HTTPS://` address passes; `ftp://` and protocol-relative `//` addresses fail |
| PostModel.ModelBlockErrorsEmptyIff | app/models/Post.ts:16-52 | A block passes save-time validation exactly when it decodes, fills every field its kind requires, and has an http(s) url if it has a url |
| PostModel.ModelPostErrors | app/models/Post.ts:64-75 | A post has no save errors exactly when its title is 1 to 120 UTF-16 code units, its slug matches `^[a-z0-9-]+$`, its excerpt is at most 300 units, its cover is empty or http(s), every tag is at most 25 units once lower-cased, and every block is valid |
| PostModel.SavePaths | app/models/Post.ts:64-75 | No path fails exactly when every field rule holds. `title`, `slug`, `excerpt` and `coverImage` are each reported exactly when their own rule fails |
| PostModel.BlockPaths | app/models/Post.ts:68 | The content array reports no paths exactly when every block passes validation, and every path it reports lies under `content.` |
| PostModel.TagPaths | app/models/Post.ts:74 | The tags report no path exactly when every lower-cased tag is at most 25 UTF-16 code units. There is at most one path per tag, each under `tags.` |
| PostModel.FirstTextBlock | app/models/Post.ts:86-88 | Finds the first paragraph or heading: no earlier block is one, and none is found only when no block is one |
| PostModel.DerivedExcerpt | app/models/Post.ts:85-90 | The excerpt is the first text block's content cut to 300 UTF-16 code units and then trimmed, or "" when there is none. It never exceeds 300 units and has no white space at either end |
| PostModel.SplitWs | app/models/Post.ts:94 | Splitting on white-space runs gives at least one piece, and no piece holds white space |
| PostModel.SplitWsCountsRuns | app/models/Post.ts:94 | Splitting on white space yields one piece more than there are maximal white-space runs |
| PostModel.ReadingTime | app/models/Post.ts:92-95 | The reading time is the least whole number of minutes that covers the word count at 265 words a minute |
| PostModel.EmptyContentIsOneWord | app/models/Post.ts:94 | Empty content counts as one word, absent content as none, and any present content as at least one |
| PostModel.BlockWordsCountsRuns | app/models/Post.ts:93-94 | A block's word count is one more than the number of white-space runs in its content |
| PostModel.ReadingTimeExamples | app/models/Post.ts:95 | 265 words take one minute, 530 take two, 531 take three and none take zero |
| PostModel.PreSave | app/models/Post.ts:80-99 | The hook sets `publishedAt` to now only on a first publish, derives a missing excerpt from non-empty content, recomputes reading time only when content changed, and changes nothing else |
| PostModel.PreSaveIdempotent | app/models/Post.ts:80-99 | A second save with the same modified paths changes nothing, whatever its instant |
| PostModel.PublishedAtSetOnce | app/models/Post.ts:81-83 | Publishing, unpublishing and publishing again keeps the first publication instant |
| PostModel.ExcerptSkipsNonTextBlocks | app/models/Post.ts:85-90 | With an image block before a paragraph whose text is trimmed and at most 300 UTF-16 units (such as "Hello world"), the derived excerpt is that text |
| PostModel.NewDocument | app/models/Post.ts:72-75 | A new document defaults `published` to false and reading time to 0, and stores each tag lower-cased |
| PostSchemas.BlockTypeNamesParse | app/lib/validation/postSchemas.ts:6 | A string is in the schema's list of block types exactly when it names a block kind |
| PostSchemas.EmbedTypeNamesParse | app/lib/validation/postSchemas.ts:33 | A string is in the schema's list of embed types exactly when it names an embed kind |
| PostSchemas.CheckString | app/lib/validation/postSchemas.ts:5-45 | An absent value fails, with one `required` error, exactly when required. A present value passes exactly when it is an allowed empty string, in the `valid` list when there is one, or else non-empty and passing every rule. A value outside a `valid` list is reported as not one of it first. An empty value that is not allowed is reported as empty last, so an empty value under a `valid` list gets both errors |
| PostSchemas.RuleErrors | app/lib/validation/postSchemas.ts:39-44 | A non-empty string's rules report nothing exactly when all pass. Each failing rule adds its own error: the UTF-16 length limit, the URI test and the slug pattern |
| PostSchemas.CheckPositive | app/lib/validation/postSchemas.ts:24-25 | A width or height passes exactly when it is absent or a positive safe integer. A number past `Number.MAX_SAFE_INTEGER` either way is reported as unsafe, and any other non-positive one as not positive, never both |
| PostSchemas.CheckForbidden | app/lib/validation/postSchemas.ts:20 | A forbidden key passes exactly when it is absent, and a present one gets the single forbidden error |
| PostSchemas.Report | app/lib/validation/postSchemas.ts:46 | Each error of a key becomes one detail at that key's path, in order, and no other detail is added |
| PostSchemas.ReportKeys | app/lib/validation/postSchemas.ts:5-36 | The keys report nothing exactly when every key's rule passes, and every detail sits one step below the block |
| PostSchemas.BlockErrors | app/lib/validation/postSchemas.ts:5-36 | The block schema reports nothing exactly when every key passes, and each detail names a key of the block |
| PostSchemas.BlockErrorAt | app/lib/validation/postSchemas.ts:5-36 | The schema reports error e under key k exactly when e is among the errors of k's rule, its `when` branch chosen by `type` |
| PostSchemas.EmptyTypeReportedTwice | app/lib/validation/postSchemas.ts:6 | An empty `type` is reported twice under the one key: as none of the kinds, and as empty |
| PostSchemas.UnsafeWidthRejected | app/lib/validation/postSchemas.ts:24 | A width past `Number.MAX_SAFE_INTEGER` is reported as unsafe, not as non-positive |
| PostSchemas.BlockErrorsEmptyIff | app/lib/validation/postSchemas.ts:5-36 | A block has no errors exactly when it conforms: a known type, the fields its kind needs filled, publicId only on images, non-empty optional strings, positive safe-integer sizes and no `author` |
| PostSchemas.PassingKeysConform | app/lib/validation/postSchemas.ts:5-36 | A block whose every key passes conforms |
| PostSchemas.ConformingKeysPass | app/lib/validation/postSchemas.ts:5-36 | Every key of a conforming block passes |
| PostSchemas.JoiRequiresWhatModelRequires | app/lib/validation/postSchemas.ts:7-35 | On a block of known type, a field is reported missing exactly when the stored-post rules require it for that type and it is absent |
| PostSchemas.FieldKeyRequired | app/lib/validation/postSchemas.ts:7-35 | A kind-dependent key is reported missing exactly when its `when` branch demands it and the field is absent |
| PostSchemas.MissingTypeDemandsContentAndUrl | app/lib/validation/postSchemas.ts:6-21 | Without a `type`, the type is reported missing, content and url are reported missing exactly when absent, publicId, language and embedType are never reported missing, and a publicId is forbidden |
| PostSchemas.PublicIdForbiddenOffImages | app/lib/validation/postSchemas.ts:17-21 | A publicId on a block that is not an image is reported as forbidden, so the block does not conform |
| PostSchemas.CreateInputImageRejected | app/lib/validation/postSchemas.ts:17-21 | An image block of the create-input shape, which has no publicId, is always reported for the missing publicId |
| PostSchemas.EmptyAltTextAndCaptionRejected | app/lib/validation/postSchemas.ts:22-23 | Empty alt text and caption are each reported as empty, so the block does not conform |
| PostSchemas.JoiAcceptedBlockHasRequiredFields | app/lib/validation/postSchemas.ts:7-35 | A block the request schema accepts fills every field the stored-post rules require for its kind |
| PostSchemas.JoiLooserThanModel | app/lib/validation/postSchemas.ts:12-16 | A video with an `ftp://` URI and a paragraph with embed type "vimeo" both pass the request schema but fail save-time validation |
| PostSchemas.ItemErrors | app/lib/validation/postSchemas.ts:41 | The items report nothing exactly when every block conforms, and each detail sits under an index |
| PostSchemas.ContentErrors | app/lib/validation/postSchemas.ts:41 | Content reports nothing exactly when it is present with at least one block and all blocks conform (or absent and optional); an empty array gives the single "at least one item" detail |
| PostSchemas.TagErrors | app/lib/validation/postSchemas.ts:44 | The tags report nothing exactly when every tag is non-empty and at most 25 UTF-16 code units |
| PostSchemas.TagCheck | app/lib/validation/postSchemas.ts:44 | One tag passes exactly when it is non-empty and at most 25 UTF-16 code units, lower-casing first changing neither |
| PostSchemas.LowerTags | app/lib/validation/postSchemas.ts:44 | The stored tags are the given tags, one for one, each lower-cased |
| PostSchemas.TailErrors | app/lib/validation/postSchemas.ts:42-44 | Excerpt, cover image and tags report nothing exactly when the excerpt fits in 300 UTF-16 code units, the cover is a non-empty URI and every tag is non-empty and fits in 25 |
| PostSchemas.HeadErrorsEmptyIff | app/lib/validation/postSchemas.ts:39-41 | Title, slug and content report nothing exactly when the present ones are well formed and, for create, all three are present |
| PostSchemas.PostErrorsEmptyIff | app/lib/validation/postSchemas.ts:38-56 | The create schema reports nothing exactly when the body meets the create conditions, and the update schema exactly when it meets the update conditions |
| PostSchemas.ValidateCreate | app/lib/validation/postSchemas.ts:38-46 | Create validation succeeds exactly on conforming bodies. A failure carries at least one detail. A success lower-cases the tags, defaults `published` to false and changes nothing else |
| PostSchemas.ValidateUpdate | app/lib/validation/postSchemas.ts:48-56 | Update validation succeeds exactly on bodies meeting the update conditions, lower-cases the tags and leaves `published` and everything else as given |
| PostSchemas.DropTopLevelRequired | app/lib/validation/postSchemas.ts:38-56 | Dropping top-level "missing" details keeps exactly the other details |
| PostSchemas.DropOptionalKey | app/lib/validation/postSchemas.ts:39-40 | Making a top-level string key optional removes exactly its "missing" detail |
| PostSchemas.UpdateErrorsAreCreateErrorsLessMissing | app/lib/validation/postSchemas.ts:38-56 | The update schema reports exactly the create schema's details, in the same order, less the "missing" details of title, slug and content |
| Utils.ErrorReply | app/lib/utils.ts:20-36 | The error envelope has `success` false, carries the given error, message and details, and repeats the HTTP status inside the body |
| Utils.SuccessReply | app/lib/utils.ts:38-50 | The success envelope has `success` true, carries the data and repeats the HTTP status inside the body |
| Utils.OkReply | app/lib/utils.ts:38-41 | With no status given, the success reply uses 200 |
| Utils.EnvelopesDistinct | app/lib/utils.ts:4-50 | The `success` flag alone tells the two envelopes apart, each puts the reply's status in its body, and the default is 200 |
| Utils.FormatValidationError | app/lib/utils.ts:52-57 | There is one entry per detail, in order. The field is the dotted path. The message has no double quote left and keeps every other character of the rendered message, with the same count |
| Utils.FormatNestedPath | app/lib/utils.ts:54 | A block detail at content, index 2, language is reported under the field `content.2.language` |
| Utils.FormatKeepsUnquotedMessage | app/lib/utils.ts:55 | A message without double quotes is reported unchanged |
| Utils.CheckContentType | app/lib/utils.ts:59-69 | The gate passes exactly when the header is exactly `application/json`, and refuses with a 400 error envelope otherwise |
| Utils.ContentTypeIsExact | app/lib/utils.ts:61 | `application/json; charset=utf-8` and a missing header are both refused |
| Utils.RemoveSpecial | app/lib/utils.ts:87 | Only word characters, whitespace and hyphens remain, and a string made only of those is left unchanged |
| Utils.RemoveSpecialDrawsFromInput | app/lib/utils.ts:87 | Every character kept was in the input |
| Utils.CollapseSeparators | app/lib/utils.ts:88 | Every character is a hyphen or a non-separator from the input, no two hyphens are adjacent, and a leading separator run becomes a hyphen |
| Utils.StripHyphens | app/lib/utils.ts:89 | The result is a contiguous slice of the input that neither starts nor ends with a hyphen |
| Utils.GenerateSlug | app/lib/utils.ts:84-90 | The slug holds only lower-case letters, digits and hyphens, with no hyphen at either end and no two in a row, and a non-empty slug matches the slug pattern the schemas demand |
| Utils.GenerateSlugKeepsNormal | app/lib/utils.ts:84-90 | A string that is already a normal slug is its own slug |
| Utils.GenerateSlugIdempotent | app/lib/utils.ts:84-90 | Generating the slug of a slug changes nothing |
| Utils.GenerateSlugExample | app/lib/utils.ts:84-90 | "A, b!" becomes "a-b" |
| PostsListing.ClampPage | app/api/posts/route.ts:27 | The page is at least 1, defaults to 1 and keeps any requested page of 1 or more |
| PostsListing.ClampLimit | app/api/posts/route.ts:28 | The limit lies between 1 and 50, defaults to 10, keeps a requested value in range and is pushed to the nearer bound otherwise |
| PostsListing.SearchTerm | app/api/posts/route.ts:78-79 | A search counts exactly when its trimmed text is not blank, and the term used has no space at either end |
| PostsListing.MatchesSearch | app/api/posts/route.ts:79-84 | A post matches a search exactly when one of its searched fields (the title, the excerpt when set, any tag) contains the term, ignoring case |
| PostsListing.Listed | app/api/posts/route.ts:67-85 | A listed post is published and matches the search when there is one. `featured=true` lists nothing unless Mongoose drops the undeclared field from the filter |
| PostsListing.FilterPosts | app/api/posts/route.ts:67-85 | Only posts that satisfy the query (published, carrying the lower-cased tag, matching the search) are kept, each as often as it is stored |
| PostsListing.FilterSelectsListed | app/api/posts/route.ts:67-85 | A stored post is selected exactly when it satisfies the query, with the tag compared after lower-casing as the schema's `lowercase` setter casts it |
| PostsListing.TagFilterIgnoresCase | app/models/Post.ts:74 | Two tags that lower-case alike select exactly the same posts, because the filter value is lower-cased like the stored tags |
| PostsListing.CapitalisedTagFindsPost | app/api/posts/route.ts:70-72 | Asking for tag "Dafny" lists a published post stored with the tag "dafny" |
| PostsListing.SearchIgnoresCase | app/api/posts/route.ts:79-84 | The search "JS" finds a post titled "Learning js" |
| PostsListing.InsertKeepsOrder | app/api/posts/route.ts:89 | Inserting a post into a newest-first list keeps the list newest first |
| PostsListing.SortNewestFirst | app/api/posts/route.ts:89 | The result is a permutation of the selected posts, ordered by `publishedAt` descending with undated posts last |
| PostsListing.Slice | app/api/posts/route.ts:29 | The page is the run of results from position `skip`, of length `limit` or what remains |
| PostsListing.PageOf | app/api/posts/route.ts:29 | Page `page` holds the results from position `(page - 1)·limit` on, in order: at most `limit`, a full page exactly while that many remain, and none past the end |
| PostsListing.PagesUpToIsPrefix | app/api/posts/route.ts:29 | Reading pages 1 to n in turn gives exactly the first n·limit results, with no gap and no repeat |
| PostsListing.PagesCoverResults | app/api/posts/route.ts:103 | The pages up to `totalPages` hold every result |
| PostsListing.PagePastTheLastIsEmpty | app/api/posts/route.ts:103 | Every page after `totalPages` is empty |
| PostsListing.SliceOfSorted | app/api/posts/route.ts:89-91 | A page of a newest-first list is newest first and holds only results |
| PostsListing.FindBySlug | app/api/posts/route.ts:37-40 | The lookup finds a stored published post with the slug exactly when one exists |
| PostsListing.ListPosts | app/api/posts/route.ts:22-117 | The answer is 200, 404 or 500. It is 404 exactly when a slug is given and no published post has it, and then carries the "Post not found" envelope. It is 500 exactly when no slug is given and the search does not compile as a regular expression, and then carries the "Server error"/"Failed to fetch posts" envelope. Every listed post is published |
| PostsListing.SlugLookupIsSingle | app/api/posts/route.ts:36-63 | A successful slug lookup returns one post with that slug under the pagination record 1, 1, 1, 1 |
| PostsListing.ListingPagination | app/api/posts/route.ts:97-105 | For a query without slug whose search compiles, the pagination record repeats the clamped page and limit. `total` counts every selected post, and `totalPages` is the least number of pages that holds them all |
| PostsListing.ListingContents | app/api/posts/route.ts:87-93 | For a query without slug whose search compiles, a listing holds at most `limit` posts, newest first, each satisfying the query |
| PostsListing.EveryListedPostIsOnSomePage | app/api/posts/route.ts:87-105 | Every stored post that satisfies the query is on one of the pages 1 to `totalPages` |
| PostsCreation.DraftPath | app/api/posts/route.ts:135 | The draft path follows the first `/drafts/` of the url directly, and contains no dot and no further `/drafts/` |
| PostsCreation.RenameIdsAsWritten | app/api/posts/route.ts:135-139 | The route renames `drafts/{caller id}/{draft path}` to `posts/{caller id}/{draft path}` |
| PostsCreation.RenameIds | app/api/posts/route.ts:135-139 | The intended names are the same extension-free path under `drafts/` and under `posts/` |
| PostsCreation.RenameSourceMatchesUrl | app/api/posts/route.ts:135-139 | The intended source name, with a leading `/`, is the text at the url's first `/drafts/`, so it names the asset the url serves |
| PostsCreation.RenameTargetMatchesUrl | app/api/posts/route.ts:135-148 | The intended target name, with a leading `/`, is found at the same position in the rewritten url, so the new url serves the renamed asset |
| PostsCreation.DraftPathOfUpload | app/api/images/upload/route.ts:65-66 | For a url of the form `/drafts/{owner}/{stamp}.{ext}`, which is the shape uploads get, the draft path is `{owner}/{stamp}`, so it already starts with the owner's folder |
| PostsCreation.AsWrittenRenameMissesTheAsset | app/api/posts/route.ts:135-139 | When the draft path starts with the caller's folder, the route renames `drafts/{id}/{id}/{name}`, which is not the uploaded asset `drafts/{id}/{name}` |
| PostsCreation.DraftMovesOnlyWhenNamedRight | app/api/posts/route.ts:133-153 | With an image store that only moves assets that exist, an uploaded draft stays unmoved under the route's naming and is moved and republished under the intended naming |
| PostsCreation.ProcessContentBlocks | app/api/posts/route.ts:125-163 | Blocks keep their order and count. A block changes exactly when it is a draft image whose move succeeded, and then only its url changes: the first `/drafts/` becomes `/posts/` |
| PostsCreation.PublishedUrl | app/api/posts/route.ts:148 | A url without `/drafts/` is kept. Otherwise its first `/drafts/` becomes `/posts/` in place, the text on both sides is kept, and the url gets one character shorter |
| PostsCreation.MigrateBlock | app/api/posts/route.ts:141-157 | Only the url can change. The block changes exactly when it is a draft image whose move succeeded, and then its url is the published one |
| PostsCreation.RewriteKeepsHttpUrl | app/api/posts/route.ts:148 | Rewriting an http(s) url that contains `/drafts/` leaves it an http(s) url |
| PostsCreation.MigrationKeepsSaveValidity | app/api/posts/route.ts:146-152 | A block that passes save-time validation still passes it after its asset is moved |
| PostsCreation.BodyAsWritten | app/api/posts/route.ts:172-173 | A parsed body goes on unchanged. A malformed body goes on as an object with none of the schema's keys, because the error response has no `success` key |
| PostsCreation.DecodeAll | app/api/posts/route.ts:195-197 | Stored block objects that pass save-time validation become typed blocks whose encoding gives back the same objects |
| PostsCreation.Document | app/api/posts/route.ts:195-200 | The new document is published exactly when `published` is true. It then carries the creation instant as `publishedAt`, and otherwise none. It holds one block per processed block |
| PostsCreation.ServerError | app/api/posts/route.ts:206-213 | A thrown error becomes a 500 "Failed to create post" envelope carrying the error's message |
| PostsCreation.Store | app/api/posts/route.ts:195-213 | The save answers 200 exactly when every processed block and the document pass save-time validation and the insert succeeds, and then returns the document after the pre-save hook. A validation failure answers 500 with the validation message of the failing paths, and an insert failure answers 500 with the database's message |
| PostsCreation.StorePathsOfDocument | app/api/posts/route.ts:195-204 | Once the document is built, its own save-time validation finds exactly the paths found from the body and the processed blocks |
| PostsCreation.ValidationMessage | app/api/posts/route.ts:206-213 | The thrown message starts with `Post validation failed: ` and holds every failing path followed by its validator's message |
| PostsCreation.Admitted | app/api/posts/route.ts:175-188 | A caller who is not an admin gets 401. An admin whose body fails the create schema gets 400 with the formatted details. A 200 needs both checks to pass |
| PostsCreation.CreatePostAsWritten | app/api/posts/route.ts:165-178 | After the content-type gate the handler goes on with the parse result, malformed or not |
| PostsCreation.CreatePost | app/api/posts/route.ts:165-204 | The answer is 200, 400, 401 or 500. A 200 needs a JSON content type, a parsed body, an admin caller and a body the create schema accepts |
| PostsCreation.CreateChecksInOrder | app/api/posts/route.ts:169-188 | The checks run in order: content type, then malformed body, then admin, then schema. Each refusal carries its own message, and a schema refusal lists at least one detail |
| PostsCreation.CreatedPostFields | app/api/posts/route.ts:190-204 | A created post has the new id, title and slug, `published` as sent (false by default), `publishedAt` set exactly when published, the caller as author, lower-cased tags, one block per block sent, an excerpt and the reading time of its content |
| PostsCreation.TagsLowerOnce | app/models/Post.ts:80-99 | Lower-casing tags twice gives the same as once, so the schema and the model together lower-case each tag once |
| PostsCreation.StoredFields | app/models/Post.ts:80-99 | The pre-save hook keeps the document's id, title, slug, publication, author, tags and blocks, sets an excerpt when there is content, and sets the reading time of the content |
| PostsCreation.EmptyBodyErrors | app/lib/validation/postSchemas.ts:38-46 | A body with none of the schema's keys gets exactly the three "required" details, for title, slug and content in that order |
| PostsCreation.MalformedBodyAsWritten | app/api/posts/route.ts:172-180 | With a malformed body, the route as written answers 401 to a non-admin and gives an admin the three "required" details. The intended handler answers both with 400 "Malformed JSON received" |
| UploadSchemas.CheckSize | app/lib/validation/uploadSchemas.ts:14-20 | A missing size is reported as required, and a size past `Number.MAX_SAFE_INTEGER` either way as unsafe. A safe size passes exactly when it is at most 10 MiB, and otherwise fails with that bound |
| UploadSchemas.UploadErrors | app/lib/validation/uploadSchemas.ts:3-21 | There are at most four details, each at the name, type or size key |
| UploadSchemas.UploadErrorsEmptyIff | app/lib/validation/uploadSchemas.ts:3-21 | An upload passes exactly when it has a non-empty name, one of the five listed image types and a size of at most 10 MiB that is a safe integer |
| UploadSchemas.EmptyNameRejected | app/lib/validation/uploadSchemas.ts:4-6 | An empty name is reported as empty although the key is present |
| UploadSchemas.SizeBoundIsInclusive | app/lib/validation/uploadSchemas.ts:15 | Exactly 10485760 bytes pass and one byte more fails |
| UploadSchemas.AllErrorsCollected | app/lib/validation/uploadSchemas.ts:3-21 | An upload wrong in all three keys gets every detail, in key order: the name missing; the type not in the list, and also empty when it is ""; the size too big, or unsafe past `Number.MAX_SAFE_INTEGER` |
| UploadSchemas.EmptyTypeReportedTwice | app/lib/validation/uploadSchemas.ts:7-13 | An empty type is the only error of an otherwise good upload and is reported twice: as outside the list and as empty |
| RouteGuard.Guard | middleware.ts:5-26 | On the login page the guard sends exactly admins home and never to the login page. On any other admin path it lets exactly admins through and sends everyone else to login. Paths outside `/admin` pass |
| RouteGuard.Handle | middleware.ts:28-30 | A path the matcher does not select is served without the guard |
| RouteGuard.MatchedPathsAreAdminRoutes | middleware.ts:7-29 | Every path the matcher selects starts with `/admin` |
| RouteGuard.ProtectedPagesNeedAdmin | middleware.ts:20-29 | On a matched page other than login, a request is served exactly when its user has the role "admin" |
| RouteGuard.RedirectsSettle | middleware.ts:13-23 | Following the guard's redirect once leads to a page that is served, so redirects never loop |
| RouteGuard.LookalikePathIsNotGuarded | middleware.ts:28-30 | `/administrator` is not matched and is served to anyone |
| ImageCleanup.BlockUrlsExact | app/api/images/cleanup/route.ts:18-22 | A url is collected from a post's blocks exactly when some image block shows it with a non-empty url |
| ImageCleanup.UsedUrlsExact | app/api/images/cleanup/route.ts:15-24 | A url is in the used set exactly when some image block of some post shows it |
| ImageCleanup.StaleOverPosts | app/api/images/cleanup/route.ts:15-36 | A draft is stale exactly when no image block of any post shows its url and it was created more than 7·24·60·60·1000 ms before now |
| ImageCleanup.Unused | app/api/images/cleanup/route.ts:32-36 | Only drafts that are unreferenced and older than a week are kept, each exactly as often as it is listed |
| ImageCleanup.UnusedSplits | app/api/images/cleanup/route.ts:32-36 | The selection distributes over concatenation, so the kept drafts stay in listing order |
| ImageCleanup.UnusedSelectsStale | app/api/images/cleanup/route.ts:32-36 | A listed draft is deleted exactly when no post shows its url and it was created strictly more than seven days before now |
| ImageCleanup.Batches | app/api/images/cleanup/route.ts:38-42 | The batches, joined, give back the drafts in order. No batch is empty or larger than the batch size, and every batch but the last is full |
| ImageCleanup.Ids | app/api/images/cleanup/route.ts:43 | The ids are the batch's public ids, one for one |
| ImageCleanup.BatchResults | app/api/images/cleanup/route.ts:45-61 | There is one result per id, in order. It succeeds exactly when the call returned and reported that id "deleted". It carries the error's message, or "Unknown error", exactly when the call failed |
| ImageCleanup.ResultsFollowBatches | app/api/images/cleanup/route.ts:41-62 | A run of batches gives one result per draft, in order, carrying that draft's id |
| ImageCleanup.ResultsMatchUnused | app/api/images/cleanup/route.ts:41-62 | Every draft to delete gets exactly one result, in listing order |
| ImageCleanup.FailedCallFailsWholeBatch | app/api/images/cleanup/route.ts:53-60 | A call that fails marks every id of its batch as failed, each with the same message |
| ImageCleanup.CountsPartition | app/api/images/cleanup/route.ts:65-66 | Every result is counted once, either as deleted or as failed |
| ImageCleanup.DeleteInBatches | app/api/images/cleanup/route.ts:38-62 | The loop, which steps by the batch size, produces exactly the results of deleting the batches one call each |
| ImageCleanup.Cleanup | app/api/images/cleanup/route.ts:11-79 | A failure while loading gives the 500 "Cleanup failed" envelope with its message or the fallback. Otherwise the reply is 200 with the tally of the batched deletions |
| ImageCleanup.Summary | app/api/images/cleanup/route.ts:64-69 | There is one detail per draft to delete, carrying that draft's id, in listing order. Deleted plus failed is the number of details, while `total` counts every listed draft |
| ImageCleanup.UsedDraftIsKept | app/api/images/cleanup/route.ts:33-36 | A draft that some post still shows is never deleted, however old it is |
| LoginForm.TestEmailPattern | app/components/auth/LoginForm.tsx:40 | The scan reports a match exactly when some stretch of non-space characters, an `@`, non-space characters, a `.` and a non-space character occurs in the email, which is what the regular expression `\S+@\S+\.\S+` finds |
| LoginForm.ValidateForm | app/components/auth/LoginForm.tsx:35-50 | The email gets "Email is required" when empty and "Email is invalid" when it does not match. The password gets "Password is required" exactly when empty. No general error is set |
| LoginForm.FormValidIff | app/components/auth/LoginForm.tsx:35-50 | The form is valid exactly when the email matches the pattern and the password is non-empty |
| LoginForm.EmailPatternExamples | app/components/auth/LoginForm.tsx:40 | "a@b.c" matches and "a@bc" does not |
| LoginForm.Change | app/components/auth/LoginForm.tsx:86-99 | Typing into a field sets its value and clears its own error and the general error. The other field and its error stay |
| LoginForm.EditingBothClearsAll | app/components/auth/LoginForm.tsx:86-99 | Editing the email and then the password leaves no error at all |
| LoginForm.Destination | app/components/auth/LoginForm.tsx:24 | The destination is the `redirect` parameter when it is given and non-empty, and `/` otherwise |
| LoginForm.ReplyError | app/components/auth/LoginForm.tsx:63-80 | A login succeeds exactly when the answer has `success`, a user and a token. A failed answer shows its message or the fallback. A thrown "Failed to login" shows the bad-credentials text, and any other throw shows the network text |
| LoginForm.Submit | app/components/auth/LoginForm.tsx:52-84 | A request is sent exactly when the form is valid. An invalid form shows its field errors and does not navigate. A sent form navigates to the destination exactly on success, and otherwise shows one general error |
| LoginForm.SubmitNeverSendsInvalidForm | app/components/auth/LoginForm.tsx:55 | Whenever a request is sent, validation of the same fields finds no error |
| PostEditor.Open | app/components/admin/PostEditor.tsx:43-56 | A new editor starts empty with no focus. Editing a post starts from its blocks and remembers its id |
| PostEditor.SetTitle | app/components/admin/PostEditor.tsx:64-103 | A title over 120 UTF-16 code units changes nothing. Otherwise the title is taken, and the slug follows the title only for a new post with a non-empty title |
| PostEditor.SetExcerpt | app/components/admin/PostEditor.tsx:105-111 | An excerpt over 300 UTF-16 code units changes nothing, and otherwise only the excerpt changes |
| PostEditor.EmojiTitleRefused | app/components/admin/PostEditor.tsx:97-103 | A title of 61 emoji, 61 characters but 122 code units, is refused and nothing changes |
| PostEditor.TypedTitleGivesServerSlug | app/components/admin/PostEditor.tsx:64-69 | The slug generated for a new post's title, when non-empty, matches the pattern the server's schema demands |
| PostEditor.NewBlock | app/components/admin/PostEditor.tsx:113-124 | A fresh block has no url, size or id. Every kind but the divider starts with empty text. Only images get empty alt text and caption, only code gets "javascript" and only embeds get "youtube" |
| PostEditor.AddBlock | app/components/admin/PostEditor.tsx:126-136 | The new block goes right after `index`, or at the end. All other blocks keep their order. The focus moves to `index + 1`, or to the old length. Nothing else changes |
| PostEditor.WithoutIndex | app/components/admin/PostEditor.tsx:147 | Exactly block `index` goes, the others keep their order, and an index out of range changes nothing |
| PostEditor.RemoveBlock | app/components/admin/PostEditor.tsx:145-153 | An empty list is left alone. Otherwise block `index` goes, and the focus moves to max(0, index - 1) only when that block was focused |
| PostEditor.RemoveUndoesAdd | app/components/admin/PostEditor.tsx:113-153 | Removing the block just added, at the position it was added, gives back the old blocks |
| PostEditor.FocusStaysOnIndexAfterEarlierRemoval | app/components/admin/PostEditor.tsx:150-152 | Removing a block before the focused one keeps the focus index, which then designates the block that used to follow |
| PostEditor.Merge | app/components/admin/PostEditor.tsx:141 | Every key the patch carries replaces the block's value, every other key keeps it, and the author is never patched |
| PostEditor.MergeLaws | app/components/admin/PostEditor.tsx:141 | Spreading an empty patch changes nothing, spreading a patch twice acts once, and two spreads act as one whose later keys win |
| PostEditor.UpdateBlock | app/components/admin/PostEditor.tsx:139-143 | Only block `index` changes, by the patch spread over it. The length and every other block and field stay |
| PostEditor.UploadPatch | app/components/admin/PostEditor.tsx:158-164 | After an upload the alt text is the file name up to its first dot, which is a dot-free prefix of the name |
| PostEditor.Drop | app/components/admin/PostEditor.tsx:189 | The tag is gone, and every other tag keeps its count |
| PostEditor.ToggleTag | app/components/admin/PostEditor.tsx:187-198 | A selected tag is removed. An unselected tag is appended while fewer than ten are selected, and otherwise nothing changes. A change clears the tag search, and at most ten tags stay selected |
| PostEditor.RemoveTag | app/components/admin/PostEditor.tsx:200-202 | The tag is gone, every other tag keeps its count, and nothing else changes |
| PostEditor.ToggleTwiceRestores | app/components/admin/PostEditor.tsx:187-198 | Toggling an unselected tag on and off again restores the selection when there was room |
| PostEditor.StepsKeepLimits | app/components/admin/PostEditor.tsx:97-202 | Every editing step keeps the title within 120 UTF-16 code units, the excerpt within 300 and the tags within ten |
| PostEditor.BlockProblem | app/components/admin/PostEditor.tsx:207-229 | A missing url is reported exactly for an image, video or embed without one. A missing language is reported for code without one, and a missing embed type for an embed with a url but no type |
| PostEditor.FirstProblem | app/components/admin/PostEditor.tsx:204-232 | The result is the first incomplete block at or after `from`, with what it lacks, and none exactly when all those blocks pass |
| PostEditor.ServerConformingBlockPassesEditor | app/components/admin/PostEditor.tsx:204-232 | A block the server's schema accepts never stops the editor's check |
| PostEditor.NewBlockProblem | app/components/admin/PostEditor.tsx:113-124 | A fresh block stops the check exactly when its kind needs a url |
| PostEditor.DefaultAltTextRejected | app/components/admin/PostEditor.tsx:119-121 | An image block that keeps the editor's empty alt text is refused by the server's schema, even with a url and an id |
| PostEditor.PayloadTag | app/components/admin/PostEditor.tsx:263 | A sent tag is the lower-cased tag cut to at most 25 UTF-16 code units. It is a prefix of that tag, the whole of it when it fits, and never empty when the tag is not |
| PostEditor.PayloadTagIsLower | app/components/admin/PostEditor.tsx:263 | A sent tag is already lower-case |
| PostEditor.PayloadTagsPassServer | app/components/admin/PostEditor.tsx:263 | Non-empty tags, as sent, pass the server's tag rule and are left as they are by its lower-casing |
| PostEditor.Payload | app/components/admin/PostEditor.tsx:257-265 | An empty cover is sent as absent, and `published` is the button pressed |
| PostEditor.PayloadBlocksRoundTrip | app/components/admin/PostEditor.tsx:261 | The server decodes exactly the editor's blocks from the body |
| PostEditor.Submit | app/components/admin/PostEditor.tsx:234-266 | A request goes out exactly when the trimmed title and slug are non-empty and every block passes. It is a PUT when editing and a POST otherwise, and carries the payload. An incomplete block stops the submit and takes the focus, and it is the first such block |
| VideoBlock.Detect | app/components/ui/block/VideoBlock.tsx:30-37 | The platform is YouTube exactly when the url contains `youtube.com` or `youtu.be`. It is TikTok exactly when it names no YouTube host and contains `tiktok.com`. Otherwise it is unknown |
| VideoBlock.SyncPatch | app/components/ui/block/VideoBlock.tsx:39-43 | A patch is emitted exactly when the block's stored platform or url differs from the detected one, and applying it stores both |
| VideoBlock.SyncSettles | app/components/ui/block/VideoBlock.tsx:39-43 | After the patch is applied the effect emits nothing more, and only the url and platform of the block have changed |
| VideoBlock.LastSlash | app/components/ui/block/VideoBlock.tsx:49 | The greedy `.+\/` ends at the last suitable slash, and there is none exactly when no slash fits |
| VideoBlock.BranchAIff | app/components/ui/block/VideoBlock.tsx:49 | The `[^\/]+\/.+\/` branch succeeds exactly when the url has that shape followed by an 11-character id |
| VideoBlock.LastQuery | app/components/ui/block/VideoBlock.tsx:49 | The greedy `.*[?&]v=` ends at the last suitable `?` or `&` |
| VideoBlock.BranchCIff | app/components/ui/block/VideoBlock.tsx:49 | The `.*[?&]v=` branch succeeds exactly when the url has that shape followed by an id |
| VideoBlock.YouTubeAt | app/components/ui/block/VideoBlock.tsx:48-50 | An attempt that succeeds captures 11 characters, none of which is `"`, `&`, `?`, `/` or white space |
| VideoBlock.YouTubeAtIff | app/components/ui/block/VideoBlock.tsx:48-50 | The attempt at a position succeeds exactly when the YouTube pattern matches there |
| VideoBlock.YouTubeFrom | app/components/ui/block/VideoBlock.tsx:48-50 | The search returns the attempt at the leftmost position where one succeeds, and none exactly when none does |
| VideoBlock.YouTubeFromFirst | app/components/ui/block/VideoBlock.tsx:48-50 | The search returns exactly the attempt at the first position where one succeeds |
| VideoBlock.YouTubeEmbed | app/components/ui/block/VideoBlock.tsx:47-51 | The address is non-empty exactly when the search finds a match, and is then the YouTube embed prefix followed by 11 id characters |
| VideoBlock.YouTubeEmbedIff | app/components/ui/block/VideoBlock.tsx:47-51 | A YouTube url gives a player address exactly when the pattern matches at some position |
| VideoBlock.YouTubePlaysFirstMatch | app/components/ui/block/VideoBlock.tsx:47-51 | The player address is the embed prefix followed by the 11 characters captured at the first position where the pattern matches |
| VideoBlock.ShortLinkAttempt | app/components/ui/block/VideoBlock.tsx:49 | At the host of `youtu.be/{id}` the attempt captures the id right after the slash |
| VideoBlock.ShortLinkGivesPlayer | app/components/ui/block/VideoBlock.tsx:47-51 | `{pre}youtu.be/{id}`, with no `y` in `pre` and a well-formed 11-character id, gives `https://www.youtube.com/embed/{id}` |
| VideoBlock.WatchLinkAttempt | app/components/ui/block/VideoBlock.tsx:49 | At the host of `youtube.com/watch?v={id}` the first branch fails, and the greedy `.*[?&]v=` stops at the only `?`, so the id after `v=` is captured |
| VideoBlock.WatchLinkGivesPlayer | app/components/ui/block/VideoBlock.tsx:47-51 | `{pre}youtube.com/watch?v={id}` gives `https://www.youtube.com/embed/{id}` |
| VideoBlock.EmbedLinkAttempt | app/components/ui/block/VideoBlock.tsx:49 | At the host of `youtube.com/embed/{id}` the first branch fails for want of a second slash, and `embed/` captures the id |
| VideoBlock.EmbedLinkGivesPlayer | app/components/ui/block/VideoBlock.tsx:47-51 | `{pre}youtube.com/embed/{id}` gives `https://www.youtube.com/embed/{id}` |
| VideoBlock.VLinkAttempt | app/components/ui/block/VideoBlock.tsx:49 | At the host of `youtube.com/v/{id}` the `v/` branch captures the id |
| VideoBlock.VLinkGivesPlayer | app/components/ui/block/VideoBlock.tsx:47-51 | `{pre}youtube.com/v/{id}` gives `https://www.youtube.com/embed/{id}` |
| VideoBlock.ELinkAttempt | app/components/ui/block/VideoBlock.tsx:49 | At the host of `youtube.com/e/{id}` neither `v/` nor `embed/` fits, and `e/` captures the id |
| VideoBlock.ELinkGivesPlayer | app/components/ui/block/VideoBlock.tsx:47-51 | `{pre}youtube.com/e/{id}` gives `https://www.youtube.com/embed/{id}` |
| VideoBlock.UserRunEnd | app/components/ui/block/VideoBlock.tsx:54 | The greedy `[\w.-]+` run ends at the first character outside the class |
| VideoBlock.DigitRunEnd | app/components/ui/block/VideoBlock.tsx:54 | The greedy `\d+` run ends at the first non-digit |
| VideoBlock.TikTokAt | app/components/ui/block/VideoBlock.tsx:53-55 | An attempt that succeeds captures a non-empty run of digits that cannot be extended |
| VideoBlock.UserVideoIff | app/components/ui/block/VideoBlock.tsx:54 | The `@name/video/` branch with the greedy name run succeeds exactly when some run of name characters is followed by `/video/` and a digit |
| VideoBlock.TikTokAtIff | app/components/ui/block/VideoBlock.tsx:53-55 | The attempt at a position succeeds exactly when the TikTok pattern matches there |
| VideoBlock.TikTokFrom | app/components/ui/block/VideoBlock.tsx:53-55 | The search returns the attempt at the leftmost position where one succeeds, and none exactly when none does |
| VideoBlock.TikTokFromFirst | app/components/ui/block/VideoBlock.tsx:53-55 | The search returns exactly the attempt at the first position where one succeeds |
| VideoBlock.TikTokEmbed | app/components/ui/block/VideoBlock.tsx:52-56 | The address is non-empty exactly when the search finds a match, and is then the TikTok embed prefix followed by one or more digits |
| VideoBlock.TikTokEmbedIff | app/components/ui/block/VideoBlock.tsx:52-56 | A TikTok url gives a player address exactly when the pattern matches at some position |
| VideoBlock.TikTokPlaysFirstMatch | app/components/ui/block/VideoBlock.tsx:52-56 | The player address is the embed prefix followed by the digits captured at the first position where the pattern matches |
| VideoBlock.UserVideoAt | app/components/ui/block/VideoBlock.tsx:54 | After `tiktok.com/@`, a name run, `/video/` and digits, the attempt captures the whole digit run |
| VideoBlock.UserVideoLinkGivesPlayer | app/components/ui/block/VideoBlock.tsx:52-56 | `{pre}tiktok.com/@{user}/video/{digits}{rest}`, with no `k` in `pre` and `rest` not starting with a digit, gives `https://www.tiktok.com/embed/v2/{digits}` |
| VideoBlock.ShortVideoLinkGivesPlayer | app/components/ui/block/VideoBlock.tsx:52-56 | `{pre}tiktok.com/v/{digits}{rest}` gives `https://www.tiktok.com/embed/v2/{digits}` |
| VideoBlock.EmbedUrl | app/components/ui/block/VideoBlock.tsx:46-59 | An unknown platform has no address, and each known platform uses its own pattern |
| VideoBlock.OpenView | app/components/ui/block/VideoBlock.tsx:23-26 | The block opens with its url or `""`, and its platform or unknown |
| VideoBlock.Change | app/components/ui/block/VideoBlock.tsx:155-158 | "Change" resets the url to `""` and the platform to unknown, so no player is shown |
| VideoBlock.TypeUrl | app/components/ui/block/VideoBlock.tsx:29-44 | Typing sets the url. The effect patches the block exactly when it is out of step, and then the view shows the detected platform. Otherwise the platform stays |
| VideoBlock.TypedWatchLinkShowsPlayer | app/components/ui/block/VideoBlock.tsx:29-56 | Typing `https://www.youtube.com/watch?v={id}` into a block that does not hold it selects YouTube, whose player plays `{id}` |
| UiUtils.EscapeChar | app/lib/uiUtils.ts:57-64 | A character maps to itself exactly when it is not one of the five special characters |
| UiUtils.EscapeHtmlAppend | app/lib/uiUtils.ts:57-64 | Escaping a concatenation gives the concatenation of the escaped parts |
| UiUtils.EscapeHtmlOne | app/lib/uiUtils.ts:57-64 | The five replacements in turn, applied to one character, give that character's entity, or the character itself |
| UiUtils.EscapeHtmlIsPerChar | app/lib/uiUtils.ts:57-64 | The five replacements in sequence equal escaping each character on its own, so no replacement rewrites an earlier entity |
| UiUtils.EscapeMapNoRaw | app/lib/uiUtils.ts:57-64 | Per-character escaping leaves no raw `<`, `>`, `"` or `'` and never shortens the text |
| UiUtils.EscapeMapEntities | app/lib/uiUtils.ts:57-64 | In per-character escaping every `&` starts one of the five entities |
| UiUtils.EscapeHtmlSafe | app/lib/uiUtils.ts:57-64 | Escaped text has no raw `<`, `>`, `"` or `'`, every `&` in it starts `&amp;`, `&lt;`, `&gt;`, `&quot;` or `&#039;`, and it is at least as long as the input |
| UiUtils.EscapeHtmlIdentityOnPlain | app/lib/uiUtils.ts:57-64 | Text without any of the five characters comes back unchanged |
| UiUtils.Rank | app/lib/uiUtils.ts:57-64 | Exactly the five special characters have an unescape stage, and that stage restores the character |
| UiUtils.UnescapeStage | app/lib/uiUtils.ts:57-64 | Each unescape stage turns exactly the tokens of its own character back into that character |
| UiUtils.UnescapeEscape | app/lib/uiUtils.ts:57-64 | Undoing the replacements in reverse order, with `&amp;` last, recovers the original text |
| UiUtils.HighlightCode | app/lib/uiUtils.ts:52-55 | The markup opens `<pre><code class="language-L">` and closes `</code></pre>`, and unescaping what lies between gives back the code |
| UiUtils.LanguageNotEscaped | app/lib/uiUtils.ts:54 | The language goes into the attribute unescaped, so a language containing `"` ends the attribute early |
| ImageBlock.PickedUpload | app/components/ui/block/ImageBlock.tsx:36-44 | The picker uploads exactly the first selected file, and only when its size is at most 5 MiB (5242880 bytes) |
| ImageBlock.DroppedUpload | app/components/ui/block/ImageBlock.tsx:77-91 | A drop uploads exactly the first dropped file, and only when its MIME type starts with `image/` and its size is at most 5 MiB |
| ImageBlock.DropIsStricterThanPicker | app/components/ui/block/ImageBlock.tsx:36-91 | A drop uploads only what the picker would upload, and the type test is the only thing the drop adds |
| ImageBlock.SizeBoundIsInclusive | app/components/ui/block/ImageBlock.tsx:31-41 | A file of exactly 5 MiB is accepted and one byte more is refused |
| ImageBlock.ClearKeepsTheBlock | app/components/ui/block/ImageBlock.tsx:99-106 | Clearing sets url, publicId, alt text and caption to `""` and the sizes to undefined. Every other field stays, and the block then has neither an image nor an asset |
| ImageBlock.Gate | app/components/ui/block/ImageBlock.tsx:93-143 | The stored asset is deleted exactly when the block has a non-empty publicId. The change then happens only when that delete succeeds. Without an asset it happens at once |
| ImageBlock.RemoveImage | app/components/ui/block/ImageBlock.tsx:93-125 | When the change happens, the block keeps its kind but has neither image nor asset. Otherwise the block is unchanged |
| ImageBlock.RemoveImageBlock | app/components/ui/block/ImageBlock.tsx:127-143 | When the change happens, block `index` is the one removed: the others stay in order, and only the blocks and focus change. Otherwise the post is unchanged |
| ImageBlock.FailedDeleteChangesNothing | app/components/ui/block/ImageBlock.tsx:108-139 | A failed delete leaves both the block and the post as they were |
| ImageBlock.ClearingTwiceDeletesOnce | app/components/ui/block/ImageBlock.tsx:93-125 | After a successful clear, pressing the button again asks for no second delete and changes nothing |
| ImageBlock.CaptionPatch | app/components/ui/block/ImageBlock.tsx:59-61 | The caption box changes only the caption |
| ImageBlock.AltTextPatch | app/components/ui/block/ImageBlock.tsx:63-65 | The alt-text box changes only the alt text |
| ImageBlock.ViewOf | app/components/ui/block/ImageBlock.tsx:34 | An upload in progress shows the uploading view. Otherwise a non-empty url shows that image, and anything else shows the drop zone |
| ImageBlock.ClearedBlockShowsDropZone | app/components/ui/block/ImageBlock.tsx:93-125 | A cleared block shows the drop zone again once no upload is running |
| ImageBlock.UploadShowsImage | app/components/ui/block/ImageBlock.tsx:46-57 | A finished upload with a non-empty url shows that image |
| RichText.OnKey | app/components/ui/RichTextEditor.tsx:33-41 | Enter without Shift adds a block below. Backspace removes the block exactly when its content is the empty string. Every other key is typing |
| RichText.FreshBlockBackspaceRemoves | app/components/ui/RichTextEditor.tsx:36-40 | Backspace removes a fresh block of any kind but the divider, which has no content |
| RichText.BackspaceKeepsText | app/components/ui/RichTextEditor.tsx:36-40 | Backspace in a block that has text never removes it |
| RichText.Wrap | app/components/ui/RichTextEditor.tsx:73-78 | Wrapped text is the opening marker, the text untouched, then the closing marker |
| RichText.Unwrap | app/components/ui/RichTextEditor.tsx:73-78 | Unwrapping succeeds only on text that wrapping the result would give back |
| RichText.UnwrapWrap | app/components/ui/RichTextEditor.tsx:73-78 | Unwrapping wrapped text gives the text back |
| RichText.Bold | app/components/ui/RichTextEditor.tsx:73 | Bold adds four characters, and unwrapping `**` gives back the content, or `""` when absent |
| RichText.Italic | app/components/ui/RichTextEditor.tsx:74 | Italic adds two characters, and unwrapping `_` gives back the content, or `""` when absent |
| RichText.Link | app/components/ui/RichTextEditor.tsx:75-78 | Link changes the content exactly when the prompt gives a non-empty url. The new content unwraps from `[` and `)` to the link text (the content, or `link` when the content is empty or absent), `](` and the url, and ends with `](url)` |
| RichText.ContentPatch | app/components/ui/RichTextEditor.tsx:73-78 | A toolbar button changes only the block's content |
| RichText.TransformsKeepText | app/components/ui/RichTextEditor.tsx:73-78 | Bold, italic and link each keep the original text inside the new content |
| RichText.Placeholder | app/components/ui/RichTextEditor.tsx:43-49 | The placeholder is "Heading" exactly for headings, "Quote" exactly for quotes, and the default text for every other kind |
| PostCard.AbsentEmailsMatch | app/components/posts/PostCard.tsx:18 | With a token, no user and an author without an email count as the author, because strict equality holds between two absent values. No signed-in user does |
| PostCard.AuthorIffSameEmail | app/components/posts/PostCard.tsx:18 | A signed-in user is the author exactly when there is a token and the emails are equal |
| PostCard.Menu | app/components/posts/PostCard.tsx:81-132 | The menu exists exactly when there is a token. The author gets Edit (to `/{slug}/edit`) and Delete, and anyone else gets View (to `/{slug}`) |
| PostCard.DeleteOnlyForAuthor | app/components/posts/PostCard.tsx:103-121 | Delete is offered only with a token and to a user whose email equals the author's |
| PostCard.MenuFollowsAuthorship | app/components/posts/PostCard.tsx:103-132 | With a token, Delete and Edit are offered together and exactly to the author, and View exactly to anyone else |
| PostCard.Chips | app/components/posts/PostCard.tsx:239-253 | There is no tag row without tags. Otherwise the row shows the first tags, at most three, and a `+N` count exactly when there are more than three |
| PostCard.ChipsAccountForAllTags | app/components/posts/PostCard.tsx:241-252 | The chips followed by the rest give back every tag, and the chip count plus N is the number of tags |
| PostCard.DisplayName | app/components/posts/PostCard.tsx:279 | A non-empty name is shown as it is. Otherwise a name is shown exactly when there is an email, and it is an `@`-free prefix of the email |
| PostCard.EmailOnlyAuthorShownByLocalPart | app/components/posts/PostCard.tsx:279 | An author with only the email `local@domain` is shown as `local` |
| PostCard.Initial | app/components/posts/PostCard.tsx:267 | The avatar letter is the name's first character upper-cased when there is a name, and is never a lower-case letter |
| PostCard.ShownInstant | app/components/posts/PostCard.tsx:282 | The date line shows the publication instant when there is one and the creation instant otherwise |
| PostCard.ToggleMenu | app/components/posts/PostCard.tsx:84-87 | The menu button flips the menu exactly when no delete is in flight. The delete and confirmation flags stay |
| PostCard.AskToDelete | app/components/posts/PostCard.tsx:43-46 | Delete in the menu opens the confirmation and closes the menu. The in-flight flag stays |
| PostCard.Cancel | app/components/posts/PostCard.tsx:48-52 | Cancel closes the confirmation unless a delete is in flight. The menu and the in-flight flag stay |
| PostCard.ConfirmDelete | app/components/posts/PostCard.tsx:54-75 | Afterwards the card is fully closed. The post's id is reported exactly when the server answered with success and a listener is present |
| PostCard.DeleteReachesFeed | app/components/posts/PostCard.tsx:59-62 | A confirmed deletion removes the post from the feed, and any other outcome leaves the feed as it was |
| PostCard.InFlightDeleteIsLocked | app/components/posts/PostCard.tsx:48-87 | While the delete is in flight neither cancel nor the menu button changes the card |
| Feed.TagFor | app/components/posts/InfinitePostList.tsx:38 | The category `all` asks for no tag. Any other category is sent as the tag itself |
| Feed.QueryOf | app/lib/api/api.ts:37-51 | A feed request carries its page and a page size of 12. It carries a search exactly when the search is non-empty and a tag exactly when the category is neither `all` nor empty. It never carries a slug or a featured filter |
| Feed.ServerHonoursRequest | app/api/posts/route.ts:27-28 | For any page of 1 or more, the listing reads back exactly the page and the page size of 12 that the feed asked for, and no slug |
| Feed.FilterIgnoresPage | app/api/posts/route.ts:67-85 | Which posts the listing selects does not depend on the page requested |
| Feed.ListingServesPage | app/api/posts/route.ts:22-107 | A feed request whose search compiles is answered successfully, with that page of the search's newest-first selection |
| Feed.OutcomeOf | app/components/posts/InfinitePostList.tsx:39-41 | A reply with a success body is read as its page. Any other reply is an error envelope carrying the server's message |
| Feed.BadSearchCrashesFeed | app/components/posts/InfinitePostList.tsx:41-58 | A search the listing cannot compile comes back as an error envelope, so the feed crashes with the list as it was and the `TypeError`'s message shown |
| Feed.ServedPageLoads | app/components/posts/InfinitePostList.tsx:39-50 | A reply to a request whose search compiles loads that page of the selection, with no error and no crash |
| Feed.Finish | app/components/posts/InfinitePostList.tsx:32-61 | When a request ends, loading and searching are off and page, query and category are untouched. A reply to page 1 replaces the list and a later page's reply appends to it, and more is offered exactly while the reply's page is below its total. An error envelope crashes the feed, and the error shown is the `TypeError` raised by reading its missing `data`, not the server's message. A thrown fetch keeps the list and hasMore and shows the thrown message, or `Failed to fetch posts`. The feed is crashed exactly when it was already or the reply was an error envelope |
| Feed.AfterPagesAccumulate | app/components/posts/InfinitePostList.tsx:45-50 | Receiving pages `1..n` in order leaves the list holding those pages, one after another |
| Feed.FeedShowsPrefix | app/components/posts/InfinitePostList.tsx:45-50 | Loading pages `1..n` shows exactly the first `min(12n, total)` posts of the selection, with no gap and no repeat. More is offered exactly while `n` is below the page count |
| Feed.FeedEndsWithEverything | app/components/posts/InfinitePostList.tsx:45-50 | Once every page has arrived, the feed holds the whole selection and offers no more |
| Feed.MountLoadsFirstPage | app/components/posts/InfinitePostList.tsx:19-66 | On mount the feed asks for page 1 with no search and no tag. Once it arrives the feed shows the newest twelve published posts, offers more exactly when there are more than twelve, and shows no error |
| Feed.Effects | app/components/posts/InfinitePostList.tsx:64-96 | A state change triggers at most two fetches, all for the current query and category. A page-1 fetch comes first exactly when the query or the category changed. Any other fetch is for the current page, only past page 1 and only when no search is in flight |
| Feed.Scroll | app/components/posts/InfinitePostList.tsx:72-74 | Seeing the loader advances the page by one exactly when more posts exist and nothing is loading or being searched. Otherwise nothing changes, and nothing but the page ever changes |
| Feed.ScrollFetchesNextPage | app/components/posts/InfinitePostList.tsx:72-96 | A page advanced by scrolling causes exactly one fetch: the next page, with the current search and category |
| Feed.ScrollStopsAtTheEnd | app/components/posts/InfinitePostList.tsx:72-96 | When there is nothing more to load, seeing the loader changes nothing and fetches nothing |
| Feed.SearchChange | app/components/posts/InfinitePostList.tsx:138-142 | Typing sets the query, turns searching on and returns to page 1. The category, the list, its flags and the error stay |
| Feed.CategoryChange | app/components/posts/InfinitePostList.tsx:144-147 | Picking a category sets it and returns to page 1. The query, the searching flag, the list, its flags and the error stay |
| Feed.ClearSearch | app/components/posts/InfinitePostList.tsx:149-156 | Clearing empties the query, turns searching on and returns to page 1. The category, the list, its flags and the error stay |
| Feed.ResetsFetchOnlyPageOne | app/components/posts/InfinitePostList.tsx:138-156 | A new search, a new category and the clear button each start over with exactly one fetch: page 1 of the new list |
| Feed.BackButtonAsWritten | app/components/posts/InfinitePostList.tsx:132-136 | The mobile back button empties the query but leaves the page and the searching flag as they were |
| Feed.BackButtonSkipsAPage | app/components/posts/InfinitePostList.tsx:132-136 | After a search has scrolled to page 3, back asks for pages 1 and 3 of the unfiltered list at once. If page 1 answers first, the feed shows pages 1 and 3 and none of page 2 |
| Feed.BackButton | app/components/posts/InfinitePostList.tsx:149-152 | The corrected back button empties the query and returns to page 1, as the clear button does |
| Feed.BackButtonStartsOver | app/components/posts/InfinitePostList.tsx:132-152 | The corrected back button fetches only page 1 of the unfiltered list. Loading onwards from there shows a gap-free prefix |
| Feed.RemovePost | app/components/posts/InfinitePostList.tsx:157-159 | Deleting never lengthens the list, and no post with the deleted id remains |
| Feed.RemovePostCounts | app/components/posts/InfinitePostList.tsx:157-159 | Every post with another id stays exactly as many times as it was there |
| Feed.RemovePostKeepsOthers | app/components/posts/InfinitePostList.tsx:157-159 | A post remains after a delete exactly when it was there and has another id |
| Feed.RemovePostKeepsExactly | app/components/posts/InfinitePostList.tsx:157-159 | For every post at once: it remains exactly when it was there and has another id |
| Feed.RemovePostSplits | app/components/posts/InfinitePostList.tsx:157-159 | Filtering works piece by piece, so the posts that stay keep their order |
| Feed.RemoveAbsentPost | app/components/posts/InfinitePostList.tsx:157-159 | Deleting a post the feed does not show leaves the list unchanged |
| Feed.PostDeleted | app/components/posts/InfinitePostList.tsx:157-159 | Deleting changes only the list, which keeps exactly the posts with another id |

## Left out

- Persistence and cloud I/O are not performed. MongoDB, Cloudinary and every `fetch` become inputs: the stored posts, the image inventory, a delete outcome per batch, and a reply per request. The upload route `app/api/images/upload/route.ts` is not part of this model. Only its folder naming is used, to state the rename finding.
- JWT signing and verification, cookies, the auth, logout, me and dbhealth routes, and `app/lib/auth.ts` are not modelled. The caller is an explicit optional user with an email and a role.
- Joi's `uri()` and `email()` are library code not visible here. URI validity is the parameter `isUri`. The message templates of `app/lib/customJoi.ts` are not reproduced: a detail is its path and its kind, and the message renderer is a parameter of `Utils.FormatValidationError`. `app/lib/validation/authSchemas.ts` is not modelled.
- JSON values of the wrong type, such as a number where a string is expected, are not modelled. Every field has its declared type.
- PostsListing.MatchesSearch: the search is used as a case-insensitive regular expression. It is modelled as case-insensitive substring matching, so patterns with regex metacharacters differ. Whether a pattern compiles at all is the parameter `compiles` of `ListPosts`, which answers 500 when it does not.
- PostsListing.ListPosts: a failing database connection or query also ends in the 500 envelope. The stored posts are a parameter, so that failure is not modelled.
- PostsListing.ClampPage: `parseInt` returning NaN for a non-numeric page or limit is not modelled. A page or limit is absent or an integer.
- PostsListing.ListPosts: the `featured` filter names a field the post schema does not define. Whether Mongoose drops or keeps that condition is the parameter `strictQuery`.
- PostsListing.SortNewestFirst: posts with equal sort keys keep their stored order. The database leaves that order unspecified.
- Text.Lower: `toLowerCase` is modelled for ASCII letters only. The same applies to `PostCard.Initial`, where `toUpperCase` is ASCII-only too. Full Unicode case mapping is not modelled.
- Text.JsTake: JavaScript's `substring` can cut between the two halves of a surrogate pair and keep the lone high half. A Dafny `char` cannot hold a lone surrogate, so the model stops before that character, one code unit short. Strings that hold lone surrogates are not modelled.
- Regular expressions (the slug pattern, the email test, the video id patterns) are matched character by character. JavaScript's patterns without the `u` flag step through UTF-16 code units, so the eleven-character YouTube id of `VideoBlock.YouTubeAt` differs from JavaScript's on ids holding a character outside the Basic Multilingual Plane.
- PostCard.Initial: `charAt(0)` takes the first UTF-16 code unit, which is half a surrogate pair for a name that starts with an emoji. The model takes the first character.
- PostSchemas.CheckPositive: numbers are integers, so a fractional width or height, which `number()` accepts, cannot be expressed. The same holds for the size of `UploadSchemas.CheckSize`. NaN and the infinities cannot arrive in JSON.
- PostsCreation.Store: the failing paths appear in the validation message in schema order, each with the text of the `describe` parameter. The order in which Mongoose lists them and its message templates are library internals.
- PostEditor.UpdateBlock: it requires an index inside the list. Every caller passes the index of a rendered block.
- PostEditor.Submit: the request ends with the payload. The handling of the save response is not modelled: the toasts, the redirect, and `data.details[0]` throwing when an error reply has no details.
- Feed.Finish: after an error envelope the feed is marked crashed. What React then shows, the nearest error boundary or the framework's error page, is not modelled. The `TypeError`'s text depends on the JavaScript engine, so it is a parameter of the outcome.
- Feed: the order in which overlapping fetch replies arrive is not modelled in general. Only the orders that lemmas name are modelled. The responsive expansion and collapse of the search box and the auth-loading view are presentation.
- ImageCleanup.Cleanup: the listing call's cap of 500 drafts is part of the inventory input, not a limit the model enforces.
- The client login API trims the email and password before sending them. Those lines belong to `app/lib/api/api.ts` and are not part of this model.
- The `uploadImage` and `deleteImage` helpers and `formatDate` in `app/lib/uiUtils.ts` are network calls and locale formatting.
- ImageBlock: the hover and drag-highlight flags and the toasts are presentation. The file pick and drop, the size guard, the upload outcome, the removal and the fields that change are modelled.
- RichText: focus handling, textarea auto-resize and the optional `onAddBelow` callback are browser behaviour. The contentEditable editing in `TextBlock.tsx` and the toolbar positioning in `FloatingToolbar.tsx` are not part of this model.
- PostCard: closing the menu on an outside click, the image-loaded flag and the locale date formatting are presentation.
- The following are pure presentation and not part of this model:
  - navigation, footer, skeleton, empty and error states;
  - category filter bars, the divider and add-block buttons, the code and cover-image blocks;
  - the layout and the login page.
- `app/types/image.ts`, `app/types/user.ts` and `refactor_notes.ts` carry no logic of the core.
- Concurrency and timing are not modelled: debounce, `setTimeout`, IntersectionObserver thresholds, and loading flags that interleave. Each handler is one sequential step.

## Findings

| source | as written | input that shows it | evidently intended | confidence | as-written member | corrected member |
|---|---|---|---|---|---|---|
| app/api/posts/route.ts:172-173 | The malformed-body guard tests `'success' in parseResult`. The parse helper returns a response object, which has no such property, so the guard never fires | A POST with `Content-Type: application/json` and the body `{` | Answer 400 "Malformed JSON received" before the admin and schema checks | medium, not executed | PostsCreation.MalformedBodyAsWritten | PostsCreation.CreateChecksInOrder |
| app/api/posts/route.ts:135-139 | The draft's public id is taken from the url after `/drafts/`, so it already starts with the uploader's folder (app/api/images/upload/route.ts:65-66). The rename then prefixes `drafts/{userId}/` a second time | An image block whose url holds `/drafts/u1/pic.png`: the route renames `drafts/u1/u1/pic`, which does not exist | Rename `drafts/u1/pic` and point the block at the published asset | medium, not executed | PostsCreation.AsWrittenRenameMissesTheAsset | PostsCreation.RenameSourceMatchesUrl |
| app/components/posts/InfinitePostList.tsx:132-136 | The mobile back button clears the query but does not reset the page or set the searching flag, so both fetch effects fire | Scroll a search to page 3, then press back: pages 1 and 3 of the unfiltered list are requested, and if page 1 answers first, page 2 is never shown | Reset as the clear button does: query empty, searching on, page 1 | medium, not executed | Feed.BackButtonSkipsAPage | Feed.BackButtonStartsOver |

=== FILE: cleanup.dfy ===
/**
 * The draft-image sweep: every uploaded draft that no post refers to and
 * that is older than a week is deleted from the image host, in batches of
 * one hundred, and the outcome of each deletion is reported.
 */
module ImageCleanup {
  import opened Wrappers
  import opened Arith
  import opened PostTypes
  import opened Utils

  /** One listed upload: its host id, its public URL and its creation time in milliseconds. */
  datatype Resource = Resource(publicId: string, secureUrl: string, createdAt: int)

  /** One entry of `details`; `error` is set only for a batch whose call failed. */
  datatype DeleteResult = DeleteResult(publicId: string, success: bool, error: Option<string>)

  datatype CleanupSummary = CleanupSummary(deleted: nat, failed: nat, total: nat, details: seq<DeleteResult>)

  /**
   * What one `delete_resources` call gives back: the status the host reports
   * for each id, or the failure it raised (`None` when what was raised is not
   * an `Error` and so has no message).
   */
  type BatchOutcome = Result<map<string, string>, Option<string>>

  /** The posts and the listed drafts the sweep works on. */
  datatype Inventory = Inventory(posts: seq<Post>, resources: seq<Resource>)

  const BatchSize: nat := 100
  const WeekMs: int := 7 * 24 * 60 * 60 * 1000

  // ---- which drafts are still in use -----------------------------------------------

  /** `block` is an image block that shows `u`; an empty url shows nothing. */
  predicate ShowsImage(block: Block, u: string) {
    block.kind == Image && block.url == Some(u) && u != ""
  }

  function BlockUrls(blocks: seq<Block>): set<string> {
    if blocks == [] then {}
    else
      (if blocks[0].kind == Image && blocks[0].url.Some? && blocks[0].url.value != ""
       then {blocks[0].url.value} else {})
      + BlockUrls(blocks[1..])
  }

  /** The url set built from every post's image blocks. */
  function UsedUrls(posts: seq<Post>): set<string> {
    if posts == [] then {} else BlockUrls(posts[0].content) + UsedUrls(posts[1..])
  }

  lemma {:induction false} BlockUrlsExact(blocks: seq<Block>, u: string)
    ensures u in BlockUrls(blocks) <==> exists j :: 0 <= j < |blocks| && ShowsImage(blocks[j], u)
  {
    if blocks != [] {
      BlockUrlsExact(blocks[1..], u);
      if exists j :: 0 <= j < |blocks[1..]| && ShowsImage(blocks[1..][j], u) {
        var j :| 0 <= j < |blocks[1..]| && ShowsImage(blocks[1..][j], u);
        assert ShowsImage(blocks[j + 1], u);
      }
      if exists j :: 0 <= j < |blocks| && ShowsImage(blocks[j], u) {
        var j :| 0 <= j < |blocks| && ShowsImage(blocks[j], u);
        if j > 0 {
          assert ShowsImage(blocks[1..][j - 1], u);
        }
      }
    }
  }

  /** A url is in use exactly when some image block of some post shows it. */
  lemma {:induction false} UsedUrlsExact(posts: seq<Post>, u: string)
    ensures u in UsedUrls(posts) <==>
      exists i, j :: 0 <= i < |posts| && 0 <= j < |posts[i].content| && ShowsImage(posts[i].content[j], u)
  {
    if posts != [] {
      UsedUrlsExact(posts[1..], u);
      BlockUrlsExact(posts[0].content, u);
      var rest := posts[1..];
      if exists i, j :: 0 <= i < |rest| && 0 <= j < |rest[i].content| && ShowsImage(rest[i].content[j], u) {
        var i, j :| 0 <= i < |rest| && 0 <= j < |rest[i].content| && ShowsImage(rest[i].content[j], u);
        assert ShowsImage(posts[i + 1].content[j], u);
      }
      if exists i, j :: 0 <= i < |posts| && 0 <= j < |posts[i].content| && ShowsImage(posts[i].content[j], u) {
        var i, j :| 0 <= i < |posts| && 0 <= j < |posts[i].content| && ShowsImage(posts[i].content[j], u);
        if i > 0 {
          assert ShowsImage(rest[i - 1].content[j], u);
        }
      }
    }
  }

  // ---- which drafts go ---------------------------------------------------------------

  /** Unreferenced and created strictly more than a week before `now`. */
  predicate Stale(r: Resource, used: set<string>, now: int): (b: bool)
    ensures b <==> r.secureUrl !in used && now - r.createdAt > 7 * 24 * 60 * 60 * 1000
  {
    r.secureUrl !in used && r.createdAt < now - WeekMs
  }

  /** The drafts to delete, in listing order, each as often as it is listed. */
  function Unused(resources: seq<Resource>, used: set<string>, now: int): (r: seq<Resource>)
    ensures |r| <= |resources|
    ensures forall x :: x in r ==> Stale(x, used, now)
    ensures forall x {:trigger multiset(r)[x]} :: multiset(r)[x] == if Stale(x, used, now) then multiset(resources)[x] else 0
  {
    if resources == [] then []
    else
      assert resources == [resources[0]] + resources[1..];
      (if Stale(resources[0], used, now) then [resources[0]] else []) + Unused(resources[1..], used, now)
  }

  /** A listed draft is selected exactly when it is stale; a draft exactly a week old stays. */
  lemma UnusedSelectsStale(resources: seq<Resource>, used: set<string>, now: int, x: Resource)
    requires x in resources
    ensures x in Unused(resources, used, now) <==> x.secureUrl !in used && x.createdAt < now - WeekMs
  {
    assert multiset(resources)[x] > 0;
    if Stale(x, used, now) {
      assert multiset(Unused(resources, used, now))[x] > 0;
    }
  }

  /** A non-empty listing: its first draft is kept exactly when it is stale, ahead of the rest's selection. */
  lemma UnusedUnfold(xs: seq<Resource>, used: set<string>, now: int)
    requires xs != []
    ensures Unused(xs, used, now) == (if Stale(xs[0], used, now) then [xs[0]] else []) + Unused(xs[1..], used, now)
  {
  }

  /** The selection of a concatenation with a non-empty front: the front's first draft decides first. */
  lemma UnusedUnfoldConcat(xs: seq<Resource>, ys: seq<Resource>, used: set<string>, now: int)
    requires xs != []
    ensures Unused(xs + ys, used, now) == (if Stale(xs[0], used, now) then [xs[0]] else []) + Unused(xs[1..] + ys, used, now)
  {
    assert (xs + ys)[0] == xs[0];
    assert (xs + ys)[1..] == xs[1..] + ys;
    UnusedUnfold(xs + ys, used, now);
  }

  /** The selection keeps listing order: it distributes over concatenation. */
  lemma {:induction false} UnusedSplits(xs: seq<Resource>, ys: seq<Resource>, used: set<string>, now: int)
    ensures Unused(xs + ys, used, now) == Unused(xs, used, now) + Unused(ys, used, now)
  {
    if xs == [] {
      assert xs + ys == ys;
    } else {
      var head := if Stale(xs[0], used, now) then [xs[0]] else [];
      UnusedUnfoldConcat(xs, ys, used, now);
      UnusedSplits(xs[1..], ys, used, now);
      UnusedUnfold(xs, used, now);
      assert head + (Unused(xs[1..], used, now) + Unused(ys, used, now))
          == (head + Unused(xs[1..], used, now)) + Unused(ys, used, now);
    }
  }

  /** Stale over the posts themselves: no image block of any post shows the url, and it is over a week old. */
  lemma StaleOverPosts(posts: seq<Post>, r: Resource, now: int)
    ensures Stale(r, UsedUrls(posts), now) <==>
      (forall i, j :: 0 <= i < |posts| && 0 <= j < |posts[i].content| ==> !ShowsImage(posts[i].content[j], r.secureUrl))
      && r.createdAt < now - WeekMs
  {
    UsedUrlsExact(posts, r.secureUrl);
  }

  // ---- batching ----------------------------------------------------------------------

  function Concat<T>(parts: seq<seq<T>>): seq<T> {
    if parts == [] then [] else parts[0] + Concat(parts[1..])
  }

  /** Consecutive slices of `size`, the last one possibly shorter. */
  function Batches<T>(xs: seq<T>, size: nat): (bs: seq<seq<T>>)
    requires size > 0
    ensures Concat(bs) == xs
    ensures forall k :: 0 <= k < |bs| ==> 0 < |bs[k]| <= size
    ensures forall k :: 0 <= k < |bs| - 1 ==> |bs[k]| == size
    decreases |xs|
  {
    if xs == [] then []
    else
      var m := Min(size, |xs|);
      assert xs == xs[..m] + xs[m..];
      [xs[..m]] + Batches(xs[m..], size)
  }

  // ---- deleting ----------------------------------------------------------------------

  function Ids(batch: seq<Resource>): (ids: seq<string>)
    ensures |ids| == |batch|
    ensures forall k :: 0 <= k < |batch| ==> ids[k] == batch[k].publicId
  {
    if batch == [] then [] else [batch[0].publicId] + Ids(batch[1..])
  }

  /** The message recorded for a failed call: the error's own, or a fixed fallback. */
  function FailureText(raised: Option<string>): string {
    raised.GetOr("Unknown error")
  }

  /** One result per id of the batch, in order, from the call's outcome. */
  function BatchResults(ids: seq<string>, outcome: BatchOutcome): (rs: seq<DeleteResult>)
    ensures |rs| == |ids|
    ensures forall k :: 0 <= k < |ids| ==> rs[k].publicId == ids[k]
    ensures forall k :: 0 <= k < |ids| ==>
      (rs[k].success <==> outcome.Ok? && ids[k] in outcome.value && outcome.value[ids[k]] == "deleted")
    ensures forall k :: 0 <= k < |ids| ==>
      rs[k].error == (if outcome.Err? then Some(FailureText(outcome.error)) else None)
  {
    if ids == [] then []
    else
      var id := ids[0];
      var head := match outcome
        case Ok(statuses) => DeleteResult(id, id in statuses && statuses[id] == "deleted", None)
        case Err(raised) => DeleteResult(id, false, Some(FailureText(raised)));
      [head] + BatchResults(ids[1..], outcome)
  }

  /** The results of a run of batches, one call per batch. */
  function ResultsOfBatches(bs: seq<seq<Resource>>, delete: seq<string> -> BatchOutcome): seq<DeleteResult> {
    if bs == [] then [] else BatchResults(Ids(bs[0]), delete(Ids(bs[0]))) + ResultsOfBatches(bs[1..], delete)
  }

  /** The whole result list for the drafts to delete. */
  function Results(unused: seq<Resource>, delete: seq<string> -> BatchOutcome): seq<DeleteResult> {
    ResultsOfBatches(Batches(unused, BatchSize), delete)
  }

  /** Every resource of the batches gets exactly one result, in order, carrying its id. */
  lemma {:induction false} ResultsFollowBatches(bs: seq<seq<Resource>>, delete: seq<string> -> BatchOutcome)
    ensures |ResultsOfBatches(bs, delete)| == |Concat(bs)|
    ensures forall k :: 0 <= k < |Concat(bs)| ==> ResultsOfBatches(bs, delete)[k].publicId == Concat(bs)[k].publicId
  {
    if bs != [] {
      ResultsFollowBatches(bs[1..], delete);
      var ids := Ids(bs[0]);
      var head: seq<DeleteResult> := BatchResults(ids, delete(ids));
      var tail: seq<DeleteResult> := ResultsOfBatches(bs[1..], delete);
      var rest: seq<Resource> := Concat(bs[1..]);
      assert ResultsOfBatches(bs, delete) == head + tail;
      assert Concat(bs) == bs[0] + rest;
      forall k | 0 <= k < |bs[0]| + |rest|
        ensures (head + tail)[k].publicId == (bs[0] + rest)[k].publicId
      {
        if k < |bs[0]| {
          assert head[k].publicId == ids[k] == bs[0][k].publicId;
        } else {
          assert (head + tail)[k] == tail[k - |bs[0]|];
          assert (bs[0] + rest)[k] == rest[k - |bs[0]|];
        }
      }
    }
  }

  /** Each unused draft gets exactly one result, in listing order. */
  lemma ResultsMatchUnused(unused: seq<Resource>, delete: seq<string> -> BatchOutcome)
    ensures |Results(unused, delete)| == |unused|
    ensures forall k :: 0 <= k < |unused| ==> Results(unused, delete)[k].publicId == unused[k].publicId
  {
    ResultsFollowBatches(Batches(unused, BatchSize), delete);
  }

  /** A call that fails marks every id of its batch failed, with the same message. */
  lemma FailedCallFailsWholeBatch(ids: seq<string>, raised: Option<string>)
    ensures forall r :: r in BatchResults(ids, Err(raised)) ==> !r.success && r.error == Some(FailureText(raised))
  {
    var rs := BatchResults(ids, Err(raised));
    forall r | r in rs
      ensures !r.success && r.error == Some(FailureText(raised))
    {
      var k :| 0 <= k < |rs| && rs[k] == r;
    }
  }

  // ---- tally -------------------------------------------------------------------------

  function CountSucceeded(rs: seq<DeleteResult>): nat {
    if rs == [] then 0 else (if rs[0].success then 1 else 0) + CountSucceeded(rs[1..])
  }

  function CountFailed(rs: seq<DeleteResult>): nat {
    if rs == [] then 0 else (if rs[0].success then 0 else 1) + CountFailed(rs[1..])
  }

  /** Every result is counted once, as deleted or as failed. */
  lemma {:induction false} CountsPartition(rs: seq<DeleteResult>)
    ensures CountSucceeded(rs) + CountFailed(rs) == |rs|
  {
    if rs != [] {
      CountsPartition(rs[1..]);
    }
  }

  /** The batches from `i` on are the slice at `i` followed by the batches after it. */
  lemma NextBatch(unused: seq<Resource>, i: nat, delete: seq<string> -> BatchOutcome)
    requires i < |unused|
    ensures var batch := unused[i..Min(i + BatchSize, |unused|)];
      ResultsOfBatches(Batches(unused[i..], BatchSize), delete)
      == BatchResults(Ids(batch), delete(Ids(batch)))
         + ResultsOfBatches(Batches(unused[Min(i + BatchSize, |unused|)..], BatchSize), delete)
  {
    var rest := unused[i..];
    var m := Min(BatchSize, |rest|);
    assert unused[i..Min(i + BatchSize, |unused|)] == rest[..m];
    assert unused[Min(i + BatchSize, |unused|)..] == rest[m..];
    assert Batches(rest, BatchSize) == [rest[..m]] + Batches(rest[m..], BatchSize);
  }

  /** The results still owed after position `i`. */
  function Owed(unused: seq<Resource>, i: nat, delete: seq<string> -> BatchOutcome): seq<DeleteResult> {
    ResultsOfBatches(Batches(unused[Min(i, |unused|)..], BatchSize), delete)
  }

  /** Handling the slice at `i` moves its results from owed to done. */
  lemma LoopStep(unused: seq<Resource>, i: nat, done: seq<DeleteResult>, delete: seq<string> -> BatchOutcome)
    requires i < |unused|
    ensures var ids := Ids(unused[i..Min(i + BatchSize, |unused|)]);
      done + Owed(unused, i, delete) == (done + BatchResults(ids, delete(ids))) + Owed(unused, i + BatchSize, delete)
  {
    NextBatch(unused, i, delete);
    var ids := Ids(unused[i..Min(i + BatchSize, |unused|)]);
    var head := BatchResults(ids, delete(ids));
    assert Min(i, |unused|) == i;
    assert Owed(unused, i, delete) == head + Owed(unused, i + BatchSize, delete);
  }

  /**
   * The loop of the handler: walk the drafts a hundred at a time, one call
   * per slice, appending one result per id whatever the call does.
   */
  method DeleteInBatches(unused: seq<Resource>, delete: seq<string> -> BatchOutcome)
    returns (results: seq<DeleteResult>)
    ensures results == Results(unused, delete)
  {
    results := [];
    var i := 0;
    while i < |unused|
      invariant results + Owed(unused, i, delete) == Results(unused, delete)
      decreases |unused| - i
    {
      var batch := unused[i..Min(i + BatchSize, |unused|)];
      var ids := Ids(batch);
      var outcome := delete(ids);
      LoopStep(unused, i, results, delete);
      results := results + BatchResults(ids, outcome);
      i := i + BatchSize;
    }
    assert unused[Min(i, |unused|)..] == [];
    assert Owed(unused, i, delete) == [];
  }

  // ---- the handler -------------------------------------------------------------------

  /**
   * The successful reply for a loaded inventory and a given deleter: one
   * result per stale draft, in listing order, each counted once as deleted
   * or failed, out of every listed draft.
   */
  function Summary(inv: Inventory, now: int, delete: seq<string> -> BatchOutcome): (r: CleanupSummary)
    ensures r.total == |inv.resources|
    ensures r.deleted + r.failed == |r.details|
    ensures var unused := Unused(inv.resources, UsedUrls(inv.posts), now);
      && |r.details| == |unused|
      && forall k :: 0 <= k < |unused| ==> r.details[k].publicId == unused[k].publicId
  {
    var unused := Unused(inv.resources, UsedUrls(inv.posts), now);
    ResultsMatchUnused(unused, delete);
    CountsPartition(Results(unused, delete));
    var rs := Results(Unused(inv.resources, UsedUrls(inv.posts), now), delete);
    CleanupSummary(CountSucceeded(rs), CountFailed(rs), |inv.resources|, rs)
  }

  /**
   * The sweep: a failure while loading posts or listing drafts (`loaded`
   * holds the message of whatever was raised, `None` when it has none) is a
   * 500; otherwise the unused drafts are deleted batch by batch (a failing batch
   * does not stop the others) and the tally is returned.
   */
  method Cleanup(loaded: Result<Inventory, Option<string>>, now: int, delete: seq<string> -> BatchOutcome)
    returns (reply: Reply<CleanupSummary>)
    ensures loaded.Err? ==>
      reply == ErrorReply("Cleanup failed", loaded.error.GetOr("An unknown error occurred"), 500, NoDetails)
    ensures loaded.Ok? ==> reply == OkReply(Summary(loaded.value, now, delete))
  {
    if loaded.Err? {
      return ErrorReply("Cleanup failed", loaded.error.GetOr("An unknown error occurred"), 500, NoDetails);
    }
    var inv := loaded.value;
    var results := DeleteInBatches(Unused(inv.resources, UsedUrls(inv.posts), now), delete);
    var summary := CleanupSummary(CountSucceeded(results), CountFailed(results), |inv.resources|, results);
    return OkReply(summary);
  }

  /** A draft still shown by some post is never in the details, however old it is. */
  lemma UsedDraftIsKept(inv: Inventory, now: int, delete: seq<string> -> BatchOutcome, x: Resource, i: nat, j: nat)
    requires i < |inv.posts| && j < |inv.posts[i].content|
    requires ShowsImage(inv.posts[i].content[j], x.secureUrl)
    ensures x !in Unused(inv.resources, UsedUrls(inv.posts), now)
  {
    UsedUrlsExact(inv.posts, x.secureUrl);
  }
}

=== FILE: feed.dfy ===
/**
 * The public feed's client state: which page requests the two fetch
 * effects issue, how a reply replaces or extends the list, when scrolling
 * asks for the next page, how a search, a category or the clear button
 * start over, how a deleted post leaves the list, and how an error
 * envelope breaks the feed.
 *
 * React's effects are modelled by `Effects`, the fetches that follow one
 * state change: the first effect runs when the query or the category
 * changes, the second when the page, the query, the searching flag or the
 * category changes and then only for a page past the first.
 */
module Feed {
  import opened Wrappers
  import opened Arith
  import opened PostTypes
  import opened Utils
  import opened PostsListing

  const PageSize := 12
  const AllCategory := "all"
  const FetchFailed := "Failed to fetch posts"

  datatype FeedState = FeedState(
    posts: seq<Post>,
    page: int,
    hasMore: bool,
    loading: bool,
    error: Option<string>,
    query: string,
    searching: bool,
    category: string,
    crashed: bool)

  /** The state on mount: no posts, page 1, loading, everything shown. */
  const Initial := FeedState([], 1, true, true, None, "", false, AllCategory, false)

  /** One `fetchPostsData(page, search, category)` call. */
  datatype Fetch = Fetch(page: int, search: string, category: string)

  // ---- the request -------------------------------------------------------------------

  /** The tag a category stands for: none for `all`, the category itself otherwise. */
  function TagFor(category: string): (tag: Option<string>)
    ensures tag.None? <==> category == AllCategory
    ensures tag.Some? ==> tag.value == category
  {
    if category != AllCategory then Some(category) else None
  }

  /** The query string `fetchPosts` builds: page, limit 12, and search and tag only when non-empty. */
  function QueryOf(f: Fetch): (q: ListQuery)
    ensures q.page == Some(f.page) && q.limit == Some(PageSize)
    ensures q.tag.Some? <==> f.category != AllCategory && f.category != ""
    ensures q.search.Some? <==> f.search != ""
    ensures q.slug.None? && q.featured.None?
  {
    var tag := TagFor(f.category);
    ListQuery(Some(f.page), Some(PageSize),
              if tag.Some? && tag.value != "" then tag else None,
              None, None,
              if f.search != "" then Some(f.search) else None)
  }

  /** The server reads back the page and the page size the feed asks for. */
  lemma ServerHonoursRequest(f: Fetch)
    requires f.page >= 1
    ensures ClampPage(QueryOf(f).page) == f.page
    ensures ClampLimit(QueryOf(f).limit) == PageSize
    ensures !Given(QueryOf(f).slug)
  {
  }

  /** The selection does not depend on which page is asked for. */
  lemma {:induction false} FilterIgnoresPage(posts: seq<Post>, q: ListQuery, page: Option<int>, strictQuery: bool)
    ensures FilterPosts(posts, q.(page := page), strictQuery) == FilterPosts(posts, q, strictQuery)
  {
    if posts != [] {
      FilterIgnoresPage(posts[1..], q, page, strictQuery);
    }
  }

  /** The posts the listing selects for a search and category, newest first, whatever the page. */
  function Selection(posts: seq<Post>, search: string, category: string, strictQuery: bool): seq<Post> {
    SortNewestFirst(FilterPosts(posts, QueryOf(Fetch(1, search, category)), strictQuery))
  }

  /** Page `k` of a selection `s` as the listing answers it. */
  function ServerPage(s: seq<Post>, k: int): PaginatedPosts
    requires k >= 1
  {
    PaginatedPosts(PageOf(s, k, PageSize), Pagination(k, PageSize, |s|, CeilDiv(|s|, PageSize)))
  }

  /**
   * What the listing answers to a feed request whose search compiles is
   * page `f.page` of that search's selection.
   */
  lemma ListingServesPage(posts: seq<Post>, f: Fetch, strictQuery: bool, compiles: string -> bool)
    requires f.page >= 1 && SearchCompiles(QueryOf(f), compiles)
    ensures ListPosts(posts, QueryOf(f), strictQuery, compiles).body.Success?
    ensures ListPosts(posts, QueryOf(f), strictQuery, compiles).body.data
         == ServerPage(Selection(posts, f.search, f.category, strictQuery), f.page)
  {
    FilterIgnoresPage(posts, QueryOf(Fetch(1, f.search, f.category)), Some(f.page), strictQuery);
    assert QueryOf(Fetch(1, f.search, f.category)).(page := Some(f.page)) == QueryOf(f);
  }

  // ---- a reply -----------------------------------------------------------------------

  /**
   * How a fetch ends: the reply is a page of posts; the reply is an error
   * envelope carrying the server's message, and reading its missing
   * `data` raises a `TypeError` with the message `readError`; or
   * `fetchPosts` itself throws (the network fails, the body is not JSON)
   * with the error's message, possibly empty.
   */
  datatype FetchOutcome =
    | Loaded(body: PaginatedPosts)
    | Refused(message: string, readError: string)
    | Thrown(message: string)

  /** How the feed reads a listing reply: a success body is a page, anything else an error envelope. */
  function OutcomeOf(reply: Reply<PaginatedPosts>, readError: string): (o: FetchOutcome)
    ensures o.Loaded? <==> reply.body.Success?
    ensures o.Loaded? ==> o.body == reply.body.data
    ensures o.Refused? ==> o.message == reply.body.message && o.readError == readError
  {
    match reply.body
    case Success(data, _) => Loaded(data)
    case Failure(_, message, _, _) => Refused(message, readError)
  }

  /**
   * The state once the fetch of `page` ends. Loading and searching stop
   * in every case.
   *
   * A loaded page 1 replaces the list, a later page is appended, and
   * `hasMore` says whether the reply's page is before its last.
   *
   * For an error envelope the server's message is recorded first, but
   * the list update is only queued, since it reads `response.data.data`
   * lazily; reading `response.data.pagination` for `hasMore` then throws,
   * and the `catch` replaces the message with the `TypeError`'s. When React
   * applies the queued update it throws again during rendering, and the
   * feed crashes.
   *
   * A thrown fetch keeps the list and shows its message, or a fixed one
   * when that is empty.
   */
  function Finish(st: FeedState, page: int, outcome: FetchOutcome): (r: FeedState)
    ensures !r.loading && !r.searching
    ensures r.page == st.page && r.query == st.query && r.category == st.category
    ensures r.crashed <==> st.crashed || outcome.Refused?
    ensures outcome.Loaded? ==> r.error.None?
    ensures outcome.Loaded? ==> (r.hasMore <==> outcome.body.pagination.page < outcome.body.pagination.totalPages)
    ensures outcome.Loaded? ==> r.posts == (if page == 1 then [] else st.posts) + outcome.body.data
    ensures !outcome.Loaded? ==> r.posts == st.posts && r.hasMore == st.hasMore
    ensures !outcome.Loaded? ==> r.error.Some? && r.error.value != ""
    ensures outcome.Thrown? && outcome.message != "" ==> r.error == Some(outcome.message)
    ensures outcome.Refused? && outcome.readError != "" ==> r.error == Some(outcome.readError)
  {
    match outcome
    case Loaded(body) =>
      st.(posts := if page == 1 then body.data else st.posts + body.data,
          hasMore := body.pagination.page < body.pagination.totalPages,
          loading := false, error := None, searching := false)
    case Refused(_, readError) =>
      st.(error := Some(if readError != "" then readError else FetchFailed),
          loading := false, searching := false, crashed := true)
    case Thrown(msg) =>
      st.(error := Some(if msg != "" then msg else FetchFailed), loading := false, searching := false)
  }

  /**
   * A search the listing cannot compile is answered with an error
   * envelope, so the feed never shows the server's message: it crashes,
   * with the `TypeError`'s message recorded and the list as it was.
   */
  lemma BadSearchCrashesFeed(st: FeedState, posts: seq<Post>, f: Fetch, strictQuery: bool, compiles: string -> bool, readError: string)
    requires !SearchCompiles(QueryOf(f), compiles) && readError != ""
    ensures var r := Finish(st, f.page, OutcomeOf(ListPosts(posts, QueryOf(f), strictQuery, compiles), readError));
      r.crashed && r.posts == st.posts && r.error == Some(readError)
  {
    var reply := ListPosts(posts, QueryOf(f), strictQuery, compiles);
    assert reply.body == Failure("Server error", "Failed to fetch posts", ThrownError, 500);
  }

  /** A reply the listing serves successfully loads like any page: the feed does not crash and shows no error. */
  lemma ServedPageLoads(st: FeedState, posts: seq<Post>, f: Fetch, strictQuery: bool, compiles: string -> bool, readError: string)
    requires f.page >= 1 && SearchCompiles(QueryOf(f), compiles)
    ensures var r := Finish(st, f.page, OutcomeOf(ListPosts(posts, QueryOf(f), strictQuery, compiles), readError));
      && r == Finish(st, f.page, Loaded(ServerPage(Selection(posts, f.search, f.category, strictQuery), f.page)))
      && r.crashed == st.crashed && r.error.None?
  {
    ListingServesPage(posts, f, strictQuery, compiles);
  }

  /** The state after fetching pages `1..n` in turn and receiving each as the listing serves it. */
  function AfterPages(st: FeedState, s: seq<Post>, n: nat): FeedState
  {
    if n == 0 then st else Finish(AfterPages(st, s, n - 1), n, Loaded(ServerPage(s, n)))
  }

  /**
   * Loading pages `1..n` in order shows exactly the first `n` pages of the
   * selection, without gap or repetition, and more is offered exactly while
   * pages remain.
   */
  lemma {:induction false} FeedShowsPrefix(st: FeedState, s: seq<Post>, n: nat)
    requires n >= 1
    ensures AfterPages(st, s, n).posts == s[..Min(n * PageSize, |s|)]
    ensures AfterPages(st, s, n).hasMore <==> n < CeilDiv(|s|, PageSize)
  {
    AfterPagesAccumulate(st, s, n);
    PagesUpToIsPrefix(s, n, PageSize);
  }

  lemma {:induction false} AfterPagesAccumulate(st: FeedState, s: seq<Post>, n: nat)
    requires n >= 1
    ensures AfterPages(st, s, n).posts == PagesUpTo(s, n, PageSize)
  {
    if n > 1 {
      AfterPagesAccumulate(st, s, n - 1);
    }
  }

  /** Once every page is in, the feed holds the whole selection and offers no more. */
  lemma FeedEndsWithEverything(st: FeedState, s: seq<Post>)
    requires |s| > 0
    ensures AfterPages(st, s, CeilDiv(|s|, PageSize)).posts == s
    ensures !AfterPages(st, s, CeilDiv(|s|, PageSize)).hasMore
  {
    FeedShowsPrefix(st, s, CeilDiv(|s|, PageSize));
    assert s[..|s|] == s;
  }

  // ---- effects and events ------------------------------------------------------------

  /** The fetch the feed issues when it first mounts. */
  const MountFetch := Fetch(1, "", AllCategory)

  /**
   * On mount the feed asks for page 1 of every published post, whatever
   * the patterns the listing compiles; once it arrives the feed shows the
   * newest twelve and offers more exactly when there are more than twelve.
   */
  lemma MountLoadsFirstPage(posts: seq<Post>, strictQuery: bool, compiles: string -> bool)
    ensures MountFetch.search == Initial.query && MountFetch.category == Initial.category
    ensures QueryOf(MountFetch) == ListQuery(Some(1), Some(PageSize), None, None, None, None)
    ensures var s := Selection(posts, "", AllCategory, strictQuery);
      var r := Finish(Initial, 1, OutcomeOf(ListPosts(posts, QueryOf(MountFetch), strictQuery, compiles), ""));
      && r.posts == s[..Min(PageSize, |s|)]
      && (r.hasMore <==> |s| > PageSize)
      && !r.crashed && r.error.None?
  {
    var s := Selection(posts, "", AllCategory, strictQuery);
    ServedPageLoads(Initial, posts, MountFetch, strictQuery, compiles, "");
    FeedShowsPrefix(Initial, s, 1);
  }

  /** The fetches that follow a change from `before` to `after`, in effect order. */
  function Effects(before: FeedState, after: FeedState): (fs: seq<Fetch>)
    ensures |fs| <= 2
    ensures (|fs| > 0 && fs[0].page == 1) <==> after.query != before.query || after.category != before.category
    ensures forall k :: 0 <= k < |fs| ==> fs[k].search == after.query && fs[k].category == after.category
    ensures forall k :: 0 <= k < |fs| && fs[k].page != 1 ==> fs[k].page == after.page && after.page > 1 && !after.searching
  {
    var first := if after.query != before.query || after.category != before.category
                 then [Fetch(1, after.query, after.category)] else [];
    var changed := after.page != before.page || after.query != before.query
                   || after.searching != before.searching || after.category != before.category;
    var second := if changed && after.page > 1 && !after.searching
                  then [Fetch(after.page, after.query, after.category)] else [];
    first + second
  }

  /** The loader coming into view: the page advances only while more exist and nothing is in flight. */
  function Scroll(st: FeedState, intersecting: bool): (r: FeedState)
    ensures r.page == st.page + 1 <==> intersecting && st.hasMore && !st.loading && !st.searching
    ensures r == st.(page := r.page)
    ensures r.page == st.page || r.page == st.page + 1
  {
    if intersecting && st.hasMore && !st.loading && !st.searching then st.(page := st.page + 1) else st
  }

  /** A page advanced by scrolling is fetched, with the current search and category, and nothing else is. */
  lemma ScrollFetchesNextPage(st: FeedState)
    requires st.hasMore && !st.loading && !st.searching && st.page >= 1
    ensures Effects(st, Scroll(st, true)) == [Fetch(st.page + 1, st.query, st.category)]
  {
  }

  /** At the last page nothing more is fetched however often the loader shows. */
  lemma ScrollStopsAtTheEnd(st: FeedState)
    requires !st.hasMore
    ensures Scroll(st, true) == st && Effects(st, Scroll(st, true)) == []
  {
  }

  /** The list, its flags and the error are as they were: only the query, the category, the searching flag or the page moved. */
  predicate KeepsList(st: FeedState, r: FeedState) {
    && r.posts == st.posts && r.hasMore == st.hasMore && r.loading == st.loading
    && r.error == st.error && r.crashed == st.crashed
  }

  /** Typing a search: the query changes, searching starts and the page returns to 1. */
  function SearchChange(st: FeedState, q: string): (r: FeedState)
    ensures r.query == q && r.searching && r.page == 1
    ensures r.category == st.category && KeepsList(st, r)
  {
    st.(query := q, searching := true, page := 1)
  }

  /** Picking a category: the category changes and the page returns to 1. */
  function CategoryChange(st: FeedState, c: string): (r: FeedState)
    ensures r.category == c && r.page == 1
    ensures r.query == st.query && r.searching == st.searching && KeepsList(st, r)
  {
    st.(category := c, page := 1)
  }

  /** The clear button: the query empties, searching starts and the page returns to 1. */
  function ClearSearch(st: FeedState): (r: FeedState)
    ensures r.query == "" && r.searching && r.page == 1
    ensures r.category == st.category && KeepsList(st, r)
  {
    st.(query := "", searching := true, page := 1)
  }

  /** A new search or category, or a clear, starts over with exactly one fetch: page 1 of the new list. */
  lemma ResetsFetchOnlyPageOne(st: FeedState, q: string, c: string)
    requires q != st.query && c != st.category && st.query != ""
    ensures Effects(st, SearchChange(st, q)) == [Fetch(1, q, st.category)]
    ensures Effects(st, CategoryChange(st, c)) == [Fetch(1, st.query, c)]
    ensures Effects(st, ClearSearch(st)) == [Fetch(1, "", st.category)]
  {
  }

  /** The mobile back button as written: it empties the query but leaves the page where it was. */
  function BackButtonAsWritten(st: FeedState): (r: FeedState)
    ensures r.query == "" && r.page == st.page && r.searching == st.searching
  {
    st.(query := "")
  }

  /**
   * Pressing back after scrolling a search to page 3 asks for page 1 and
   * page 3 of the unfiltered list at once; if page 1 answers first, the
   * feed shows pages 1 and 3 with every post of page 2 missing.
   */
  lemma BackButtonSkipsAPage(st: FeedState, s: seq<Post>)
    requires st.query != "" && st.page == 3 && !st.searching
    requires |s| > 2 * PageSize
    requires forall i, j :: 0 <= i < j < |s| ==> s[i] != s[j]
    ensures Effects(st, BackButtonAsWritten(st)) == [Fetch(1, "", st.category), Fetch(3, "", st.category)]
    ensures var shown := Finish(Finish(BackButtonAsWritten(st), 1, Loaded(ServerPage(s, 1))), 3, Loaded(ServerPage(s, 3))).posts;
      s[PageSize] !in shown && s[0] in shown && s[2 * PageSize] in shown
  {
    var shown := Finish(Finish(BackButtonAsWritten(st), 1, Loaded(ServerPage(s, 1))), 3, Loaded(ServerPage(s, 3))).posts;
    var p1 := PageOf(s, 1, PageSize);
    var p3 := PageOf(s, 3, PageSize);
    assert shown == p1 + p3;
    assert Offset(1, PageSize) == 0 && Offset(3, PageSize) == 2 * PageSize;
    assert p1[0] == s[0] && p3[0] == s[2 * PageSize];
    forall k | 0 <= k < |p1| ensures p1[k] != s[PageSize] {
      assert p1[k] == s[k];
    }
    forall k | 0 <= k < |p3| ensures p3[k] != s[PageSize] {
      assert p3[k] == s[2 * PageSize + k];
    }
  }

  /** The back button as evidently intended: the same reset as the clear button. */
  function BackButton(st: FeedState): (r: FeedState)
    ensures r.query == "" && r.page == 1
  {
    ClearSearch(st)
  }

  /** The corrected back button starts over with page 1 alone, so loading onwards shows a gap-free prefix. */
  lemma BackButtonStartsOver(st: FeedState, s: seq<Post>, n: nat)
    requires st.query != "" && n >= 1
    ensures Effects(st, BackButton(st)) == [Fetch(1, "", st.category)]
    ensures AfterPages(BackButton(st), s, n).posts == s[..Min(n * PageSize, |s|)]
  {
    FeedShowsPrefix(BackButton(st), s, n);
  }

  // ---- deleting ----------------------------------------------------------------------

  /** `posts.filter(post => post._id !== id)`. */
  function RemovePost(posts: seq<Post>, id: string): (r: seq<Post>)
    ensures |r| <= |posts|
    ensures forall k :: 0 <= k < |r| ==> r[k].id != id
  {
    if posts == [] then []
    else (if posts[0].id == id then [] else [posts[0]]) + RemovePost(posts[1..], id)
  }

  /** Every post with another id stays as often as it was there; the deleted id is gone. */
  lemma {:induction false} RemovePostCounts(posts: seq<Post>, id: string)
    ensures forall p :: multiset(RemovePost(posts, id))[p] == if p.id == id then 0 else multiset(posts)[p]
  {
    if posts != [] {
      RemovePostCounts(posts[1..], id);
      assert posts == [posts[0]] + posts[1..];
    }
  }

  /** Exactly the posts with another id stay. */
  lemma RemovePostKeepsOthers(posts: seq<Post>, id: string, p: Post)
    ensures p in RemovePost(posts, id) <==> p in posts && p.id != id
  {
    RemovePostCounts(posts, id);
    assert p in RemovePost(posts, id) <==> multiset(RemovePost(posts, id))[p] > 0;
    assert p in posts <==> multiset(posts)[p] > 0;
  }

  /** The same, for every post at once. */
  lemma RemovePostKeepsExactly(posts: seq<Post>, id: string)
    ensures forall p :: p in RemovePost(posts, id) <==> p in posts && p.id != id
  {
    forall p ensures p in RemovePost(posts, id) <==> p in posts && p.id != id {
      RemovePostKeepsOthers(posts, id, p);
    }
  }

  /** One step of the filter: the first post, if it stays, followed by the filtered rest. */
  lemma RemovePostStep(posts: seq<Post>, id: string)
    requires posts != []
    ensures RemovePost(posts, id) == (if posts[0].id == id then [] else [posts[0]]) + RemovePost(posts[1..], id)
  {
  }

  /** Removal works piece by piece, so the posts that stay keep their order. */
  lemma {:induction false} RemovePostSplits(a: seq<Post>, b: seq<Post>, id: string)
    ensures RemovePost(a + b, id) == RemovePost(a, id) + RemovePost(b, id)
  {
    if a == [] {
      assert a + b == b;
    } else {
      var head: seq<Post> := if a[0].id == id then [] else [a[0]];
      var left, right := RemovePost(a[1..], id), RemovePost(b, id);
      assert RemovePost(a + b, id) == head + RemovePost(a[1..] + b, id) by {
        assert (a + b)[0] == a[0] && (a + b)[1..] == a[1..] + b;
        RemovePostStep(a + b, id);
      }
      assert RemovePost(a[1..] + b, id) == left + right by {
        RemovePostSplits(a[1..], b, id);
      }
      assert RemovePost(a, id) == head + left by {
        RemovePostStep(a, id);
      }
      assert head + (left + right) == (head + left) + right;
    }
  }

  /** Deleting a post the feed does not show leaves it untouched. */
  lemma {:induction false} RemoveAbsentPost(posts: seq<Post>, id: string)
    requires forall k :: 0 <= k < |posts| ==> posts[k].id != id
    ensures RemovePost(posts, id) == posts
  {
    if posts != [] {
      RemoveAbsentPost(posts[1..], id);
    }
  }

  /** The delete handler: only the list changes. */
  function PostDeleted(st: FeedState, id: string): (r: FeedState)
    ensures r == st.(posts := r.posts)
    ensures forall p :: p in r.posts <==> p in st.posts && p.id != id
  {
    RemovePostKeepsExactly(st.posts, id);
    st.(posts := RemovePost(st.posts, id))
  }
}

=== FILE: image_block.dfy ===
/**
 * The editor's image block: which picked or dropped files start an upload,
 * the patch that clears an image, the two removal buttons that first delete
 * the stored asset and only then change the post, and which of the three
 * views (uploading, image, empty) the block shows.
 */
module ImageBlock {
  import opened Wrappers
  import opened Text
  import opened PostTypes
  import opened PostEditor

  /** A file as the browser hands it over: its name, MIME type and size in bytes. */
  datatype File = File(name: string, mimeType: string, size: int)

  const MaxSizeMB := 5
  const MaxImageBytes := MaxSizeMB * 1024 * 1024

  // ---- choosing a file ---------------------------------------------------------------

  /** The size guard both entry points share: at most 5 MiB, the bound itself included. */
  predicate SmallEnough(f: File) {
    f.size <= MaxImageBytes
  }

  /**
   * The file the picker uploads: the first selected file, unless it is too
   * large (then a toast is shown and nothing is uploaded).
   */
  function PickedUpload(files: seq<File>): (r: Option<File>)
    ensures r.Some? <==> |files| > 0 && files[0].size <= 5242880
    ensures r.Some? ==> r.value == files[0]
  {
    if |files| > 0 && SmallEnough(files[0]) then Some(files[0]) else None
  }

  /**
   * The file a drop uploads: the first dropped file, when its MIME type
   * starts with `image/` and it passes the size guard.
   */
  function DroppedUpload(files: seq<File>): (r: Option<File>)
    ensures r.Some? <==> |files| > 0 && StartsWith(files[0].mimeType, "image/") && files[0].size <= 5242880
    ensures r.Some? ==> r.value == files[0]
  {
    if |files| > 0 && StartsWith(files[0].mimeType, "image/") && SmallEnough(files[0]) then Some(files[0])
    else None
  }

  /** Anything a drop would upload, the picker would upload too; the drop adds only the type test. */
  lemma DropIsStricterThanPicker(files: seq<File>)
    ensures DroppedUpload(files).Some? ==> PickedUpload(files) == DroppedUpload(files)
    ensures PickedUpload(files).Some? && StartsWith(files[0].mimeType, "image/") ==> DroppedUpload(files).Some?
  {
  }

  /** A file of exactly 5 MiB is still accepted and one byte more is not. */
  lemma SizeBoundIsInclusive(name: string, mime: string)
    ensures PickedUpload([File(name, mime, MaxImageBytes)]).Some?
    ensures PickedUpload([File(name, mime, MaxImageBytes + 1)]).None?
  {
  }

  // ---- clearing and removing ---------------------------------------------------------

  /** The patch that empties an image but keeps the block: strings set to "", sizes to undefined. */
  const ClearPatch: BlockPatch :=
    NoChange.(url := Some(Some("")), publicId := Some(Some("")),
              width := Some(None), height := Some(None),
              altText := Some(Some("")), caption := Some(Some("")))

  /** A stored asset is named by a non-empty `publicId`. */
  predicate HasAsset(b: Block) {
    b.publicId.Some? && b.publicId.value != ""
  }

  /** `block.url` is truthy. */
  predicate HasImage(b: Block) {
    b.url.Some? && b.url.value != ""
  }

  /** Clearing empties exactly the six image fields and leaves every other field alone. */
  lemma ClearKeepsTheBlock(b: Block)
    ensures Merge(b, ClearPatch) == b.(url := Some(""), publicId := Some(""), width := None,
                                       height := None, altText := Some(""), caption := Some(""))
    ensures !HasImage(Merge(b, ClearPatch)) && !HasAsset(Merge(b, ClearPatch))
  {
  }

  /**
   * What pressing a removal button does: the asset it asks the server to
   * delete (if any), and whether the block then changes.
   */
  datatype Removal = Removal(deleteRequested: Option<string>, applied: bool)

  /**
   * The gating both buttons share: with a stored asset, the asset is deleted
   * first and the change happens only when that delete succeeds; without
   * one, the change happens at once and the server is not called.
   */
  function Gate(b: Block, deleteSucceeds: bool): (r: Removal)
    ensures r.deleteRequested.Some? <==> HasAsset(b)
    ensures r.deleteRequested.Some? ==> r.deleteRequested.value == b.publicId.value
    ensures r.applied <==> !HasAsset(b) || deleteSucceeds
  {
    if HasAsset(b) then Removal(Some(b.publicId.value), deleteSucceeds)
    else Removal(None, true)
  }

  /** `handleRemoveImage`: the block as it ends up and the delete it asked for. */
  function RemoveImage(b: Block, deleteSucceeds: bool): (r: (Block, Option<string>))
    ensures r.1 == Gate(b, deleteSucceeds).deleteRequested
    ensures Gate(b, deleteSucceeds).applied ==> !HasImage(r.0) && !HasAsset(r.0) && r.0.kind == b.kind
    ensures !Gate(b, deleteSucceeds).applied ==> r.0 == b
  {
    var g := Gate(b, deleteSucceeds);
    ClearKeepsTheBlock(b);
    (if g.applied then Merge(b, ClearPatch) else b, g.deleteRequested)
  }

  /** `handleRemoveBlock` on block `index`: the blocks as they end up and the delete asked for. */
  function RemoveImageBlock(st: EditorState, index: nat, deleteSucceeds: bool): (r: (EditorState, Option<string>))
    requires index < |st.blocks|
    ensures r.1 == Gate(st.blocks[index], deleteSucceeds).deleteRequested
    ensures Gate(st.blocks[index], deleteSucceeds).applied ==>
      |r.0.blocks| == |st.blocks| - 1
      && r.0.blocks == st.blocks[..index] + st.blocks[index + 1..]
      && r.0 == st.(blocks := r.0.blocks, focus := r.0.focus)
    ensures !Gate(st.blocks[index], deleteSucceeds).applied ==> r.0 == st
  {
    var g := Gate(st.blocks[index], deleteSucceeds);
    (if g.applied then RemoveBlock(st, index) else st, g.deleteRequested)
  }

  /** A failed delete leaves both the block and the post exactly as they were. */
  lemma FailedDeleteChangesNothing(st: EditorState, index: nat)
    requires index < |st.blocks| && HasAsset(st.blocks[index])
    ensures RemoveImage(st.blocks[index], false).0 == st.blocks[index]
    ensures RemoveImageBlock(st, index, false).0 == st
  {
  }

  /** After a successful clear, pressing the button again asks for no second delete. */
  lemma ClearingTwiceDeletesOnce(b: Block, first: bool, second: bool)
    requires Gate(b, first).applied
    ensures RemoveImage(RemoveImage(b, first).0, second).1.None?
    ensures RemoveImage(RemoveImage(b, first).0, second).0 == RemoveImage(b, first).0
  {
    ClearKeepsTheBlock(b);
    var c := RemoveImage(b, first).0;
    MergeLaws(c, ClearPatch, ClearPatch);
  }

  // ---- editing the text fields -------------------------------------------------------

  /** The caption box: only the caption changes. */
  function CaptionPatch(text: string): (p: BlockPatch)
    ensures forall b :: Merge(b, p) == b.(caption := Some(text))
  {
    NoChange.(caption := Some(Some(text)))
  }

  /** The alt-text box: only the alt text changes. */
  function AltTextPatch(text: string): (p: BlockPatch)
    ensures forall b :: Merge(b, p) == b.(altText := Some(text))
  {
    NoChange.(altText := Some(Some(text)))
  }

  // ---- the view ----------------------------------------------------------------------

  datatype View = UploadingView | ImageView(src: string) | EmptyView

  /** Which view renders: an upload in progress hides everything; then an image; else the drop zone. */
  function ViewOf(b: Block, uploading: bool): (v: View)
    ensures v.UploadingView? <==> uploading
    ensures v.ImageView? <==> !uploading && HasImage(b)
    ensures v.ImageView? ==> v.src == b.url.value
  {
    if uploading then UploadingView
    else if HasImage(b) then ImageView(b.url.value)
    else EmptyView
  }

  /** A cleared block, once no upload is running, shows the drop zone again. */
  lemma ClearedBlockShowsDropZone(b: Block, deleteSucceeds: bool)
    requires Gate(b, deleteSucceeds).applied
    ensures ViewOf(RemoveImage(b, deleteSucceeds).0, false) == EmptyView
  {
  }

  /** A finished upload with a non-empty url shows that image. */
  lemma UploadShowsImage(b: Block, fileName: string, url: string, width: int, height: int, publicId: string)
    requires url != ""
    ensures ViewOf(Merge(b, UploadPatch(fileName, url, width, height, publicId)), false) == ImageView(url)
  {
  }
}

=== FILE: login_form.dfy ===
/**
 * The admin login form: client-side checks of the two fields, clearing an
 * error when its field is edited, and turning the login call's answer into
 * either a redirect or a general error message.
 */
module LoginForm {
  import opened Wrappers
  import opened Text

  /** The error messages the form can show; `None` is a field without an error. */
  datatype LoginErrors = LoginErrors(email: Option<string>, password: Option<string>, general: Option<string>)

  const NoErrors := LoginErrors(None, None, None)

  datatype LoginState = LoginState(email: string, password: string, errors: LoginErrors, succeeded: bool)

  const InitialState := LoginState("", "", NoErrors, false)

  datatype Field = EmailField | PasswordField

  // ---- the email pattern -------------------------------------------------------------

  /**
   * `/\S+@\S+\.\S+/` matches somewhere in `s` with its `@` at `at` and its
   * `.` at `dot`. An unanchored `\S+` run can always be shortened to one
   * character, so a match needs only one non-space before the `@`, a
   * non-space run strictly between the `@` and the `.`, and one non-space
   * after the `.`.
   */
  predicate EmailMatchAt(s: string, at: int, dot: int) {
    && 1 <= at && at + 2 <= dot && dot + 1 < |s|
    && !IsSpace(s[at - 1]) && s[at] == '@'
    && (forall k :: at < k < dot ==> !IsSpace(s[k]))
    && s[dot] == '.' && !IsSpace(s[dot + 1])
  }

  predicate MatchesEmailPattern(s: string) {
    exists at, dot :: 0 <= at < |s| && 0 <= dot < |s| && EmailMatchAt(s, at, dot)
  }

  /**
   * The pattern test as a scan: for each `@` with a non-space before it,
   * walk the non-space run after it looking for a `.` that has a character
   * before it in the run and a non-space after it.
   */
  method TestEmailPattern(s: string) returns (found: bool)
    ensures found <==> MatchesEmailPattern(s)
  {
    var at := 1;
    while at < |s|
      invariant 1 <= at <= |s| || |s| == 0
      invariant forall a, d :: 0 <= a < at && a < |s| && 0 <= d < |s| ==> !EmailMatchAt(s, a, d)
    {
      if s[at] == '@' && !IsSpace(s[at - 1]) {
        var d := at + 1;
        while d < |s| && !IsSpace(s[d])
          invariant at + 1 <= d <= |s|
          invariant forall k :: at < k < d ==> !IsSpace(s[k])
          invariant forall e :: 0 <= e < d ==> !EmailMatchAt(s, at, e)
        {
          if d >= at + 2 && s[d] == '.' && d + 1 < |s| && !IsSpace(s[d + 1]) {
            assert EmailMatchAt(s, at, d);
            return true;
          }
          d := d + 1;
        }
        forall e | d <= e < |s|
          ensures !EmailMatchAt(s, at, e)
        {
          if d < e {
            assert IsSpace(s[d]);
          } else if d < |s| {
            assert IsSpace(s[d]);
          }
        }
      }
      at := at + 1;
    }
    return false;
  }

  // ---- validateForm ------------------------------------------------------------------

  const EmailRequired := "Email is required"
  const EmailInvalid := "Email is invalid"
  const PasswordRequired := "Password is required"

  /** The errors `validateForm` sets: at most one per field, never a general one. */
  function ValidateForm(email: string, password: string): (errs: LoginErrors)
    ensures errs.general.None?
    ensures errs.email.Some? <==> email == "" || !MatchesEmailPattern(email)
    ensures errs.email.Some? ==> errs.email.value == (if email == "" then EmailRequired else EmailInvalid)
    ensures errs.password.Some? <==> password == ""
    ensures errs.password.Some? ==> errs.password.value == PasswordRequired
  {
    LoginErrors(
      if email == "" then Some(EmailRequired)
      else if !MatchesEmailPattern(email) then Some(EmailInvalid)
      else None,
      if password == "" then Some(PasswordRequired) else None,
      None)
  }

  /** `validateForm()`'s result: no key was set. */
  predicate FormValid(email: string, password: string) {
    ValidateForm(email, password) == NoErrors
  }

  /** The form is valid exactly for a pattern-matching email and a non-empty password. */
  lemma FormValidIff(email: string, password: string)
    ensures FormValid(email, password) <==> MatchesEmailPattern(email) && password != ""
  {
    if MatchesEmailPattern(email) {
      var at, dot :| 0 <= at < |email| && 0 <= dot < |email| && EmailMatchAt(email, at, dot);
      assert email != "";
    }
  }

  /** A small address passes and one without a dot after the `@` does not. */
  lemma EmailPatternExamples()
    ensures MatchesEmailPattern("a@b.c")
    ensures !MatchesEmailPattern("a@bc")
  {
    assert EmailMatchAt("a@b.c", 1, 3);
    var s := "a@bc";
    forall at, dot | 0 <= at < |s| && 0 <= dot < |s|
      ensures !EmailMatchAt(s, at, dot)
    {
      assert s[3] != '.' && s[2] != '.';
    }
  }

  // ---- handleChange ------------------------------------------------------------------

  /** Typing into `field`: its value changes, its own error and the general error go. */
  function Change(st: LoginState, field: Field, value: string): (r: LoginState)
    ensures r.succeeded == st.succeeded && r.errors.general.None?
    ensures field == EmailField ==>
      r.email == value && r.password == st.password
      && r.errors.email.None? && r.errors.password == st.errors.password
    ensures field == PasswordField ==>
      r.password == value && r.email == st.email
      && r.errors.password.None? && r.errors.email == st.errors.email
  {
    match field
    case EmailField => st.(email := value, errors := st.errors.(email := None, general := None))
    case PasswordField => st.(password := value, errors := st.errors.(password := None, general := None))
  }

  /** Editing one field and then the other clears both field errors. */
  lemma EditingBothClearsAll(st: LoginState, e: string, p: string)
    ensures Change(Change(st, EmailField, e), PasswordField, p).errors == NoErrors
  {
  }

  // ---- handleSubmit ------------------------------------------------------------------

  /**
   * The login call as the form sees it: an answer with its flags and
   * message, or a thrown error with its message.
   */
  datatype LoginReply =
    | Answered(success: bool, hasUser: bool, hasToken: bool, message: string)
    | Thrown(message: string)

  const LoginFailed := "Login failed. Please try again."
  const BadCredentials := "Invalid email or password. Please try again."
  const NetworkError := "Network error. Please try again."

  /** `searchParams.get('redirect') || '/'`. */
  function Destination(redirect: Option<string>): (r: string)
    ensures r != ""
    ensures redirect.Some? && redirect.value != "" ==> r == redirect.value
    ensures !(redirect.Some? && redirect.value != "") ==> r == "/"
  {
    OrElse(redirect, "/")
  }

  /** What a submit leads to: the new state, whether a request went out, and where to navigate. */
  datatype SubmitResult = SubmitResult(state: LoginState, requested: bool, navigateTo: Option<string>)

  /** The message shown for an unsuccessful login, or `None` on success. */
  function ReplyError(reply: LoginReply): (m: Option<string>)
    ensures m.None? <==> reply.Answered? && reply.success && reply.hasUser && reply.hasToken
    ensures reply.Thrown? ==> m == Some(if reply.message == "Failed to login" then BadCredentials else NetworkError)
    ensures reply.Answered? && m.Some? ==>
      m.value == (if reply.message != "" then reply.message else LoginFailed)
  {
    match reply
    case Answered(ok, user, token, msg) =>
      if ok && user && token then None
      else Some(if msg != "" then msg else LoginFailed)
    case Thrown(msg) =>
      Some(if msg == "Failed to login" then BadCredentials else NetworkError)
  }

  /**
   * Submitting: an invalid form shows its errors and sends nothing; a valid
   * one clears the errors, sends the credentials, and either succeeds and
   * navigates or shows one general error.
   */
  function Submit(st: LoginState, redirect: Option<string>, reply: LoginReply): (r: SubmitResult)
    ensures r.requested <==> MatchesEmailPattern(st.email) && st.password != ""
    ensures r.state.email == st.email && r.state.password == st.password
    ensures !r.requested ==> r.state.errors == ValidateForm(st.email, st.password) && r.navigateTo.None?
    ensures r.requested ==>
      (r.navigateTo.Some? <==> ReplyError(reply).None?)
      && r.state.errors == LoginErrors(None, None, ReplyError(reply))
    ensures r.navigateTo.Some? ==> r.navigateTo.value == Destination(redirect) && r.state.succeeded
  {
    FormValidIff(st.email, st.password);
    if !FormValid(st.email, st.password) then
      SubmitResult(st.(errors := ValidateForm(st.email, st.password)), false, None)
    else
      match ReplyError(reply)
      case None => SubmitResult(st.(errors := NoErrors, succeeded := true), true, Some(Destination(redirect)))
      case Some(m) => SubmitResult(st.(errors := LoginErrors(None, None, Some(m))), true, None)
  }

  /** A form that submits with no field errors is exactly one whose fields pass the checks. */
  lemma SubmitNeverSendsInvalidForm(st: LoginState, redirect: Option<string>, reply: LoginReply)
    requires Submit(st, redirect, reply).requested
    ensures ValidateForm(st.email, st.password) == NoErrors
  {
    FormValidIff(st.email, st.password);
  }
}

=== FILE: middleware.dfy ===
/**
 * The route guard the framework runs before every page under `/admin`: the
 * login page sends a signed-in admin home, and every other admin page sends
 * anyone who is not an admin to the login page.
 */
module RouteGuard {
  import opened Wrappers
  import opened Text
  import opened UserTypes

  /** What the guard tells the framework: serve the page, or redirect. */
  datatype Decision = Continue | Redirect(to: string)

  const AdminPrefix: string := "/admin"
  const LoginPath: string := "/admin/login"
  const HomePath: string := "/"

  /** The matcher `/admin/:path*`: `/admin` itself or any path below it. */
  predicate GuardRuns(path: string) {
    path == AdminPrefix || StartsWith(path, AdminPrefix + "/")
  }

  /**
   * The guard's decision for a request to `path` by `user`, the session the
   * request's token decodes to (`None` for no token or an invalid one).
   */
  function Guard(path: string, user: Option<AuthUser>): (d: Decision)
    ensures path == LoginPath ==> (d == Redirect(HomePath) <==> IsAdmin(user)) && d != Redirect(LoginPath)
    ensures path != LoginPath && StartsWith(path, AdminPrefix) ==>
      (d == Continue <==> IsAdmin(user)) && d != Redirect(HomePath)
    ensures !StartsWith(path, AdminPrefix) ==> d == Continue
  {
    if path == LoginPath then
      (if user.Some? && IsAdmin(user) then Redirect(HomePath) else Continue)
    else if StartsWith(path, AdminPrefix) && (user.None? || !IsAdmin(user)) then
      Redirect(LoginPath)
    else
      Continue
  }

  /** A request as the framework handles it: the guard only sees matched paths. */
  function Handle(path: string, user: Option<AuthUser>): (d: Decision)
    ensures !GuardRuns(path) ==> d == Continue
  {
    if GuardRuns(path) then Guard(path, user) else Continue
  }

  /** Every matched path starts with the admin prefix, so the guard's own test always holds there. */
  lemma MatchedPathsAreAdminRoutes(path: string)
    requires GuardRuns(path)
    ensures StartsWith(path, AdminPrefix)
  {
    if path != AdminPrefix {
      assert path[..|AdminPrefix|] == (AdminPrefix + "/")[..|AdminPrefix|];
    }
  }

  /**
   * Only admins get past the guard on a matched page other than the login page,
   * and they always do.
   */
  lemma ProtectedPagesNeedAdmin(path: string, user: Option<AuthUser>)
    requires GuardRuns(path) && path != LoginPath
    ensures Handle(path, user) == Continue <==> user.Some? && user.value.role == "admin"
  {
    MatchedPathsAreAdminRoutes(path);
  }

  /** Following a redirect once never redirects again: the guard cannot loop. */
  lemma RedirectsSettle(path: string, user: Option<AuthUser>)
    requires Handle(path, user).Redirect?
    ensures Handle(Handle(path, user).to, user) == Continue
  {
    var to := Handle(path, user).to;
    if to == HomePath {
      assert !StartsWith(to, AdminPrefix);
    } else {
      assert to == LoginPath && !IsAdmin(user);
    }
  }

  /** A path that merely starts with the same letters, like `/administrator`, is not guarded. */
  lemma LookalikePathIsNotGuarded(user: Option<AuthUser>)
    ensures Handle("/administrator", user) == Continue
  {
    assert "/administrator"[6] != '/';
  }
}

=== FILE: post_card.dfy ===
/**
 * A post's card in the feed: who counts as its author, which menu entries
 * the card offers, the tag chips, the name, initial and date it shows, and
 * the delete confirmation, which tells the feed about a deletion only when
 * the server confirms it.
 */
module PostCard {
  import opened Wrappers
  import opened Text
  import opened PostTypes
  import opened Feed

  /** The signed-in user the card is given, when there is one. */
  datatype CardUser = CardUser(email: string, role: string)

  // ---- authorship and menu -----------------------------------------------------------

  /** `user?.email`: absent when there is no user. */
  function UserEmail(user: Option<CardUser>): (e: Option<string>)
    ensures e.Some? <==> user.Some?
    ensures e.Some? ==> e.value == user.value.email
  {
    if user.Some? then Some(user.value.email) else None
  }

  /**
   * `isAuthor`: a token is present and the user's email equals the
   * author's, where strict equality also holds between two absent values.
   */
  predicate IsAuthor(hasToken: bool, user: Option<CardUser>, author: Author) {
    hasToken && UserEmail(user) == author.email
  }

  /** With a token, a missing user and an author without an email count as a match. */
  lemma AbsentEmailsMatch(author: Author)
    requires author.email.None?
    ensures IsAuthor(true, None, author)
    ensures forall u :: !IsAuthor(true, Some(u), author)
  {
  }

  /** A signed-in user is the author exactly when the emails are equal. */
  lemma AuthorIffSameEmail(hasToken: bool, u: CardUser, author: Author)
    ensures IsAuthor(hasToken, Some(u), author) <==> hasToken && author.email == Some(u.email)
  {
  }

  datatype MenuEntry = EditEntry(href: string) | DeleteEntry | ViewEntry(href: string)

  /**
   * The three-dot menu: absent without a token; Edit and Delete for the
   * author; View for anyone else with a token.
   */
  function Menu(hasToken: bool, user: Option<CardUser>, post: Post): (m: Option<seq<MenuEntry>>)
    ensures m.Some? <==> hasToken
    ensures m.Some? && IsAuthor(hasToken, user, post.author) ==>
      m.value == [EditEntry("/" + post.slug + "/edit"), DeleteEntry]
    ensures m.Some? && !IsAuthor(hasToken, user, post.author) ==> m.value == [ViewEntry("/" + post.slug)]
  {
    if !hasToken then None
    else if IsAuthor(hasToken, user, post.author) then Some([EditEntry("/" + post.slug + "/edit"), DeleteEntry])
    else Some([ViewEntry("/" + post.slug)])
  }

  /** Only the author is ever offered Delete. */
  lemma DeleteOnlyForAuthor(hasToken: bool, user: Option<CardUser>, post: Post)
    requires Menu(hasToken, user, post).Some? && DeleteEntry in Menu(hasToken, user, post).value
    ensures hasToken && UserEmail(user) == post.author.email
  {
  }

  /**
   * With a token, Delete and Edit are offered together and exactly to the
   * author, and View exactly to anyone else.
   */
  lemma MenuFollowsAuthorship(user: Option<CardUser>, post: Post)
    ensures var m := Menu(true, user, post).value;
      && (DeleteEntry in m <==> IsAuthor(true, user, post.author))
      && (EditEntry("/" + post.slug + "/edit") in m <==> DeleteEntry in m)
      && (ViewEntry("/" + post.slug) in m <==> !IsAuthor(true, user, post.author))
  {
  }

  // ---- what the card shows -----------------------------------------------------------

  /** The tag row: the first three tags, and the number of the rest when there are any. */
  datatype TagRow = TagRow(chips: seq<string>, more: Option<nat>)

  function Chips(tags: seq<string>): (r: Option<TagRow>)
    ensures r.None? <==> tags == []
    ensures r.Some? ==> |r.value.chips| == if |tags| < 3 then |tags| else 3
    ensures r.Some? ==> StartsWithAll(tags, r.value.chips)
    ensures r.Some? ==> (r.value.more.Some? <==> |tags| > 3)
  {
    if tags == [] then None
    else if |tags| > 3 then Some(TagRow(tags[..3], Some(|tags| - 3)))
    else Some(TagRow(tags, None))
  }

  /** `chips` is a prefix of `tags`. */
  predicate StartsWithAll(tags: seq<string>, chips: seq<string>) {
    |chips| <= |tags| && tags[..|chips|] == chips
  }

  /** The chips and the `+N` count together account for every tag exactly once. */
  lemma ChipsAccountForAllTags(tags: seq<string>)
    requires tags != []
    ensures var row := Chips(tags).value;
      row.chips + tags[|row.chips|..] == tags
      && |row.chips| + row.more.GetOr(0) == |tags|
  {
    var row := Chips(tags).value;
    assert tags[..|row.chips|] + tags[|row.chips|..] == tags;
  }

  /** The name shown: the author's name, or the part of the email before its first `@`. */
  function DisplayName(author: Author): (r: Option<string>)
    ensures author.name.Some? && author.name.value != "" ==> r == author.name
    ensures (author.name.None? || author.name.value == "") ==>
      (r.Some? <==> author.email.Some?)
    ensures (author.name.None? || author.name.value == "") && author.email.Some? ==>
      StartsWith(author.email.value, r.value) && !Contains(r.value, "@")
  {
    if author.name.Some? && author.name.value != "" then author.name
    else if author.email.Some? then Some(UpTo(author.email.value, "@"))
    else None
  }

  /** The avatar's letter: the name's first character, upper-cased, else the email's; an empty email gives none. */
  function Initial(author: Author): (r: Option<char>)
    ensures author.name.Some? && author.name.value != "" ==> r == Some(UpperChar(author.name.value[0]))
    ensures r.Some? ==> !IsAsciiLower(r.value)
  {
    if author.name.Some? && author.name.value != "" then Some(UpperChar(author.name.value[0]))
    else if author.email.Some? && author.email.value != "" then Some(UpperChar(author.email.value[0]))
    else None
  }

  /** A user named only by an email is shown by its local part. */
  lemma EmailOnlyAuthorShownByLocalPart(id: string, local: string, domain: string)
    requires !Contains(local, "@")
    ensures DisplayName(Author(id, None, Some(local + "@" + domain))) == Some(local)
  {
    var e := local + "@" + domain;
    assert OccursAt(e, "@", |local|);
    var r := DisplayName(Author(id, None, Some(e))).value;
    assert StartsWith(e, r) && OccursAt(e, "@", |r|);
    if |r| < |local| {
      assert OccursAt(local, "@", |r|) by {
        assert local[|r|..|r| + 1] == e[|r|..|r| + 1];
      }
    }
    assert r == e[..|local|] == local;
  }

  /** The instant the date line shows: publication when there is one, creation otherwise. */
  function ShownInstant(post: Post): (t: int)
    ensures post.publishedAt.Some? ==> t == post.publishedAt.value
    ensures post.publishedAt.None? ==> t == post.createdAt
  {
    post.publishedAt.GetOr(post.createdAt)
  }

  // ---- deleting ----------------------------------------------------------------------

  datatype CardState = CardState(menuOpen: bool, deleting: bool, confirming: bool)

  const Closed := CardState(false, false, false)

  /** The menu button: disabled while a delete is in flight. */
  function ToggleMenu(st: CardState): (r: CardState)
    ensures r.menuOpen != st.menuOpen <==> !st.deleting
    ensures r.deleting == st.deleting && r.confirming == st.confirming
  {
    if st.deleting then st else st.(menuOpen := !st.menuOpen)
  }

  /** Delete in the menu: the confirmation opens and the menu closes. */
  function AskToDelete(st: CardState): (r: CardState)
    ensures r.confirming && !r.menuOpen && r.deleting == st.deleting
  {
    st.(confirming := true, menuOpen := false)
  }

  /** Cancel: ignored while the delete is in flight. */
  function Cancel(st: CardState): (r: CardState)
    ensures r.confirming <==> st.confirming && st.deleting
    ensures r.menuOpen == st.menuOpen && r.deleting == st.deleting
  {
    if st.deleting then st else st.(confirming := false)
  }

  /** How the delete request ends: the server's `success` flag, or a thrown error. */
  datatype DeleteOutcome = Answered(success: bool) | Threw

  /** The card after the request ends, and the id it reports to the feed, if any. */
  datatype Confirmed = Confirmed(state: CardState, reported: Option<string>)

  /**
   * Confirm: the request runs with the spinner on; afterwards everything is
   * closed, and the post's id is reported only on a successful answer with
   * a listener present.
   */
  function ConfirmDelete(post: Post, outcome: DeleteOutcome, listening: bool): (r: Confirmed)
    ensures r.state == Closed
    ensures r.reported.Some? <==> listening && outcome == Answered(true)
    ensures r.reported.Some? ==> r.reported.value == post.id
  {
    if outcome == Answered(true) && listening then Confirmed(Closed, Some(post.id))
    else Confirmed(Closed, None)
  }

  /** The feed after a confirm: the post leaves it exactly when the server confirmed the deletion. */
  function AfterConfirm(feed: FeedState, post: Post, outcome: DeleteOutcome): (r: FeedState)
  {
    var c := ConfirmDelete(post, outcome, true);
    if c.reported.Some? then PostDeleted(feed, c.reported.value) else feed
  }

  /** A confirmed deletion removes the post from the feed; a failed one leaves the feed alone. */
  lemma DeleteReachesFeed(feed: FeedState, post: Post, outcome: DeleteOutcome)
    ensures outcome == Answered(true) ==> post !in AfterConfirm(feed, post, outcome).posts
    ensures outcome != Answered(true) ==> AfterConfirm(feed, post, outcome) == feed
  {
    if outcome == Answered(true) {
      RemovePostKeepsOthers(feed.posts, post.id, post);
    }
  }

  /** While the delete is in flight, no button changes the card. */
  lemma InFlightDeleteIsLocked(st: CardState)
    requires st.deleting
    ensures Cancel(st) == st && ToggleMenu(st) == st
  {
  }
}

=== FILE: post_editor.dfy ===
/**
 * The admin post editor's state and its transitions: adding, patching and
 * removing blocks with the focused index, toggling tags under a cap, the
 * title and excerpt length guards, the pre-submit checks and the request
 * body a submit sends.
 */
module PostEditor {
  import opened Wrappers
  import opened Arith
  import opened Text
  import opened PostTypes
  import opened PostModel
  import opened PostSchemas
  import opened Utils

  const MaxTags: nat := 10

  /**
   * The editor's state. `focus` is the focused block index, if any;
   * `existingId` is the id of the post being edited, `None` for a new one.
   */
  datatype EditorState = EditorState(
    title: string,
    slug: string,
    excerpt: string,
    blocks: seq<Block>,
    coverImage: string,
    tags: seq<string>,
    focus: Option<nat>,
    tagSearch: string,
    existingId: Option<string>)

  /** The state the editor opens with, empty or filled from a stored post. */
  function Open(initial: Option<Post>): (st: EditorState)
    ensures st.focus.None? && st.tagSearch == ""
    ensures initial.None? ==> st.blocks == [] && st.tags == [] && st.title == "" && st.existingId.None?
    ensures initial.Some? ==> st.blocks == initial.value.content && st.existingId == Some(initial.value.id)
  {
    match initial
    case None => EditorState("", "", "", [], "", [], None, "", None)
    case Some(p) =>
      EditorState(p.title, p.slug, p.excerpt.GetOr(""), p.content, p.coverImage.GetOr(""),
                  p.tags, None, "", Some(p.id))
  }

  /** The limits the editor keeps while the user types and picks tags. */
  predicate WithinLimits(st: EditorState) {
    JsLength(st.title) <= TitleMaxLength && JsLength(st.excerpt) <= ExcerptMaxLength && |st.tags| <= MaxTags
  }

  // ---- title and excerpt ---------------------------------------------------------------

  /**
   * Typing a title: a value over 120 UTF-16 code units is refused and nothing
   * changes; otherwise the title is taken and, for a new post, a non-empty
   * title also regenerates the slug.
   */
  function SetTitle(st: EditorState, value: string): (r: EditorState)
    ensures JsLength(value) > TitleMaxLength ==> r == st
    ensures JsLength(value) <= TitleMaxLength ==> r == st.(title := value, slug := r.slug)
    ensures JsLength(value) <= TitleMaxLength && st.existingId.None? && value != "" ==> r.slug == GenerateSlug(value)
    ensures st.existingId.Some? || value == "" ==> r.slug == st.slug
  {
    if JsLength(value) > TitleMaxLength then st
    else st.(title := value, slug := if st.existingId.None? && value != "" then GenerateSlug(value) else st.slug)
  }

  /** Typing an excerpt: a value over 300 UTF-16 code units is refused and nothing changes. */
  function SetExcerpt(st: EditorState, value: string): (r: EditorState)
    ensures JsLength(value) > ExcerptMaxLength ==> r == st
    ensures JsLength(value) <= ExcerptMaxLength ==> r == st.(excerpt := value)
  {
    if JsLength(value) > ExcerptMaxLength then st else st.(excerpt := value)
  }

  /** Sixty-one emoji are 61 characters but 122 code units, so the title field refuses them. */
  lemma EmojiTitleRefused(st: EditorState)
    ensures var emoji := seq(61, i => '\U{1F600}');
      |emoji| <= TitleMaxLength && SetTitle(st, emoji) == st
  {
    var emoji := seq(61, i => '\U{1F600}');
    JsLengthAstral(emoji);
  }

  /** A new post's slug, once a title has been typed, is one the server's slug pattern accepts. */
  lemma TypedTitleGivesServerSlug(st: EditorState, value: string)
    requires st.existingId.None? && value != "" && JsLength(value) <= TitleMaxLength
    requires GenerateSlug(value) != ""
    ensures MatchesSlugPattern(SetTitle(st, value).slug)
  {
  }

  // ---- blocks --------------------------------------------------------------------------

  /**
   * The block `addBlock` creates for a kind. It has no url, size or image
   * id yet; every kind but the divider starts with empty text; only images
   * carry (empty) alt text and caption, only code a language, only embeds
   * an embed kind.
   */
  function NewBlock(t: BlockType): (b: Block)
    ensures b.kind == t && b.url.None? && b.width.None? && b.height.None? && b.publicId.None?
    ensures (b.content.Some? <==> t != Divider) && (b.content.Some? ==> b.content.value == "")
    ensures (b.altText.Some? <==> t == Image) && (b.caption.Some? <==> t == Image)
    ensures b.altText.Some? ==> b.altText.value == "" && b.caption.value == ""
    ensures (b.language.Some? <==> t == Code) && (b.language.Some? ==> b.language.value == "javascript")
    ensures (b.embedType.Some? <==> t == Embed) && (b.embedType.Some? ==> b.embedType.value == YouTube)
  {
    var base := Bare(t).(content := if t == Divider then None else Some(""));
    if t == Image then base.(altText := Some(""), caption := Some(""))
    else if t == Code then base.(language := Some("javascript"))
    else if t == Embed then base.(embedType := Some(YouTube))
    else base
  }

  /** Where `addBlock` puts the new block: after `index` (clamped to the end), or at the end. */
  function InsertPosition(blocks: seq<Block>, index: Option<nat>): (p: nat)
    ensures p <= |blocks|
  {
    if index.Some? then Min(index.value + 1, |blocks|) else |blocks|
  }

  /**
   * `addBlock`: the new block goes right after `index`, or at the end when
   * there is no index; the focus moves to `index + 1`, or to the old length.
   */
  function AddBlock(st: EditorState, t: BlockType, index: Option<nat>): (r: EditorState)
    ensures var p := InsertPosition(st.blocks, index);
      && |r.blocks| == |st.blocks| + 1
      && r.blocks[p] == NewBlock(t)
      && (forall k :: 0 <= k < p ==> r.blocks[k] == st.blocks[k])
      && (forall k :: p < k < |r.blocks| ==> r.blocks[k] == st.blocks[k - 1])
    ensures r.focus == Some(if index.Some? then index.value + 1 else |st.blocks|)
    ensures r == st.(blocks := r.blocks, focus := r.focus)
  {
    var p := InsertPosition(st.blocks, index);
    st.(blocks := st.blocks[..p] + [NewBlock(t)] + st.blocks[p..],
        focus := Some(if index.Some? then index.value + 1 else |st.blocks|))
  }

  /** `blocks.filter((_, i) => i !== index)`. */
  function WithoutIndex(blocks: seq<Block>, index: nat): (r: seq<Block>)
    ensures index >= |blocks| ==> r == blocks
    ensures index < |blocks| ==>
      |r| == |blocks| - 1
      && forall k :: 0 <= k < |r| ==> r[k] == (if k < index then blocks[k] else blocks[k + 1])
  {
    if index < |blocks| then blocks[..index] + blocks[index + 1..] else blocks
  }

  /**
   * `removeBlock`: nothing happens on an empty list; otherwise block `index`
   * goes, and only when it was the focused one does the focus move, to the
   * block before it (or to 0).
   */
  function RemoveBlock(st: EditorState, index: nat): (r: EditorState)
    ensures st.blocks == [] ==> r == st
    ensures st.blocks != [] ==>
      r == st.(blocks := WithoutIndex(st.blocks, index),
               focus := if st.focus == Some(index) then Some(Max(0, index - 1)) else st.focus)
  {
    if |st.blocks| <= 0 then st
    else st.(blocks := WithoutIndex(st.blocks, index),
             focus := if st.focus == Some(index) then Some(Max(0, index - 1) as nat) else st.focus)
  }

  /** Removing the block just added, at the position it was added, gives the old list back. */
  lemma RemoveUndoesAdd(st: EditorState, t: BlockType, index: Option<nat>)
    ensures RemoveBlock(AddBlock(st, t, index), InsertPosition(st.blocks, index)).blocks == st.blocks
  {
    var added := AddBlock(st, t, index).blocks;
    var p := InsertPosition(st.blocks, index);
    var back := WithoutIndex(added, p);
    assert |back| == |st.blocks|;
    forall k | 0 <= k < |back| ensures back[k] == st.blocks[k] {
      if k >= p {
        assert back[k] == added[k + 1];
      }
    }
  }

  /**
   * The focus is an index, not a block: removing a block before the focused
   * one leaves the index as it was, so it then designates the block that
   * used to follow the focused one.
   */
  lemma FocusStaysOnIndexAfterEarlierRemoval(st: EditorState, index: nat, f: nat)
    requires st.focus == Some(f) && index < f && f + 1 < |st.blocks|
    ensures RemoveBlock(st, index).focus == Some(f)
    ensures RemoveBlock(st, index).blocks[f] == st.blocks[f + 1]
  {
  }

  // ---- block patches -------------------------------------------------------------------

  /**
   * A `Partial<ContentBlockInput>` spread over a block. For each key, `None`
   * is a key the patch does not have; `Some(None)` is a key explicitly set
   * to `undefined`, which the spread copies and so clears the field.
   */
  datatype BlockPatch = BlockPatch(
    kind: Option<BlockType>,
    content: Option<Option<string>>,
    url: Option<Option<string>>,
    altText: Option<Option<string>>,
    caption: Option<Option<string>>,
    width: Option<Option<int>>,
    height: Option<Option<int>>,
    language: Option<Option<string>>,
    embedType: Option<Option<EmbedType>>,
    publicId: Option<Option<string>>)

  const NoChange := BlockPatch(None, None, None, None, None, None, None, None, None, None)

  /** One key of a spread: the patch's value when it has the key, the old one otherwise. */
  function Over<T>(before: Option<T>, key: Option<Option<T>>): (r: Option<T>)
    ensures key.None? ==> r == before
    ensures key.Some? ==> r == key.value
  {
    if key.Some? then key.value else before
  }

  /** `{ ...b, ...p }`: every key the patch carries replaces the block's; the author is never patched. */
  function Merge(b: Block, p: BlockPatch): (r: Block)
    ensures r.author == b.author
    ensures p.kind.None? ==> r.kind == b.kind
    ensures p.kind.Some? ==> r.kind == p.kind.value
    ensures r.content == Over(b.content, p.content) && r.url == Over(b.url, p.url)
    ensures r.altText == Over(b.altText, p.altText) && r.caption == Over(b.caption, p.caption)
    ensures r.width == Over(b.width, p.width) && r.height == Over(b.height, p.height)
    ensures r.language == Over(b.language, p.language) && r.embedType == Over(b.embedType, p.embedType)
    ensures r.publicId == Over(b.publicId, p.publicId)
  {
    Block(
      if p.kind.Some? then p.kind.value else b.kind,
      Over(b.content, p.content), Over(b.url, p.url), Over(b.altText, p.altText),
      Over(b.caption, p.caption), Over(b.width, p.width), Over(b.height, p.height),
      Over(b.language, p.language), b.author, Over(b.embedType, p.embedType),
      Over(b.publicId, p.publicId))
  }

  /** Two patches applied in turn: the later one's keys win. */
  function Then(p: BlockPatch, q: BlockPatch): BlockPatch {
    BlockPatch(
      if q.kind.Some? then q.kind else p.kind,
      if q.content.Some? then q.content else p.content,
      if q.url.Some? then q.url else p.url,
      if q.altText.Some? then q.altText else p.altText,
      if q.caption.Some? then q.caption else p.caption,
      if q.width.Some? then q.width else p.width,
      if q.height.Some? then q.height else p.height,
      if q.language.Some? then q.language else p.language,
      if q.embedType.Some? then q.embedType else p.embedType,
      if q.publicId.Some? then q.publicId else p.publicId)
  }

  /** The empty patch changes nothing, a patch applied twice acts once, and two patches compose. */
  lemma MergeLaws(b: Block, p: BlockPatch, q: BlockPatch)
    ensures Merge(b, NoChange) == b
    ensures Merge(Merge(b, p), p) == Merge(b, p)
    ensures Merge(Merge(b, p), q) == Merge(b, Then(p, q))
  {
  }

  /** `updateBlock`: block `index` gets the patch spread over it; every other block stays. */
  function UpdateBlock(st: EditorState, index: nat, p: BlockPatch): (r: EditorState)
    requires index < |st.blocks|
    ensures |r.blocks| == |st.blocks|
    ensures r.blocks[index] == Merge(st.blocks[index], p)
    ensures forall k :: 0 <= k < |st.blocks| && k != index ==> r.blocks[k] == st.blocks[k]
    ensures r == st.(blocks := r.blocks)
  {
    st.(blocks := st.blocks[index := Merge(st.blocks[index], p)])
  }

  /** The patch a finished upload applies: the new url, size and id, and the file name before its first `.` as alt text. */
  function UploadPatch(fileName: string, url: string, width: int, height: int, publicId: string): (p: BlockPatch)
    ensures p.altText == Some(Some(UpTo(fileName, ".")))
    ensures !Contains(UpTo(fileName, "."), ".") && StartsWith(fileName, UpTo(fileName, "."))
  {
    NoChange.(url := Some(Some(url)), altText := Some(Some(UpTo(fileName, "."))),
              width := Some(Some(width)), height := Some(Some(height)), publicId := Some(Some(publicId)))
  }

  // ---- tags ----------------------------------------------------------------------------

  /** `tags.filter(t => t !== tag)`. */
  function Drop(tags: seq<string>, tag: string): (r: seq<string>)
    ensures tag !in r && |r| <= |tags|
    ensures forall x :: x != tag ==> multiset(r)[x] == multiset(tags)[x]
  {
    if tags == [] then []
    else
      assert tags == [tags[0]] + tags[1..];
      (if tags[0] == tag then [] else [tags[0]]) + Drop(tags[1..], tag)
  }

  lemma {:induction false} DropAbsent(tags: seq<string>, tag: string)
    requires tag !in tags
    ensures Drop(tags, tag) == tags
  {
    if tags != [] {
      DropAbsent(tags[1..], tag);
    }
  }

  lemma {:induction false} DropAppended(tags: seq<string>, tag: string)
    requires tag !in tags
    ensures Drop(tags + [tag], tag) == tags
  {
    if tags == [] {
      assert Drop([tag], tag) == [] + Drop([], tag);
    } else {
      assert (tags + [tag])[1..] == tags[1..] + [tag];
      DropAppended(tags[1..], tag);
    }
  }

  /**
   * `toggleTag`: a selected tag is removed; an unselected one is added at
   * the end unless ten are already selected, in which case nothing at all
   * changes. A change clears the tag search.
   */
  function ToggleTag(st: EditorState, tag: string): (r: EditorState)
    ensures tag in st.tags ==> r == st.(tags := Drop(st.tags, tag), tagSearch := "")
    ensures tag !in st.tags && |st.tags| >= MaxTags ==> r == st
    ensures tag !in st.tags && |st.tags| < MaxTags ==> r == st.(tags := st.tags + [tag], tagSearch := "")
    ensures |st.tags| <= MaxTags ==> |r.tags| <= MaxTags
  {
    if tag in st.tags then st.(tags := Drop(st.tags, tag), tagSearch := "")
    else if |st.tags| >= MaxTags then st
    else st.(tags := st.tags + [tag], tagSearch := "")
  }

  /** `removeTag`. */
  function RemoveTag(st: EditorState, tag: string): (r: EditorState)
    ensures tag !in r.tags && r == st.(tags := r.tags)
    ensures forall x :: x != tag ==> multiset(r.tags)[x] == multiset(st.tags)[x]
  {
    st.(tags := Drop(st.tags, tag))
  }

  /** Toggling an unselected tag on and off again restores the selection when there was room. */
  lemma ToggleTwiceRestores(st: EditorState, tag: string)
    requires tag !in st.tags && |st.tags| < MaxTags
    ensures ToggleTag(ToggleTag(st, tag), tag).tags == st.tags
  {
    DropAppended(st.tags, tag);
  }

  /** Every editing step keeps the title, excerpt and tag limits. */
  lemma StepsKeepLimits(st: EditorState, value: string, tag: string, t: BlockType, index: Option<nat>, i: nat)
    requires WithinLimits(st)
    ensures WithinLimits(SetTitle(st, value)) && WithinLimits(SetExcerpt(st, value))
    ensures WithinLimits(ToggleTag(st, tag)) && WithinLimits(RemoveTag(st, tag))
    ensures WithinLimits(AddBlock(st, t, index)) && WithinLimits(RemoveBlock(st, i))
  {
  }

  // ---- validateBlocks ------------------------------------------------------------------

  /** What `validateBlocks` reports missing, in the order it checks. */
  datatype Missing = MissingUrl | MissingLanguage | MissingEmbedType

  /** The first check a block fails, if any. */
  function BlockProblem(b: Block): (m: Option<Missing>)
    ensures m == Some(MissingUrl) <==> b.kind in {Image, Video, Embed} && !Filled(b.url)
    ensures m == Some(MissingLanguage) <==> b.kind == Code && !Filled(b.language)
    ensures m == Some(MissingEmbedType) <==> b.kind == Embed && Filled(b.url) && b.embedType.None?
  {
    if b.kind in {Image, Video, Embed} && !Filled(b.url) then Some(MissingUrl)
    else if b.kind == Code && !Filled(b.language) then Some(MissingLanguage)
    else if b.kind == Embed && b.embedType.None? then Some(MissingEmbedType)
    else None
  }

  /** The first block from `from` on that fails a check, with what it lacks. */
  function FirstProblem(blocks: seq<Block>, from: nat): (r: Option<(nat, Missing)>)
    requires from <= |blocks|
    ensures r.None? <==> forall k :: from <= k < |blocks| ==> BlockProblem(blocks[k]).None?
    ensures r.Some? ==>
      from <= r.value.0 < |blocks| && BlockProblem(blocks[r.value.0]) == Some(r.value.1)
      && forall k :: from <= k < r.value.0 ==> BlockProblem(blocks[k]).None?
    decreases |blocks| - from
  {
    if from == |blocks| then None
    else if BlockProblem(blocks[from]).Some? then Some((from, BlockProblem(blocks[from]).value))
    else FirstProblem(blocks, from + 1)
  }

  /** A block the server's schema accepts never stops the editor's check. */
  lemma ServerConformingBlockPassesEditor(b: Block, isUri: string -> bool)
    requires BlockConforms(Encode(b), isUri)
    ensures BlockProblem(b).None?
  {
    var r := Encode(b);
    ParseBlockTypeName(b.kind);
    assert KindFieldsConform(r, b.kind, isUri);
    if b.kind in {Image, Video, Embed} {
      assert b.kind in RequiredKinds(UrlField);
      assert Filled(RawField(r, UrlField));
    }
    if b.kind == Code {
      assert b.kind in RequiredKinds(LanguageField);
      assert Filled(RawField(r, LanguageField));
    }
  }

  lemma ParseBlockTypeName(t: BlockType)
    ensures ParseBlockType(BlockTypeName(t)) == Some(t)
  {
  }

  /** A fresh block passes the editor's check unless its kind needs a url. */
  lemma NewBlockProblem(t: BlockType)
    ensures BlockProblem(NewBlock(t)).Some? <==> t in {Image, Video, Embed}
  {
  }

  /**
   * The editor's own image defaults do not survive the server: even with a
   * url and an id, an image block that keeps its empty alt text is refused,
   * because a present string key must not be empty.
   */
  lemma DefaultAltTextRejected(url: string, publicId: string, isUri: string -> bool)
    ensures !BlockConforms(Encode(NewBlock(Image).(url := Some(url), publicId := Some(publicId))), isUri)
  {
  }

  // ---- handleSubmit --------------------------------------------------------------------

  /** Why a submit stopped before sending anything. */
  datatype SubmitStop = TitleRequired | SlugRequired | BlockIncomplete(index: nat, missing: Missing)

  /** The request a submit sends: `PUT` to the post's own path when editing, `POST` otherwise. */
  datatype SaveRequest = SaveRequest(verb: string, path: string, body: RawPost)

  /**
   * A tag as sent: lower-cased, then cut to 25 UTF-16 code units; a tag
   * that fits is sent whole, and a non-empty one is never cut to nothing.
   */
  function PayloadTag(tag: string): (r: string)
    ensures JsLength(r) <= TagMaxLength
    ensures StartsWith(Lower(tag), r)
    ensures JsLength(tag) <= TagMaxLength ==> r == Lower(tag)
    ensures tag != "" ==> r != ""
  {
    JsLengthLower(tag);
    JsTake(Lower(tag), TagMaxLength)
  }

  function PayloadTags(tags: seq<string>): (r: seq<string>)
    ensures |r| == |tags| && forall i :: 0 <= i < |tags| ==> r[i] == PayloadTag(tags[i])
  {
    seq(|tags|, i requires 0 <= i < |tags| => PayloadTag(tags[i]))
  }

  /** The JSON body: an empty cover is sent as absent, `published` is the button pressed. */
  function Payload(st: EditorState, publish: bool): (p: RawPost)
    ensures p.coverImage.None? <==> st.coverImage == ""
    ensures p.published == Some(publish)
  {
    RawPost(Some(st.title), Some(st.slug), Some(EncodeAll(st.blocks)), Some(st.excerpt),
            if st.coverImage == "" then None else Some(st.coverImage),
            Some(PayloadTags(st.tags)), Some(publish))
  }

  /** What a submit does: the state afterwards, and the request sent or why none was. */
  datatype SubmitStep = SubmitStep(state: EditorState, outcome: Result<SaveRequest, SubmitStop>)

  /**
   * `handleSubmit`: a blank title, then a blank slug, then the first
   * incomplete block (which gets the focus) stop it; otherwise the body is
   * sent to the route that creates or updates the post.
   */
  function Submit(st: EditorState, publish: bool): (r: SubmitStep)
    ensures r.outcome.Ok? <==>
      Trim(st.title) != "" && Trim(st.slug) != ""
      && forall k :: 0 <= k < |st.blocks| ==> BlockProblem(st.blocks[k]).None?
    ensures r.outcome.Ok? ==> r.state == st && r.outcome.value.body == Payload(st, publish)
    ensures r.outcome.Ok? ==>
      (r.outcome.value.verb == "PUT" <==> st.existingId.Some?)
      && (r.outcome.value.verb == "POST" <==> st.existingId.None?)
    ensures r.outcome.Err? && r.outcome.error.BlockIncomplete? ==>
      var i := r.outcome.error.index;
      i < |st.blocks| && r.state == st.(focus := Some(i))
      && BlockProblem(st.blocks[i]) == Some(r.outcome.error.missing)
      && forall k :: 0 <= k < i ==> BlockProblem(st.blocks[k]).None?
    ensures r.outcome.Err? && !r.outcome.error.BlockIncomplete? ==> r.state == st
  {
    if Trim(st.title) == "" then SubmitStep(st, Err(TitleRequired))
    else if Trim(st.slug) == "" then SubmitStep(st, Err(SlugRequired))
    else match FirstProblem(st.blocks, 0)
      case Some((i, m)) => SubmitStep(st.(focus := Some(i)), Err(BlockIncomplete(i, m)))
      case None =>
        var req := match st.existingId
          case Some(id) => SaveRequest("PUT", "/api/posts/" + id, Payload(st, publish))
          case None => SaveRequest("POST", "/api/posts", Payload(st, publish));
        SubmitStep(st, Ok(req))
  }

  /** The tags as sent are lower-case already, so the server's own lower-casing keeps them. */
  lemma {:induction false} PayloadTagIsLower(tag: string)
    ensures Lower(PayloadTag(tag)) == PayloadTag(tag)
  {
    var t := PayloadTag(tag);
    var l := Lower(tag);
    assert forall i :: 0 <= i < |t| ==> t[i] == l[i];
    forall i | 0 <= i < |t| ensures Lower(t)[i] == t[i] {
      assert t[i] == LowerChar(tag[i]);
    }
  }

  /**
   * The sent tags pass the server's tag rule whenever none of them is empty,
   * and its lower-casing leaves them as sent.
   */
  lemma PayloadTagsPassServer(tags: seq<string>, isUri: string -> bool)
    requires forall i :: 0 <= i < |tags| ==> tags[i] != ""
    ensures TagErrors(PayloadTags(tags), 0, isUri) == []
    ensures LowerTags(PayloadTags(tags)) == PayloadTags(tags)
  {
    var sent := PayloadTags(tags);
    forall i | 0 <= i < |tags| ensures sent[i] != "" && Lower(sent[i]) == sent[i] {
      PayloadTagIsLower(tags[i]);
    }
  }

  /** The server reads back exactly the editor's blocks from the body's content. */
  lemma PayloadBlocksRoundTrip(st: EditorState, publish: bool, i: nat)
    requires i < |st.blocks|
    ensures Decode(Payload(st, publish).content.value[i]) == Some(st.blocks[i])
  {
    EncodeDecodeRoundTrip(st.blocks[i], Encode(st.blocks[i]));
  }
}

=== FILE: post_model.dfy ===
/**
 * The stored-post schema of `app/models/Post.ts`: which block fields each
 * kind requires, the field constraints checked when a document is saved,
 * the defaults, and the pre-save hook that derives `publishedAt`, the
 * excerpt and the reading time.
 */
module PostModel {
  import opened Wrappers
  import opened Text
  import opened Arith
  import opened PostTypes

  /** The block fields whose presence depends on the block's kind. */
  datatype BlockField = ContentField | UrlField | PublicIdField | LanguageField | EmbedTypeField

  /** The kinds `requireFieldFor` lists for each field. */
  function RequiredKinds(f: BlockField): set<BlockType> {
    match f
    case ContentField => {Paragraph, Quote, Code, Heading}
    case UrlField => {Image, Video, Embed}
    case PublicIdField => {Image}
    case LanguageField => {Code}
    case EmbedTypeField => {Embed}
  }

  /** The JSON key of a field. */
  function FieldName(f: BlockField): string {
    match f
    case ContentField => "content"
    case UrlField => "url"
    case PublicIdField => "publicId"
    case LanguageField => "language"
    case EmbedTypeField => "embedType"
  }

  /** The value a block object holds under a field's key. */
  function RawField(r: RawBlock, f: BlockField): Option<string> {
    match f
    case ContentField => r.content
    case UrlField => r.url
    case PublicIdField => r.publicId
    case LanguageField => r.language
    case EmbedTypeField => r.embedType
  }

  /** What a `required` String path accepts: a present, non-empty string. */
  predicate Filled(v: Option<string>) {
    v.Some? && v.value != ""
  }

  /** The `match: /^https?:\/\//i` rule: the string starts with `http://` or `https://`, in any case. */
  predicate IsHttpUrl(s: string) {
    StartsWith(Lower(s), "http://") || StartsWith(Lower(s), "https://")
  }

  /** A `match` rule only looks at present, non-empty values. */
  predicate MatchesIfSet(v: Option<string>) {
    v.None? || v.value == "" || IsHttpUrl(v.value)
  }

  /** The scheme test ignores case: lowering the address first changes nothing. */
  lemma HttpUrlIgnoresCase(s: string)
    ensures IsHttpUrl(s) <==> IsHttpUrl(Lower(s))
  {
    LowerIdempotent(s);
  }

  lemma LowerHttpsScheme()
    ensures Lower("HTTPS://") == "https://"
  {
    var l := Lower("HTTPS://");
    assert l[0] == 'h' && l[1] == 't' && l[2] == 't' && l[3] == 'p' && l[4] == 's';
    assert l[5] == ':' && l[6] == '/' && l[7] == '/';
  }

  /** An upper-case scheme passes; another scheme or a protocol-relative address does not. */
  lemma HttpUrlExamples(s: string)
    ensures IsHttpUrl("HTTPS://" + s)
    ensures !IsHttpUrl("ftp://" + s) && !IsHttpUrl("//" + s)
  {
    LowerAppend("HTTPS://", s);
    LowerHttpsScheme();
    assert ("https://" + Lower(s))[..8] == "https://";
    NotHttpPrefix(Lower("ftp://" + s));
    NotHttpPrefix(Lower("//" + s));
  }

  /** A string not starting with `h` starts with neither scheme. */
  lemma NotHttpPrefix(t: string)
    requires |t| > 0 && t[0] != 'h'
    ensures !StartsWith(t, "http://") && !StartsWith(t, "https://")
  {
    assert |t| >= 7 ==> t[..7][0] != "http://"[0];
    assert |t| >= 8 ==> t[..8][0] != "https://"[0];
  }

  /**
   * Save-time validation of one block: the paths that fail, in schema order.
   * The kind must be one of the eight, each kind-dependent field must be
   * filled when the kind is in its list, a set `url` must be an http(s)
   * address and a set `embedType` must be one of the three embed kinds.
   */
  function ModelBlockErrors(r: RawBlock): (errs: seq<string>)
  {
    var t := if r.kind.Some? then ParseBlockType(r.kind.value) else None;
    var needs := (f: BlockField) => t.Some? && t.value in RequiredKinds(f);
    (if t.None? then ["type"] else [])
    + (if needs(ContentField) && !Filled(r.content) then ["content"] else [])
    + (if (needs(UrlField) && !Filled(r.url)) || !MatchesIfSet(r.url) then ["url"] else [])
    + (if needs(PublicIdField) && !Filled(r.publicId) then ["publicId"] else [])
    + (if needs(LanguageField) && !Filled(r.language) then ["language"] else [])
    + (if (needs(EmbedTypeField) && !Filled(r.embedType))
          || (r.embedType.Some? && ParseEmbedType(r.embedType.value).None?) then ["embedType"] else [])
  }

  /** The kind-dependent fields a decoded block is required to fill. */
  predicate HasRequiredFields(b: Block, r: RawBlock) {
    forall f: BlockField :: b.kind in RequiredKinds(f) ==> Filled(RawField(r, f))
  }

  /**
   * A block passes save-time validation exactly when it decodes to a typed
   * block (known kind, known embed kind if any), fills every field its kind
   * requires, and carries an http(s) `url` if it carries one at all.
   */
  lemma ModelBlockErrorsEmptyIff(r: RawBlock)
    ensures ModelBlockErrors(r) == [] <==>
      Decode(r).Some? && HasRequiredFields(Decode(r).value, r) && MatchesIfSet(r.url)
  {
    if ModelBlockErrors(r) == [] {
      var b := Decode(r).value;
      forall f: BlockField | b.kind in RequiredKinds(f) ensures Filled(RawField(r, f)) {
        match f
        case ContentField =>
        case UrlField =>
        case PublicIdField =>
        case LanguageField =>
        case EmbedTypeField =>
      }
    }
    if Decode(r).Some? && HasRequiredFields(Decode(r).value, r) && MatchesIfSet(r.url) {
      var b := Decode(r).value;
      assert b.kind in RequiredKinds(ContentField) ==> Filled(RawField(r, ContentField));
      assert b.kind in RequiredKinds(UrlField) ==> Filled(RawField(r, UrlField));
      assert b.kind in RequiredKinds(PublicIdField) ==> Filled(RawField(r, PublicIdField));
      assert b.kind in RequiredKinds(LanguageField) ==> Filled(RawField(r, LanguageField));
      assert b.kind in RequiredKinds(EmbedTypeField) ==> Filled(RawField(r, EmbedTypeField));
    }
  }

  const TitleMaxLength: nat := 120
  const ExcerptMaxLength: nat := 300
  const TagMaxLength: nat := 25

  /** The slug pattern `^[a-z0-9-]+$`, one character at a time. */
  predicate IsSlugChar(c: char) {
    IsAsciiLower(c) || IsDigit(c) || c == '-'
  }

  /** `^[a-z0-9-]+$`: non-empty, and every character a lower-case letter, digit or hyphen. */
  predicate MatchesSlugPattern(s: string) {
    |s| > 0 && forall i :: 0 <= i < |s| ==> IsSlugChar(s[i])
  }

  /**
   * Save-time validation of a document's fields: the failing paths, in
   * schema order. Lengths are UTF-16 lengths, as `maxlength` counts them;
   * tags are checked as the `lowercase` setter stores them; block paths are
   * `content.<i>.<field>` and tag paths `tags.<i>`.
   */
  function SavePaths(title: string, slug: string, content: seq<RawBlock>, excerpt: Option<string>,
                     coverImage: Option<string>, tags: seq<string>): (errs: seq<string>)
    ensures errs == [] <==>
      && title != "" && JsLength(title) <= TitleMaxLength && MatchesSlugPattern(slug)
      && (forall i :: 0 <= i < |content| ==> ModelBlockErrors(content[i]) == [])
      && (excerpt.Some? ==> JsLength(excerpt.value) <= ExcerptMaxLength)
      && MatchesIfSet(coverImage)
      && (forall i :: 0 <= i < |tags| ==> JsLength(Lower(tags[i])) <= TagMaxLength)
    ensures "title" in errs <==> title == "" || JsLength(title) > TitleMaxLength
    ensures "slug" in errs <==> !MatchesSlugPattern(slug)
    ensures "excerpt" in errs <==> excerpt.Some? && JsLength(excerpt.value) > ExcerptMaxLength
    ensures "coverImage" in errs <==> !MatchesIfSet(coverImage)
  {
    var blocks := BlockPaths(content, 0);
    var tagPaths := TagPaths(tags, 0);
    var head := (if title == "" || JsLength(title) > TitleMaxLength then ["title"] else [])
      + (if !MatchesSlugPattern(slug) then ["slug"] else []);
    var mid := (if excerpt.Some? && JsLength(excerpt.value) > ExcerptMaxLength then ["excerpt"] else [])
      + (if !MatchesIfSet(coverImage) then ["coverImage"] else []);
    TopLevelPathsNotNested();
    TopLevelPathIn("title", head, blocks, mid, tagPaths);
    TopLevelPathIn("slug", head, blocks, mid, tagPaths);
    TopLevelPathIn("excerpt", head, blocks, mid, tagPaths);
    TopLevelPathIn("coverImage", head, blocks, mid, tagPaths);
    head + blocks + mid + tagPaths
  }

  /** The stored form of each block. */
  function EncodeAll(blocks: seq<Block>): (r: seq<RawBlock>)
    ensures |r| == |blocks| && forall i :: 0 <= i < |blocks| ==> r[i] == Encode(blocks[i])
  {
    seq(|blocks|, i requires 0 <= i < |blocks| => Encode(blocks[i]))
  }

  /** Save-time validation of a post: the failing paths of its fields, blocks in their stored form. */
  function ModelPostErrors(p: Post): (errs: seq<string>)
    ensures errs == [] <==>
      && p.title != "" && JsLength(p.title) <= TitleMaxLength && MatchesSlugPattern(p.slug)
      && (p.excerpt.Some? ==> JsLength(p.excerpt.value) <= ExcerptMaxLength)
      && MatchesIfSet(p.coverImage)
      && (forall i :: 0 <= i < |p.tags| ==> JsLength(Lower(p.tags[i])) <= TagMaxLength)
      && (forall i :: 0 <= i < |p.content| ==> ModelBlockErrors(Encode(p.content[i])) == [])
  {
    SavePaths(p.title, p.slug, EncodeAll(p.content), p.excerpt, p.coverImage, p.tags)
  }

  /** The `content.<i>.<field>` path of every failing field of every block, in order. */
  function BlockPaths(blocks: seq<RawBlock>, from: nat): (errs: seq<string>)
    ensures errs == [] <==> forall i :: 0 <= i < |blocks| ==> ModelBlockErrors(blocks[i]) == []
    ensures forall e :: e in errs ==> IsPathUnder(e, "content.")
  {
    if blocks == [] then []
    else
      var here := ModelBlockErrors(blocks[0]);
      var prefix := "content." + NatToString(from) + ".";
      seq(|here|, k requires 0 <= k < |here| => prefix + here[k])
      + BlockPaths(blocks[1..], from + 1)
  }

  /** The `tags.<i>` path of every tag longer than 25 UTF-16 units once lower-cased, in order. */
  function TagPaths(tags: seq<string>, from: nat): (errs: seq<string>)
    ensures errs == [] <==> forall i :: 0 <= i < |tags| ==> JsLength(Lower(tags[i])) <= TagMaxLength
    ensures |errs| <= |tags|
    ensures forall e :: e in errs ==> IsPathUnder(e, "tags.")
  {
    if tags == [] then []
    else
      var here := if JsLength(Lower(tags[0])) > TagMaxLength then ["tags." + NatToString(from)] else [];
      var rest := TagPaths(tags[1..], from + 1);
      assert (forall i :: 1 <= i < |tags| ==> JsLength(Lower(tags[i])) <= TagMaxLength)
         <==> (forall i :: 0 <= i < |tags[1..]| ==> JsLength(Lower(tags[1..][i])) <= TagMaxLength) by {
        forall i | 1 <= i < |tags| ensures tags[i] == tags[1..][i - 1] { }
      }
      here + rest
  }

  /** A path inside the field `prefix` names, like `tags.3` under `tags.`. */
  predicate IsPathUnder(path: string, prefix: string) {
    |path| > |prefix| && path[..|prefix|] == prefix
  }

  /** The top-level paths of a post are neither block paths nor tag paths. */
  lemma TopLevelPathsNotNested()
    ensures !IsPathUnder("title", "tags.") && !IsPathUnder("title", "content.")
    ensures !IsPathUnder("slug", "tags.") && !IsPathUnder("slug", "content.")
    ensures !IsPathUnder("excerpt", "tags.") && !IsPathUnder("excerpt", "content.")
    ensures !IsPathUnder("coverImage", "tags.") && !IsPathUnder("coverImage", "content.")
  {
    assert "excerpt"[..5][0] != "tags."[0];
    assert "coverImage"[..5][0] != "tags."[0];
    assert "coverImage"[..8][2] != "content."[2];
  }

  /** A top-level path occurs among a post's failing paths only in its own top-level parts. */
  lemma TopLevelPathIn(name: string, head: seq<string>, blocks: seq<string>, mid: seq<string>, tags: seq<string>)
    requires !IsPathUnder(name, "content.") && !IsPathUnder(name, "tags.")
    requires forall e :: e in blocks ==> IsPathUnder(e, "content.")
    requires forall e :: e in tags ==> IsPathUnder(e, "tags.")
    ensures name in head + blocks + mid + tags <==> name in head || name in mid
  {
  }

  /** The index of the first paragraph or heading block, the one the excerpt is taken from. */
  function FirstTextBlock(blocks: seq<Block>): (r: Option<nat>)
    ensures r.Some? ==> r.value < |blocks| && blocks[r.value].kind in {Paragraph, Heading}
    ensures r.Some? ==> forall j :: 0 <= j < r.value ==> blocks[j].kind !in {Paragraph, Heading}
    ensures r.None? ==> forall j :: 0 <= j < |blocks| ==> blocks[j].kind !in {Paragraph, Heading}
  {
    if blocks == [] then None
    else if blocks[0].kind in {Paragraph, Heading} then Some(0)
    else match FirstTextBlock(blocks[1..])
      case None => None
      case Some(i) => Some(i + 1)
  }

  /**
   * The derived excerpt: the first paragraph or heading block's content cut
   * to 300 UTF-16 code units and then trimmed, or `""` when there is no such block
   * or it has no content. Because the cut comes first, trimming may leave
   * fewer than 300 units even when the content is longer.
   */
  function DerivedExcerpt(blocks: seq<Block>): (r: string)
    ensures JsLength(r) <= ExcerptMaxLength
    ensures |r| > 0 ==> !IsSpace(r[0]) && !IsSpace(r[|r| - 1])
    ensures FirstTextBlock(blocks).None? ==> r == ""
    ensures FirstTextBlock(blocks).Some? ==>
      var b := blocks[FirstTextBlock(blocks).value];
      (b.content.None? ==> r == "")
      && (b.content.Some? ==> r == Trim(JsTake(b.content.value, ExcerptMaxLength)))
  {
    match FirstTextBlock(blocks)
    case None => ""
    case Some(i) =>
      match blocks[i].content
      case None => ""
      case Some(c) =>
        JsLengthTrim(JsTake(c, ExcerptMaxLength));
        Trim(JsTake(c, ExcerptMaxLength))
  }

  /** The index of the first white-space character. */
  function FirstSpace(s: string): (r: Option<nat>)
    ensures r.Some? ==> r.value < |s| && IsSpace(s[r.value])
    ensures r.Some? ==> forall k :: 0 <= k < r.value ==> !IsSpace(s[k])
    ensures r.None? ==> forall k :: 0 <= k < |s| ==> !IsSpace(s[k])
  {
    if s == [] then None
    else if IsSpace(s[0]) then Some(0)
    else match FirstSpace(s[1..])
      case None => None
      case Some(i) => Some(i + 1)
  }

  predicate NoSpace(s: string) {
    forall k :: 0 <= k < |s| ==> !IsSpace(s[k])
  }

  /**
   * `s.split(/\s+/)`: the pieces between maximal white-space runs, with an
   * empty first (last) piece when `s` starts (ends) with white space; the
   * empty string splits into one empty piece.
   */
  function SplitWs(s: string): (pieces: seq<string>)
    ensures |pieces| >= 1
    ensures forall k :: 0 <= k < |pieces| ==> NoSpace(pieces[k])
    decreases |s|
  {
    match FirstSpace(s)
    case None => [s]
    case Some(i) =>
      var j := SpaceRunEnd(s, i);
      [s[..i]] + SplitWs(s[j..])
  }

  /** The number of maximal white-space runs, counted from the left; `afterSpace` says the character before `s` was white space. */
  function SpaceRuns(s: string, afterSpace: bool): nat
    decreases |s|
  {
    if s == [] then 0
    else (if IsSpace(s[0]) && !afterSpace then 1 else 0) + SpaceRuns(s[1..], IsSpace(s[0]))
  }

  lemma {:induction false} SpaceRunsOfNoSpace(s: string, afterSpace: bool)
    requires NoSpace(s)
    ensures SpaceRuns(s, afterSpace) == 0
    decreases |s|
  {
    if s != [] {
      SpaceRunsOfNoSpace(s[1..], false);
    }
  }

  /** Runs in `a + b`, when `a` has no white space and `b` starts with some. */
  lemma {:induction false} SpaceRunsSplit(s: string, i: nat, j: nat, afterSpace: bool)
    requires i < j <= |s|
    requires NoSpace(s[..i])
    requires forall k :: i <= k < j ==> IsSpace(s[k])
    requires j < |s| ==> !IsSpace(s[j])
    requires i > 0 || !afterSpace
    ensures SpaceRuns(s, afterSpace) == 1 + SpaceRuns(s[j..], false)
    decreases |s|
  {
    if i > 0 {
      assert !IsSpace(s[0]);
      assert s[1..][..i - 1] == s[..i][1..];
      assert s[1..][j - 1..] == s[j..];
      SpaceRunsSplit(s[1..], i - 1, j - 1, false);
    } else if j > 1 {
      assert IsSpace(s[0]) && IsSpace(s[1]);
      SpaceRunsInsideRun(s[1..], j - 1);
      assert s[1..][j - 1..] == s[j..];
    } else {
      assert IsSpace(s[0]);
      if j < |s| {
        assert !IsSpace(s[1..][0]);
      }
      assert s[1..] == s[j..];
      SpaceRunsAfterRun(s[j..]);
    }
  }

  /** Inside a run, the rest of the run adds nothing. */
  lemma {:induction false} SpaceRunsInsideRun(s: string, j: nat)
    requires 0 < j <= |s|
    requires forall k :: 0 <= k < j ==> IsSpace(s[k])
    requires j < |s| ==> !IsSpace(s[j])
    ensures SpaceRuns(s, true) == SpaceRuns(s[j..], false)
    decreases j
  {
    if j == 1 {
      assert s[1..] == s[j..];
      SpaceRunsAfterRun(s[1..]);
    } else {
      assert s[1..][j - 1..] == s[j..];
      SpaceRunsInsideRun(s[1..], j - 1);
    }
  }

  /** Right after a run ends, the flag no longer matters. */
  lemma SpaceRunsAfterRun(s: string)
    requires s != [] ==> !IsSpace(s[0])
    ensures SpaceRuns(s, true) == SpaceRuns(s, false)
  {
  }

  /** `split(/\s+/)` yields one piece more than there are white-space runs. */
  lemma {:induction false} SplitWsCountsRuns(s: string)
    ensures |SplitWs(s)| == 1 + SpaceRuns(s, false)
    decreases |s|
  {
    match FirstSpace(s)
    case None =>
      SpaceRunsOfNoSpace(s, false);
    case Some(i) =>
      var j := SpaceRunEnd(s, i);
      SplitWsCountsRuns(s[j..]);
      SpaceRunsSplit(s, i, j, false);
  }

  /** The words a block contributes: `content.split(/\s+/).length`, or 0 without content. */
  function BlockWords(b: Block): nat {
    match b.content
    case None => 0
    case Some(c) => |SplitWs(c)|
  }

  /** The word total the reading time is computed from. */
  function WordCount(blocks: seq<Block>): nat {
    if blocks == [] then 0 else BlockWords(blocks[0]) + WordCount(blocks[1..])
  }

  /** Minutes of reading at 265 words a minute, rounded up. */
  const WordsPerMinute: nat := 265

  function ReadingTime(blocks: seq<Block>): (minutes: nat)
    ensures minutes * WordsPerMinute >= WordCount(blocks)
    ensures minutes > 0 ==> (minutes - 1) * WordsPerMinute < WordCount(blocks)
  {
    CeilDiv(WordCount(blocks), WordsPerMinute)
  }

  /** A block with empty content still counts as one word; one without content counts none. */
  lemma EmptyContentIsOneWord(b: Block)
    ensures b.content == Some("") ==> BlockWords(b) == 1
    ensures b.content.None? ==> BlockWords(b) == 0
    ensures b.content.Some? ==> BlockWords(b) >= 1
  {
  }

  /** The word count of a block is one more than the number of white-space runs in its content. */
  lemma BlockWordsCountsRuns(b: Block)
    requires b.content.Some?
    ensures BlockWords(b) == 1 + SpaceRuns(b.content.value, false)
  {
    SplitWsCountsRuns(b.content.value);
  }

  /** 265 words read in one minute, 530 in two, 531 in three. */
  lemma ReadingTimeExamples(b: Block)
    ensures WordCount([b]) == BlockWords(b)
    ensures BlockWords(b) == 265 ==> ReadingTime([b]) == 1
    ensures BlockWords(b) == 530 ==> ReadingTime([b]) == 2
    ensures BlockWords(b) == 531 ==> ReadingTime([b]) == 3
    ensures BlockWords(b) == 0 ==> ReadingTime([b]) == 0
  {
    assert WordCount([b]) == BlockWords(b) + WordCount([]);
  }

  /** Which paths of the document the current write changed. */
  datatype Modified = Modified(published: bool, content: bool)

  /** `!this.excerpt`: absent or the empty string. */
  predicate ExcerptMissing(e: Option<string>) {
    e.None? || e.value == ""
  }

  /**
   * The pre-save hook. `publishedAt` is set to `now` only when `published`
   * was modified, is true and `publishedAt` is unset; a missing excerpt is
   * derived from a non-empty content; the reading time is recomputed only
   * when the content was modified. Nothing else changes.
   */
  function PreSave(p: Post, m: Modified, now: int): (q: Post)
    ensures p.publishedAt.Some? ==> q.publishedAt == p.publishedAt
    ensures q.publishedAt != p.publishedAt <==> m.published && p.published && p.publishedAt.None?
    ensures q.publishedAt != p.publishedAt ==> q.publishedAt == Some(now)
    ensures ExcerptMissing(p.excerpt) && |p.content| > 0 ==> q.excerpt == Some(DerivedExcerpt(p.content))
    ensures !(ExcerptMissing(p.excerpt) && |p.content| > 0) ==> q.excerpt == p.excerpt
    ensures q.readingTime == if m.content then ReadingTime(p.content) else p.readingTime
    ensures q.(publishedAt := p.publishedAt, excerpt := p.excerpt, readingTime := p.readingTime) == p
  {
    var publishedAt := if m.published && p.published && p.publishedAt.None? then Some(now) else p.publishedAt;
    var excerpt := if ExcerptMissing(p.excerpt) && |p.content| > 0 then Some(DerivedExcerpt(p.content)) else p.excerpt;
    var readingTime := if m.content then ReadingTime(p.content) else p.readingTime;
    p.(publishedAt := publishedAt, excerpt := excerpt, readingTime := readingTime)
  }

  /** Saving twice with the same modified paths changes nothing the first save did not, whatever the second instant. */
  lemma PreSaveIdempotent(p: Post, m: Modified, now: int, later: int)
    ensures PreSave(PreSave(p, m, now), m, later) == PreSave(p, m, now)
  {
  }

  /**
   * The first-publication instant survives every later save: publish at
   * `t1`, unpublish at `t2`, publish again at `t3`, and `publishedAt` is
   * still `t1`.
   */
  lemma PublishedAtSetOnce(p: Post, t1: int, t2: int, t3: int)
    requires p.publishedAt.None? && !p.published
    ensures var s1 := PreSave(p.(published := true), Modified(true, false), t1);
            var s2 := PreSave(s1.(published := false), Modified(true, false), t2);
            var s3 := PreSave(s2.(published := true), Modified(true, false), t3);
            s1.publishedAt == Some(t1) && s2.publishedAt == Some(t1) && s3.publishedAt == Some(t1)
  {
  }

  /**
   * An image block followed by a paragraph: the derived excerpt is the
   * paragraph's text, when that text is trimmed and short enough (as
   * "Hello world" is).
   */
  lemma ExcerptSkipsNonTextBlocks(image: Block, t: string)
    requires image.kind == Image
    requires JsLength(t) <= ExcerptMaxLength
    requires |t| > 0 ==> !IsSpace(t[0]) && !IsSpace(t[|t| - 1])
    ensures DerivedExcerpt([image, Bare(Paragraph).(content := Some(t))]) == t
  {
    var text := Bare(Paragraph).(content := Some(t));
    var blocks := [image, text];
    assert blocks[1..] == [text];
    assert FirstTextBlock([text]) == Some(0);
    assert FirstTextBlock(blocks) == Some(1);
    TrimKeepsTrimmed(t);
  }

  /**
   * A new document built from validated fields: `published` defaults to
   * false, `readingTime` to 0, `publishedAt` is as given and tags pass
   * through the `lowercase` setter.
   */
  function NewDocument(id: string, title: string, slug: string, content: seq<Block>,
                       excerpt: Option<string>, coverImage: Option<string>, author: Author,
                       published: Option<bool>, publishedAt: Option<int>,
                       tags: Option<seq<string>>, createdAt: int): (p: Post)
    ensures p.published == (published.Some? && published.value)
    ensures p.readingTime == 0
    ensures tags.None? ==> p.tags == []
    ensures tags.Some? ==> |p.tags| == |tags.value|
    ensures tags.Some? ==> forall i :: 0 <= i < |p.tags| ==> p.tags[i] == Lower(tags.value[i])
  {
    var ts := if tags.Some? then seq(|tags.value|, i requires 0 <= i < |tags.value| => Lower(tags.value[i])) else [];
    Post(id, title, slug, content, excerpt, coverImage, author, published.GetOr(false),
         publishedAt, ts, 0, createdAt)
  }
}

=== FILE: post_schemas.dfy ===
/**
 * The request validators of `app/lib/validation/postSchemas.ts`: the block
 * schema with its type-dependent `when` branches, and the create and update
 * schemas, all reporting every error rather than the first.
 *
 * Joi behaviour modelled, with every error collected: a value in the
 * `valid(...)` list (or `allow('')`) passes at once; any other value of a
 * `valid`-only schema is reported as not one of the list, and checking
 * goes on; a `string()` then rejects the empty string, which ends the
 * checks of that key, and otherwise runs each of its rules, every failing
 * rule adding its own error; a `number()` rejects a value beyond the
 * safe-integer range before its rules run; `forbidden()` rejects any
 * present value; keys the schema does not name are rejected; object keys
 * are checked in declaration order and array items before the array's own
 * `min` rule. A string's length is its UTF-16 length (`JsLength`). Whether
 * a string is a URI is a parameter (`isUri`).
 */
module PostSchemas {
  import opened Wrappers
  import opened Text
  import opened PostTypes
  import opened PostModel

  /** One step of an error path: an object key or an array index. */
  datatype PathSeg = Key(name: string) | Index(i: nat)

  /** The Joi error kinds the schemas can raise. */
  datatype ErrorKind =
    | Required          // any.required
    | Empty             // string.empty
    | NotOneOf          // any.only
    | NotUri            // string.uri
    | NotPositive       // number.positive
    | Unsafe            // number.unsafe, beyond Number.MAX_SAFE_INTEGER
    | Forbidden         // any.unknown, from forbidden()
    | NotAllowed        // object.unknown, a key the schema does not name
    | TooLong(limit: nat)   // string.max
    | PatternMismatch   // string.pattern.base
    | TooFew(min: nat)  // array.min
    | TooBig(max: nat)  // number.max

  /** One entry of `error.details`: where and what. */
  datatype Detail = Detail(path: seq<PathSeg>, kind: ErrorKind)

  /** The rules of one `string()` schema after `when` has chosen its branch. */
  datatype StringRule = StringRule(
    required: bool,
    allowEmpty: bool,
    only: Option<seq<string>>,
    maxLen: Option<nat>,
    uri: bool,
    slugPattern: bool)

  const OptionalString := StringRule(false, false, None, None, false, false)
  const RequiredString := OptionalString.(required := true)

  /** `contentBlockTypes` and `embedTypes` as the string lists the schema's `valid` rules hold. */
  const BlockTypeNames: seq<string> :=
    ["paragraph", "image", "video", "heading", "quote", "code", "divider", "embed"]
  const EmbedTypeNames: seq<string> := ["youtube", "tiktok", "unknown"]

  lemma BlockTypeNamesParse(s: string)
    ensures s in BlockTypeNames <==> ParseBlockType(s).Some?
  {
  }

  lemma EmbedTypeNamesParse(s: string)
    ensures s in EmbedTypeNames <==> ParseEmbedType(s).Some?
  {
  }

  /** The rules of a non-empty string that every value must pass: length, URI and slug pattern. */
  predicate RulesPass(s: string, rule: StringRule, isUri: string -> bool) {
    && (rule.maxLen.None? || JsLength(s) <= rule.maxLen.value)
    && (rule.uri ==> isUri(s))
    && (rule.slugPattern ==> MatchesSlugPattern(s))
  }

  /**
   * Whether a present string passes `rule`: the empty string when
   * `allow('')` is given; otherwise, under a `valid` list, a member of the
   * list; otherwise a non-empty string passing the rules.
   */
  predicate Accepted(s: string, rule: StringRule, isUri: string -> bool) {
    || (s == "" && rule.allowEmpty)
    || (if rule.only.Some? then s in rule.only.value else s != "" && RulesPass(s, rule, isUri))
  }

  /** The errors of the string rules, one per failing rule, in the order the schemas declare them. */
  function RuleErrors(s: string, rule: StringRule, isUri: string -> bool): (es: seq<ErrorKind>)
    ensures es == [] <==> RulesPass(s, rule, isUri)
    ensures rule.maxLen.Some? ==> (TooLong(rule.maxLen.value) in es <==> JsLength(s) > rule.maxLen.value)
    ensures NotUri in es <==> rule.uri && !isUri(s)
    ensures PatternMismatch in es <==> rule.slugPattern && !MatchesSlugPattern(s)
    ensures Required !in es && Empty !in es && NotOneOf !in es
  {
    (if rule.maxLen.Some? && JsLength(s) > rule.maxLen.value then [TooLong(rule.maxLen.value)] else [])
    + (if rule.uri && !isUri(s) then [NotUri] else [])
    + (if rule.slugPattern && !MatchesSlugPattern(s) then [PatternMismatch] else [])
  }

  /**
   * One string value against one rule, every error in the order Joi finds
   * them: absent fails only when required; an accepted value passes; any
   * other value under a `valid` list is first reported as not one of the
   * list; then the empty string is reported as empty, and a non-empty one
   * gets the error of each failing rule.
   */
  function CheckString(v: Option<string>, rule: StringRule, isUri: string -> bool): (es: seq<ErrorKind>)
    ensures v.None? ==> es == [] || es == [Required]
    ensures Required in es <==> v.None? && rule.required
    ensures v.Some? ==> (es == [] <==> Accepted(v.value, rule, isUri))
    ensures NotOneOf in es <==> v.Some? && rule.only.Some? && !Accepted(v.value, rule, isUri)
    ensures NotOneOf in es ==> es[0] == NotOneOf
    ensures Empty in es <==> v == Some("") && !Accepted("", rule, isUri)
    ensures Empty in es ==> es[|es| - 1] == Empty
    ensures v.Some? && v.value != "" && !Accepted(v.value, rule, isUri) ==>
      es == (if rule.only.Some? then [NotOneOf] else []) + RuleErrors(v.value, rule, isUri)
  {
    match v
    case None => if rule.required then [Required] else []
    case Some(s) =>
      if (s == "" && rule.allowEmpty) || (rule.only.Some? && s in rule.only.value) then []
      else (if rule.only.Some? then [NotOneOf] else []) + (if s == "" then [Empty] else RuleErrors(s, rule, isUri))
  }

  /** `Number.MAX_SAFE_INTEGER`, the bound of Joi's `number()` without `unsafe()`. */
  const MaxSafeInteger: int := 9007199254740991

  predicate SafeInteger(n: int) {
    -MaxSafeInteger <= n <= MaxSafeInteger
  }

  /** `number().positive().optional()`: an unsafe number stops at its base check, a safe one runs `positive`. */
  function CheckPositive(v: Option<int>): (es: seq<ErrorKind>)
    ensures es == [] <==> v.None? || 0 < v.value <= MaxSafeInteger
    ensures Unsafe in es <==> v.Some? && !SafeInteger(v.value)
    ensures NotPositive in es <==> v.Some? && SafeInteger(v.value) && v.value <= 0
    ensures |es| <= 1
  {
    match v
    case None => []
    case Some(n) => if !SafeInteger(n) then [Unsafe] else if n <= 0 then [NotPositive] else []
  }

  /** `forbidden()`: any present value is an error. */
  function CheckForbidden<T>(v: Option<T>): (es: seq<ErrorKind>)
    ensures es == [] <==> v.None?
    ensures v.Some? ==> es == [Forbidden]
  {
    if v.Some? then [Forbidden] else []
  }

  /** One detail at `path` for each error of a key, in order. */
  function Report(path: seq<PathSeg>, es: seq<ErrorKind>): (ds: seq<Detail>)
    ensures |ds| == |es|
    ensures forall i :: 0 <= i < |es| ==> ds[i] == Detail(path, es[i])
    ensures forall d :: d in ds <==> d.path == path && d.kind in es
  {
    var ds := seq(|es|, i requires 0 <= i < |es| => Detail(path, es[i]));
    assert forall d :: d in ds ==> d.path == path && d.kind in es;
    assert forall e :: e in es ==> Detail(path, e) in ds by {
      forall e | e in es ensures Detail(path, e) in ds {
        var i :| 0 <= i < |es| && es[i] == e;
        assert ds[i] == Detail(path, e);
      }
    }
    ds
  }

  /**
   * Whether a `when('type', ...)` condition selects its `then` branch. For
   * `content` and `url` the condition is a schema (`valid(...)`), which
   * also matches when `type` is absent; for the other fields it is a
   * literal, which Joi makes required, so an absent `type` selects
   * `otherwise`.
   */
  predicate ThenBranch(f: BlockField, kind: Option<string>) {
    match kind
    case None => f == ContentField || f == UrlField
    case Some(k) => ParseBlockType(k).Some? && ParseBlockType(k).value in RequiredKinds(f)
  }

  /** The keys of a block object, in the order the block schema declares them; `author` is not declared. */
  datatype BlockKey =
    | TypeKey | ContentKey | UrlKey | PublicIdKey | AltTextKey | CaptionKey
    | WidthKey | HeightKey | LanguageKey | EmbedTypeKey | AuthorKey

  const BlockKeys: seq<BlockKey> :=
    [TypeKey, ContentKey, UrlKey, PublicIdKey, AltTextKey, CaptionKey,
     WidthKey, HeightKey, LanguageKey, EmbedTypeKey, AuthorKey]

  function KeyName(k: BlockKey): string {
    match k
    case TypeKey => "type"
    case ContentKey => "content"
    case UrlKey => "url"
    case PublicIdKey => "publicId"
    case AltTextKey => "altText"
    case CaptionKey => "caption"
    case WidthKey => "width"
    case HeightKey => "height"
    case LanguageKey => "language"
    case EmbedTypeKey => "embedType"
    case AuthorKey => "author"
  }

  /** The key a kind-dependent field is stored under. */
  function FieldKey(f: BlockField): (k: BlockKey)
    ensures KeyName(k) == FieldName(f)
  {
    match f
    case ContentField => ContentKey
    case UrlField => UrlKey
    case PublicIdField => PublicIdKey
    case LanguageField => LanguageKey
    case EmbedTypeField => EmbedTypeKey
  }

  lemma KeyNamesDistinct(k: BlockKey, l: BlockKey)
    ensures KeyName(k) == KeyName(l) ==> k == l
  {
  }

  /** Where a key stands in the schema's key list. */
  function KeyIndex(k: BlockKey): (i: nat)
    ensures i < |BlockKeys| && BlockKeys[i] == k
  {
    match k
    case TypeKey => 0
    case ContentKey => 1
    case UrlKey => 2
    case PublicIdKey => 3
    case AltTextKey => 4
    case CaptionKey => 5
    case WidthKey => 6
    case HeightKey => 7
    case LanguageKey => 8
    case EmbedTypeKey => 9
    case AuthorKey => 10
  }

  /** Every key of the list passes exactly when every key passes. */
  lemma EveryKeyPasses(r: RawBlock, isUri: string -> bool)
    ensures (forall j :: 0 <= j < |BlockKeys| ==> CheckKey(r, BlockKeys[j], isUri) == [])
        <==> (forall k: BlockKey :: CheckKey(r, k, isUri) == [])
  {
    if forall j :: 0 <= j < |BlockKeys| ==> CheckKey(r, BlockKeys[j], isUri) == [] {
      forall k: BlockKey ensures CheckKey(r, k, isUri) == [] {
        assert CheckKey(r, BlockKeys[KeyIndex(k)], isUri) == [];
      }
    }
  }

  /** The rule of one key of `ContentBlockSchema`, its `when` branch chosen by the block's `type`. */
  function CheckKey(r: RawBlock, k: BlockKey, isUri: string -> bool): seq<ErrorKind> {
    match k
    case TypeKey => CheckString(r.kind, RequiredString.(only := Some(BlockTypeNames)), isUri)
    case ContentKey =>
      CheckString(r.content,
        if ThenBranch(ContentField, r.kind) then RequiredString else OptionalString.(allowEmpty := true), isUri)
    case UrlKey =>
      CheckString(r.url, if ThenBranch(UrlField, r.kind) then RequiredString.(uri := true) else OptionalString, isUri)
    case PublicIdKey =>
      if ThenBranch(PublicIdField, r.kind) then CheckString(r.publicId, RequiredString, isUri)
      else CheckForbidden(r.publicId)
    case AltTextKey => CheckString(r.altText, OptionalString, isUri)
    case CaptionKey => CheckString(r.caption, OptionalString, isUri)
    case WidthKey => CheckPositive(r.width)
    case HeightKey => CheckPositive(r.height)
    case LanguageKey =>
      CheckString(r.language, if ThenBranch(LanguageField, r.kind) then RequiredString else OptionalString, isUri)
    case EmbedTypeKey =>
      CheckString(r.embedType,
        if ThenBranch(EmbedTypeField, r.kind) then RequiredString.(only := Some(EmbedTypeNames)) else OptionalString, isUri)
    case AuthorKey => if r.author.Some? then [NotAllowed] else []
  }

  /** The detail key `k` of block `r` contributes at `at`, if any. */
  predicate Reported(r: RawBlock, k: BlockKey, at: seq<PathSeg>, isUri: string -> bool, d: Detail) {
    d.path == at + [Key(KeyName(k))] && d.kind in CheckKey(r, k, isUri)
  }

  /** The details of the given keys, in order. */
  function ReportKeys(r: RawBlock, keys: seq<BlockKey>, at: seq<PathSeg>, isUri: string -> bool): (errs: seq<Detail>)
    ensures errs == [] <==> forall j :: 0 <= j < |keys| ==> CheckKey(r, keys[j], isUri) == []
    ensures forall d :: d in errs ==> |d.path| == |at| + 1
  {
    if keys == [] then []
    else
      var here := Report(at + [Key(KeyName(keys[0]))], CheckKey(r, keys[0], isUri));
      var rest := ReportKeys(r, keys[1..], at, isUri);
      KeysPassSplit(r, keys, isUri);
      here + rest
  }

  lemma KeysPassSplit(r: RawBlock, keys: seq<BlockKey>, isUri: string -> bool)
    requires keys != []
    ensures (forall j :: 0 <= j < |keys| ==> CheckKey(r, keys[j], isUri) == []) <==>
      CheckKey(r, keys[0], isUri) == [] && forall j :: 0 <= j < |keys[1..]| ==> CheckKey(r, keys[1..][j], isUri) == []
  {
    if forall j :: 0 <= j < |keys[1..]| ==> CheckKey(r, keys[1..][j], isUri) == [] {
      forall j | 1 <= j < |keys| ensures CheckKey(r, keys[j], isUri) == [] {
        assert keys[j] == keys[1..][j - 1];
      }
    }
  }

  /** A detail is reported exactly when one of the keys' rules produced it. */
  lemma {:induction false} ReportKeysMembers(r: RawBlock, keys: seq<BlockKey>, at: seq<PathSeg>, isUri: string -> bool, d: Detail)
    ensures d in ReportKeys(r, keys, at, isUri) <==> exists j :: 0 <= j < |keys| && Reported(r, keys[j], at, isUri, d)
    decreases |keys|
  {
    if keys != [] {
      ReportKeysMembers(r, keys[1..], at, isUri, d);
      if d in ReportKeys(r, keys[1..], at, isUri) {
        var j :| 0 <= j < |keys[1..]| && Reported(r, keys[1..][j], at, isUri, d);
        assert Reported(r, keys[j + 1], at, isUri, d);
      }
      if exists j :: 0 <= j < |keys| && Reported(r, keys[j], at, isUri, d) {
        var j :| 0 <= j < |keys| && Reported(r, keys[j], at, isUri, d);
        if j > 0 {
          assert Reported(r, keys[1..][j - 1], at, isUri, d);
        }
      }
    }
  }

  /**
   * `ContentBlockSchema` applied to one block at `at` (the block's own
   * path): every error, keys in declaration order, then the one key the
   * block record has that the schema does not name.
   */
  function BlockErrors(r: RawBlock, at: seq<PathSeg>, isUri: string -> bool): (errs: seq<Detail>)
    ensures forall d :: d in errs ==> |d.path| == |at| + 1
    ensures errs == [] <==> forall k: BlockKey :: CheckKey(r, k, isUri) == []
  {
    var errs := ReportKeys(r, BlockKeys, at, isUri);
    EveryKeyPasses(r, isUri);
    errs
  }

  /** The block schema reports error `e` under key `k` exactly when that key's rule fails with `e`. */
  lemma BlockErrorAt(r: RawBlock, at: seq<PathSeg>, isUri: string -> bool, k: BlockKey, e: ErrorKind)
    ensures Detail(at + [Key(KeyName(k))], e) in BlockErrors(r, at, isUri) <==> e in CheckKey(r, k, isUri)
  {
    var d := Detail(at + [Key(KeyName(k))], e);
    ReportKeysMembers(r, BlockKeys, at, isUri, d);
    if d in BlockErrors(r, at, isUri) {
      var j :| 0 <= j < |BlockKeys| && Reported(r, BlockKeys[j], at, isUri, d);
      assert (at + [Key(KeyName(BlockKeys[j]))])[|at|] == Key(KeyName(BlockKeys[j]));
      assert d.path[|at|] == Key(KeyName(k));
      KeyNamesDistinct(k, BlockKeys[j]);
    }
    if e in CheckKey(r, k, isUri) {
      assert Reported(r, BlockKeys[KeyIndex(k)], at, isUri, d);
    }
  }

  /** An empty `type` is reported twice under the one key: as none of the kinds, and as empty. */
  lemma EmptyTypeReportedTwice(r: RawBlock, at: seq<PathSeg>, isUri: string -> bool)
    requires r.kind == Some("")
    ensures Detail(at + [Key("type")], NotOneOf) in BlockErrors(r, at, isUri)
    ensures Detail(at + [Key("type")], Empty) in BlockErrors(r, at, isUri)
  {
    assert CheckKey(r, TypeKey, isUri) == [NotOneOf, Empty];
    assert KeyName(TypeKey) == "type";
    BlockErrorAt(r, at, isUri, TypeKey, NotOneOf);
    BlockErrorAt(r, at, isUri, TypeKey, Empty);
  }

  /** A width past `Number.MAX_SAFE_INTEGER` fails `number()` itself: its only error is the unsafe one. */
  lemma UnsafeWidthRejected(r: RawBlock, at: seq<PathSeg>, isUri: string -> bool)
    requires r.width == Some(MaxSafeInteger + 1)
    ensures CheckKey(r, WidthKey, isUri) == [Unsafe]
    ensures Detail(at + [Key("width")], Unsafe) in BlockErrors(r, at, isUri)
    ensures Detail(at + [Key("width")], NotPositive) !in BlockErrors(r, at, isUri)
  {
    assert CheckKey(r, WidthKey, isUri) == [Unsafe] by {
      assert !SafeInteger(r.width.value);
    }
    assert KeyName(WidthKey) == "width";
    BlockErrorAt(r, at, isUri, WidthKey, Unsafe);
    BlockErrorAt(r, at, isUri, WidthKey, NotPositive);
  }

  /** A present string value is not empty. */
  predicate NonEmptyIfSet(v: Option<string>) {
    v.None? || v.value != ""
  }

  /**
   * What the block schema accepts, field by field: a known kind; every
   * field the kind requires filled (`url` with a URI, `embedType` with a
   * known embed kind); `publicId` only on images; optional string fields
   * non-empty when present, except `content`, which may be empty; positive
   * dimensions; no `author`.
   */
  predicate BlockConforms(r: RawBlock, isUri: string -> bool) {
    && r.kind.Some? && ParseBlockType(r.kind.value).Some?
    && KindFieldsConform(r, ParseBlockType(r.kind.value).value, isUri)
    && OtherFieldsConform(r)
  }

  /** The fields whose rules depend on the kind `t`. */
  predicate KindFieldsConform(r: RawBlock, t: BlockType, isUri: string -> bool) {
    && (forall f: BlockField :: t in RequiredKinds(f) ==> Filled(RawField(r, f)))
    && (t in RequiredKinds(UrlField) ==> r.url.Some? && isUri(r.url.value))
    && (t == Embed ==> r.embedType.Some? && ParseEmbedType(r.embedType.value).Some?)
    && (t != Image ==> r.publicId.None?)
    && (t !in RequiredKinds(UrlField) ==> NonEmptyIfSet(r.url))
    && (t != Code ==> NonEmptyIfSet(r.language))
    && (t != Embed ==> NonEmptyIfSet(r.embedType))
  }

  /** The fields whose rules do not depend on the kind. */
  predicate OtherFieldsConform(r: RawBlock) {
    && NonEmptyIfSet(r.altText) && NonEmptyIfSet(r.caption)
    && (r.width.None? || 0 < r.width.value <= MaxSafeInteger)
    && (r.height.None? || 0 < r.height.value <= MaxSafeInteger)
    && r.author.None?
  }

  /** A kind-dependent key that passes on a block of kind `t` holds a value whenever `t` requires one. */
  lemma PassingFieldKeyFilled(r: RawBlock, t: BlockType, isUri: string -> bool, f: BlockField)
    requires r.kind == Some(BlockTypeName(t))
    requires CheckKey(r, FieldKey(f), isUri) == []
    requires t in RequiredKinds(f)
    ensures Filled(RawField(r, f))
  {
    KindNamesRoundTrip(t, YouTube);
    assert ThenBranch(f, r.kind);
  }

  lemma PassingKindKeysConform(r: RawBlock, t: BlockType, isUri: string -> bool)
    requires r.kind == Some(BlockTypeName(t))
    requires forall k: BlockKey :: CheckKey(r, k, isUri) == []
    ensures KindFieldsConform(r, t, isUri)
  {
    forall f: BlockField | t in RequiredKinds(f) ensures Filled(RawField(r, f)) {
      PassingFieldKeyFilled(r, t, isUri, f);
    }
    KindNamesRoundTrip(t, YouTube);
    assert t in RequiredKinds(UrlField) ==> r.url.Some? && isUri(r.url.value) by {
      assert CheckKey(r, UrlKey, isUri) == [];
    }
    assert t != Image ==> r.publicId.None? by {
      assert CheckKey(r, PublicIdKey, isUri) == [];
    }
    assert t !in RequiredKinds(UrlField) ==> NonEmptyIfSet(r.url) by {
      assert CheckKey(r, UrlKey, isUri) == [];
    }
    assert t != Code ==> NonEmptyIfSet(r.language) by {
      assert CheckKey(r, LanguageKey, isUri) == [];
    }
    assert CheckKey(r, EmbedTypeKey, isUri) == [];
    if t == Embed {
      EmbedTypeNamesParse(r.embedType.value);
    }
  }

  lemma PassingKeysConform(r: RawBlock, isUri: string -> bool)
    requires forall k: BlockKey :: CheckKey(r, k, isUri) == []
    ensures BlockConforms(r, isUri)
  {
    assert CheckKey(r, TypeKey, isUri) == [];
    BlockTypeNamesParse(r.kind.value);
    var t := ParseBlockType(r.kind.value).value;
    PassingKindKeysConform(r, t, isUri);
    assert CheckKey(r, AltTextKey, isUri) == [] && CheckKey(r, CaptionKey, isUri) == [];
    assert CheckKey(r, WidthKey, isUri) == [] && CheckKey(r, HeightKey, isUri) == [];
    assert CheckKey(r, AuthorKey, isUri) == [];
  }

  /** A conforming block passes the rule of each kind-dependent key. */
  lemma ConformingFieldKeyPasses(r: RawBlock, isUri: string -> bool, f: BlockField)
    requires BlockConforms(r, isUri)
    ensures CheckKey(r, FieldKey(f), isUri) == []
  {
    BlockTypeNamesParse(r.kind.value);
    var t := ParseBlockType(r.kind.value).value;
    assert t in RequiredKinds(f) ==> Filled(RawField(r, f));
    match f
    case EmbedTypeField =>
      if t == Embed {
        EmbedTypeNamesParse(r.embedType.value);
      }
    case _ =>
  }

  lemma ConformingKeysPass(r: RawBlock, isUri: string -> bool, k: BlockKey)
    requires BlockConforms(r, isUri)
    ensures CheckKey(r, k, isUri) == []
  {
    match k
    case TypeKey => BlockTypeNamesParse(r.kind.value);
    case ContentKey => ConformingFieldKeyPasses(r, isUri, ContentField);
    case UrlKey => ConformingFieldKeyPasses(r, isUri, UrlField);
    case PublicIdKey => ConformingFieldKeyPasses(r, isUri, PublicIdField);
    case LanguageKey => ConformingFieldKeyPasses(r, isUri, LanguageField);
    case EmbedTypeKey => ConformingFieldKeyPasses(r, isUri, EmbedTypeField);
    case _ =>
  }

  /** The block schema reports nothing exactly when the block conforms. */
  lemma BlockErrorsEmptyIff(r: RawBlock, at: seq<PathSeg>, isUri: string -> bool)
    ensures BlockErrors(r, at, isUri) == [] <==> BlockConforms(r, isUri)
  {
    if BlockErrors(r, at, isUri) == [] {
      PassingKeysConform(r, isUri);
    }
    if BlockConforms(r, isUri) {
      forall k: BlockKey ensures CheckKey(r, k, isUri) == [] {
        ConformingKeysPass(r, isUri, k);
      }
    }
  }

  /**
   * On a block of known kind, the schema reports a field as missing exactly
   * when the stored-post rules require that field for the kind and the
   * field is absent: the request and storage layers agree on which fields
   * each kind needs.
   */
  lemma JoiRequiresWhatModelRequires(r: RawBlock, at: seq<PathSeg>, isUri: string -> bool, f: BlockField)
    requires r.kind.Some? && ParseBlockType(r.kind.value).Some?
    ensures Detail(at + [Key(FieldName(f))], Required) in BlockErrors(r, at, isUri) <==>
      ParseBlockType(r.kind.value).value in RequiredKinds(f) && RawField(r, f).None?
  {
    BlockErrorAt(r, at, isUri, FieldKey(f), Required);
    FieldKeyRequired(r, isUri, f);
  }

  /** A kind-dependent key is reported missing exactly when its `then` branch applies and the field is absent. */
  lemma FieldKeyRequired(r: RawBlock, isUri: string -> bool, f: BlockField)
    ensures Required in CheckKey(r, FieldKey(f), isUri) <==> ThenBranch(f, r.kind) && RawField(r, f).None?
  {
    match f
    case ContentField =>
    case UrlField =>
    case PublicIdField =>
    case LanguageField =>
    case EmbedTypeField =>
  }

  /** Without a `type`, `content` and `url` take their `then` branches and the literal-kind fields their `otherwise` ones. */
  lemma UntypedKeyChecks(r: RawBlock, isUri: string -> bool)
    requires r.kind.None?
    ensures Required in CheckKey(r, TypeKey, isUri)
    ensures Required in CheckKey(r, ContentKey, isUri) <==> r.content.None?
    ensures Required in CheckKey(r, UrlKey, isUri) <==> r.url.None?
    ensures Required !in CheckKey(r, PublicIdKey, isUri)
    ensures Required !in CheckKey(r, LanguageKey, isUri)
    ensures Required !in CheckKey(r, EmbedTypeKey, isUri)
    ensures r.publicId.Some? ==> Forbidden in CheckKey(r, PublicIdKey, isUri)
  {
    assert ThenBranch(ContentField, r.kind) && ThenBranch(UrlField, r.kind);
    assert !ThenBranch(PublicIdField, r.kind) && !ThenBranch(LanguageField, r.kind) && !ThenBranch(EmbedTypeField, r.kind);
  }

  /** Without a `type`, the schema demands `content` and `url` as well, but not the fields keyed on a literal kind. */
  lemma MissingTypeDemandsContentAndUrl(r: RawBlock, at: seq<PathSeg>, isUri: string -> bool)
    requires r.kind.None?
    ensures Detail(at + [Key("type")], Required) in BlockErrors(r, at, isUri)
    ensures r.content.None? <==> Detail(at + [Key("content")], Required) in BlockErrors(r, at, isUri)
    ensures r.url.None? <==> Detail(at + [Key("url")], Required) in BlockErrors(r, at, isUri)
    ensures Detail(at + [Key("publicId")], Required) !in BlockErrors(r, at, isUri)
    ensures Detail(at + [Key("language")], Required) !in BlockErrors(r, at, isUri)
    ensures Detail(at + [Key("embedType")], Required) !in BlockErrors(r, at, isUri)
    ensures r.publicId.Some? ==> Detail(at + [Key("publicId")], Forbidden) in BlockErrors(r, at, isUri)
  {
    UntypedKeyChecks(r, isUri);
    assert KeyName(TypeKey) == "type" && KeyName(ContentKey) == "content" && KeyName(UrlKey) == "url";
    assert KeyName(PublicIdKey) == "publicId" && KeyName(LanguageKey) == "language" && KeyName(EmbedTypeKey) == "embedType";
    BlockErrorAt(r, at, isUri, TypeKey, Required);
    BlockErrorAt(r, at, isUri, ContentKey, Required);
    BlockErrorAt(r, at, isUri, UrlKey, Required);
    BlockErrorAt(r, at, isUri, PublicIdKey, Required);
    BlockErrorAt(r, at, isUri, LanguageKey, Required);
    BlockErrorAt(r, at, isUri, EmbedTypeKey, Required);
    BlockErrorAt(r, at, isUri, PublicIdKey, Forbidden);
  }

  /** `publicId` on any block that is not an image is an error, whatever its value. */
  lemma PublicIdForbiddenOffImages(r: RawBlock, at: seq<PathSeg>, isUri: string -> bool)
    requires r.publicId.Some?
    requires r.kind != Some("image")
    ensures Detail(at + [Key("publicId")], Forbidden) in BlockErrors(r, at, isUri)
    ensures !BlockConforms(r, isUri)
  {
    assert CheckKey(r, PublicIdKey, isUri) == [Forbidden] by {
      assert !ThenBranch(PublicIdField, r.kind);
    }
    assert KeyName(PublicIdKey) == "publicId";
    BlockErrorAt(r, at, isUri, PublicIdKey, Forbidden);
    BlockErrorsEmptyIff(r, at, isUri);
  }

  /**
   * A block built from the create-input shape never carries a `publicId`,
   * so every image block of that shape is rejected for the missing field.
   */
  lemma CreateInputImageRejected(c: CreateInputBlock, at: seq<PathSeg>, isUri: string -> bool)
    requires c.kind == Image
    ensures Detail(at + [Key("publicId")], Required) in BlockErrors(EncodeCreateInput(c), at, isUri)
  {
    var r := EncodeCreateInput(c);
    assert r.kind == Some("image") && r.publicId.None?;
    assert CheckKey(r, PublicIdKey, isUri) == [Required] by {
      assert ThenBranch(PublicIdField, r.kind);
    }
    assert KeyName(PublicIdKey) == "publicId";
    BlockErrorAt(r, at, isUri, PublicIdKey, Required);
  }

  /** The empty `altText` and `caption` an image block starts with are each reported as empty. */
  lemma EmptyAltTextAndCaptionRejected(r: RawBlock, at: seq<PathSeg>, isUri: string -> bool)
    requires r.altText == Some("") && r.caption == Some("")
    ensures Detail(at + [Key("altText")], Empty) in BlockErrors(r, at, isUri)
    ensures Detail(at + [Key("caption")], Empty) in BlockErrors(r, at, isUri)
    ensures !BlockConforms(r, isUri)
  {
    assert CheckString(Some(""), OptionalString, isUri) == [Empty];
    assert CheckKey(r, AltTextKey, isUri) == [Empty] && CheckKey(r, CaptionKey, isUri) == [Empty];
    assert KeyName(AltTextKey) == "altText" && KeyName(CaptionKey) == "caption";
    BlockErrorAt(r, at, isUri, AltTextKey, Empty);
    BlockErrorAt(r, at, isUri, CaptionKey, Empty);
    BlockErrorsEmptyIff(r, at, isUri);
  }

  /** A field accepted by the request schema passes the stored-post `required` rule too. */
  lemma JoiAcceptedBlockHasRequiredFields(r: RawBlock, isUri: string -> bool)
    requires BlockConforms(r, isUri)
    ensures var t := ParseBlockType(r.kind.value).value;
      forall f: BlockField :: t in RequiredKinds(f) ==> Filled(RawField(r, f))
  {
  }

  /**
   * The request schema is looser than the stored-post schema in two ways:
   * a URI need not be an http(s) address, and a non-embed block may carry
   * an `embedType` outside the three embed kinds.
   */
  lemma JoiLooserThanModel(isUri: string -> bool)
    requires isUri("ftp://x")
    ensures var video := RawBlock(Some("video"), None, Some("ftp://x"), None, None, None, None, None, None, None, None);
      BlockConforms(video, isUri) && ModelBlockErrors(video) != []
    ensures var para := RawBlock(Some("paragraph"), Some("x"), None, None, None, None, None, None, None, Some("vimeo"), None);
      BlockConforms(para, isUri) && ModelBlockErrors(para) != []
  {
    FtpVideoSplitsSchemas(isUri);
    VimeoParagraphSplitsSchemas(isUri);
  }

  lemma FtpVideoSplitsSchemas(isUri: string -> bool)
    requires isUri("ftp://x")
    ensures var video := RawBlock(Some("video"), None, Some("ftp://x"), None, None, None, None, None, None, None, None);
      BlockConforms(video, isUri) && "url" in ModelBlockErrors(video)
  {
    var video := RawBlock(Some("video"), None, Some("ftp://x"), None, None, None, None, None, None, None, None);
    NotHttpPrefix(Lower("ftp://x"));
    assert !IsHttpUrl("ftp://x");
    assert BlockConforms(video, isUri);
  }

  lemma VimeoParagraphSplitsSchemas(isUri: string -> bool)
    ensures var para := RawBlock(Some("paragraph"), Some("x"), None, None, None, None, None, None, None, Some("vimeo"), None);
      BlockConforms(para, isUri) && "embedType" in ModelBlockErrors(para)
  {
    var para := RawBlock(Some("paragraph"), Some("x"), None, None, None, None, None, None, None, Some("vimeo"), None);
    assert BlockConforms(para, isUri);
  }

  /** Every item of an array schema, at `at + [Index(i)]`, in order. */
  function ItemErrors(blocks: seq<RawBlock>, at: seq<PathSeg>, from: nat, isUri: string -> bool): (errs: seq<Detail>)
    ensures errs == [] <==> forall i :: 0 <= i < |blocks| ==> BlockConforms(blocks[i], isUri)
    ensures forall d :: d in errs ==> |d.path| == |at| + 2
    decreases |blocks|
  {
    if blocks == [] then []
    else
      BlockErrorsEmptyIff(blocks[0], at + [Index(from)], isUri);
      var rest := ItemErrors(blocks[1..], at, from + 1, isUri);
      BlocksConformSplit(blocks, isUri);
      BlockErrors(blocks[0], at + [Index(from)], isUri) + rest
  }

  lemma BlocksConformSplit(blocks: seq<RawBlock>, isUri: string -> bool)
    requires blocks != []
    ensures (forall i :: 0 <= i < |blocks| ==> BlockConforms(blocks[i], isUri))
      <==> BlockConforms(blocks[0], isUri) && (forall i :: 0 <= i < |blocks[1..]| ==> BlockConforms(blocks[1..][i], isUri))
  {
    if forall i :: 0 <= i < |blocks[1..]| ==> BlockConforms(blocks[1..][i], isUri) {
      forall i | 1 <= i < |blocks| ensures BlockConforms(blocks[i], isUri) {
        assert blocks[i] == blocks[1..][i - 1];
      }
    }
  }

  /** `array().items(ContentBlockSchema).min(1)`: item errors first, then the size rule. */
  function ContentErrors(v: Option<seq<RawBlock>>, required: bool, isUri: string -> bool): (errs: seq<Detail>)
    ensures v.None? ==> (errs == [] <==> !required)
    ensures v.Some? ==> (errs == [] <==> |v.value| >= 1 && forall i :: 0 <= i < |v.value| ==> BlockConforms(v.value[i], isUri))
    ensures v.Some? && v.value == [] ==> errs == [Detail([Key("content")], TooFew(1))]
  {
    match v
    case None => Report([Key("content")], if required then [Required] else [])
    case Some(blocks) =>
      ItemErrors(blocks, [Key("content")], 0, isUri)
      + Report([Key("content")], if |blocks| < 1 then [TooFew(1)] else [])
  }

  const TagRule := OptionalString.(maxLen := Some(TagMaxLength))

  /** `array().items(string().max(25).lowercase())`: each tag, lower-cased before its length is checked. */
  function TagErrors(tags: seq<string>, from: nat, isUri: string -> bool): (errs: seq<Detail>)
    ensures errs == [] <==> forall i :: 0 <= i < |tags| ==> tags[i] != "" && JsLength(tags[i]) <= TagMaxLength
    decreases |tags|
  {
    if tags == [] then []
    else
      var rest := TagErrors(tags[1..], from + 1, isUri);
      TagsFitSplit(tags);
      TagCheck(tags[0], isUri);
      Report([Key("tags"), Index(from)], CheckString(Some(Lower(tags[0])), TagRule, isUri)) + rest
  }

  /** One tag passes the tag rule exactly when it is non-empty and fits, lower-cased or not. */
  lemma TagCheck(t: string, isUri: string -> bool)
    ensures CheckString(Some(Lower(t)), TagRule, isUri) == [] <==> t != "" && JsLength(t) <= TagMaxLength
  {
    JsLengthLower(t);
    assert Lower(t) == "" <==> t == "";
  }

  lemma TagsFitSplit(tags: seq<string>)
    requires tags != []
    ensures (forall i :: 0 <= i < |tags| ==> tags[i] != "" && JsLength(tags[i]) <= TagMaxLength)
      <==> (tags[0] != "" && JsLength(tags[0]) <= TagMaxLength)
           && (forall i :: 0 <= i < |tags[1..]| ==> tags[1..][i] != "" && JsLength(tags[1..][i]) <= TagMaxLength)
  {
    if forall i :: 0 <= i < |tags[1..]| ==> tags[1..][i] != "" && JsLength(tags[1..][i]) <= TagMaxLength {
      forall i | 1 <= i < |tags| ensures tags[i] != "" && JsLength(tags[i]) <= TagMaxLength {
        assert tags[i] == tags[1..][i - 1];
      }
    }
  }

  /** The tags as stored: each one lower-cased. */
  function LowerTags(tags: seq<string>): (r: seq<string>)
    ensures |r| == |tags| && forall i :: 0 <= i < |tags| ==> r[i] == Lower(tags[i])
  {
    seq(|tags|, i requires 0 <= i < |tags| => Lower(tags[i]))
  }

  const TitleRule := OptionalString.(maxLen := Some(TitleMaxLength))
  const SlugRule := OptionalString.(slugPattern := true)
  const ExcerptRule := OptionalString.(maxLen := Some(ExcerptMaxLength))
  const CoverRule := OptionalString.(uri := true)

  /** The errors of the keys whose presence the create schema demands: title, slug and content. */
  function HeadErrors(p: RawPost, requireAll: bool, isUri: string -> bool): seq<Detail> {
    Report([Key("title")], CheckString(p.title, TitleRule.(required := requireAll), isUri))
    + Report([Key("slug")], CheckString(p.slug, SlugRule.(required := requireAll), isUri))
    + ContentErrors(p.content, requireAll, isUri)
  }

  /** The errors of the keys both schemas treat alike: excerpt, cover image and tags. */
  function TailErrors(p: RawPost, isUri: string -> bool): (errs: seq<Detail>)
    ensures errs == [] <==>
      && FitsIfSet(p.excerpt, ExcerptMaxLength)
      && (p.coverImage.None? || (p.coverImage.value != "" && isUri(p.coverImage.value)))
      && (p.tags.Some? ==> forall i :: 0 <= i < |p.tags.value| ==>
            p.tags.value[i] != "" && JsLength(p.tags.value[i]) <= TagMaxLength)
  {
    Report([Key("excerpt")], CheckString(p.excerpt, ExcerptRule, isUri))
    + Report([Key("coverImage")], CheckString(p.coverImage, CoverRule, isUri))
    + (if p.tags.Some? then TagErrors(p.tags.value, 0, isUri) else [])
  }

  /**
   * Every error of a post body, in schema order. `requireAll` selects the
   * create schema (title, slug and content required) over the update
   * schema (every field optional); otherwise the two have the same shape.
   */
  function PostErrors(p: RawPost, requireAll: bool, isUri: string -> bool): seq<Detail> {
    HeadErrors(p, requireAll, isUri) + TailErrors(p, isUri)
  }

  /** A present string is non-empty and within a length limit. */
  predicate FitsIfSet(v: Option<string>, limit: nat) {
    v.None? || (v.value != "" && JsLength(v.value) <= limit)
  }

  /**
   * What the update schema accepts: each present field is well formed: a
   * non-empty title of at most 120 UTF-16 code units, a slug matching the
   * slug pattern, at least one block and every block conforming, an excerpt
   * of at most 300 units, a URI cover image, non-empty tags of at most 25
   * units.
   */
  predicate UpdateConforms(p: RawPost, isUri: string -> bool) {
    && FitsIfSet(p.title, TitleMaxLength)
    && (p.slug.None? || MatchesSlugPattern(p.slug.value))
    && (p.content.Some? ==>
          |p.content.value| >= 1 && forall i :: 0 <= i < |p.content.value| ==> BlockConforms(p.content.value[i], isUri))
    && FitsIfSet(p.excerpt, ExcerptMaxLength)
    && (p.coverImage.None? || (p.coverImage.value != "" && isUri(p.coverImage.value)))
    && (p.tags.Some? ==> forall i :: 0 <= i < |p.tags.value| ==>
          p.tags.value[i] != "" && JsLength(p.tags.value[i]) <= TagMaxLength)
  }

  /** What the create schema accepts: the update conditions, with title, slug and content present. */
  predicate CreateConforms(p: RawPost, isUri: string -> bool) {
    p.title.Some? && p.slug.Some? && p.content.Some? && UpdateConforms(p, isUri)
  }

  /** The post schemas report nothing exactly when the body conforms. */
  lemma PostErrorsEmptyIff(p: RawPost, isUri: string -> bool)
    ensures PostErrors(p, true, isUri) == [] <==> CreateConforms(p, isUri)
    ensures PostErrors(p, false, isUri) == [] <==> UpdateConforms(p, isUri)
  {
    HeadErrorsEmptyIff(p, true, isUri);
    HeadErrorsEmptyIff(p, false, isUri);
  }

  /** The head keys report nothing exactly when the present ones are well formed and, for create, all are present. */
  lemma HeadErrorsEmptyIff(p: RawPost, requireAll: bool, isUri: string -> bool)
    ensures HeadErrors(p, requireAll, isUri) == [] <==>
      && (requireAll ==> p.title.Some? && p.slug.Some? && p.content.Some?)
      && FitsIfSet(p.title, TitleMaxLength)
      && (p.slug.None? || MatchesSlugPattern(p.slug.value))
      && (p.content.Some? ==>
            |p.content.value| >= 1 && forall i :: 0 <= i < |p.content.value| ==> BlockConforms(p.content.value[i], isUri))
  {
    if p.slug.Some? && p.slug.value == "" {
      assert !MatchesSlugPattern(p.slug.value);
    }
  }

  /**
   * `PostCreateSchema.validate`: every error, or the converted body with
   * tags lower-cased and `published` defaulting to false.
   */
  function ValidateCreate(p: RawPost, isUri: string -> bool): (r: Result<RawPost, seq<Detail>>)
    ensures r.Ok? <==> CreateConforms(p, isUri)
    ensures r.Err? ==> |r.error| > 0
    ensures r.Ok? ==> r.value.published == Some(p.published.GetOr(false))
    ensures r.Ok? ==> r.value.tags.Some? == p.tags.Some?
    ensures r.Ok? && p.tags.Some? ==> r.value.tags.value == LowerTags(p.tags.value)
    ensures r.Ok? ==> r.value.(published := p.published, tags := p.tags) == p
  {
    PostErrorsEmptyIff(p, isUri);
    var errs := PostErrors(p, true, isUri);
    if errs != [] then Err(errs)
    else Ok(p.(tags := if p.tags.Some? then Some(LowerTags(p.tags.value)) else None,
               published := Some(p.published.GetOr(false))))
  }

  /** `PostUpdateSchema.validate`: the same checks with every field optional and no default for `published`. */
  function ValidateUpdate(p: RawPost, isUri: string -> bool): (r: Result<RawPost, seq<Detail>>)
    ensures r.Ok? <==> UpdateConforms(p, isUri)
    ensures r.Err? ==> |r.error| > 0
    ensures r.Ok? ==> r.value.published == p.published
    ensures r.Ok? ==> r.value.tags.Some? == p.tags.Some?
    ensures r.Ok? && p.tags.Some? ==> r.value.tags.value == LowerTags(p.tags.value)
    ensures r.Ok? ==> r.value.(tags := p.tags) == p
  {
    PostErrorsEmptyIff(p, isUri);
    var errs := PostErrors(p, false, isUri);
    if errs != [] then Err(errs)
    else Ok(p.(tags := if p.tags.Some? then Some(LowerTags(p.tags.value)) else None))
  }

  /** A top-level "missing field" detail: the only kind the create schema adds over the update schema. */
  predicate TopLevelRequired(d: Detail) {
    |d.path| == 1 && d.kind == Required
  }

  function DropTopLevelRequired(ds: seq<Detail>): (r: seq<Detail>)
    ensures forall d :: d in r <==> d in ds && !TopLevelRequired(d)
  {
    if ds == [] then []
    else (if TopLevelRequired(ds[0]) then [] else [ds[0]]) + DropTopLevelRequired(ds[1..])
  }

  lemma {:induction false} DropTopLevelRequiredAppend(a: seq<Detail>, b: seq<Detail>)
    ensures DropTopLevelRequired(a + b) == DropTopLevelRequired(a) + DropTopLevelRequired(b)
    decreases |a|
  {
    if a == [] {
      assert a + b == b;
    } else {
      assert (a + b)[1..] == a[1..] + b;
      DropTopLevelRequiredAppend(a[1..], b);
    }
  }

  /** Nested details never have a one-step path, so dropping top-level "missing" details keeps them all. */
  lemma {:induction false} DropKeepsOthers(ds: seq<Detail>)
    requires forall d :: d in ds ==> !TopLevelRequired(d)
    ensures DropTopLevelRequired(ds) == ds
    decreases |ds|
  {
    if ds != [] {
      DropKeepsOthers(ds[1..]);
      assert ds == [ds[0]] + ds[1..];
    }
  }

  lemma TagErrorsNotRequired(tags: seq<string>, from: nat, isUri: string -> bool)
    ensures forall d :: d in TagErrors(tags, from, isUri) ==> d.kind != Required
    decreases |tags|
  {
    if tags != [] {
      TagErrorsNotRequired(tags[1..], from + 1, isUri);
    }
  }

  /** `required` only decides what a missing value reports: a present one gets the same errors either way. */
  lemma PresentIgnoresRequired(s: string, rule: StringRule, isUri: string -> bool)
    ensures CheckString(Some(s), rule.(required := true), isUri) == CheckString(Some(s), rule.(required := false), isUri)
  {
    var on, off := rule.(required := true), rule.(required := false);
    assert on.allowEmpty == off.allowEmpty && on.only == off.only;
    assert RuleErrors(s, on, isUri) == RuleErrors(s, off, isUri);
  }

  /** Making a top-level string key optional removes exactly its "missing" detail. */
  lemma DropOptionalKey(key: string, v: Option<string>, rule: StringRule, isUri: string -> bool)
    ensures DropTopLevelRequired(Report([Key(key)], CheckString(v, rule.(required := true), isUri)))
         == Report([Key(key)], CheckString(v, rule.(required := false), isUri))
  {
    var optional := Report([Key(key)], CheckString(v, rule.(required := false), isUri));
    if v.Some? {
      PresentIgnoresRequired(v.value, rule, isUri);
      DropKeepsOthers(optional);
    } else {
      var ds := Report([Key(key)], CheckString(v, rule.(required := true), isUri));
      assert ds == [Detail([Key(key)], Required)] && optional == [];
      assert DropTopLevelRequired(ds) == DropTopLevelRequired(ds[1..]);
    }
  }

  lemma DropOptionalContent(v: Option<seq<RawBlock>>, isUri: string -> bool)
    ensures DropTopLevelRequired(ContentErrors(v, true, isUri)) == ContentErrors(v, false, isUri)
  {
    if v.Some? {
      var items := ItemErrors(v.value, [Key("content")], 0, isUri);
      var size := Report([Key("content")], if |v.value| < 1 then [TooFew(1)] else []);
      DropTopLevelRequiredAppend(items, size);
      DropKeepsOthers(items);
      DropKeepsOthers(size);
    }
  }

  lemma DropKeepsTail(p: RawPost, isUri: string -> bool)
    ensures DropTopLevelRequired(TailErrors(p, isUri)) == TailErrors(p, isUri)
  {
    if p.tags.Some? {
      TagErrorsNotRequired(p.tags.value, 0, isUri);
    }
    DropKeepsOthers(TailErrors(p, isUri));
  }

  /**
   * The update schema reports exactly the create schema's errors, in the
   * same order, less the "missing" errors for title, slug and content.
   */
  lemma UpdateErrorsAreCreateErrorsLessMissing(p: RawPost, isUri: string -> bool)
    ensures PostErrors(p, false, isUri) == DropTopLevelRequired(PostErrors(p, true, isUri))
  {
    var title := Report([Key("title")], CheckString(p.title, TitleRule.(required := true), isUri));
    var slug := Report([Key("slug")], CheckString(p.slug, SlugRule.(required := true), isUri));
    var content := ContentErrors(p.content, true, isUri);
    var tail := TailErrors(p, isUri);
    assert PostErrors(p, true, isUri) == title + slug + content + tail;
    DropTopLevelRequiredAppend(title + slug + content, tail);
    DropTopLevelRequiredAppend(title + slug, content);
    DropTopLevelRequiredAppend(title, slug);
    DropOptionalKey("title", p.title, TitleRule, isUri);
    DropOptionalKey("slug", p.slug, SlugRule, isUri);
    DropOptionalContent(p.content, isUri);
    DropKeepsTail(p, isUri);
  }
}

=== FILE: post_types.dfy ===
/**
 * The post data model of `app/types/post.ts`: the eight content-block kinds,
 * the three embed kinds, the block record every field of which except the
 * kind is optional, the wire form a validator sees, the stored post and the
 * paginated listing.
 */
module PostTypes {
  import opened Wrappers

  /** `contentBlockTypes`, in declaration order. */
  datatype BlockType = Paragraph | Image | Video | Heading | Quote | Code | Divider | Embed

  /** `embedTypes`, in declaration order. */
  datatype EmbedType = YouTube | TikTok | UnknownEmbed

  const AllBlockTypes: seq<BlockType> :=
    [Paragraph, Image, Video, Heading, Quote, Code, Divider, Embed]

  const AllEmbedTypes: seq<EmbedType> := [YouTube, TikTok, UnknownEmbed]

  /** The string a block kind is spelled as in JSON. */
  function BlockTypeName(t: BlockType): string {
    match t
    case Paragraph => "paragraph"
    case Image => "image"
    case Video => "video"
    case Heading => "heading"
    case Quote => "quote"
    case Code => "code"
    case Divider => "divider"
    case Embed => "embed"
  }

  function EmbedTypeName(e: EmbedType): string {
    match e
    case YouTube => "youtube"
    case TikTok => "tiktok"
    case UnknownEmbed => "unknown"
  }

  /** Membership of a JSON string in `contentBlockTypes`, with the kind it names. */
  function ParseBlockType(s: string): (r: Option<BlockType>)
    ensures r.Some? ==> BlockTypeName(r.value) == s
    ensures r.None? ==> forall t: BlockType :: BlockTypeName(t) != s
  {
    if s == "paragraph" then Some(Paragraph)
    else if s == "image" then Some(Image)
    else if s == "video" then Some(Video)
    else if s == "heading" then Some(Heading)
    else if s == "quote" then Some(Quote)
    else if s == "code" then Some(Code)
    else if s == "divider" then Some(Divider)
    else if s == "embed" then Some(Embed)
    else None
  }

  /** Membership of a JSON string in `embedTypes`, with the kind it names. */
  function ParseEmbedType(s: string): (r: Option<EmbedType>)
    ensures r.Some? ==> EmbedTypeName(r.value) == s
    ensures r.None? ==> forall e: EmbedType :: EmbedTypeName(e) != s
  {
    if s == "youtube" then Some(YouTube)
    else if s == "tiktok" then Some(TikTok)
    else if s == "unknown" then Some(UnknownEmbed)
    else None
  }

  /** There are exactly eight block kinds and three embed kinds, each listed once. */
  lemma KindsEnumerated()
    ensures |AllBlockTypes| == 8 && forall t: BlockType :: t in AllBlockTypes
    ensures forall i, j :: 0 <= i < j < |AllBlockTypes| ==> AllBlockTypes[i] != AllBlockTypes[j]
    ensures |AllEmbedTypes| == 3 && forall e: EmbedType :: e in AllEmbedTypes
    ensures forall i, j :: 0 <= i < j < |AllEmbedTypes| ==> AllEmbedTypes[i] != AllEmbedTypes[j]
  {
    forall t: BlockType ensures t in AllBlockTypes {
      match t
      case Paragraph => assert AllBlockTypes[0] == t;
      case Image => assert AllBlockTypes[1] == t;
      case Video => assert AllBlockTypes[2] == t;
      case Heading => assert AllBlockTypes[3] == t;
      case Quote => assert AllBlockTypes[4] == t;
      case Code => assert AllBlockTypes[5] == t;
      case Divider => assert AllBlockTypes[6] == t;
      case Embed => assert AllBlockTypes[7] == t;
    }
    forall e: EmbedType ensures e in AllEmbedTypes {
      match e
      case YouTube => assert AllEmbedTypes[0] == e;
      case TikTok => assert AllEmbedTypes[1] == e;
      case UnknownEmbed => assert AllEmbedTypes[2] == e;
    }
  }

  /** Spelling a kind and reading it back gives the kind; distinct kinds have distinct spellings. */
  lemma KindNamesRoundTrip(t: BlockType, e: EmbedType)
    ensures ParseBlockType(BlockTypeName(t)) == Some(t)
    ensures ParseEmbedType(EmbedTypeName(e)) == Some(e)
    ensures forall u: BlockType :: BlockTypeName(u) == BlockTypeName(t) ==> u == t
  {
  }

  /**
   * `ContentBlockInput`: `kind` is the JSON key `type`, the only field every
   * block must carry; every other field may be absent.
   */
  datatype Block = Block(
    kind: BlockType,
    content: Option<string>,
    url: Option<string>,
    altText: Option<string>,
    caption: Option<string>,
    width: Option<int>,
    height: Option<int>,
    language: Option<string>,
    author: Option<string>,
    embedType: Option<EmbedType>,
    publicId: Option<string>)

  /** A block of the given kind with no other field set. */
  function Bare(t: BlockType): Block {
    Block(t, None, None, None, None, None, None, None, None, None, None)
  }

  /**
   * A block object as it arrives in a request body and as a validator sees
   * it: the kind and embed kind are arbitrary strings, and any key may be
   * missing, the kind included.
   */
  datatype RawBlock = RawBlock(
    kind: Option<string>,
    content: Option<string>,
    url: Option<string>,
    altText: Option<string>,
    caption: Option<string>,
    width: Option<int>,
    height: Option<int>,
    language: Option<string>,
    author: Option<string>,
    embedType: Option<string>,
    publicId: Option<string>)

  function EncodeEmbed(e: Option<EmbedType>): Option<string> {
    match e
    case None => None
    case Some(x) => Some(EmbedTypeName(x))
  }

  /**
   * The JSON object of a block. Absent fields produce no key at all, as the
   * stored block's `toJSON` transform deletes null and undefined keys.
   */
  function Encode(b: Block): (r: RawBlock)
    ensures r.kind == Some(BlockTypeName(b.kind))
    ensures r.embedType.Some? <==> b.embedType.Some?
    ensures r.content == b.content && r.url == b.url && r.publicId == b.publicId
  {
    RawBlock(Some(BlockTypeName(b.kind)), b.content, b.url, b.altText, b.caption,
             b.width, b.height, b.language, b.author, EncodeEmbed(b.embedType), b.publicId)
  }

  /** Reads a JSON block back into a typed block; fails on an absent or unknown kind or embed kind. */
  function Decode(r: RawBlock): (b: Option<Block>)
    ensures b.Some? <==> r.kind.Some? && ParseBlockType(r.kind.value).Some?
                         && (r.embedType.Some? ==> ParseEmbedType(r.embedType.value).Some?)
  {
    if r.kind.None? then None
    else match ParseBlockType(r.kind.value)
      case None => None
      case Some(t) =>
        if r.embedType.None? then
          Some(Block(t, r.content, r.url, r.altText, r.caption, r.width, r.height,
                     r.language, r.author, None, r.publicId))
        else match ParseEmbedType(r.embedType.value)
          case None => None
          case Some(e) =>
            Some(Block(t, r.content, r.url, r.altText, r.caption, r.width, r.height,
                       r.language, r.author, Some(e), r.publicId))
  }

  /** Encoding then decoding a block is the identity, and so is the reverse on decodable objects. */
  lemma EncodeDecodeRoundTrip(b: Block, r: RawBlock)
    ensures Decode(Encode(b)) == Some(b)
    ensures Decode(r).Some? ==> Encode(Decode(r).value) == r
  {
    KindNamesRoundTrip(b.kind, if b.embedType.Some? then b.embedType.value else YouTube);
  }

  /**
   * One element of `PostCreateInput.content`: the same fields as a block
   * except that there is no `publicId` (and no `author`).
   */
  datatype CreateInputBlock = CreateInputBlock(
    kind: BlockType,
    content: Option<string>,
    url: Option<string>,
    altText: Option<string>,
    caption: Option<string>,
    width: Option<int>,
    height: Option<int>,
    language: Option<string>,
    embedType: Option<EmbedType>)

  /** The JSON object of a create-input block: its `publicId` key is always absent. */
  function EncodeCreateInput(c: CreateInputBlock): (r: RawBlock)
    ensures r.publicId.None? && r.author.None?
    ensures Decode(r) == Some(Block(c.kind, c.content, c.url, c.altText, c.caption, c.width,
                                    c.height, c.language, None, c.embedType, None))
  {
    var b := Block(c.kind, c.content, c.url, c.altText, c.caption, c.width, c.height,
                   c.language, None, c.embedType, None);
    EncodeDecodeRoundTrip(b, Encode(b));
    Encode(b)
  }

  /** A raw post body as the create and update validators see it. */
  datatype RawPost = RawPost(
    title: Option<string>,
    slug: Option<string>,
    content: Option<seq<RawBlock>>,
    excerpt: Option<string>,
    coverImage: Option<string>,
    tags: Option<seq<string>>,
    published: Option<bool>)

  /** The populated `author` of a `PostResponse`. */
  datatype Author = Author(id: string, name: Option<string>, email: Option<string>)

  /** A stored post (`IPost` / `PostResponse`); instants are integers, in milliseconds. */
  datatype Post = Post(
    id: string,
    title: string,
    slug: string,
    content: seq<Block>,
    excerpt: Option<string>,
    coverImage: Option<string>,
    author: Author,
    published: bool,
    publishedAt: Option<int>,
    tags: seq<string>,
    readingTime: int,
    createdAt: int)

  /** The pagination record of `PaginatedPostResponse`. */
  datatype Pagination = Pagination(page: int, limit: int, total: int, totalPages: int)

  /** `PaginatedPostResponse`: one page of posts with its pagination record. */
  datatype PaginatedPosts = PaginatedPosts(data: seq<Post>, pagination: Pagination)
}

=== FILE: posts_creation.dfy ===
/**
 * `POST /api/posts` of `app/api/posts/route.ts` and its helper
 * `processContentBlocks`: the request gates in order (content type, JSON
 * body, admin caller, schema validation), the move of draft images to the
 * published folder, and the store with its save-time validation and
 * pre-save hook.
 *
 * The image store, the database write, the clock, the URI test and the
 * renderers of error messages are parameters.
 */
module PostsCreation {
  import opened Wrappers
  import opened Text
  import opened PostTypes
  import opened PostModel
  import opened PostSchemas
  import opened Utils
  import opened UserTypes

  // ---- draft image paths -------------------------------------------------------

  const DraftsSegment: string := "/drafts/"
  const PostsSegment: string := "/posts/"

  /** An image block whose url contains `/drafts/`: the blocks the create route tries to move. */
  predicate IsDraftImage(b: RawBlock) {
    b.kind == Some("image") && b.url.Some? && Contains(b.url.value, DraftsSegment)
  }

  /**
   * `url.split('/drafts/')[1].split('.')[0]`: what follows the first
   * `/drafts/`, up to the next `/drafts/` and then up to the first dot.
   */
  function DraftPath(url: string): (path: string)
    requires Contains(url, DraftsSegment)
    ensures OccursAt(url, DraftsSegment + path, IndexOf(url, DraftsSegment).value)
    ensures !Contains(path, ".") && !Contains(path, DraftsSegment)
  {
    var i := IndexOf(url, DraftsSegment).value;
    var after := url[i + |DraftsSegment|..];
    var piece := UpTo(after, DraftsSegment);
    var path := UpTo(piece, ".");
    PrefixLacks(piece, path, DraftsSegment);
    assert url[i..i + |DraftsSegment| + |path|] == DraftsSegment + path by {
      assert url[i..i + |DraftsSegment|] == DraftsSegment;
      assert after[..|piece|] == piece && piece[..|path|] == path;
      assert after[..|path|] == piece[..|path|] == path;
      assert url[i + |DraftsSegment|..i + |DraftsSegment| + |path|] == after[..|path|];
      assert url[i..i + |DraftsSegment| + |path|]
          == url[i..i + |DraftsSegment|] + url[i + |DraftsSegment|..i + |DraftsSegment| + |path|];
    }
    path
  }

  /**
   * The asset names `processContentBlocks` renames, as written: the draft
   * path already begins with the user's folder, and the route puts the
   * user's id in front of it once more.
   */
  function RenameIdsAsWritten(userId: string, url: string): (ids: (string, string))
    requires Contains(url, DraftsSegment)
    ensures ids.0 == "drafts/" + userId + "/" + DraftPath(url)
    ensures ids.1 == "posts/" + userId + "/" + DraftPath(url)
  {
    ("drafts/" + userId + "/" + DraftPath(url), "posts/" + userId + "/" + DraftPath(url))
  }

  /**
   * The asset names evidently intended: the draft asset the url points to,
   * and the same path under the published folder.
   */
  function RenameIds(url: string): (ids: (string, string))
    requires Contains(url, DraftsSegment)
    ensures |ids.0| >= 7 && ids.0[..7] == "drafts/" && |ids.1| >= 6 && ids.1[..6] == "posts/"
    ensures ids.0[7..] == ids.1[6..] && !Contains(ids.0[7..], ".")
  {
    ("drafts/" + DraftPath(url), "posts/" + DraftPath(url))
  }

  /**
   * The url with its first `/drafts/` replaced by `/posts/`: the text
   * before and after that segment is kept, so a rewritten url is one
   * character shorter and a moved block always differs from the original.
   */
  function PublishedUrl(url: string): (r: string)
    ensures !Contains(url, DraftsSegment) ==> r == url
    ensures Contains(url, DraftsSegment) ==>
      var i := IndexOf(url, DraftsSegment).value;
      && |r| == |url| - 1
      && r[..i] == url[..i]
      && OccursAt(r, PostsSegment, i)
      && r[i + |PostsSegment|..] == url[i + |DraftsSegment|..]
  {
    var r := ReplaceFirst(url, DraftsSegment, PostsSegment);
    if Contains(url, DraftsSegment) then
      var i := IndexOf(url, DraftsSegment).value;
      assert r[i..i + |PostsSegment|] == PostsSegment;
      r
    else r
  }

  /** A replacement followed by text starting with `path` puts `rep + path` right after `a`. */
  lemma SpliceOccurs(a: string, rep: string, b: string, path: string)
    requires StartsWith(b, path)
    ensures OccursAt(a + rep + b, rep + path, |a|)
  {
    assert (a + rep + b)[|a|..|a| + |rep| + |path|] == rep + b[..|path|];
  }

  /** `IndexOf` finds an occurrence exactly when none comes earlier. */
  lemma IndexOfIs(s: string, sub: string, i: nat)
    requires OccursAt(s, sub, i)
    requires forall k :: 0 <= k < i ==> !OccursAt(s, sub, k)
    ensures Contains(s, sub) && IndexOf(s, sub) == Some(i)
  {
  }

  /** The text after the first `/drafts/` of a url starts with its draft path. */
  lemma DraftPathFollowsSegment(url: string)
    requires Contains(url, DraftsSegment)
    ensures StartsWith(url[IndexOf(url, DraftsSegment).value + |DraftsSegment|..], DraftPath(url))
  {
    var i := IndexOf(url, DraftsSegment).value;
    var path := DraftPath(url);
    assert url[i..i + |DraftsSegment| + |path|] == DraftsSegment + path;
    assert url[i + |DraftsSegment|..][..|path|] == url[i + |DraftsSegment|..i + |DraftsSegment| + |path|];
  }

  /** The two asset names with a leading `/` are the url segments followed by the path. */
  lemma SlashedNames(path: string)
    ensures "/" + ("drafts/" + path) == DraftsSegment + path
    ensures "/" + ("posts/" + path) == PostsSegment + path
  {
  }

  /** The intended source name is the asset the draft url names, found where its `/drafts/` begins. */
  lemma RenameSourceMatchesUrl(url: string)
    requires Contains(url, DraftsSegment)
    ensures OccursAt(url, "/" + RenameIds(url).0, IndexOf(url, DraftsSegment).value)
  {
    var path := DraftPath(url);
    SlashedNames(path);
    assert RenameIds(url).0 == "drafts/" + path;
  }

  /** The intended target name is the asset the rewritten url names, at the same position. */
  lemma RenameTargetMatchesUrl(url: string)
    requires Contains(url, DraftsSegment)
    ensures OccursAt(PublishedUrl(url), "/" + RenameIds(url).1, IndexOf(url, DraftsSegment).value)
  {
    var i := IndexOf(url, DraftsSegment).value;
    var path := DraftPath(url);
    var rest := url[i + |DraftsSegment|..];
    var a := url[..i];
    SlashedNames(path);
    assert RenameIds(url).1 == "posts/" + path;
    DraftPathFollowsSegment(url);
    assert |a| == i;
    assert PublishedUrl(url) == a + PostsSegment + rest;
    SpliceOccurs(a, PostsSegment, rest, path);
  }

  /**
   * A draft's path begins with its owner's folder (`drafts/u1/1700` is
   * served at `.../drafts/u1/1700.jpg`), and the route puts the owner's id
   * in front of it once more, so the name it asks to rename is not the
   * asset's: `drafts/u1/u1/1700` instead of `drafts/u1/1700`.
   */
  lemma AsWrittenRenameMissesTheAsset(url: string, userId: string, name: string)
    requires Contains(url, DraftsSegment)
    requires DraftPath(url) == userId + "/" + name
    ensures RenameIdsAsWritten(userId, url).0 == "drafts/" + userId + "/" + userId + "/" + name
    ensures RenameIds(url) == ("drafts/" + userId + "/" + name, "posts/" + userId + "/" + name)
    ensures RenameIdsAsWritten(userId, url).0 != RenameIds(url).0
  {
    assert "drafts/" + (userId + "/" + name) == "drafts/" + userId + "/" + name;
    assert "posts/" + (userId + "/" + name) == "posts/" + userId + "/" + name;
    assert |RenameIdsAsWritten(userId, url).0| > |RenameIds(url).0|;
  }

  /** `s` has at most one `/`, and it is at `at`. */
  lemma OnlySlashBlocksSegment(s: string, at: nat)
    requires forall k :: 0 <= k < |s| && s[k] == '/' ==> k == at
    ensures !Contains(s, DraftsSegment)
  {
    forall k | 0 <= k <= |s| - |DraftsSegment| ensures !OccursAt(s, DraftsSegment, k) {
      assert s[k..k + 8][0] == s[k] && s[k..k + 8][7] == s[k + 7];
      assert !(s[k] == '/' && s[k + 7] == '/');
    }
  }

  /** A string without an occurrence of `.` has no `.` character. */
  lemma NoDotChar(r: string)
    requires !Contains(r, ".")
    ensures forall k :: 0 <= k < |r| ==> r[k] != '.'
  {
    forall k | 0 <= k < |r| ensures r[k] != '.' {
      assert r[k..k + 1] == [r[k]];
      assert r[k] == '.' ==> OccursAt(r, ".", k);
    }
  }

  /** `UpTo(s, ".")` stops at `p` when `s[p]` is the first dot. */
  lemma UpToFirstDot(s: string, p: nat)
    requires p < |s| && s[p] == '.'
    requires forall k :: 0 <= k < p ==> s[k] != '.'
    ensures UpTo(s, ".") == s[..p]
  {
    assert OccursAt(s, ".", p) by { assert s[p..p + 1] == ['.']; }
    var r := UpTo(s, ".");
    assert OccursAt(s, ".", |r|);
    assert s[|r|..|r| + 1] == ['.'];
    assert s[|r|] == '.';
    assert |r| >= p;
    NoDotChar(r);
    assert forall k :: 0 <= k < |r| ==> r[k] == s[k];
    assert |r| <= p;
  }

  /**
   * The upload route names a draft `drafts/{owner}/{stamp}`, so the url it
   * is served at reads `/drafts/{owner}/{stamp}.{ext}`, and its draft path
   * is `{owner}/{stamp}`: the owner's folder comes first.
   */
  lemma DraftPathOfUpload(owner: string, stamp: string, ext: string)
    requires '/' !in owner && '/' !in stamp && '/' !in ext
    requires '.' !in owner && '.' !in stamp
    ensures Contains(DraftsSegment + owner + "/" + stamp + "." + ext, DraftsSegment)
    ensures DraftPath(DraftsSegment + owner + "/" + stamp + "." + ext) == owner + "/" + stamp
  {
    var after := owner + "/" + stamp + "." + ext;
    var url := DraftsSegment + after;
    assert url == DraftsSegment + owner + "/" + stamp + "." + ext;
    assert OccursAt(url, DraftsSegment, 0) by { assert url[..8] == DraftsSegment; }
    IndexOfIs(url, DraftsSegment, 0);
    assert url[8..] == after;
    assert |after| == |owner| + |stamp| + |ext| + 2;
    forall k | 0 <= k < |after| ensures after[k] == '/' ==> k == |owner| {
      if k < |owner| {
        assert after[k] == owner[k];
      } else if k > |owner| + |stamp| + 1 {
        assert after[k] == ext[k - |owner| - |stamp| - 2];
      } else if k == |owner| + |stamp| + 1 {
        assert after[k] == '.';
      } else if k > |owner| {
        assert after[k] == stamp[k - |owner| - 1];
      }
    }
    OnlySlashBlocksSegment(after, |owner|);
    var p := |owner| + 1 + |stamp|;
    forall k | 0 <= k < p ensures after[k] != '.' {
      if k < |owner| {
        assert after[k] == owner[k];
      } else if k > |owner| {
        assert after[k] == stamp[k - |owner| - 1];
      }
    }
    UpToFirstDot(after, p);
    assert after[..p] == owner + "/" + stamp;
  }

  // ---- processContentBlocks -------------------------------------------------------

  /** How the route names the assets it moves: as written (with the caller's id), or as evidently intended. */
  datatype Naming = AsWritten(userId: string) | Intended

  function Names(naming: Naming, url: string): (string, string)
    requires Contains(url, DraftsSegment)
  {
    match naming
    case AsWritten(userId) => RenameIdsAsWritten(userId, url)
    case Intended => RenameIds(url)
  }

  /** Whether the route moves this block's asset: a draft image whose rename and tag removal both succeed. */
  predicate Moves(b: RawBlock, naming: Naming, moved: (string, string) -> bool) {
    IsDraftImage(b) && moved(Names(naming, b.url.value).0, Names(naming, b.url.value).1)
  }

  /**
   * One block through `processContentBlocks`: a moved block gets its
   * published url; any other block, including one whose move failed, is
   * kept as it was.
   */
  function MigrateBlock(b: RawBlock, naming: Naming, moved: (string, string) -> bool): (r: RawBlock)
    ensures r == b.(url := r.url)
    ensures r != b <==> Moves(b, naming, moved)
    ensures Moves(b, naming, moved) ==> r.url == Some(PublishedUrl(b.url.value))
  {
    if Moves(b, naming, moved) then b.(url := Some(PublishedUrl(b.url.value))) else b
  }

  /**
   * `processContentBlocks`: the blocks in the same order, each changed only
   * in its url and only when it is a draft image whose asset was moved.
   */
  function ProcessContentBlocks(blocks: seq<RawBlock>, naming: Naming, moved: (string, string) -> bool): (r: seq<RawBlock>)
    ensures |r| == |blocks|
    ensures forall i :: 0 <= i < |blocks| ==> r[i] == blocks[i].(url := r[i].url)
    ensures forall i :: 0 <= i < |blocks| ==> (r[i] != blocks[i] <==> Moves(blocks[i], naming, moved))
    ensures forall i :: 0 <= i < |blocks| && Moves(blocks[i], naming, moved) ==>
      r[i].url == Some(ReplaceFirst(blocks[i].url.value, DraftsSegment, PostsSegment))
  {
    seq(|blocks|, i requires 0 <= i < |blocks| =>
      MigrateBlock(blocks[i], naming, moved))
  }

  /** The rewritten url agrees with the original up to and including the `/` that starts the replaced segment. */
  lemma PublishedUrlSharesPrefix(url: string)
    requires Contains(url, DraftsSegment)
    ensures var i := IndexOf(url, DraftsSegment).value;
      i + 1 <= |PublishedUrl(url)| && PublishedUrl(url)[..i + 1] == url[..i + 1]
  {
    var i := IndexOf(url, DraftsSegment).value;
    assert url[i..i + 8] == DraftsSegment;
    assert url[i] == url[i..i + 8][0];
    assert PublishedUrl(url) == url[..i] + PostsSegment + url[i + |DraftsSegment|..];
  }

  /** Strings that agree on a prefix agree on it after lower-casing. */
  lemma LowerKeepsPrefix(s: string, t: string, k: nat)
    requires k <= |s| && k <= |t| && s[..k] == t[..k]
    ensures Lower(s)[..k] == Lower(t)[..k]
  {
    forall j | 0 <= j < k ensures Lower(s)[j] == Lower(t)[j] {
      assert s[j] == s[..k][j] == t[..k][j] == t[j];
    }
  }

  /** A `/drafts/` segment cannot begin inside an http(s) scheme: it starts at its last `/` or later. */
  lemma SegmentAfterScheme(url: string, i: nat)
    requires IsHttpUrl(url) && OccursAt(url, DraftsSegment, i)
    ensures StartsWith(Lower(url), "https://") ==> i >= 7
    ensures StartsWith(Lower(url), "http://") ==> i >= 6
  {
    assert url[i] == url[i..i + 8][0] == '/';
    assert url[i + 1] == url[i..i + 8][1] == 'd';
    var lowered := Lower(url);
    assert lowered[i] == '/' && lowered[i + 1] == 'd';
    if StartsWith(lowered, "https://") {
      assert lowered[..8] == "https://";
      assert forall k :: 0 <= k < 8 ==> lowered[k] == "https://"[k];
    }
    if StartsWith(lowered, "http://") {
      assert lowered[..7] == "http://";
      assert forall k :: 0 <= k < 7 ==> lowered[k] == "http://"[k];
    }
  }

  /**
   * The rewrite keeps an http(s) url one: the replaced `/drafts/` cannot
   * lie inside the scheme, and the replacement starts with the same `/`.
   */
  lemma RewriteKeepsHttpUrl(url: string)
    requires IsHttpUrl(url) && Contains(url, DraftsSegment)
    ensures IsHttpUrl(PublishedUrl(url))
  {
    var i := IndexOf(url, DraftsSegment).value;
    var n := PublishedUrl(url);
    PublishedUrlSharesPrefix(url);
    SegmentAfterScheme(url, i);
    if StartsWith(Lower(url), "https://") {
      LowerKeepsPrefix(n, url, 8);
      assert Lower(n)[..8] == Lower(url)[..8];
    } else {
      LowerKeepsPrefix(n, url, 7);
      assert Lower(n)[..7] == Lower(url)[..7];
    }
  }

  /** Moving a block's asset keeps a block that passes save-time validation passing it. */
  lemma MigrationKeepsSaveValidity(b: RawBlock, naming: Naming, moved: (string, string) -> bool)
    requires ModelBlockErrors(b) == []
    ensures ModelBlockErrors(MigrateBlock(b, naming, moved)) == []
  {
    var m := MigrateBlock(b, naming, moved);
    ModelBlockErrorsEmptyIff(b);
    if Moves(b, naming, moved) {
      RewriteKeepsHttpUrl(b.url.value);
      assert Decode(m).Some?;
      assert forall f: BlockField :: f != UrlField ==> RawField(m, f) == RawField(b, f);
      assert Filled(m.url);
      ModelBlockErrorsEmptyIff(m);
    }
  }

  /**
   * With an image store that only moves assets that exist, a draft uploaded
   * by `userId` is never moved as written, while the intended names move it
   * and publish its url.
   */
  lemma DraftMovesOnlyWhenNamedRight(b: RawBlock, userId: string, name: string,
                                     moved: (string, string) -> bool, assets: set<string>)
    requires IsDraftImage(b)
    requires DraftPath(b.url.value) == userId + "/" + name
    requires forall a, c :: moved(a, c) ==> a in assets
    requires "drafts/" + userId + "/" + userId + "/" + name !in assets
    requires moved("drafts/" + userId + "/" + name, "posts/" + userId + "/" + name)
    ensures MigrateBlock(b, AsWritten(userId), moved) == b
    ensures MigrateBlock(b, Intended, moved) == b.(url := Some(PublishedUrl(b.url.value)))
  {
    AsWrittenRenameMissesTheAsset(b.url.value, userId, name);
  }

  // ---- the handler ------------------------------------------------------------------

  /** The request body: JSON that parses, or text that does not. */
  datatype Body = Malformed | Json(post: RawPost)

  /** What the handler reads from a request: the `Content-Type` header, the body and the signed-in user. */
  datatype CreateRequest = CreateRequest(contentType: Option<string>, body: Body, caller: Option<AuthUser>)

  /**
   * What the world answers during one create: the schema's URI test, the
   * message renderer, the save-time validator's message for each failing
   * path, whether moving a draft asset (rename and tag removal) succeeds,
   * the instant, the new document's id, and the database's answer to the
   * insert (`None` when it is stored, else its error message).
   */
  datatype World = World(
    isUri: string -> bool,
    render: Detail -> string,
    describe: string -> string,
    moved: (string, string) -> bool,
    now: int,
    newId: string,
    insertError: Option<string>)

  /** A body with none of the schema's keys. */
  const EmptyBody: RawPost := RawPost(None, None, None, None, None, None, None)

  /**
   * What reaches the authorisation step as written. The parse step answers
   * a malformed body with an error response object; the route looks for a
   * `success` key on that object, which a response does not have, so it
   * carries on with the response in place of the body, an object with none
   * of the schema's keys.
   */
  function BodyAsWritten(b: Body): (p: RawPost)
    ensures b.Json? ==> p == b.post
    ensures b.Malformed? ==> p == EmptyBody
  {
    match b
    case Malformed => EmptyBody
    case Json(post) => post
  }

  /** Typed blocks from stored block objects that pass save-time validation. */
  function DecodeAll(raw: seq<RawBlock>): (blocks: seq<Block>)
    requires forall i :: 0 <= i < |raw| ==> ModelBlockErrors(raw[i]) == []
    ensures |blocks| == |raw|
    ensures forall i :: 0 <= i < |raw| ==> Encode(blocks[i]) == raw[i]
  {
    if raw == [] then []
    else
      ModelBlockErrorsEmptyIff(raw[0]);
      EncodeDecodeRoundTrip(Decode(raw[0]).value, raw[0]);
      [Decode(raw[0]).value] + DecodeAll(raw[1..])
  }

  /** Every processed block passes save-time validation. */
  predicate BlocksSavable(blocks: seq<RawBlock>) {
    forall i :: 0 <= i < |blocks| ==> ModelBlockErrors(blocks[i]) == []
  }

  /** `new Post({ ...value, content, author, publishedAt: value.published ? new Date() : null })`. */
  function Document(v: RawPost, blocks: seq<RawBlock>, user: AuthUser, w: World): (doc: Post)
    requires v.title.Some? && v.slug.Some? && BlocksSavable(blocks)
    ensures doc.publishedAt == (if v.published == Some(true) then Some(w.now) else None)
    ensures doc.published == (v.published == Some(true))
    ensures |doc.content| == |blocks| && forall i :: 0 <= i < |blocks| ==> Encode(doc.content[i]) == blocks[i]
  {
    NewDocument(w.newId, v.title.value, v.slug.value, DecodeAll(blocks), v.excerpt, v.coverImage,
                Author(user.id, None, None), v.published,
                if v.published == Some(true) then Some(w.now) else None, v.tags, w.now)
  }

  /** The `catch` of the handler: a thrown save error becomes a 500 carrying its message. */
  function ServerError(message: string): (r: Reply<Post>)
    ensures r.status == 500 && r.body == Failure("Server error", "Failed to create post", Note(message), 500)
  {
    ErrorReply("Server error", "Failed to create post", 500, Note(message))
  }

  /**
   * What save-time validation finds in a validated body: the failing paths
   * of the document `new Post(...)` builds from it, with the blocks in
   * their stored form and the tags as the setter lower-cases them.
   */
  function StorePaths(v: RawPost, blocks: seq<RawBlock>): (paths: seq<string>)
    requires v.title.Some? && v.slug.Some?
    ensures paths == [] ==> BlocksSavable(blocks)
  {
    SavePaths(v.title.value, v.slug.value, blocks, v.excerpt, v.coverImage,
              if v.tags.Some? then LowerTags(v.tags.value) else [])
  }

  /** Once the document can be built, its own validation finds exactly those paths. */
  lemma StorePathsOfDocument(v: RawPost, blocks: seq<RawBlock>, user: AuthUser, w: World)
    requires v.title.Some? && v.slug.Some? && BlocksSavable(blocks)
    ensures ModelPostErrors(Document(v, blocks, user, w)) == StorePaths(v, blocks)
  {
    var doc := Document(v, blocks, user, w);
    assert EncodeAll(doc.content) == blocks;
    assert doc.tags == (if v.tags.Some? then LowerTags(v.tags.value) else []);
  }

  /**
   * The message of Mongoose's `ValidationError`: the model's name, then
   * each failing path with its validator's message, separated by commas.
   */
  function ValidationMessage(paths: seq<string>, describe: string -> string): (m: string)
    ensures StartsWith(m, "Post validation failed: ")
    ensures forall i :: 0 <= i < |paths| ==> Contains(m, paths[i] + ": " + describe(paths[i]))
  {
    var entries := seq(|paths|, i requires 0 <= i < |paths| => paths[i] + ": " + describe(paths[i]));
    var m := "Post validation failed: " + Join(entries, ", ");
    forall i | 0 <= i < |paths| ensures Contains(m, paths[i] + ": " + describe(paths[i])) {
      assert entries[i] == paths[i] + ": " + describe(paths[i]);
      JoinContainsPart(entries, ", ", i);
      ContainsWithin("Post validation failed: ", Join(entries, ", "), [], entries[i]);
      assert "Post validation failed: " + Join(entries, ", ") + [] == m;
    }
    m
  }

  /**
   * `post.save()` of a validated body: save-time validation, whose failure
   * is thrown with every failing path in its message; then the pre-save
   * hook on a new document (both `published` and `content` count as
   * modified); then the insert. The reply carries the stored post.
   */
  function Store(v: RawPost, user: AuthUser, w: World, naming: Naming): (r: Reply<Post>)
    requires v.title.Some? && v.slug.Some? && v.content.Some?
    ensures r.status == 200 || r.status == 500
    ensures var blocks := ProcessContentBlocks(v.content.value, naming, w.moved);
      r.status == 200 <==>
        && BlocksSavable(blocks)
        && ModelPostErrors(Document(v, blocks, user, w)) == []
        && w.insertError.None?
    ensures var blocks := ProcessContentBlocks(v.content.value, naming, w.moved);
      StorePaths(v, blocks) != [] ==> r == ServerError(ValidationMessage(StorePaths(v, blocks), w.describe))
    ensures var blocks := ProcessContentBlocks(v.content.value, naming, w.moved);
      StorePaths(v, blocks) == [] && w.insertError.Some? ==> r == ServerError(w.insertError.value)
    ensures r.status == 200 ==>
      var blocks := ProcessContentBlocks(v.content.value, naming, w.moved);
      r.body == Success(PreSave(Document(v, blocks, user, w), Modified(true, true), w.now), 200)
  {
    var blocks := ProcessContentBlocks(v.content.value, naming, w.moved);
    var paths := StorePaths(v, blocks);
    if paths != [] then
      if BlocksSavable(blocks) then
        StorePathsOfDocument(v, blocks, user, w);
        ServerError(ValidationMessage(paths, w.describe))
      else ServerError(ValidationMessage(paths, w.describe))
    else
      StorePathsOfDocument(v, blocks, user, w);
      if w.insertError.Some? then ServerError(w.insertError.value)
      else SuccessReply(PreSave(Document(v, blocks, user, w), Modified(true, true), w.now), 200)
  }

  /** After the body is read: the admin check, then the create schema, then the store. */
  function Admitted(p: RawPost, caller: Option<AuthUser>, w: World, asWritten: bool): (r: Reply<Post>)
    ensures !IsAdmin(caller) ==> r == ErrorReply("Unauthorized", "Admin privileges required", 401, NoDetails)
    ensures IsAdmin(caller) && !CreateConforms(p, w.isUri) ==>
      r == ErrorReply("Validation failed", "Invalid post data", 400,
                      FieldErrors(FormatValidationError(PostErrors(p, true, w.isUri), w.render)))
    ensures r.status == 200 ==> IsAdmin(caller) && CreateConforms(p, w.isUri) && r.body.Success?
    ensures r.status in {200, 400, 401, 500}
  {
    if !IsAdmin(caller) then ErrorReply("Unauthorized", "Admin privileges required", 401, NoDetails)
    else match ValidateCreate(p, w.isUri)
      case Err(errs) =>
        ErrorReply("Validation failed", "Invalid post data", 400, FieldErrors(FormatValidationError(errs, w.render)))
      case Ok(v) =>
        Store(v, caller.value, w, if asWritten then AsWritten(caller.value.id) else Intended)
  }

  /**
   * The `POST` handler as written: the content-type gate, then a parse
   * step whose failure goes unnoticed, then the admin check and the rest,
   * naming draft assets with the caller's id in front.
   */
  function CreatePostAsWritten(req: CreateRequest, w: World): (r: Reply<Post>)
    ensures req.contentType != Some("application/json") ==> r.status == 400
    ensures req.contentType == Some("application/json") ==> r == Admitted(BodyAsWritten(req.body), req.caller, w, true)
  {
    match CheckContentType<Post>(req.contentType)
    case Some(reply) => reply
    case None => Admitted(BodyAsWritten(req.body), req.caller, w, true)
  }

  /**
   * The `POST` handler as evidently intended, the one the rest of the model
   * uses: a malformed body is refused with 400 before the caller is looked
   * at, and draft assets are named as their urls name them.
   */
  function CreatePost(req: CreateRequest, w: World): (r: Reply<Post>)
    ensures r.status in {200, 400, 401, 500}
    ensures r.status == 200 ==> req.contentType == Some("application/json") && req.body.Json?
                                && IsAdmin(req.caller) && CreateConforms(req.body.post, w.isUri)
                                && r.body.Success?
  {
    match CheckContentType<Post>(req.contentType)
    case Some(reply) => reply
    case None =>
      match req.body
      case Malformed => ErrorReply("Invalid request", "Malformed JSON received", 400, NoDetails)
      case Json(p) => Admitted(p, req.caller, w, false)
  }

  /**
   * The gates run in order: a wrong content type is refused first, then a
   * malformed body, then a caller who is not an admin whatever the body
   * holds, then a body the create schema rejects, with every error it found.
   */
  lemma CreateChecksInOrder(req: CreateRequest, w: World)
    ensures req.contentType != Some("application/json") ==>
      CreatePost(req, w) == ErrorReply("Invalid request", "Content-Type must be application/json", 400, NoDetails)
    ensures req.contentType == Some("application/json") && req.body.Malformed? ==>
      CreatePost(req, w) == ErrorReply("Invalid request", "Malformed JSON received", 400, NoDetails)
    ensures req.contentType == Some("application/json") && req.body.Json? && !IsAdmin(req.caller) ==>
      CreatePost(req, w).status == 401
    ensures req.contentType == Some("application/json") && req.body.Json? && IsAdmin(req.caller)
            && !CreateConforms(req.body.post, w.isUri) ==>
      && CreatePost(req, w).status == 400
      && CreatePost(req, w).body.details
           == FieldErrors(FormatValidationError(PostErrors(req.body.post, true, w.isUri), w.render))
      && |PostErrors(req.body.post, true, w.isUri)| > 0
  {
    if req.body.Json? {
      PostErrorsEmptyIff(req.body.post, w.isUri);
    }
  }

  /**
   * A created post carries the request's fields: `published` as sent
   * (false when absent), `publishedAt` the instant of creation exactly when
   * published, the caller as author, the tags lower-cased, one block per
   * block sent, an excerpt, and the reading time of its content.
   */
  lemma CreatedPostFields(req: CreateRequest, w: World)
    requires CreatePost(req, w).status == 200
    ensures var p := req.body.post;
      var post := CreatePost(req, w).body.data;
      && post.id == w.newId && post.title == p.title.value && post.slug == p.slug.value
      && post.published == (p.published == Some(true))
      && post.publishedAt == (if p.published == Some(true) then Some(w.now) else None)
      && post.author.id == req.caller.value.id
      && post.tags == (if p.tags.Some? then LowerTags(p.tags.value) else [])
      && |post.content| == |p.content.value|
      && post.excerpt.Some?
      && post.readingTime == ReadingTime(post.content)
  {
    var p := req.body.post;
    var v := ValidateCreate(p, w.isUri).value;
    var blocks := ProcessContentBlocks(v.content.value, Intended, w.moved);
    CreatedPostIsStored(req, w);
    StoredFields(v, blocks, req.caller.value, w);
    if p.tags.Some? {
      TagsLowerOnce(p.tags.value);
    }
  }

  /** A created post is the validated body, stored with its processed blocks, as the pre-save hook leaves it. */
  lemma CreatedPostIsStored(req: CreateRequest, w: World)
    requires CreatePost(req, w).status == 200
    ensures var v := ValidateCreate(req.body.post, w.isUri).value;
      var blocks := ProcessContentBlocks(v.content.value, Intended, w.moved);
      && v.title.Some? && v.slug.Some? && BlocksSavable(blocks)
      && CreatePost(req, w).body.data == PreSave(Document(v, blocks, req.caller.value, w), Modified(true, true), w.now)
  {
    var v := ValidateCreate(req.body.post, w.isUri).value;
    assert CreatePost(req, w) == Admitted(req.body.post, req.caller, w, false);
    assert Admitted(req.body.post, req.caller, w, false) == Store(v, req.caller.value, w, Intended);
  }

  /** Lower-casing tags that are already lower-cased changes nothing. */
  lemma TagsLowerOnce(tags: seq<string>)
    ensures LowerTags(LowerTags(tags)) == LowerTags(tags)
  {
    forall i | 0 <= i < |tags| ensures LowerTags(LowerTags(tags))[i] == LowerTags(tags)[i] {
      LowerIdempotent(tags[i]);
    }
  }

  /** The fields of a stored document as the pre-save hook leaves them. */
  lemma StoredFields(v: RawPost, blocks: seq<RawBlock>, user: AuthUser, w: World)
    requires v.title.Some? && v.slug.Some? && BlocksSavable(blocks)
    ensures var post := PreSave(Document(v, blocks, user, w), Modified(true, true), w.now);
      && post.id == w.newId && post.title == v.title.value && post.slug == v.slug.value
      && post.published == (v.published == Some(true))
      && post.publishedAt == (if v.published == Some(true) then Some(w.now) else None)
      && post.author.id == user.id
      && post.tags == (if v.tags.Some? then LowerTags(v.tags.value) else [])
      && |post.content| == |blocks|
      && (|blocks| > 0 ==> post.excerpt.Some?)
      && post.readingTime == ReadingTime(post.content)
  {
    var doc := Document(v, blocks, user, w);
    if v.tags.Some? {
      assert doc.tags == LowerTags(v.tags.value);
    }
  }

  /** The three "required" errors of a body with none of the schema's keys. */
  lemma EmptyBodyErrors(isUri: string -> bool)
    ensures PostErrors(EmptyBody, true, isUri)
      == [Detail([Key("title")], Required), Detail([Key("slug")], Required), Detail([Key("content")], Required)]
  {
  }

  /**
   * A malformed body, as written: a caller who is not an admin gets 401
   * instead of 400, and an admin gets the schema's "required" errors for
   * title, slug and content, never `Malformed JSON received`. As intended,
   * both get that 400.
   */
  lemma MalformedBodyAsWritten(req: CreateRequest, w: World)
    requires req.contentType == Some("application/json") && req.body.Malformed?
    ensures !IsAdmin(req.caller) ==> CreatePostAsWritten(req, w).status == 401
    ensures IsAdmin(req.caller) ==>
      CreatePostAsWritten(req, w) == ErrorReply("Validation failed", "Invalid post data", 400,
        FieldErrors(FormatValidationError(
          [Detail([Key("title")], Required), Detail([Key("slug")], Required), Detail([Key("content")], Required)],
          w.render)))
    ensures CreatePost(req, w) == ErrorReply("Invalid request", "Malformed JSON received", 400, NoDetails)
  {
    EmptyBodyErrors(w.isUri);
  }
}

=== FILE: posts_listing.dfy ===
/**
 * `GET /api/posts` of `app/api/posts/route.ts`: the page and limit
 * clamping, the slug lookup, the listing filter (published, tag, search),
 * the newest-first ordering and the page slice with its pagination record.
 *
 * The stored posts are a parameter. The search term, which the route
 * compiles into a case-insensitive regular expression, is modelled as a
 * case-insensitive substring; whether it compiles at all is a parameter,
 * since `new RegExp` throws on a malformed pattern and the request then
 * fails. Posts with the same `publishedAt` come out in stored order; the
 * database leaves that order unspecified.
 */
module PostsListing {
  import opened Wrappers
  import opened Text
  import opened Arith
  import opened PostTypes
  import opened Utils

  // ---- query parameters ----------------------------------------------------

  /**
   * The query string. `page` and `limit` are the parsed integers, `None`
   * when the parameter is absent or empty (the `|| '1'` default applies).
   */
  datatype ListQuery = ListQuery(
    page: Option<int>,
    limit: Option<int>,
    tag: Option<string>,
    featured: Option<string>,
    slug: Option<string>,
    search: Option<string>)

  const DefaultPage: int := 1
  const DefaultLimit: int := 10
  const MaxLimit: int := 50

  /** `Math.max(1, parseInt(page || '1'))`. */
  function ClampPage(p: Option<int>): (page: int)
    ensures page >= 1
    ensures p.None? ==> page == DefaultPage
    ensures p.Some? && p.value >= 1 ==> page == p.value
    ensures p.Some? && p.value < 1 ==> page == 1
  {
    Max(1, p.GetOr(DefaultPage))
  }

  /** `Math.min(50, Math.max(1, parseInt(limit || '10')))`. */
  function ClampLimit(l: Option<int>): (limit: int)
    ensures 1 <= limit <= MaxLimit
    ensures l.None? ==> limit == DefaultLimit
    ensures l.Some? && 1 <= l.value <= MaxLimit ==> limit == l.value
    ensures l.Some? && l.value < 1 ==> limit == 1
    ensures l.Some? && l.value > MaxLimit ==> limit == MaxLimit
  {
    Min(MaxLimit, Max(1, l.GetOr(DefaultLimit)))
  }

  /** A filter parameter counts only when present and non-empty (`if (tag)`, `if (slug)`). */
  predicate Given(v: Option<string>) {
    v.Some? && v.value != ""
  }

  /** `searchParams.get('featured') === 'true'`. */
  predicate FeaturedRequested(q: ListQuery) {
    q.featured == Some("true")
  }

  /** `search && search.trim()`: the trimmed term, when it is not blank. */
  function SearchTerm(search: Option<string>): (term: Option<string>)
    ensures term.Some? ==> term.value != "" && !IsSpace(term.value[0]) && !IsSpace(term.value[|term.value| - 1])
    ensures term.Some? <==> search.Some? && Trim(search.value) != ""
  {
    if search.Some? && Trim(search.value) != "" then Some(Trim(search.value)) else None
  }

  // ---- the listing filter ------------------------------------------------------

  /** `s` matches the case-insensitive pattern `term`, read as a literal. */
  predicate ContainsIgnoringCase(s: string, term: string) {
    Contains(Lower(s), Lower(term))
  }

  /** The fields the search looks at: the title, the excerpt when set, and every tag. */
  function SearchedFields(p: Post): seq<string> {
    [p.title] + (if p.excerpt.Some? then [p.excerpt.value] else []) + p.tags
  }

  /**
   * The `$or` of the search: the title, the excerpt or some tag matches (a
   * pattern on an array path matches when some element does).
   */
  predicate MatchesSearch(p: Post, term: string): (b: bool)
    ensures b <==> exists f :: f in SearchedFields(p) && ContainsIgnoringCase(f, term)
  {
    || ContainsIgnoringCase(p.title, term)
    || (p.excerpt.Some? && ContainsIgnoringCase(p.excerpt.value, term))
    || (exists i :: 0 <= i < |p.tags| && ContainsIgnoringCase(p.tags[i], term))
  }

  /**
   * Whether the search, when there is one, is a pattern `new RegExp` accepts;
   * `compiles` stands for JavaScript's regular-expression syntax.
   */
  predicate SearchCompiles(q: ListQuery, compiles: string -> bool) {
    SearchTerm(q.search).Some? ==> compiles(SearchTerm(q.search).value)
  }

  /**
   * Whether a post satisfies the listing query. It must be published; a
   * given tag, lower-cased as Mongoose's `lowercase` setter casts the filter
   * value, must be one of its tags; a non-blank search must match. `featured=true` adds a condition on a field the
   * post schema does not declare: when Mongoose's `strictQuery` drops such
   * conditions it has no effect, otherwise no stored post can satisfy it.
   */
  predicate Listed(p: Post, q: ListQuery, strictQuery: bool): (b: bool)
    ensures b ==> p.published
    ensures FeaturedRequested(q) && !strictQuery ==> !b
    ensures b && SearchTerm(q.search).Some? ==> exists f :: f in SearchedFields(p) && ContainsIgnoringCase(f, SearchTerm(q.search).value)
  {
    && p.published
    && (Given(q.tag) ==> Lower(q.tag.value) in p.tags)
    && (FeaturedRequested(q) ==> strictQuery)
    && (SearchTerm(q.search).Some? ==> MatchesSearch(p, SearchTerm(q.search).value))
  }

  /** The posts the query selects, in stored order, each as often as it is stored. */
  function FilterPosts(posts: seq<Post>, q: ListQuery, strictQuery: bool): (r: seq<Post>)
    ensures |r| <= |posts|
    ensures forall p :: p in r ==> Listed(p, q, strictQuery)
    ensures forall p :: multiset(r)[p] == if Listed(p, q, strictQuery) then multiset(posts)[p] else 0
  {
    if posts == [] then []
    else
      assert posts == [posts[0]] + posts[1..];
      (if Listed(posts[0], q, strictQuery) then [posts[0]] else []) + FilterPosts(posts[1..], q, strictQuery)
  }

  /** A stored post is selected exactly when it satisfies the query. */
  lemma FilterSelectsListed(posts: seq<Post>, q: ListQuery, strictQuery: bool, p: Post)
    requires p in posts
    ensures p in FilterPosts(posts, q, strictQuery) <==> Listed(p, q, strictQuery)
  {
    assert multiset(posts)[p] > 0;
    var r := FilterPosts(posts, q, strictQuery);
    if Listed(p, q, strictQuery) {
      assert multiset(r)[p] > 0;
    }
  }

  /** The tag filter ignores case: two tags that lower-case alike select the same posts. */
  lemma TagFilterIgnoresCase(p: Post, q: ListQuery, strictQuery: bool, t: string)
    requires Given(q.tag) && t != "" && Lower(t) == Lower(q.tag.value)
    ensures Listed(p, q, strictQuery) <==> Listed(p, q.(tag := Some(t)), strictQuery)
  {
  }

  /** A capitalised tag, as the category bar sends it, finds a published post stored with the lower-case tag. */
  lemma CapitalisedTagFindsPost(p: Post, strictQuery: bool)
    requires p.published && "dafny" in p.tags
    ensures Listed(p, ListQuery(None, None, Some("Dafny"), None, None, None), strictQuery)
  {
    assert Lower("Dafny") == "dafny" by {
      assert Lower("Dafny") == [LowerChar('D')] + Lower("afny");
    }
  }

  /** The search ignores case: `JS` finds a post titled `Learning js`, whatever its excerpt and tags. */
  lemma SearchIgnoresCase(p: Post)
    requires p.title == "Learning js"
    ensures MatchesSearch(p, "JS")
  {
    assert Lower("JS") == "js";
    assert Lower(p.title)[9..11] == "js";
    assert OccursAt(Lower(p.title), Lower("JS"), 9);
  }

  // ---- ordering ------------------------------------------------------------------

  /** `a` may precede `b` under `sort({ publishedAt: -1 })`: a missing date sorts after every date. */
  predicate NotOlder(a: Post, b: Post) {
    match b.publishedAt
    case None => true
    case Some(y) => a.publishedAt.Some? && a.publishedAt.value >= y
  }

  predicate NewestFirst(s: seq<Post>) {
    forall i, j :: 0 <= i < j < |s| ==> NotOlder(s[i], s[j])
  }

  /** The order is transitive. */
  lemma NotOlderTransitive(a: Post, b: Post, c: Post)
    requires NotOlder(a, b) && NotOlder(b, c)
    ensures NotOlder(a, c)
  {
  }

  /** A post at least as recent as every post of a sorted list may go in front of it. */
  lemma ConsNewestFirst(x: Post, t: seq<Post>)
    requires NewestFirst(t)
    requires forall y :: y in t ==> NotOlder(x, y)
    ensures NewestFirst([x] + t)
  {
    forall i, j | 0 <= i < j < |[x] + t| ensures NotOlder(([x] + t)[i], ([x] + t)[j]) {
      if i > 0 {
        assert ([x] + t)[i] == t[i - 1] && ([x] + t)[j] == t[j - 1];
      } else {
        assert ([x] + t)[j] in t;
      }
    }
  }

  /** Places `p` after every post at least as recent: the insertion step of the sort. */
  function Insert(p: Post, s: seq<Post>): (r: seq<Post>)
    ensures multiset(r) == multiset(s) + multiset{p}
  {
    if s == [] then [p]
    else
      assert s == [s[0]] + s[1..];
      if NotOlder(s[0], p) then [s[0]] + Insert(p, s[1..]) else [p] + s
  }

  /** Inserting into a newest-first list keeps it newest first. */
  lemma {:induction false} InsertKeepsOrder(p: Post, s: seq<Post>)
    requires NewestFirst(s)
    ensures NewestFirst(Insert(p, s))
  {
    if s == [] {
    } else if NotOlder(s[0], p) {
      var rest := Insert(p, s[1..]);
      assert NewestFirst(s[1..]) by {
        forall i, j | 0 <= i < j < |s[1..]| ensures NotOlder(s[1..][i], s[1..][j]) {
          assert s[1..][i] == s[i + 1] && s[1..][j] == s[j + 1];
        }
      }
      InsertKeepsOrder(p, s[1..]);
      forall y | y in rest ensures NotOlder(s[0], y) {
        assert y in multiset(rest);
        if y != p {
          assert y in multiset(s[1..]);
          var k :| 0 <= k < |s[1..]| && s[1..][k] == y;
          assert y == s[k + 1];
        }
      }
      ConsNewestFirst(s[0], rest);
    } else {
      forall y | y in s ensures NotOlder(p, y) {
        var k :| 0 <= k < |s| && s[k] == y;
        if k > 0 {
          NotOlderTransitive(p, s[0], s[k]);
        }
      }
      ConsNewestFirst(p, s);
    }
  }

  /** The posts newest first; equally recent posts keep their stored order. */
  function SortNewestFirst(s: seq<Post>): (r: seq<Post>)
    ensures NewestFirst(r)
    ensures multiset(r) == multiset(s)
    decreases |s|
  {
    if s == [] then []
    else
      assert s == s[..|s| - 1] + [s[|s| - 1]];
      var sorted := SortNewestFirst(s[..|s| - 1]);
      InsertKeepsOrder(s[|s| - 1], sorted);
      Insert(s[|s| - 1], sorted)
  }

  // ---- the page slice -------------------------------------------------------------

  /** `skip(skip).limit(limit)`: the results from position `skip` on, at most `limit` of them. */
  function Slice(s: seq<Post>, skip: nat, limit: nat): (r: seq<Post>)
    ensures |r| == Max(0, Min(limit, |s| - skip))
    ensures forall k :: 0 <= k < |r| ==> r[k] == s[skip + k]
  {
    if skip >= |s| then [] else s[skip..Min(skip + limit, |s|)]
  }

  /** The offset of a page: `(page - 1) * limit`. */
  function Offset(page: int, limit: int): nat
    requires page >= 1 && limit >= 1
  {
    (page - 1) * limit
  }

  /**
   * The page `page` of the results: up to `limit` of them from position
   * `(page - 1) * limit` on, a full page while enough remain, none past the end.
   */
  function PageOf(s: seq<Post>, page: int, limit: int): (r: seq<Post>)
    requires page >= 1 && limit >= 1
    ensures |r| <= limit
    ensures |r| == limit <==> Offset(page, limit) + limit <= |s|
    ensures r == [] <==> Offset(page, limit) >= |s|
    ensures forall k :: 0 <= k < |r| ==> Offset(page, limit) + k < |s| && r[k] == s[Offset(page, limit) + k]
  {
    Slice(s, Offset(page, limit), limit)
  }

  /** The pages `1..n` one after another. */
  function PagesUpTo(s: seq<Post>, n: nat, limit: int): seq<Post>
    requires limit >= 1
  {
    if n == 0 then [] else PagesUpTo(s, n - 1, limit) + PageOf(s, n, limit)
  }

  /** The results before `lo` followed by the slice at `lo` are the results before `lo + limit`. */
  lemma SliceExtendsPrefix(s: seq<Post>, lo: nat, limit: nat)
    ensures s[..Min(lo, |s|)] + Slice(s, lo, limit) == s[..Min(lo + limit, |s|)]
  {
    if lo < |s| {
      assert s[..lo] + s[lo..Min(lo + limit, |s|)] == s[..Min(lo + limit, |s|)];
    }
  }

  /** Reading pages `1..n` in turn yields the first `n * limit` results, without gap or repetition. */
  lemma {:induction false} PagesUpToIsPrefix(s: seq<Post>, n: nat, limit: int)
    requires limit >= 1
    ensures PagesUpTo(s, n, limit) == s[..Min(n * limit, |s|)]
  {
    if n > 0 {
      PagesUpToIsPrefix(s, n - 1, limit);
      var lo := Offset(n, limit);
      assert lo == (n - 1) * limit;
      assert n * limit == lo + limit;
      SliceExtendsPrefix(s, lo, limit);
    }
  }

  lemma MulMonotone(a: int, b: int, c: int)
    requires a >= b && c >= 0
    ensures a * c >= b * c
  {
    assert a * c - b * c == (a - b) * c;
  }

  /** The pages up to `totalPages` hold every result. */
  lemma PagesCoverResults(s: seq<Post>, limit: int)
    requires limit >= 1
    ensures PagesUpTo(s, CeilDiv(|s|, limit), limit) == s
  {
    var n := CeilDiv(|s|, limit);
    PagesUpToIsPrefix(s, n, limit);
    assert Min(n * limit, |s|) == |s|;
    assert s[..|s|] == s;
  }

  /** Every page after the last is empty. */
  lemma PagePastTheLastIsEmpty(s: seq<Post>, limit: int, page: int)
    requires limit >= 1 && page > CeilDiv(|s|, limit)
    ensures PageOf(s, page, limit) == []
  {
    var n := CeilDiv(|s|, limit);
    MulMonotone(page - 1, n, limit);
    assert Offset(page, limit) >= |s|;
  }

  /** A slice of a newest-first list is newest first and holds only its elements. */
  lemma SliceOfSorted(s: seq<Post>, skip: nat, limit: nat)
    requires NewestFirst(s)
    ensures NewestFirst(Slice(s, skip, limit))
    ensures forall p :: p in Slice(s, skip, limit) ==> p in s
  {
    var r := Slice(s, skip, limit);
    forall i, j | 0 <= i < j < |r| ensures NotOlder(r[i], r[j]) {
      assert r[i] == s[skip + i] && r[j] == s[skip + j];
    }
    forall p | p in r ensures p in s {
      var k :| 0 <= k < |r| && r[k] == p;
      assert p == s[skip + k];
    }
  }

  // ---- the handler ------------------------------------------------------------------

  /** `Post.findOne({ slug, published: true })`: the first stored published post with that slug. */
  function FindBySlug(posts: seq<Post>, slug: string): (r: Option<Post>)
    ensures r.Some? ==> r.value in posts && r.value.slug == slug && r.value.published
    ensures r.None? <==> forall p :: p in posts ==> !(p.slug == slug && p.published)
  {
    if posts == [] then None
    else if posts[0].slug == slug && posts[0].published then Some(posts[0])
    else
      var r := FindBySlug(posts[1..], slug);
      assert forall p :: p in posts ==> p == posts[0] || p in posts[1..];
      r
  }

  /**
   * The `GET` handler over the stored posts. A given slug answers with
   * that post alone under a fixed one-of-one pagination record, or 404.
   * Otherwise a search that does not compile throws before the database
   * is asked, and the `catch` answers 500 with the thrown error as its
   * details; any other query has its selected posts, newest first, cut to
   * the requested page.
   */
  function ListPosts(posts: seq<Post>, q: ListQuery, strictQuery: bool, compiles: string -> bool): (r: Reply<PaginatedPosts>)
    ensures r.status == 200 || r.status == 404 || r.status == 500
    ensures r.status == 404 <==> Given(q.slug) && forall p :: p in posts ==> !(p.slug == q.slug.value && p.published)
    ensures r.status == 500 <==> !Given(q.slug) && !SearchCompiles(q, compiles)
    ensures r.status == 200 ==> r.body.Success? && forall p :: p in r.body.data.data ==> p.published
    ensures r.status == 404 ==> r.body == Failure("Not found", "Post not found", NoDetails, 404)
    ensures r.status == 500 ==> r.body == Failure("Server error", "Failed to fetch posts", ThrownError, 500)
  {
    if Given(q.slug) then
      match FindBySlug(posts, q.slug.value)
      case None => ErrorReply("Not found", "Post not found", 404, NoDetails)
      case Some(p) => OkReply(PaginatedPosts([p], Pagination(1, 1, 1, 1)))
    else if !SearchCompiles(q, compiles) then
      ErrorReply("Server error", "Failed to fetch posts", 500, ThrownError)
    else
      var page := ClampPage(q.page);
      var limit := ClampLimit(q.limit);
      var selected := SortNewestFirst(FilterPosts(posts, q, strictQuery));
      var data := PageOf(selected, page, limit);
      SliceOfSorted(selected, Offset(page, limit), limit);
      assert forall p :: p in selected ==> p in multiset(selected);
      OkReply(PaginatedPosts(data, Pagination(page, limit, |selected|, CeilDiv(|selected|, limit))))
  }

  /** A slug lookup that succeeds yields exactly one published post with that slug, under page 1 of 1. */
  lemma SlugLookupIsSingle(posts: seq<Post>, q: ListQuery, strictQuery: bool, compiles: string -> bool)
    requires Given(q.slug) && ListPosts(posts, q, strictQuery, compiles).status == 200
    ensures var body := ListPosts(posts, q, strictQuery, compiles).body;
      && |body.data.data| == 1
      && body.data.data[0] in posts
      && body.data.data[0].slug == q.slug.value
      && body.data.pagination == Pagination(1, 1, 1, 1)
  {
  }

  /** A listing's pagination record echoes the clamped page and limit; `totalPages` is the least page count that holds `total` results. */
  lemma ListingPagination(posts: seq<Post>, q: ListQuery, strictQuery: bool, compiles: string -> bool)
    requires !Given(q.slug) && SearchCompiles(q, compiles)
    ensures var pg := ListPosts(posts, q, strictQuery, compiles).body.data.pagination;
      && ListPosts(posts, q, strictQuery, compiles).body.Success?
      && pg.page == ClampPage(q.page) && pg.limit == ClampLimit(q.limit)
      && pg.total == |FilterPosts(posts, q, strictQuery)|
      && pg.totalPages * pg.limit >= pg.total
      && (pg.totalPages > 0 ==> (pg.totalPages - 1) * pg.limit < pg.total)
  {
  }

  /** A listing holds at most `limit` posts, newest first, each satisfying the query. */
  lemma ListingContents(posts: seq<Post>, q: ListQuery, strictQuery: bool, compiles: string -> bool)
    requires !Given(q.slug) && SearchCompiles(q, compiles)
    ensures var data := ListPosts(posts, q, strictQuery, compiles).body.data.data;
      && |data| <= ClampLimit(q.limit)
      && NewestFirst(data)
      && (forall p :: p in data ==> Listed(p, q, strictQuery))
  {
    var filtered := FilterPosts(posts, q, strictQuery);
    var selected := SortNewestFirst(filtered);
    var data := PageOf(selected, ClampPage(q.page), ClampLimit(q.limit));
    assert ListPosts(posts, q, strictQuery, compiles).body.data.data == data;
    SliceOfSorted(selected, Offset(ClampPage(q.page), ClampLimit(q.limit)), ClampLimit(q.limit));
    forall p | p in data ensures Listed(p, q, strictQuery) {
      assert p in multiset(selected);
      assert p in filtered;
    }
  }

  /** Every selected post appears on one of the pages `1..totalPages`. */
  lemma EveryListedPostIsOnSomePage(posts: seq<Post>, q: ListQuery, strictQuery: bool, p: Post)
    requires p in posts && Listed(p, q, strictQuery)
    ensures var selected := SortNewestFirst(FilterPosts(posts, q, strictQuery));
      p in PagesUpTo(selected, CeilDiv(|selected|, ClampLimit(q.limit)), ClampLimit(q.limit))
  {
    var selected := SortNewestFirst(FilterPosts(posts, q, strictQuery));
    FilterSelectsListed(posts, q, strictQuery, p);
    assert p in multiset(selected);
    PagesCoverResults(selected, ClampLimit(q.limit));
  }
}

=== FILE: rich_text.dfy ===
/**
 * The text block editor: what Enter and Backspace do, the three toolbar
 * transforms (bold, italic, link) on a block's content, and the
 * placeholder a block kind shows.
 */
module RichText {
  import opened Wrappers
  import opened Text
  import opened PostTypes
  import opened PostEditor

  /** A key press: the key's name and whether Shift was held. */
  datatype KeyPress = KeyPress(key: string, shift: bool)

  /** What a key press asks of the editor; `Typed` lets the browser handle it. */
  datatype KeyAction = AddBelow | RemoveThis | Typed

  /**
   * `handleKeyDown`: Enter without Shift adds a block below, Backspace in a
   * block whose content is exactly the empty string removes it, and every
   * other press is ordinary typing.
   */
  function OnKey(content: Option<string>, k: KeyPress): (a: KeyAction)
    ensures a == AddBelow <==> k.key == "Enter" && !k.shift
    ensures a == RemoveThis <==> k.key == "Backspace" && content == Some("")
  {
    if k.key == "Enter" && !k.shift then AddBelow
    else if k.key == "Backspace" && content == Some("") then RemoveThis
    else Typed
  }

  /** Backspace in a freshly added text block removes it; a divider, which has no content, is not removed this way. */
  lemma FreshBlockBackspaceRemoves(t: BlockType)
    ensures t != Divider ==> OnKey(NewBlock(t).content, KeyPress("Backspace", false)) == RemoveThis
    ensures t == Divider ==> OnKey(NewBlock(t).content, KeyPress("Backspace", false)) == Typed
  {
  }

  /** Backspace in a block with text never removes it, with or without Shift. */
  lemma BackspaceKeepsText(s: string, shift: bool)
    requires s != ""
    ensures OnKey(Some(s), KeyPress("Backspace", shift)) == Typed
  {
  }

  // ---- toolbar transforms ------------------------------------------------------------

  /** `block.content || ''`. */
  function TextOf(content: Option<string>): string {
    content.GetOr("")
  }

  /** Wraps `s` between `open` and `close`: the marker, the text untouched, the closing marker. */
  function Wrap(open: string, s: string, close: string): (r: string)
    ensures |r| == |open| + |s| + |close|
    ensures r[..|open|] == open && r[|open|..|open| + |s|] == s && r[|open| + |s|..] == close
  {
    open + s + close
  }

  /** The inverse of `Wrap`: the text between `open` and `close`, when `t` has both. */
  function Unwrap(open: string, t: string, close: string): (r: Option<string>)
    ensures r.Some? ==> Wrap(open, r.value, close) == t
  {
    if |open| + |close| <= |t| && t[..|open|] == open && t[|t| - |close|..] == close then
      assert t == t[..|open|] + t[|open|..|t| - |close|] + t[|t| - |close|..];
      Some(t[|open|..|t| - |close|])
    else None
  }

  /** Unwrapping what was wrapped gives the text back. */
  lemma UnwrapWrap(open: string, s: string, close: string)
    ensures Unwrap(open, Wrap(open, s, close), close) == Some(s)
  {
    var t := Wrap(open, s, close);
    assert t[..|open|] == open;
    assert t[|t| - |close|..] == close;
    assert t[|open|..|t| - |close|] == s;
  }

  /** The bold button: the content between `**` markers. */
  function Bold(content: Option<string>): (r: string)
    ensures |r| == |TextOf(content)| + 4
    ensures Unwrap("**", r, "**") == Some(TextOf(content))
  {
    UnwrapWrap("**", TextOf(content), "**");
    Wrap("**", TextOf(content), "**")
  }

  /** The italic button: the content between `_` markers. */
  function Italic(content: Option<string>): (r: string)
    ensures |r| == |TextOf(content)| + 2
    ensures Unwrap("_", r, "_") == Some(TextOf(content))
  {
    UnwrapWrap("_", TextOf(content), "_");
    Wrap("_", TextOf(content), "_")
  }

  /**
   * The link button: with a non-empty url from the prompt, the content
   * becomes `[text](url)`, where the text is the content or `link` when the
   * content is empty; a cancelled or empty prompt changes nothing.
   */
  function Link(content: Option<string>, url: Option<string>): (r: Option<string>)
    ensures r.Some? <==> url.Some? && url.value != ""
    ensures r.Some? ==>
      && Unwrap("[", r.value, ")") == Some(OrElse(content, "link") + "](" + url.value)
      && EndsWith(r.value, "](" + url.value + ")")
  {
    if url.Some? && url.value != "" then
      var t := OrElse(content, "link");
      UnwrapWrap("[", t + "](" + url.value, ")");
      assert Wrap("[", t + "](" + url.value, ")") == "[" + t + ("](" + url.value + ")");
      Some(Wrap("[", t + "](" + url.value, ")"))
    else None
  }

  /** The patch a toolbar button applies: only the content changes. */
  function ContentPatch(s: string): (p: BlockPatch)
    ensures forall b :: Merge(b, p) == b.(content := Some(s))
  {
    NoChange.(content := Some(Some(s)))
  }

  /** Bold, italic and link each keep the original text inside the new content. */
  lemma TransformsKeepText(s: string, url: string)
    requires s != "" && url != ""
    ensures Unwrap("**", Bold(Some(s)), "**") == Some(s)
    ensures Unwrap("_", Italic(Some(s)), "_") == Some(s)
    ensures StartsWith(Link(Some(s), Some(url)).value, "[" + s + "](")
  {
    var t := Link(Some(s), Some(url)).value;
    assert t == "[" + s + "](" + url + ")";
    assert t[..|"[" + s + "]("|] == "[" + s + "](";
  }

  // ---- placeholder -------------------------------------------------------------------

  const DefaultPlaceholder := "Type '/' for commands..."

  /** `getPlaceholder`. */
  function Placeholder(t: BlockType): (r: string)
    ensures t == Heading <==> r == "Heading"
    ensures t == Quote <==> r == "Quote"
    ensures t != Heading && t != Quote <==> r == DefaultPlaceholder
  {
    match t
    case Heading => "Heading"
    case Quote => "Quote"
    case _ => DefaultPlaceholder
  }
}

=== FILE: text.dfy ===
/**
 * String helpers standing in for the JavaScript string built-ins the
 * application calls (`includes`, `startsWith`, `trim`, `substring`,
 * `toLowerCase`, `replace` with a global pattern, `split(...).join`).
 * Strings are `seq<char>` of Unicode scalar values. JavaScript counts a
 * string in UTF-16 code units, where a character outside the Basic
 * Multilingual Plane takes two; `JsLength` and `JsTake` give that count
 * and that cut wherever the application measures or truncates a string.
 */
module Text {
  import opened Wrappers

  /** The characters JavaScript's `\s` and `String.prototype.trim` treat as white space. */
  predicate IsSpace(c: char) {
    c == ' ' || c == '\t' || c == '\n' || c == '\r' || c == '\U{000B}' || c == '\U{000C}'
    || c == '\U{00A0}' || c == '\U{1680}' || ('\U{2000}' <= c <= '\U{200A}')
    || c == '\U{2028}' || c == '\U{2029}' || c == '\U{202F}' || c == '\U{205F}'
    || c == '\U{3000}' || c == '\U{FEFF}'
  }

  /** The characters a regular-expression `.` does not match. */
  predicate IsLineTerminator(c: char) {
    c == '\n' || c == '\r' || c == '\U{2028}' || c == '\U{2029}'
  }

  predicate IsDigit(c: char) { '0' <= c <= '9' }
  predicate IsAsciiLower(c: char) { 'a' <= c <= 'z' }
  predicate IsAsciiUpper(c: char) { 'A' <= c <= 'Z' }

  /** The regular-expression class `\w`. */
  predicate IsWordChar(c: char) {
    IsAsciiLower(c) || IsAsciiUpper(c) || IsDigit(c) || c == '_'
  }

  predicate AllDigits(s: string) {
    forall i :: 0 <= i < |s| ==> IsDigit(s[i])
  }

  function LowerChar(c: char): (r: char)
    ensures !IsAsciiUpper(r)
    ensures !IsAsciiUpper(c) ==> r == c
    ensures IsAsciiUpper(c) ==> IsAsciiLower(r)
  {
    if IsAsciiUpper(c) then (c as int - 'A' as int + 'a' as int) as char else c
  }

  /** `toUpperCase` of one character, on the ASCII range. */
  function UpperChar(c: char): (r: char)
    ensures !IsAsciiLower(r)
    ensures !IsAsciiLower(c) ==> r == c
    ensures IsAsciiLower(c) ==> IsAsciiUpper(r) && LowerChar(r) == c
  {
    if IsAsciiLower(c) then (c as int - 'a' as int + 'A' as int) as char else c
  }

  /** `toLowerCase`, on the ASCII range. */
  function Lower(s: string): (r: string)
    ensures |r| == |s|
    ensures forall i :: 0 <= i < |s| ==> r[i] == LowerChar(s[i])
  {
    if s == [] then [] else [LowerChar(s[0])] + Lower(s[1..])
  }

  /** Lower-casing works character by character, so it distributes over concatenation. */
  lemma LowerAppend(a: string, b: string)
    ensures Lower(a + b) == Lower(a) + Lower(b)
  {
    forall i | 0 <= i < |a| + |b| ensures Lower(a + b)[i] == (Lower(a) + Lower(b))[i] {
      if i < |a| {
        assert (a + b)[i] == a[i];
      } else {
        assert (a + b)[i] == b[i - |a|];
      }
    }
  }

  lemma LowerIdempotent(s: string)
    ensures Lower(Lower(s)) == Lower(s)
  {
  }

  predicate StartsWith(s: string, prefix: string) {
    |prefix| <= |s| && s[..|prefix|] == prefix
  }

  predicate EndsWith(s: string, suffix: string) {
    |suffix| <= |s| && s[|s| - |suffix|..] == suffix
  }

  /** `sub` occurs in `s` starting at position `i`. */
  predicate OccursAt(s: string, sub: string, i: int) {
    0 <= i && i + |sub| <= |s| && s[i..i + |sub|] == sub
  }

  /** `s.includes(sub)`. */
  predicate Contains(s: string, sub: string) {
    exists i :: 0 <= i <= |s| && OccursAt(s, sub, i)
  }

  /** `s.indexOf(sub)`: the first position at or after `from` where `sub` occurs. */
  function IndexOfFrom(s: string, sub: string, from: nat): (r: Option<nat>)
    requires from <= |s|
    ensures r.Some? ==> from <= r.value && OccursAt(s, sub, r.value)
    ensures r.Some? ==> forall j :: from <= j < r.value ==> !OccursAt(s, sub, j)
    ensures r.None? ==> forall j :: from <= j ==> !OccursAt(s, sub, j)
    decreases |s| - from
  {
    if OccursAt(s, sub, from) then Some(from)
    else if from + |sub| >= |s| then
      assert forall j :: from < j ==> !OccursAt(s, sub, j);
      None
    else IndexOfFrom(s, sub, from + 1)
  }

  function IndexOf(s: string, sub: string): (r: Option<nat>)
    ensures r.Some? <==> Contains(s, sub)
    ensures r.Some? ==> OccursAt(s, sub, r.value)
    ensures r.Some? ==> forall j :: 0 <= j < r.value ==> !OccursAt(s, sub, j)
  {
    IndexOfFrom(s, sub, 0)
  }

  /** JavaScript's `s || fallback` on an optional string: `s` unless it is absent or empty. */
  function OrElse(s: Option<string>, fallback: string): string {
    if s.Some? && s.value != "" then s.value else fallback
  }

  /** `s.split(sep)[0]`: the text before the first `sep`, or all of `s`. */
  function UpTo(s: string, sep: string): (r: string)
    requires |sep| > 0
    ensures StartsWith(s, r)
    ensures !Contains(r, sep)
    ensures Contains(s, sep) ==> OccursAt(s, sep, |r|)
    ensures !Contains(s, sep) ==> r == s
  {
    match IndexOf(s, sep)
    case None => s
    case Some(j) =>
      PrefixBeforeFirstOccurrence(s, sep, j);
      s[..j]
  }

  lemma PrefixBeforeFirstOccurrence(s: string, sep: string, j: nat)
    requires |sep| > 0 && j <= |s|
    requires forall k :: 0 <= k < j ==> !OccursAt(s, sep, k)
    ensures !Contains(s[..j], sep)
  {
    forall k | 0 <= k <= j && OccursAt(s[..j], sep, k) ensures OccursAt(s, sep, k) {
      assert s[..j][k..k + |sep|] == s[k..k + |sep|];
    }
  }

  /** Absence of a pattern carries over to every prefix. */
  lemma PrefixLacks(s: string, r: string, sep: string)
    requires StartsWith(s, r) && !Contains(s, sep)
    ensures !Contains(r, sep)
  {
    forall k | 0 <= k <= |r| && OccursAt(r, sep, k) ensures OccursAt(s, sep, k) {
      assert r[k..k + |sep|] == s[k..k + |sep|];
    }
  }

  /** `String.prototype.replace` with a string pattern: only the first occurrence. */
  function ReplaceFirst(s: string, pat: string, rep: string): (r: string)
    ensures !Contains(s, pat) ==> r == s
    ensures Contains(s, pat) ==>
      var i := IndexOf(s, pat).value;
      r == s[..i] + rep + s[i + |pat|..]
  {
    match IndexOf(s, pat)
    case None => s
    case Some(i) => s[..i] + rep + s[i + |pat|..]
  }

  /**
   * `s.replace(/pat/g, rep)` for a literal, non-empty pattern: a left-to-right
   * scan that replaces every non-overlapping occurrence.
   */
  function ReplaceAll(s: string, pat: string, rep: string): (r: string)
    requires |pat| > 0
    decreases |s|
  {
    if |s| == 0 then []
    else if StartsWith(s, pat) then rep + ReplaceAll(s[|pat|..], pat, rep)
    else [s[0]] + ReplaceAll(s[1..], pat, rep)
  }

  /** A string without any occurrence of the pattern comes back unchanged. */
  lemma {:induction false} ReplaceAllAbsent(s: string, pat: string, rep: string)
    requires |pat| > 0
    requires !Contains(s, pat)
    ensures ReplaceAll(s, pat, rep) == s
    decreases |s|
  {
    if |s| > 0 {
      assert !OccursAt(s, pat, 0);
      assert !StartsWith(s, pat);
      assert !Contains(s[1..], pat) by {
        forall i | 0 <= i <= |s[1..]| && OccursAt(s[1..], pat, i)
          ensures false
        {
          assert s[1..][i..i + |pat|] == s[i + 1..i + 1 + |pat|];
          assert OccursAt(s, pat, i + 1);
        }
      }
      ReplaceAllAbsent(s[1..], pat, rep);
      assert s == [s[0]] + s[1..];
    }
  }

  /** With a one-character pattern, replacing in a concatenation is replacing in each part. */
  lemma {:induction false} ReplaceAllCharAppend(a: string, b: string, pat: string, rep: string)
    requires |pat| == 1
    ensures ReplaceAll(a + b, pat, rep) == ReplaceAll(a, pat, rep) + ReplaceAll(b, pat, rep)
    decreases |a|
  {
    if |a| > 0 {
      var ab := a + b;
      assert ab[1..] == a[1..] + b;
      assert ab[0] == a[0];
      assert StartsWith(ab, pat) <==> StartsWith(a, pat);
      ReplaceAllCharAppend(a[1..], b, pat, rep);
      if StartsWith(a, pat) {
        assert ReplaceAll(ab, pat, rep) == rep + ReplaceAll(ab[1..], pat, rep);
        assert ReplaceAll(a, pat, rep) == rep + ReplaceAll(a[1..], pat, rep);
      } else {
        assert ReplaceAll(ab, pat, rep) == [a[0]] + ReplaceAll(ab[1..], pat, rep);
        assert ReplaceAll(a, pat, rep) == [a[0]] + ReplaceAll(a[1..], pat, rep);
      }
    } else {
      assert a + b == b;
    }
  }

  /**
   * A token that cannot begin an occurrence of the pattern anywhere but
   * possibly at its first character, and does not begin one there either,
   * passes through a replacement untouched, whatever follows it.
   */
  lemma {:induction false} ReplaceAllSkipToken(t: string, u: string, pat: string, rep: string)
    requires |pat| > 0
    requires forall k :: 1 <= k < |t| ==> t[k] != pat[0]
    requires |t| > 0 ==> !StartsWith(t + u, pat)
    ensures ReplaceAll(t + u, pat, rep) == t + ReplaceAll(u, pat, rep)
    decreases |t|
  {
    if |t| > 0 {
      var tu := t + u;
      assert tu[1..] == t[1..] + u;
      assert tu[0] == t[0];
      if |t| > 1 {
        assert !StartsWith(t[1..] + u, pat) by {
          assert (t[1..] + u)[0] == t[1];
        }
      }
      ReplaceAllSkipToken(t[1..], u, pat, rep);
      assert ReplaceAll(tu, pat, rep) == [t[0]] + ReplaceAll(tu[1..], pat, rep);
      assert t == [t[0]] + t[1..];
    } else {
      assert t + u == u;
    }
  }

  /** An occurrence of the pattern at the front is replaced and the scan resumes after it. */
  lemma ReplaceAllAtPattern(u: string, pat: string, rep: string)
    requires |pat| > 0
    ensures ReplaceAll(pat + u, pat, rep) == rep + ReplaceAll(u, pat, rep)
  {
    assert StartsWith(pat + u, pat);
    assert (pat + u)[|pat|..] == u;
  }

  /** The first position from `i` on that is not white space, or `|s|`. */
  function SpaceRunEnd(s: string, i: nat): (a: nat)
    requires i <= |s|
    ensures i <= a <= |s|
    ensures forall k :: i <= k < a ==> IsSpace(s[k])
    ensures a < |s| ==> !IsSpace(s[a])
    decreases |s| - i
  {
    if i < |s| && IsSpace(s[i]) then SpaceRunEnd(s, i + 1) else i
  }

  /** The end of `s[a..j]` once the white space at its back is cut off. */
  function SpaceRunStart(s: string, a: nat, j: nat): (b: nat)
    requires a <= j <= |s|
    ensures a <= b <= j
    ensures forall k :: b <= k < j ==> IsSpace(s[k])
    ensures b > a ==> !IsSpace(s[b - 1])
    decreases j
  {
    if j > a && IsSpace(s[j - 1]) then SpaceRunStart(s, a, j - 1) else j
  }

  /** `String.prototype.trim`: the longest infix of `s` without white space at either end. */
  function Trim(s: string): (r: string)
    ensures exists a, b :: (0 <= a <= b <= |s| && r == s[a..b]
      && (forall i :: 0 <= i < a ==> IsSpace(s[i]))
      && (forall i :: b <= i < |s| ==> IsSpace(s[i])))
    ensures |r| > 0 ==> !IsSpace(r[0]) && !IsSpace(r[|r| - 1])
  {
    var a := SpaceRunEnd(s, 0);
    var b := SpaceRunStart(s, a, |s|);
    s[a..b]
  }

  /** A string with no white space at either end is its own trim. */
  lemma TrimKeepsTrimmed(s: string)
    requires |s| > 0 ==> !IsSpace(s[0]) && !IsSpace(s[|s| - 1])
    ensures Trim(s) == s
  {
  }

  /** How many UTF-16 code units JavaScript spends on `c`: two outside the Basic Multilingual Plane. */
  function Utf16Units(c: char): (n: nat)
    ensures n == 1 || n == 2
    ensures n == 2 <==> c as int > 0xFFFF
  {
    if c as int > 0xFFFF then 2 else 1
  }

  /** JavaScript's `s.length`: UTF-16 code units, not characters. */
  function JsLength(s: string): (n: nat)
    ensures |s| <= n <= 2 * |s|
  {
    if s == [] then 0 else Utf16Units(s[0]) + JsLength(s[1..])
  }

  /** The UTF-16 length of a concatenation is the sum of the lengths. */
  lemma {:induction false} JsLengthAppend(a: string, b: string)
    ensures JsLength(a + b) == JsLength(a) + JsLength(b)
  {
    if a != [] {
      assert (a + b)[0] == a[0] && (a + b)[1..] == a[1..] + b;
      JsLengthAppend(a[1..], b);
      assert JsLength(a + b) == Utf16Units(a[0]) + JsLength(a[1..] + b);
    } else {
      assert a + b == b;
    }
  }

  /** A string inside the Basic Multilingual Plane has as many code units as characters. */
  lemma {:induction false} JsLengthBmp(s: string)
    requires forall i :: 0 <= i < |s| ==> s[i] as int <= 0xFFFF
    ensures JsLength(s) == |s|
  {
    if s != [] {
      JsLengthBmp(s[1..]);
    }
  }

  /** Every character outside the Basic Multilingual Plane adds a unit: an emoji has length two. */
  lemma JsLengthOfEmoji()
    ensures JsLength("\U{1F600}") == 2 && |"\U{1F600}"| == 1
  {
  }

  /** A string of characters all outside the Basic Multilingual Plane is twice as long as it has characters. */
  lemma {:induction false} JsLengthAstral(s: string)
    requires forall i :: 0 <= i < |s| ==> s[i] as int > 0xFFFF
    ensures JsLength(s) == 2 * |s|
  {
    if s != [] {
      JsLengthAstral(s[1..]);
    }
  }

  /** Dropping a prefix never adds code units. */
  lemma {:induction false} JsLengthDrop(s: string, i: nat)
    requires i <= |s|
    ensures JsLength(s[i..]) <= JsLength(s)
  {
    if i > 0 {
      assert s[i..] == s[1..][i - 1..];
      JsLengthDrop(s[1..], i - 1);
    }
  }

  /** A slice never counts more code units than the string it is cut from. */
  lemma JsLengthSlice(s: string, i: nat, j: nat)
    requires i <= j <= |s|
    ensures JsLength(s[i..j]) <= JsLength(s)
  {
    var prefix := s[..j];
    assert prefix + s[j..] == s;
    JsLengthAppend(prefix, s[j..]);
    assert s[i..j] == prefix[i..];
    JsLengthDrop(prefix, i);
  }

  /** Trimming never lengthens a string. */
  lemma JsLengthTrim(s: string)
    ensures JsLength(Trim(s)) <= JsLength(s)
  {
    var a, b :| 0 <= a <= b <= |s| && Trim(s) == s[a..b];
    JsLengthSlice(s, a, b);
  }

  /** `toLowerCase` on the ASCII range leaves the UTF-16 length alone. */
  lemma {:induction false} JsLengthLower(s: string)
    ensures JsLength(Lower(s)) == JsLength(s)
  {
    if s != [] {
      assert Lower(s)[1..] == Lower(s[1..]);
      JsLengthLower(s[1..]);
    }
  }

  /**
   * `s.substring(0, n)` (and `s.slice(0, n)`) for a non-negative `n`: the
   * first `n` UTF-16 code units, cut at a whole character.
   */
  function JsTake(s: string, n: nat): (r: string)
    ensures StartsWith(s, r) && JsLength(r) <= n
    ensures JsLength(s) <= n ==> r == s
    ensures |r| < |s| ==> JsLength(r) + Utf16Units(s[|r|]) > n
  {
    if s == [] || Utf16Units(s[0]) > n then []
    else
      var r := [s[0]] + JsTake(s[1..], n - Utf16Units(s[0]));
      assert JsLength(r) == Utf16Units(s[0]) + JsLength(r[1..]);
      r
  }

  /** Within the Basic Multilingual Plane the cut keeps exactly `n` characters when there are that many. */
  lemma JsTakeBmp(s: string, n: nat)
    requires forall i :: 0 <= i < |s| ==> s[i] as int <= 0xFFFF
    ensures |JsTake(s, n)| == if n < |s| then n else |s|
  {
    var r := JsTake(s, n);
    JsLengthBmp(r);
    if |r| < |s| {
      assert JsLength(r) + 1 > n;
    } else {
      JsLengthBmp(s);
    }
  }

  /** `s.replace(/c/g, '')` for one character `c`. */
  function RemoveChar(s: string, c: char): (r: string)
    ensures c !in r
    ensures |r| <= |s|
    ensures forall x :: x != c ==> multiset(r)[x] == multiset(s)[x]
  {
    if s == [] then []
    else
      assert s == [s[0]] + s[1..];
      if s[0] == c then RemoveChar(s[1..], c) else [s[0]] + RemoveChar(s[1..], c)
  }

  /** Removing a character the string does not contain changes nothing. */
  lemma {:induction false} RemoveCharAbsent(s: string, c: char)
    requires c !in s
    ensures RemoveChar(s, c) == s
  {
    if s != [] {
      assert c !in s[1..];
      RemoveCharAbsent(s[1..], c);
    }
  }

  /** `parts.join(sep)`. */
  function Join(parts: seq<string>, sep: string): string {
    if |parts| == 0 then []
    else if |parts| == 1 then parts[0]
    else parts[0] + sep + Join(parts[1..], sep)
  }

  /** An occurrence inside a string is an occurrence inside anything built around it. */
  lemma ContainsWithin(pre: string, s: string, post: string, sub: string)
    requires Contains(s, sub)
    ensures Contains(pre + s + post, sub)
  {
    var k :| 0 <= k <= |s| && OccursAt(s, sub, k);
    var whole := pre + s + post;
    assert whole[|pre| + k..|pre| + k + |sub|] == s[k..k + |sub|];
    assert OccursAt(whole, sub, |pre| + k);
  }

  /** Every part of a join occurs in it. */
  lemma {:induction false} JoinContainsPart(parts: seq<string>, sep: string, i: nat)
    requires i < |parts|
    ensures Contains(Join(parts, sep), parts[i])
    decreases |parts|
  {
    assert OccursAt(parts[0], parts[0], 0);
    if |parts| > 1 {
      var rest := Join(parts[1..], sep);
      if i == 0 {
        ContainsWithin([], parts[0], sep + rest, parts[0]);
        assert [] + parts[0] + (sep + rest) == Join(parts, sep);
      } else {
        JoinContainsPart(parts[1..], sep, i - 1);
        assert parts[1..][i - 1] == parts[i];
        ContainsWithin(parts[0] + sep, rest, [], parts[i]);
        assert parts[0] + sep + rest + [] == Join(parts, sep);
      }
    }
  }

  function DigitChar(d: nat): char
    requires d < 10
  {
    ('0' as int + d) as char
  }

  /** The decimal spelling `String(n)` of a natural number. */
  function NatToString(n: nat): (r: string)
    ensures |r| > 0 && AllDigits(r)
  {
    if n < 10 then [DigitChar(n)] else NatToString(n / 10) + [DigitChar(n % 10)]
  }
}

=== FILE: ui_utils.dfy ===
/**
 * `escapeHtml` and `highlightCode` of `app/lib/uiUtils.ts`. Escaping is five
 * global replacements applied in turn, ampersand first; the model keeps
 * that shape and proves it equal to escaping each character on its own, and
 * proves that undoing the replacements in the reverse order, ampersand
 * last, recovers the input.
 */
module UiUtils {
  import opened Text

  /** `unsafe.replace(/&/g, "&amp;").replace(/</g, "&lt;")...replace(/'/g, "&#039;")`. */
  function EscapeHtml(s: string): string {
    var s1 := ReplaceAll(s, "&", "&amp;");
    var s2 := ReplaceAll(s1, "<", "&lt;");
    var s3 := ReplaceAll(s2, ">", "&gt;");
    var s4 := ReplaceAll(s3, "\"", "&quot;");
    ReplaceAll(s4, "'", "&#039;")
  }

  /** The five characters escaping rewrites. */
  predicate IsSpecial(c: char) {
    c == '&' || c == '<' || c == '>' || c == '"' || c == '\''
  }

  /** The entity each special character is written as; any other character stands for itself. */
  function EscapeChar(c: char): (r: string)
    ensures |r| >= 1
    ensures !IsSpecial(c) <==> r == [c]
  {
    if c == '&' then "&amp;"
    else if c == '<' then "&lt;"
    else if c == '>' then "&gt;"
    else if c == '"' then "&quot;"
    else if c == '\'' then "&#039;"
    else [c]
  }

  /** Escaping one character at a time: the reference the five replacements are compared against. */
  function EscapeMap(s: string): string {
    if s == [] then [] else EscapeChar(s[0]) + EscapeMap(s[1..])
  }

  /** Each replacement stage distributes over concatenation, so escaping does. */
  lemma EscapeHtmlAppend(a: string, b: string)
    ensures EscapeHtml(a + b) == EscapeHtml(a) + EscapeHtml(b)
  {
    var a1, b1 := ReplaceAll(a, "&", "&amp;"), ReplaceAll(b, "&", "&amp;");
    ReplaceAllCharAppend(a, b, "&", "&amp;");
    var a2, b2 := ReplaceAll(a1, "<", "&lt;"), ReplaceAll(b1, "<", "&lt;");
    ReplaceAllCharAppend(a1, b1, "<", "&lt;");
    var a3, b3 := ReplaceAll(a2, ">", "&gt;"), ReplaceAll(b2, ">", "&gt;");
    ReplaceAllCharAppend(a2, b2, ">", "&gt;");
    var a4, b4 := ReplaceAll(a3, "\"", "&quot;"), ReplaceAll(b3, "\"", "&quot;");
    ReplaceAllCharAppend(a3, b3, "\"", "&quot;");
    ReplaceAllCharAppend(a4, b4, "'", "&#039;");
  }

  /** A one-character pattern is absent from a string that does not contain its character. */
  lemma ReplaceAllMissingChar(s: string, p: char, rep: string)
    requires p !in s
    ensures ReplaceAll(s, [p], rep) == s
  {
    forall i | 0 <= i <= |s| ensures !OccursAt(s, [p], i) {
      if i + 1 <= |s| {
        assert s[i..i + 1] == [s[i]];
      }
    }
    ReplaceAllAbsent(s, [p], rep);
  }

  /** A single character against a one-character pattern: replaced exactly when they are equal. */
  lemma ReplaceAllOneChar(c: char, p: char, rep: string)
    ensures ReplaceAll([c], [p], rep) == if c == p then rep else [c]
  {
    assert [c][1..] == [] && [c][..1] == [c];
    assert [c] == [p] <==> c == p by {
      assert [c][0] == c && [p][0] == p;
    }
  }

  /** The replacements after the first leave an entity alone. */
  lemma LaterStagesKeep(e: string, from: nat)
    requires 1 <= from <= 4
    requires from <= 1 ==> '<' !in e
    requires from <= 2 ==> '>' !in e
    requires from <= 3 ==> '"' !in e
    requires '\'' !in e
    ensures from <= 1 ==> ReplaceAll(e, "<", "&lt;") == e
    ensures from <= 2 ==> ReplaceAll(e, ">", "&gt;") == e
    ensures from <= 3 ==> ReplaceAll(e, "\"", "&quot;") == e
    ensures ReplaceAll(e, "'", "&#039;") == e
  {
    if from <= 1 { ReplaceAllMissingChar(e, '<', "&lt;"); }
    if from <= 2 { ReplaceAllMissingChar(e, '>', "&gt;"); }
    if from <= 3 { ReplaceAllMissingChar(e, '"', "&quot;"); }
    ReplaceAllMissingChar(e, '\'', "&#039;");
  }

  lemma EscapeHtmlOne(c: char)
    ensures EscapeHtml([c]) == EscapeChar(c)
  {
    ReplaceAllOneChar(c, '&', "&amp;");
    if c == '&' {
      LaterStagesKeep("&amp;", 1);
      return;
    }
    ReplaceAllOneChar(c, '<', "&lt;");
    if c == '<' {
      LaterStagesKeep("&lt;", 2);
      return;
    }
    ReplaceAllOneChar(c, '>', "&gt;");
    if c == '>' {
      LaterStagesKeep("&gt;", 3);
      return;
    }
    ReplaceAllOneChar(c, '"', "&quot;");
    if c == '"' {
      LaterStagesKeep("&quot;", 4);
      return;
    }
    ReplaceAllOneChar(c, '\'', "&#039;");
  }

  /** The five sequential replacements escape each character independently. */
  lemma {:induction false} EscapeHtmlIsPerChar(s: string)
    ensures EscapeHtml(s) == EscapeMap(s)
    decreases |s|
  {
    if s == [] {
      assert EscapeHtml(s) == [];
    } else {
      assert s == [s[0]] + s[1..];
      EscapeHtmlAppend([s[0]], s[1..]);
      EscapeHtmlOne(s[0]);
      EscapeHtmlIsPerChar(s[1..]);
    }
  }

  /** One of the five entities occurs in `t` at `i`. */
  predicate EntityAt(t: string, i: int) {
    OccursAt(t, "&amp;", i) || OccursAt(t, "&lt;", i) || OccursAt(t, "&gt;", i)
    || OccursAt(t, "&quot;", i) || OccursAt(t, "&#039;", i)
  }

  /** Every `&` of `t` begins one of the five entities. */
  predicate AmpersandsStartEntities(t: string) {
    forall i :: 0 <= i < |t| && t[i] == '&' ==> EntityAt(t, i)
  }

  lemma OccursAtShift(t: string, u: string, e: string, j: int)
    requires OccursAt(u, e, j)
    ensures OccursAt(t + u, e, j + |t|)
  {
    assert (t + u)[j + |t|..j + |t| + |e|] == u[j..j + |e|];
  }

  /** An entity found in `u` is still found, shifted, after a prefix. */
  lemma EntityAtShift(t: string, u: string, j: int)
    requires EntityAt(u, j)
    ensures EntityAt(t + u, j + |t|)
  {
    if OccursAt(u, "&amp;", j) { OccursAtShift(t, u, "&amp;", j); }
    else if OccursAt(u, "&lt;", j) { OccursAtShift(t, u, "&lt;", j); }
    else if OccursAt(u, "&gt;", j) { OccursAtShift(t, u, "&gt;", j); }
    else if OccursAt(u, "&quot;", j) { OccursAtShift(t, u, "&quot;", j); }
    else { OccursAtShift(t, u, "&#039;", j); }
  }

  /** The escape of a character holds an `&` only at its start, where an entity begins. */
  lemma EscapeCharEntity(c: char, u: string, i: int)
    requires 0 <= i < |EscapeChar(c)| && EscapeChar(c)[i] == '&'
    ensures i == 0 && EntityAt(EscapeChar(c) + u, 0)
  {
    var t := EscapeChar(c);
    assert (t + u)[..|t|] == t;
  }

  lemma {:induction false} EscapeMapNoRaw(s: string)
    ensures forall i :: 0 <= i < |EscapeMap(s)| ==> EscapeMap(s)[i] !in "<>\"'"
    ensures |EscapeMap(s)| >= |s|
    decreases |s|
  {
    if s != [] {
      EscapeMapNoRaw(s[1..]);
      var t := EscapeChar(s[0]);
      var u := EscapeMap(s[1..]);
      forall i | 0 <= i < |t + u| ensures (t + u)[i] !in "<>\"'" {
        if i >= |t| {
          assert (t + u)[i] == u[i - |t|];
        }
      }
    }
  }

  lemma {:induction false} EscapeMapEntities(s: string)
    ensures AmpersandsStartEntities(EscapeMap(s))
    decreases |s|
  {
    if s != [] {
      EscapeMapEntities(s[1..]);
      var t := EscapeChar(s[0]);
      var u := EscapeMap(s[1..]);
      forall i | 0 <= i < |t + u| && (t + u)[i] == '&' ensures EntityAt(t + u, i) {
        if i < |t| {
          EscapeCharEntity(s[0], u, i);
        } else {
          assert u[i - |t|] == (t + u)[i];
          EntityAtShift(t, u, i - |t|);
        }
      }
    }
  }

  /**
   * The escaped text holds no raw `<`, `>`, `"` or `'`, every `&` in it
   * starts one of the five entities, and it is never shorter than the input.
   */
  lemma EscapeHtmlSafe(s: string)
    ensures forall i :: 0 <= i < |EscapeHtml(s)| ==> EscapeHtml(s)[i] !in "<>\"'"
    ensures AmpersandsStartEntities(EscapeHtml(s))
    ensures |EscapeHtml(s)| >= |s|
  {
    EscapeHtmlIsPerChar(s);
    EscapeMapNoRaw(s);
    EscapeMapEntities(s);
  }

  /** Text with none of the five characters comes back unchanged. */
  lemma {:induction false} EscapeHtmlIdentityOnPlain(s: string)
    requires forall i :: 0 <= i < |s| ==> !IsSpecial(s[i])
    ensures EscapeHtml(s) == s
    decreases |s|
  {
    EscapeHtmlIsPerChar(s);
    if s != [] {
      EscapeHtmlIdentityOnPlain(s[1..]);
      EscapeHtmlIsPerChar(s[1..]);
      assert s == [s[0]] + s[1..];
    }
  }

  // ---- undoing the escape ------------------------------------------------

  /** The unescape stages: stage `k` turns entity `StageEntity(k)` back into `StageChar(k)`. */
  function StageChar(k: nat): char
    requires 1 <= k <= 5
  {
    if k == 1 then '\'' else if k == 2 then '"' else if k == 3 then '>' else if k == 4 then '<' else '&'
  }

  function StageEntity(k: nat): (e: string)
    requires 1 <= k <= 5
    ensures e == EscapeChar(StageChar(k))
  {
    EscapeChar(StageChar(k))
  }

  /** The stage that restores a special character; 0 for the others. */
  function Rank(c: char): (k: nat)
    ensures k <= 5
    ensures k > 0 <==> IsSpecial(c)
    ensures k > 0 ==> StageChar(k) == c
  {
    if c == '\'' then 1 else if c == '"' then 2 else if c == '>' then 3 else if c == '<' then 4
    else if c == '&' then 5 else 0
  }

  /** Undo the escape: the entities in reverse order, `&amp;` last. */
  function Unescape(t: string): string {
    var t1 := ReplaceAll(t, "&#039;", "'");
    var t2 := ReplaceAll(t1, "&quot;", "\"");
    var t3 := ReplaceAll(t2, "&gt;", ">");
    var t4 := ReplaceAll(t3, "&lt;", "<");
    ReplaceAll(t4, "&amp;", "&")
  }

  /** The text of character `c` after the first `k` unescape stages. */
  function Token(c: char, k: nat): string {
    if Rank(c) == 0 || Rank(c) <= k then [c] else EscapeChar(c)
  }

  function Tokens(s: string, k: nat): string {
    if s == [] then [] else Token(s[0], k) + Tokens(s[1..], k)
  }

  lemma {:induction false} TokensBeforeAnyStage(s: string)
    ensures Tokens(s, 0) == EscapeMap(s)
    decreases |s|
  {
    if s != [] {
      TokensBeforeAnyStage(s[1..]);
    }
  }

  lemma {:induction false} TokensAfterAllStages(s: string)
    ensures Tokens(s, 5) == s
    decreases |s|
  {
    if s != [] {
      TokensAfterAllStages(s[1..]);
      assert s == [s[0]] + s[1..];
    }
  }

  /** Stage `k + 1` turns exactly the tokens of its character back into the character. */
  lemma {:induction false} UnescapeStage(s: string, k: nat)
    requires k < 5
    ensures ReplaceAll(Tokens(s, k), StageEntity(k + 1), [StageChar(k + 1)]) == Tokens(s, k + 1)
    decreases |s|
  {
    var pat := StageEntity(k + 1);
    var rep := [StageChar(k + 1)];
    if s == [] {
    } else {
      var t := Token(s[0], k);
      var u := Tokens(s[1..], k);
      UnescapeStage(s[1..], k);
      if Rank(s[0]) == k + 1 {
        assert t == pat;
        ReplaceAllAtPattern(u, pat, rep);
      } else {
        assert Token(s[0], k + 1) == t;
        assert forall j :: 1 <= j < |t| ==> t[j] != pat[0];
        assert !StartsWith(t + u, pat) by {
          if |t| == 1 {
            assert (t + u)[0] == s[0] && s[0] != '&';
          } else {
            assert (t + u)[1] == t[1] && t[1] != pat[1];
          }
        }
        ReplaceAllSkipToken(t, u, pat, rep);
      }
    }
  }

  /** Undoing the replacements in reverse order, ampersand last, recovers the original text. */
  lemma UnescapeEscape(s: string)
    ensures Unescape(EscapeHtml(s)) == s
  {
    EscapeHtmlIsPerChar(s);
    TokensBeforeAnyStage(s);
    var t1 := ReplaceAll(EscapeHtml(s), "&#039;", "'");
    assert t1 == Tokens(s, 1) by { UnescapeStage(s, 0); }
    var t2 := ReplaceAll(t1, "&quot;", "\"");
    assert t2 == Tokens(s, 2) by { UnescapeStage(s, 1); }
    var t3 := ReplaceAll(t2, "&gt;", ">");
    assert t3 == Tokens(s, 3) by { UnescapeStage(s, 2); }
    var t4 := ReplaceAll(t3, "&lt;", "<");
    assert t4 == Tokens(s, 4) by { UnescapeStage(s, 3); }
    assert ReplaceAll(t4, "&amp;", "&") == Tokens(s, 5) by { UnescapeStage(s, 4); }
    TokensAfterAllStages(s);
  }

  const CodeClose: string := "</code></pre>"

  function CodeOpen(language: string): string {
    "<pre><code class=\"language-" + language + "\">"
  }

  /** `highlightCode`: the escaped code inside a `pre`/`code` pair whose class names the language unescaped. */
  function HighlightCode(code: string, language: string): (r: string)
    ensures StartsWith(r, CodeOpen(language))
    ensures |r| >= |CodeOpen(language)| + |CodeClose|
    ensures r[|r| - |CodeClose|..] == CodeClose
    ensures Unescape(r[|CodeOpen(language)|..|r| - |CodeClose|]) == code
  {
    var body := EscapeHtml(code);
    var r := CodeOpen(language) + body + CodeClose;
    assert r[|CodeOpen(language)|..|r| - |CodeClose|] == body;
    assert r[..|CodeOpen(language)|] == CodeOpen(language);
    UnescapeEscape(code);
    r
  }

  /** The language is placed in the attribute as given: a quote in it ends the attribute early. */
  lemma LanguageNotEscaped(code: string)
    ensures var lang := "x\" onclick=\"y";
      OccursAt(HighlightCode(code, lang), lang, |"<pre><code class=\"language-"|)
  {
    var lang := "x\" onclick=\"y";
    var r := HighlightCode(code, lang);
    var pre := "<pre><code class=\"language-";
    assert r[..|CodeOpen(lang)|] == CodeOpen(lang);
    assert CodeOpen(lang)[|pre|..|pre| + |lang|] == lang;
  }
}

=== FILE: upload_schemas.dfy ===
/**
 * The Joi schema an image upload is checked against before it is sent to
 * the image host: a required name, a MIME type from a fixed list and a size
 * of at most ten mebibytes, with every error collected.
 */
module UploadSchemas {
  import opened Wrappers
  import opened PostSchemas

  /** The three keys of the validated object; `None` is an absent key. */
  datatype UploadInput = UploadInput(name: Option<string>, mimeType: Option<string>, size: Option<int>)

  const AllowedImageTypes: seq<string> :=
    ["image/jpeg", "image/png", "image/gif", "image/webp", "image/jpg"]

  /** `10 * 1024 * 1024` bytes. */
  const MaxUploadBytes: nat := 10 * 1024 * 1024

  const NameRule := RequiredString
  const TypeRule := RequiredString.(only := Some(AllowedImageTypes))

  /**
   * `number().max(MaxUploadBytes).required()`: the bound is inclusive, and a
   * number beyond the safe-integer range stops at the base check instead.
   */
  function CheckSize(v: Option<int>): (es: seq<ErrorKind>)
    ensures v.None? ==> es == [Required]
    ensures v.Some? ==> (es == [] <==> -MaxSafeInteger <= v.value <= MaxUploadBytes)
    ensures v.Some? && !SafeInteger(v.value) ==> es == [Unsafe]
    ensures v.Some? && SafeInteger(v.value) && es != [] ==> es == [TooBig(MaxUploadBytes)]
  {
    match v
    case None => [Required]
    case Some(n) => if !SafeInteger(n) then [Unsafe] else if n > MaxUploadBytes then [TooBig(MaxUploadBytes)] else []
  }

  /** No key of the upload object is a URI, so no rule here consults the test. */
  function NoUri(s: string): bool { false }

  /** Every error of the object, in key order name, type, size (abortEarly off). */
  function UploadErrors(u: UploadInput): (errs: seq<Detail>)
    ensures |errs| <= 4
    ensures forall d :: d in errs ==> d.path in [[Key("name")], [Key("type")], [Key("size")]]
  {
    Report([Key("name")], CheckString(u.name, NameRule, NoUri))
      + Report([Key("type")], CheckString(u.mimeType, TypeRule, NoUri))
      + Report([Key("size")], CheckSize(u.size))
  }

  /** What an acceptable upload looks like, stated on its own. */
  predicate UploadConforms(u: UploadInput) {
    && u.name.Some? && u.name.value != ""
    && u.mimeType.Some? && u.mimeType.value in AllowedImageTypes
    && u.size.Some? && -MaxSafeInteger <= u.size.value <= MaxUploadBytes
  }

  /** The schema accepts exactly the conforming uploads. */
  lemma UploadErrorsEmptyIff(u: UploadInput)
    ensures UploadErrors(u) == [] <==> UploadConforms(u)
  {
    var n := CheckString(u.name, NameRule, NoUri);
    var t := CheckString(u.mimeType, TypeRule, NoUri);
    var z := CheckSize(u.size);
    assert UploadErrors(u) == [] <==> n == [] && t == [] && z == [];
  }

  /** The empty name is an error although the key is present. */
  lemma EmptyNameRejected(u: UploadInput)
    requires u.name == Some("")
    ensures Detail([Key("name")], Empty) in UploadErrors(u)
  {
    assert UploadErrors(u)[0] == Detail([Key("name")], Empty);
  }

  /** Exactly ten mebibytes passes and one byte more fails. */
  lemma SizeBoundIsInclusive()
    ensures CheckSize(Some(10485760)) == []
    ensures CheckSize(Some(10485761)) == [TooBig(10485760)]
  {
  }

  /**
   * Validation does not stop at the first failure: an upload wrong in all
   * three keys reports all three, in key order, and an empty type is
   * reported twice, as outside the list and as empty.
   */
  lemma AllErrorsCollected(u: UploadInput)
    requires u.name.None?
    requires u.mimeType.Some? && u.mimeType.value !in AllowedImageTypes
    requires u.size.Some? && u.size.value > MaxUploadBytes
    ensures UploadErrors(u) ==
      [Detail([Key("name")], Required), Detail([Key("type")], NotOneOf)]
      + (if u.mimeType.value == "" then [Detail([Key("type")], Empty)] else [])
      + [Detail([Key("size")], if SafeInteger(u.size.value) then TooBig(MaxUploadBytes) else Unsafe)]
  {
    var t := CheckString(u.mimeType, TypeRule, NoUri);
    assert t == [NotOneOf] + (if u.mimeType.value == "" then [Empty] else []);
  }

  /** An empty type is the one key with two errors: it is outside the list and it is empty. */
  lemma EmptyTypeReportedTwice()
    ensures UploadErrors(UploadInput(Some("a.png"), Some(""), Some(1)))
         == [Detail([Key("type")], NotOneOf), Detail([Key("type")], Empty)]
  {
    assert CheckString(Some(""), TypeRule, NoUri) == [NotOneOf, Empty];
  }
}

=== FILE: user_types.dfy ===
/** `AuthUser` of `app/types/user.ts` and the role test the server and the route guard share. */
module UserTypes {
  import opened Wrappers

  /** A signed-in user as the session token describes it. */
  datatype AuthUser = AuthUser(id: string, email: string, role: string)

  const AdminRole: string := "admin"

  /** `user?.role === 'admin'`: a present user whose role is exactly `admin`. */
  predicate IsAdmin(user: Option<AuthUser>) {
    user.Some? && user.value.role == AdminRole
  }
}

=== FILE: utils.dfy ===
/**
 * The shared helpers of `app/lib/utils.ts`: the JSON response envelopes,
 * the flattening of validation errors, the content-type gate and the slug
 * generator.
 */
module Utils {
  import opened Wrappers
  import opened Text
  import opened PostModel
  import opened PostSchemas

  /** One entry of a formatted validation error: the dotted path and the message. */
  datatype FieldError = FieldError(field: string, message: string)

  /**
   * The `details` an error envelope may carry. `ThrownError` is a caught
   * `Error` object passed as is, which serialises to `{}`.
   */
  datatype ErrorDetails = NoDetails | FieldErrors(errors: seq<FieldError>) | Note(text: string) | ThrownError

  /** The body of every API response: `ApiSuccessResponse` or `ApiErrorResponse`. */
  datatype ApiResponse<T> =
    | Success(data: T, statusCode: int)
    | Failure(error: string, message: string, details: ErrorDetails, statusCode: int)
  {
    /** The `success` flag of the JSON body. */
    predicate Succeeded() { this.Success? }
  }

  /** An HTTP reply: the status line and the JSON body. */
  datatype Reply<T> = Reply(status: int, body: ApiResponse<T>)

  /** `apiErrorResponse`: `success` false, the status echoed in the body. */
  function ErrorReply<T>(error: string, message: string, status: int, details: ErrorDetails): (r: Reply<T>)
    ensures !r.body.Succeeded() && r.status == status && r.body.statusCode == status
    ensures r.body.error == error && r.body.message == message && r.body.details == details
  {
    Reply(status, Failure(error, message, details, status))
  }

  /** `apiSuccessResponse`: `success` true, the status echoed in the body. */
  function SuccessReply<T>(data: T, status: int): (r: Reply<T>)
    ensures r.body.Succeeded() && r.status == status && r.body.statusCode == status
    ensures r.body.data == data
  {
    Reply(status, Success(data, status))
  }

  /** `apiSuccessResponse(data)` with the default status. */
  function OkReply<T>(data: T): (r: Reply<T>)
    ensures r == SuccessReply(data, 200)
  {
    SuccessReply(data, 200)
  }

  /** The two envelopes are told apart by the flag alone, and each echoes its status. */
  lemma EnvelopesDistinct<T>(data: T, error: string, message: string, status: int, details: ErrorDetails)
    ensures SuccessReply(data, status).body.Succeeded() != ErrorReply<T>(error, message, status, details).body.Succeeded()
    ensures OkReply(data).status == 200 && OkReply(data).body.statusCode == 200
    ensures SuccessReply(data, status).status == SuccessReply(data, status).body.statusCode
    ensures ErrorReply<T>(error, message, status, details).status == ErrorReply<T>(error, message, status, details).body.statusCode
  {
  }

  function SegText(p: PathSeg): string {
    match p
    case Key(name) => name
    case Index(i) => NatToString(i)
  }

  /** `d.path.join('.')`. */
  function JoinPath(path: seq<PathSeg>): string {
    if path == [] then ""
    else if |path| == 1 then SegText(path[0])
    else SegText(path[0]) + "." + JoinPath(path[1..])
  }

  /**
   * `formatValidationError`: one entry per detail, in order; the field is
   * the dotted path and the message is the rendered message with every
   * double quote removed. The message templates are not part of this
   * model, so the rendering is a parameter.
   */
  function FormatValidationError(details: seq<Detail>, render: Detail -> string): (r: seq<FieldError>)
    ensures |r| == |details|
    ensures forall i :: 0 <= i < |r| ==> r[i].field == JoinPath(details[i].path)
    ensures forall i :: 0 <= i < |r| ==> '"' !in r[i].message
    ensures forall i, c :: 0 <= i < |r| && c != '"' ==>
      multiset(r[i].message)[c] == multiset(render(details[i]))[c]
  {
    seq(|details|, i requires 0 <= i < |details| =>
      FieldError(JoinPath(details[i].path), RemoveChar(render(details[i]), '"')))
  }

  /** A block error deep in the content list is reported under its dotted path. */
  lemma FormatNestedPath(render: Detail -> string)
    ensures var d := Detail([Key("content"), Index(2), Key("language")], Required);
      FormatValidationError([d], render)[0].field == "content.2.language"
  {
    var path := [Key("content"), Index(2), Key("language")];
    assert path[1..] == [Index(2), Key("language")];
    assert path[1..][1..] == [Key("language")];
    assert NatToString(2) == "2";
  }

  /** A message without quotes is kept as rendered. */
  lemma FormatKeepsUnquotedMessage(d: Detail, render: Detail -> string)
    requires '"' !in render(d)
    ensures FormatValidationError([d], render)[0].message == render(d)
  {
    RemoveCharAbsent(render(d), '"');
  }

  /**
   * `checkContentType`: a 400 reply unless the `content-type` header is
   * exactly `application/json` (no parameters, no other casing).
   */
  function CheckContentType<T>(header: Option<string>): (r: Option<Reply<T>>)
    ensures r.None? <==> header == Some("application/json")
    ensures r.Some? ==> r.value.status == 400 && !r.value.body.Succeeded()
  {
    if header != Some("application/json") then
      Some(ErrorReply("Invalid request", "Content-Type must be application/json", 400, NoDetails))
    else None
  }

  /** A parameterised type is refused even though it names JSON. */
  lemma ContentTypeIsExact<T>()
    ensures CheckContentType<T>(Some("application/json; charset=utf-8")).Some?
    ensures CheckContentType<T>(None).Some?
  {
  }

  // ---- generateSlug ------------------------------------------------------

  /** The characters `[\w\s-]` the second step keeps. */
  predicate KeptBySlug(c: char) {
    IsWordChar(c) || IsSpace(c) || c == '-'
  }

  /** `replace(/[^\w\s-]/g, '')`. */
  function RemoveSpecial(s: string): (r: string)
    ensures forall i :: 0 <= i < |r| ==> KeptBySlug(r[i])
    ensures (forall i :: 0 <= i < |s| ==> KeptBySlug(s[i])) ==> r == s
  {
    if s == [] then []
    else
      var rest := RemoveSpecial(s[1..]);
      if KeptBySlug(s[0]) then [s[0]] + rest else rest
  }

  /** Removing characters never introduces one. */
  lemma {:induction false} RemoveSpecialDrawsFromInput(s: string)
    ensures forall i :: 0 <= i < |RemoveSpecial(s)| ==> RemoveSpecial(s)[i] in s
  {
    if s != [] {
      RemoveSpecialDrawsFromInput(s[1..]);
      var rest := RemoveSpecial(s[1..]);
      forall i | 0 <= i < |rest| ensures rest[i] in s {
        assert rest[i] in s[1..];
      }
    }
  }

  /** The separators `[\s_-]` the third step collapses. */
  predicate IsSeparator(c: char) {
    IsSpace(c) || c == '_' || c == '-'
  }

  /** The end of the run of separators starting at `i`. */
  function SeparatorRunEnd(s: string, i: nat): (j: nat)
    requires i <= |s|
    ensures i <= j <= |s|
    ensures forall k :: i <= k < j ==> IsSeparator(s[k])
    ensures j < |s| ==> !IsSeparator(s[j])
    decreases |s| - i
  {
    if i < |s| && IsSeparator(s[i]) then SeparatorRunEnd(s, i + 1) else i
  }

  /** `replace(/[\s_-]+/g, '-')`: every maximal run of separators becomes one hyphen. */
  function CollapseSeparators(s: string): (r: string)
    ensures forall i :: 0 <= i < |r| ==> r[i] == '-' || (!IsSeparator(r[i]) && r[i] in s)
    ensures forall i :: 0 <= i < |r| - 1 ==> !(r[i] == '-' && r[i + 1] == '-')
    ensures |s| > 0 && IsSeparator(s[0]) ==> |r| > 0 && r[0] == '-'
    ensures |s| > 0 && !IsSeparator(s[0]) ==> |r| > 0 && r[0] == s[0]
    decreases |s|
  {
    if s == [] then []
    else if IsSeparator(s[0]) then
      var j := SeparatorRunEnd(s, 0);
      var rest := CollapseSeparators(s[j..]);
      assert forall c :: c in s[j..] ==> c in s;
      "-" + rest
    else
      var rest := CollapseSeparators(s[1..]);
      assert forall c :: c in s[1..] ==> c in s;
      [s[0]] + rest
  }

  function StripLeadingHyphens(s: string): (r: string)
    ensures |r| <= |s| && r == s[|s| - |r|..]
    ensures |r| > 0 ==> r[0] != '-'
  {
    if |s| > 0 && s[0] == '-' then StripLeadingHyphens(s[1..]) else s
  }

  function StripTrailingHyphens(s: string): (r: string)
    ensures |r| <= |s| && r == s[..|r|]
    ensures |r| > 0 ==> r[|r| - 1] != '-'
  {
    if |s| > 0 && s[|s| - 1] == '-' then StripTrailingHyphens(s[..|s| - 1]) else s
  }

  /** `replace(/^-+|-+$/g, '')`: the hyphens at either end removed. */
  function StripHyphens(s: string): (r: string)
    ensures exists a, b :: (0 <= a <= b <= |s| && r == s[a..b])
    ensures |r| > 0 ==> r[0] != '-' && r[|r| - 1] != '-'
  {
    var t := StripLeadingHyphens(s);
    var r := StripTrailingHyphens(t);
    assert r == s[|s| - |t|..|s| - |t| + |r|];
    r
  }

  /** A slug in normal form: slug characters only, no hyphen at either end and no two in a row. */
  predicate IsNormalSlug(s: string) {
    && (forall i :: 0 <= i < |s| ==> IsSlugChar(s[i]))
    && (|s| > 0 ==> s[0] != '-' && s[|s| - 1] != '-')
    && (forall i :: 0 <= i < |s| - 1 ==> !(s[i] == '-' && s[i + 1] == '-'))
  }

  /**
   * `generateSlug`: lower-case, drop everything but word characters, white
   * space and hyphens, collapse separator runs to one hyphen, and strip
   * hyphens from both ends.
   */
  function GenerateSlug(text: string): (r: string)
    ensures IsNormalSlug(r)
    ensures |r| > 0 ==> MatchesSlugPattern(r)
  {
    var kept := RemoveSpecial(Lower(text));
    LoweredKeptHasNoUpper(Lower(text));
    var collapsed := CollapseSeparators(kept);
    CollapsedAreSlugChars(kept);
    StrippedIsNormal(collapsed);
    StripHyphens(collapsed)
  }

  lemma LoweredKeptHasNoUpper(lowered: string)
    requires forall i :: 0 <= i < |lowered| ==> !IsAsciiUpper(lowered[i])
    ensures forall i :: 0 <= i < |RemoveSpecial(lowered)| ==> !IsAsciiUpper(RemoveSpecial(lowered)[i])
  {
    var kept := RemoveSpecial(lowered);
    RemoveSpecialDrawsFromInput(lowered);
    forall i | 0 <= i < |kept| ensures !IsAsciiUpper(kept[i]) {
      var k :| 0 <= k < |lowered| && lowered[k] == kept[i];
    }
  }

  lemma CollapsedAreSlugChars(kept: string)
    requires forall i :: 0 <= i < |kept| ==> KeptBySlug(kept[i]) && !IsAsciiUpper(kept[i])
    ensures forall i :: 0 <= i < |CollapseSeparators(kept)| ==> IsSlugChar(CollapseSeparators(kept)[i])
  {
    var collapsed := CollapseSeparators(kept);
    forall i | 0 <= i < |collapsed| ensures IsSlugChar(collapsed[i]) {
      if collapsed[i] != '-' {
        var k :| 0 <= k < |kept| && kept[k] == collapsed[i];
      }
    }
  }

  lemma StrippedIsNormal(s: string)
    requires forall i :: 0 <= i < |s| ==> IsSlugChar(s[i])
    requires forall i :: 0 <= i < |s| - 1 ==> !(s[i] == '-' && s[i + 1] == '-')
    ensures IsNormalSlug(StripHyphens(s))
  {
    var t := StripLeadingHyphens(s);
    var r := StripTrailingHyphens(t);
    assert r == StripHyphens(s);
    var a := |s| - |t|;
    forall i | 0 <= i < |r| ensures r[i] == s[a + i] {
      assert r[i] == t[i];
    }
    forall i | 0 <= i < |r| ensures IsSlugChar(r[i]) {
      assert r[i] == s[a + i];
    }
    forall i | 0 <= i < |r| - 1 ensures !(r[i] == '-' && r[i + 1] == '-') {
      assert r[i] == s[a + i] && r[i + 1] == s[a + i + 1];
    }
  }

  lemma {:induction false} RemoveSpecialKeepsSlug(s: string)
    requires forall i :: 0 <= i < |s| ==> IsSlugChar(s[i])
    ensures RemoveSpecial(s) == s
  {
  }

  /** A normal slug has no separator but single inner hyphens, so collapsing leaves it unchanged. */
  lemma {:induction false} CollapseKeepsNormal(s: string)
    requires forall i :: 0 <= i < |s| ==> IsSlugChar(s[i])
    requires forall i :: 0 <= i < |s| - 1 ==> !(s[i] == '-' && s[i + 1] == '-')
    ensures CollapseSeparators(s) == s
    decreases |s|
  {
    if s != [] {
      var t := s[1..];
      assert CollapseSeparators(t) == t by {
        assert forall i :: 0 <= i < |t| ==> t[i] == s[i + 1];
        CollapseKeepsNormal(t);
      }
      assert CollapseSeparators(s) == [s[0]] + CollapseSeparators(t) by {
        if IsSeparator(s[0]) {
          LoneHyphenRun(s);
        }
      }
      assert s == [s[0]] + t;
    }
  }

  /** In a slug with no double hyphen, a leading separator is a hyphen standing alone. */
  lemma LoneHyphenRun(s: string)
    requires |s| > 0 && IsSeparator(s[0])
    requires forall i :: 0 <= i < |s| ==> IsSlugChar(s[i])
    requires forall i :: 0 <= i < |s| - 1 ==> !(s[i] == '-' && s[i + 1] == '-')
    ensures s[0] == '-' && SeparatorRunEnd(s, 0) == 1
  {
    assert IsSlugChar(s[0]);
    assert SeparatorRunEnd(s, 1) == 1 by {
      if |s| > 1 {
        assert IsSlugChar(s[1]) && !(s[0] == '-' && s[1] == '-');
      }
    }
  }

  lemma LowerKeepsSlug(s: string)
    requires forall i :: 0 <= i < |s| ==> IsSlugChar(s[i])
    ensures Lower(s) == s
  {
    forall i | 0 <= i < |s| ensures Lower(s)[i] == s[i] {
      assert IsSlugChar(s[i]);
    }
  }

  lemma StripKeepsNormal(s: string)
    requires |s| > 0 ==> s[0] != '-' && s[|s| - 1] != '-'
    ensures StripHyphens(s) == s
  {
    assert StripLeadingHyphens(s) == s;
    assert StripTrailingHyphens(s) == s;
  }

  /** `generateSlug` leaves a slug in normal form unchanged. */
  lemma GenerateSlugKeepsNormal(s: string)
    requires IsNormalSlug(s)
    ensures GenerateSlug(s) == s
  {
    LowerKeepsSlug(s);
    assert RemoveSpecial(Lower(s)) == s by {
      RemoveSpecialKeepsSlug(s);
    }
    assert CollapseSeparators(RemoveSpecial(Lower(s))) == s by {
      CollapseKeepsNormal(s);
    }
    StripKeepsNormal(s);
  }

  /** `generateSlug` is idempotent. */
  lemma GenerateSlugIdempotent(text: string)
    ensures GenerateSlug(GenerateSlug(text)) == GenerateSlug(text)
  {
    GenerateSlugKeepsNormal(GenerateSlug(text));
  }

  lemma ExampleLower()
    ensures Lower("A, b!") == "a, b!"
  {
  }

  /** One step of `RemoveSpecial`: the first character is kept or dropped on its own. */
  lemma RemoveSpecialStep(s: string)
    requires |s| > 0
    ensures RemoveSpecial(s) == (if KeptBySlug(s[0]) then [s[0]] else []) + RemoveSpecial(s[1..])
  {
  }

  lemma ExampleRemoveTail()
    ensures RemoveSpecial(" b!") == " b"
  {
    RemoveSpecialStep("!");
    assert RemoveSpecial("!") == "";
    RemoveSpecialStep("b!");
    assert RemoveSpecial("b!") == "b";
    RemoveSpecialStep(" b!");
  }

  lemma ExampleRemove()
    ensures RemoveSpecial("a, b!") == "a b"
  {
    ExampleRemoveTail();
    RemoveSpecialStep(", b!");
    assert RemoveSpecial(", b!") == " b";
    RemoveSpecialStep("a, b!");
    assert "a, b!"[1..] == ", b!";
    assert ['a'] + " b" == "a b";
  }

  lemma ExampleCollapse()
    ensures CollapseSeparators("a b") == "a-b"
  {
    assert SeparatorRunEnd(" b", 0) == 1;
  }

  lemma ExampleStrip()
    ensures StripHyphens("a-b") == "a-b"
  {
    assert StripLeadingHyphens("a-b") == "a-b";
    assert StripTrailingHyphens("a-b") == "a-b";
  }

  /** Capitals are lowered, punctuation dropped and the blank becomes a hyphen. */
  lemma GenerateSlugExample()
    ensures GenerateSlug("A, b!") == "a-b"
  {
    ExampleLower();
    ExampleRemove();
    ExampleCollapse();
    ExampleStrip();
    assert GenerateSlug("A, b!") == StripHyphens(CollapseSeparators(RemoveSpecial(Lower("A, b!"))));
  }
}

=== FILE: video_block.dfy ===
/**
 * The editor's video block: it detects the platform from the typed url,
 * keeps the stored block in step with it, and derives the address of the
 * player it embeds from the YouTube or TikTok url patterns.
 */
module VideoBlock {
  import opened Wrappers
  import opened Text
  import opened PostTypes
  import opened PostEditor

  // ---- platform detection --------------------------------------------------------------

  /** The platform a url names: YouTube before TikTok, anything else unknown. */
  function Detect(url: string): (e: EmbedType)
    ensures e == YouTube <==> Contains(url, "youtube.com") || Contains(url, "youtu.be")
    ensures e == TikTok <==> !Contains(url, "youtube.com") && !Contains(url, "youtu.be") && Contains(url, "tiktok.com")
  {
    if Contains(url, "youtube.com") || Contains(url, "youtu.be") then YouTube
    else if Contains(url, "tiktok.com") then TikTok
    else UnknownEmbed
  }

  /**
   * The effect that keeps the block in step with the typed url: a patch
   * setting both the detected platform and the url, emitted only when the
   * block differs from them.
   */
  function SyncPatch(block: Block, url: string): (p: Option<BlockPatch>)
    ensures p.None? <==> block.embedType == Some(Detect(url)) && block.url == Some(url)
    ensures p.Some? ==> Merge(block, p.value).embedType == Some(Detect(url)) && Merge(block, p.value).url == Some(url)
  {
    var detected := Detect(url);
    if block.embedType != Some(detected) || block.url != Some(url) then
      Some(NoChange.(embedType := Some(Some(detected)), url := Some(Some(url))))
    else None
  }

  /** Once the patch is applied the effect has nothing more to emit, and nothing else in the block moved. */
  lemma SyncSettles(block: Block, url: string)
    requires SyncPatch(block, url).Some?
    ensures SyncPatch(Merge(block, SyncPatch(block, url).value), url).None?
    ensures Merge(block, SyncPatch(block, url).value) ==
      block.(embedType := Some(Detect(url)), url := Some(url))
  {
  }

  // ---- the YouTube pattern -------------------------------------------------------------

  /** A character of the 11-character id: not `"`, `&`, `?`, `/` or white space. */
  predicate IdChar(c: char) {
    c != '"' && c != '&' && c != '?' && c != '/' && !IsSpace(c)
  }

  /** An 11-character id starts at `p`. */
  predicate IdAt(s: string, p: int) {
    0 <= p && p + 11 <= |s| && forall k :: p <= k < p + 11 ==> IdChar(s[k])
  }

  /** `s[a..b]` has no line terminator, so a regular-expression `.` run can cover it. */
  predicate NoLineBreak(s: string, a: int, b: int) {
    0 <= a <= b <= |s| && forall k :: a <= k < b ==> !IsLineTerminator(s[k])
  }

  /**
   * The first branch after `youtube.com/`, `[^\/]+\/.+\/`, with its first
   * slash at `slash` and its last at `k`.
   */
  predicate ShapeA(s: string, j: int, slash: int, k: int) {
    && 0 <= j < slash && slash + 1 < k < |s|
    && (forall m :: j <= m < slash ==> s[m] != '/')
    && s[slash] == '/' && NoLineBreak(s, slash + 1, k) && s[k] == '/' && IdAt(s, k + 1)
  }

  /** The second branch: `v/`, `embed/` or `e/`. */
  predicate ShapeB(s: string, j: int) {
    (OccursAt(s, "v/", j) && IdAt(s, j + 2))
    || (OccursAt(s, "embed/", j) && IdAt(s, j + 6))
    || (OccursAt(s, "e/", j) && IdAt(s, j + 2))
  }

  /** The third branch, `.*[?&]v=`, with its `?` or `&` at `k`. */
  predicate ShapeC(s: string, j: int, k: int) {
    j <= k < |s| && NoLineBreak(s, j, k) && (s[k] == '?' || s[k] == '&')
    && OccursAt(s, "v=", k + 1) && IdAt(s, k + 3)
  }

  ghost predicate HasShapeA(s: string, j: int) {
    exists slash, k :: ShapeA(s, j, slash, k)
  }

  ghost predicate HasShapeC(s: string, j: int) {
    exists k :: ShapeC(s, j, k)
  }

  /** What may follow `youtube.com/`: one of the three branches. */
  ghost predicate WatchTail(s: string, j: int) {
    HasShapeA(s, j) || ShapeB(s, j) || HasShapeC(s, j)
  }

  /** The YouTube pattern matches with its match starting at `i`. */
  ghost predicate YouTubeMatchAt(s: string, i: int) {
    (OccursAt(s, "youtube.com/", i) && WatchTail(s, i + 12))
    || (OccursAt(s, "youtu.be/", i) && IdAt(s, i + 9))
  }

  /** The first `/` at or after `j`, or the end. */
  function FirstSlash(s: string, j: nat): (r: nat)
    requires j <= |s|
    ensures j <= r <= |s|
    ensures forall m :: j <= m < r ==> s[m] != '/'
    ensures r < |s| ==> s[r] == '/'
    decreases |s| - j
  {
    if j == |s| || s[j] == '/' then j else FirstSlash(s, j + 1)
  }

  predicate LastSlashOk(s: string, slash: int, k: int) {
    0 <= slash && slash + 1 < k < |s| && s[k] == '/' && NoLineBreak(s, slash + 1, k) && IdAt(s, k + 1)
  }

  /** The greedy `.+\/`: the last suitable slash at or below `k`. */
  function LastSlash(s: string, slash: nat, k: int): (r: Option<nat>)
    requires k < |s|
    ensures r.Some? ==> r.value <= k && LastSlashOk(s, slash, r.value)
    ensures r.Some? ==> forall m :: r.value < m <= k ==> !LastSlashOk(s, slash, m)
    ensures r.None? ==> forall m :: m <= k ==> !LastSlashOk(s, slash, m)
    decreases k
  {
    if k < slash + 2 then None
    else if LastSlashOk(s, slash, k) then Some(k)
    else LastSlash(s, slash, k - 1)
  }

  /** The first branch as the engine runs it; the id position on success. */
  function BranchA(s: string, j: nat): (r: Option<nat>)
    requires j <= |s|
    ensures r.Some? ==> IdAt(s, r.value)
  {
    var slash := FirstSlash(s, j);
    if slash == j || slash >= |s| then None
    else match LastSlash(s, slash, |s| - 1)
      case None => None
      case Some(k) => Some(k + 1)
  }

  lemma BranchAIff(s: string, j: nat)
    requires j <= |s|
    ensures BranchA(s, j).Some? <==> HasShapeA(s, j)
  {
    var slash := FirstSlash(s, j);
    if BranchA(s, j).Some? {
      var k := BranchA(s, j).value - 1;
      assert ShapeA(s, j, slash, k);
    }
    if exists sl, k :: ShapeA(s, j, sl, k) {
      var sl, k :| ShapeA(s, j, sl, k);
      assert sl == slash;
      assert LastSlashOk(s, slash, k);
    }
  }

  /** The greedy `.*[?&]v=`: the last suitable `?` or `&` at or below `k`. */
  function LastQuery(s: string, j: nat, k: int): (r: Option<nat>)
    requires k < |s|
    ensures r.Some? ==> j <= r.value <= k && ShapeC(s, j, r.value)
    ensures r.Some? ==> forall m :: r.value < m <= k ==> !ShapeC(s, j, m)
    ensures r.None? ==> forall m :: m <= k ==> !ShapeC(s, j, m)
    decreases k
  {
    if k < j then None
    else if ShapeC(s, j, k) then Some(k)
    else LastQuery(s, j, k - 1)
  }

  lemma BranchCIff(s: string, j: nat)
    requires j <= |s|
    ensures LastQuery(s, j, |s| - 1).Some? <==> HasShapeC(s, j)
  {
    if HasShapeC(s, j) {
      var k :| ShapeC(s, j, k);
      assert k <= |s| - 1;
    }
  }

  /**
   * The pattern as the engine tries it at `i`: after `youtube.com/` the
   * three branches in order (each greedy), otherwise `youtu.be/`; the
   * position of the captured id on success.
   */
  function YouTubeAt(s: string, i: nat): (r: Option<nat>)
    requires i <= |s|
    ensures r.Some? ==> IdAt(s, r.value)
  {
    if OccursAt(s, "youtube.com/", i) then
      var j := i + 12;
      if BranchA(s, j).Some? then BranchA(s, j)
      else if OccursAt(s, "v/", j) && IdAt(s, j + 2) then Some(j + 2)
      else if OccursAt(s, "embed/", j) && IdAt(s, j + 6) then Some(j + 6)
      else if OccursAt(s, "e/", j) && IdAt(s, j + 2) then Some(j + 2)
      else match LastQuery(s, j, |s| - 1)
        case None => None
        case Some(k) => Some(k + 3)
    else if OccursAt(s, "youtu.be/", i) && IdAt(s, i + 9) then Some(i + 9)
    else None
  }

  /** The engine's attempt at `i` succeeds exactly when the pattern matches there, and captures an id. */
  lemma YouTubeAtIff(s: string, i: nat)
    requires i <= |s|
    ensures YouTubeAt(s, i).Some? <==> YouTubeMatchAt(s, i)
  {
    if OccursAt(s, "youtube.com/", i) {
      BranchAIff(s, i + 12);
      BranchCIff(s, i + 12);
      assert !OccursAt(s, "youtu.be/", i) by {
        assert s[i + 5] == "youtube.com/"[5];
      }
    }
  }

  /** The leftmost match from `i` on: the id position of the first start that succeeds. */
  function YouTubeFrom(s: string, i: nat): (r: Option<nat>)
    requires i <= |s|
    ensures r.Some? ==> IdAt(s, r.value)
    ensures r.Some? ==>
      exists m :: i <= m <= |s| && YouTubeAt(s, m) == r && forall m' :: i <= m' < m ==> YouTubeAt(s, m').None?
    ensures r.None? <==> forall m :: i <= m <= |s| ==> YouTubeAt(s, m).None?
    decreases |s| - i
  {
    if YouTubeAt(s, i).Some? then YouTubeAt(s, i)
    else if i == |s| then None
    else
      var r := YouTubeFrom(s, i + 1);
      YouTubeLeftmostStep(s, i, r);
      r
  }

  /** A failed attempt at `i` does not change which later position is the leftmost success. */
  lemma YouTubeLeftmostStep(s: string, i: nat, r: Option<nat>)
    requires i < |s| && YouTubeAt(s, i).None?
    requires r.Some? ==>
      exists m :: i + 1 <= m <= |s| && YouTubeAt(s, m) == r && forall m' :: i + 1 <= m' < m ==> YouTubeAt(s, m').None?
    ensures r.Some? ==>
      exists m :: i <= m <= |s| && YouTubeAt(s, m) == r && forall m' :: i <= m' < m ==> YouTubeAt(s, m').None?
  {
    if r.Some? {
      var m :| i + 1 <= m <= |s| && YouTubeAt(s, m) == r && forall m' :: i + 1 <= m' < m ==> YouTubeAt(s, m').None?;
      assert forall m' :: i <= m' < m ==> YouTubeAt(s, m').None?;
    }
  }

  /** The search from `i` returns the attempt at the first position from `i` where one succeeds. */
  lemma YouTubeFromFirst(s: string, i: nat, m: nat)
    requires i <= m <= |s| && YouTubeAt(s, m).Some?
    requires forall m' :: i <= m' < m ==> YouTubeAt(s, m').None?
    ensures YouTubeFrom(s, i) == YouTubeAt(s, m)
  {
    var r := YouTubeFrom(s, i);
    var w :| i <= w <= |s| && YouTubeAt(s, w) == r && forall m' :: i <= m' < w ==> YouTubeAt(s, m').None?;
    assert w == m;
  }

  /** The characters after a prefix are those of the appended string. */
  lemma PrefixedKeepsTail(prefix: string, id: string)
    ensures forall k :: |prefix| <= k < |prefix + id| ==> (prefix + id)[k] == id[k - |prefix|]
  {
  }

  const YouTubeEmbedPrefix: string := "https://www.youtube.com/embed/"

  /**
   * The YouTube player address, or `""` when the url does not match: the
   * fixed prefix followed by the 11-character id of the leftmost match.
   */
  function YouTubeEmbed(url: string): (r: string)
    ensures r != "" <==> YouTubeFrom(url, 0).Some?
    ensures r != "" ==>
      |r| == |YouTubeEmbedPrefix| + 11 && r[..|YouTubeEmbedPrefix|] == YouTubeEmbedPrefix
      && forall k :: |YouTubeEmbedPrefix| <= k < |r| ==> IdChar(r[k])
  {
    var found := YouTubeFrom(url, 0);
    if found.None? then ""
    else
      var id := url[found.value..found.value + 11];
      assert forall k :: 0 <= k < |id| ==> IdChar(id[k]);
      PrefixedKeepsTail(YouTubeEmbedPrefix, id);
      YouTubeEmbedPrefix + id
  }

  /** A YouTube url gives a player address exactly when the pattern matches somewhere. */
  lemma YouTubeEmbedIff(url: string)
    ensures YouTubeEmbed(url) != "" <==> exists i :: 0 <= i <= |url| && YouTubeMatchAt(url, i)
  {
    var r := YouTubeFrom(url, 0);
    if r.Some? {
      var m :| 0 <= m <= |url| && YouTubeAt(url, m) == r;
      YouTubeAtIff(url, m);
    } else {
      forall i | 0 <= i <= |url| ensures !YouTubeMatchAt(url, i) {
        YouTubeAtIff(url, i);
      }
    }
  }

  // ---- the YouTube url forms -----------------------------------------------------------

  /** An 11-character id, none of whose characters ends it early. */
  predicate WellFormedId(id: string) {
    |id| == 11 && forall k :: 0 <= k < |id| ==> IdChar(id[k])
  }

  /** `s` holds `lit` from `i` on when its characters there are those of `lit`. */
  lemma OccursByChars(s: string, lit: string, i: nat)
    requires i + |lit| <= |s|
    requires forall k :: 0 <= k < |lit| ==> s[i + k] == lit[k]
    ensures OccursAt(s, lit, i)
  {
    assert s[i..i + |lit|] == lit;
  }

  /** No YouTube attempt succeeds before `i` when no `y` comes before it: both hosts start with one. */
  lemma NoYouTubeBefore(s: string, i: nat)
    requires i <= |s| && forall m :: 0 <= m < i ==> s[m] != 'y'
    ensures forall m :: 0 <= m < i ==> YouTubeAt(s, m).None?
  {
    forall m | 0 <= m < i ensures YouTubeAt(s, m).None? {
      if m + 12 <= |s| { assert s[m..m + 12][0] == s[m]; }
      if m + 9 <= |s| { assert s[m..m + 9][0] == s[m]; }
    }
  }

  /** The player plays the id captured by the first position where an attempt succeeds. */
  lemma YouTubePlaysFirstMatch(url: string, m: nat)
    requires m <= |url| && YouTubeAt(url, m).Some?
    requires forall m' :: 0 <= m' < m ==> YouTubeAt(url, m').None?
    ensures YouTubeEmbed(url) == YouTubeEmbedPrefix + url[YouTubeAt(url, m).value..YouTubeAt(url, m).value + 11]
  {
    YouTubeFromFirst(url, 0, m);
  }

  /** A url whose first successful attempt is at `i` plays the id captured there. */
  lemma YouTubePlayerAt(s: string, i: nat, id: string)
    requires i <= |s| && forall m :: 0 <= m < i ==> s[m] != 'y'
    requires YouTubeAt(s, i).Some? && s[YouTubeAt(s, i).value..YouTubeAt(s, i).value + 11] == id
    ensures YouTubeEmbed(s) == YouTubeEmbedPrefix + id
  {
    NoYouTubeBefore(s, i);
    YouTubePlaysFirstMatch(s, i);
  }

  /** The first slash from `j` is at `r` when none comes before it and `r` is one or the end. */
  lemma FirstSlashIs(s: string, j: nat, r: nat)
    requires j <= r <= |s|
    requires forall m :: j <= m < r ==> s[m] != '/'
    requires r < |s| ==> s[r] == '/'
    ensures FirstSlash(s, j) == r
  {
  }

  /** The first branch fails when no slash follows the one closing the path's first segment. */
  lemma BranchAFailsWithoutSecondSlash(s: string, j: nat, slash: nat)
    requires j <= slash <= |s|
    requires forall m :: j <= m < slash ==> s[m] != '/'
    requires slash < |s| ==> s[slash] == '/'
    requires forall m :: slash < m < |s| ==> s[m] != '/'
    ensures BranchA(s, j).None?
  {
    FirstSlashIs(s, j, slash);
  }

  /** The greedy `.*[?&]v=` stops at a suitable `k` when no `?` or `&` follows it. */
  lemma LastQueryIs(s: string, j: nat, k: nat)
    requires ShapeC(s, j, k)
    requires forall m :: k < m < |s| ==> s[m] != '?' && s[m] != '&'
    ensures LastQuery(s, j, |s| - 1) == Some(k)
  {
  }

  /**
   * After `youtube.com/` at `i`, with the first branch failing and the path
   * starting with neither `v` nor `e`, the attempt takes the id after the
   * last suitable `?` or `&`.
   */
  lemma QueryBranchAt(s: string, i: nat, k: nat)
    requires OccursAt(s, "youtube.com/", i) && BranchA(s, i + 12).None?
    requires i + 12 < |s| && s[i + 12] != 'v' && s[i + 12] != 'e'
    requires ShapeC(s, i + 12, k)
    requires forall m :: k < m < |s| ==> s[m] != '?' && s[m] != '&'
    ensures YouTubeAt(s, i) == Some(k + 3)
  {
    LastQueryIs(s, i + 12, k);
  }

  /** A url `{pre}{lit}{id}` whose attempt at `pre`'s end captures right after `lit` plays `id`. */
  lemma FormGivesPlayer(pre: string, lit: string, id: string)
    requires 'y' !in pre && WellFormedId(id)
    requires YouTubeAt(pre + lit + id, |pre|) == Some(|pre| + |lit|)
    ensures YouTubeEmbed(pre + lit + id) == YouTubeEmbedPrefix + id
  {
    var s := pre + lit + id;
    var i := |pre|;
    forall m | 0 <= m < i ensures s[m] != 'y' {
      assert s[m] == pre[m];
    }
    assert s[i + |lit|..i + |lit| + 11] == id;
    YouTubePlayerAt(s, i, id);
  }

  /** The attempt at the host of `{pre}youtu.be/{id}`. */
  lemma ShortLinkAttempt(pre: string, id: string)
    requires WellFormedId(id)
    ensures YouTubeAt(pre + "youtu.be/" + id, |pre|) == Some(|pre| + 9)
  {
    var s := pre + "youtu.be/" + id;
    var i := |pre|;
    assert s[i + 5] == '.';
    OccursByChars(s, "youtu.be/", i);
    assert IdAt(s, i + 9);
  }

  /** `{pre}youtu.be/{id}` plays that id. */
  lemma ShortLinkGivesPlayer(pre: string, id: string)
    requires 'y' !in pre && WellFormedId(id)
    ensures YouTubeEmbed(pre + "youtu.be/" + id) == YouTubeEmbedPrefix + id
  {
    ShortLinkAttempt(pre, id);
    FormGivesPlayer(pre, "youtu.be/", id);
  }

  /** The attempt at the host of `{pre}youtube.com/watch?v={id}`: the greedy `.*[?&]v=` stops at the only `?`. */
  lemma WatchLinkAttempt(pre: string, id: string)
    requires WellFormedId(id)
    ensures YouTubeAt(pre + "youtube.com/watch?v=" + id, |pre|) == Some(|pre| + 20)
  {
    var s := pre + "youtube.com/watch?v=" + id;
    var i := |pre|;
    var j := i + 12;
    OccursByChars(s, "youtube.com/", i);
    forall m | j <= m < |s| ensures s[m] != '/' {
      if m >= j + 8 { assert s[m] == id[m - j - 8]; }
    }
    BranchAFailsWithoutSecondSlash(s, j, |s|);
    assert s[j] == 'w';
    OccursByChars(s, "v=", j + 6);
    assert IdAt(s, j + 8);
    assert ShapeC(s, j, j + 5);
    forall m | j + 5 < m < |s| ensures s[m] != '?' && s[m] != '&' {
      if m >= j + 8 { assert s[m] == id[m - j - 8]; }
    }
    QueryBranchAt(s, i, j + 5);
  }

  /** `{pre}youtube.com/watch?v={id}` plays that id. */
  lemma WatchLinkGivesPlayer(pre: string, id: string)
    requires 'y' !in pre && WellFormedId(id)
    ensures YouTubeEmbed(pre + "youtube.com/watch?v=" + id) == YouTubeEmbedPrefix + id
  {
    WatchLinkAttempt(pre, id);
    FormGivesPlayer(pre, "youtube.com/watch?v=", id);
  }

  /** The attempt at the host of `{pre}youtube.com/embed/{id}`. */
  lemma EmbedLinkAttempt(pre: string, id: string)
    requires WellFormedId(id)
    ensures YouTubeAt(pre + "youtube.com/embed/" + id, |pre|) == Some(|pre| + 18)
  {
    var s := pre + "youtube.com/embed/" + id;
    var i := |pre|;
    var j := i + 12;
    OccursByChars(s, "youtube.com/", i);
    forall m | j + 5 < m < |s| ensures s[m] != '/' {
      assert s[m] == id[m - j - 6];
    }
    BranchAFailsWithoutSecondSlash(s, j, j + 5);
    assert s[j] == 'e';
    OccursByChars(s, "embed/", j);
    assert IdAt(s, j + 6);
  }

  /** `{pre}youtube.com/embed/{id}` plays that id. */
  lemma EmbedLinkGivesPlayer(pre: string, id: string)
    requires 'y' !in pre && WellFormedId(id)
    ensures YouTubeEmbed(pre + "youtube.com/embed/" + id) == YouTubeEmbedPrefix + id
  {
    EmbedLinkAttempt(pre, id);
    FormGivesPlayer(pre, "youtube.com/embed/", id);
  }

  /** The attempt at the host of `{pre}youtube.com/v/{id}`. */
  lemma VLinkAttempt(pre: string, id: string)
    requires WellFormedId(id)
    ensures YouTubeAt(pre + "youtube.com/v/" + id, |pre|) == Some(|pre| + 14)
  {
    var s := pre + "youtube.com/v/" + id;
    var i := |pre|;
    var j := i + 12;
    OccursByChars(s, "youtube.com/", i);
    forall m | j + 1 < m < |s| ensures s[m] != '/' {
      assert s[m] == id[m - j - 2];
    }
    BranchAFailsWithoutSecondSlash(s, j, j + 1);
    OccursByChars(s, "v/", j);
    assert IdAt(s, j + 2);
  }

  /** `{pre}youtube.com/v/{id}` plays that id. */
  lemma VLinkGivesPlayer(pre: string, id: string)
    requires 'y' !in pre && WellFormedId(id)
    ensures YouTubeEmbed(pre + "youtube.com/v/" + id) == YouTubeEmbedPrefix + id
  {
    VLinkAttempt(pre, id);
    FormGivesPlayer(pre, "youtube.com/v/", id);
  }

  /** The attempt at the host of `{pre}youtube.com/e/{id}`. */
  lemma ELinkAttempt(pre: string, id: string)
    requires WellFormedId(id)
    ensures YouTubeAt(pre + "youtube.com/e/" + id, |pre|) == Some(|pre| + 14)
  {
    var s := pre + "youtube.com/e/" + id;
    var i := |pre|;
    var j := i + 12;
    OccursByChars(s, "youtube.com/", i);
    forall m | j + 1 < m < |s| ensures s[m] != '/' {
      assert s[m] == id[m - j - 2];
    }
    BranchAFailsWithoutSecondSlash(s, j, j + 1);
    assert s[j] == 'e' && s[j + 1] == '/';
    OccursByChars(s, "e/", j);
    assert IdAt(s, j + 2);
  }

  /** `{pre}youtube.com/e/{id}` plays that id. */
  lemma ELinkGivesPlayer(pre: string, id: string)
    requires 'y' !in pre && WellFormedId(id)
    ensures YouTubeEmbed(pre + "youtube.com/e/" + id) == YouTubeEmbedPrefix + id
  {
    ELinkAttempt(pre, id);
    FormGivesPlayer(pre, "youtube.com/e/", id);
  }

  // ---- the TikTok pattern --------------------------------------------------------------

  /** The class `[\w.-]` of the user-name part. */
  predicate UserChar(c: char) {
    IsWordChar(c) || c == '.' || c == '-'
  }

  /** The end of the run of user-name characters from `j`. */
  function UserRunEnd(s: string, j: nat): (r: nat)
    requires j <= |s|
    ensures j <= r <= |s|
    ensures forall m :: j <= m < r ==> UserChar(s[m])
    ensures r < |s| ==> !UserChar(s[r])
    decreases |s| - j
  {
    if j == |s| || !UserChar(s[j]) then j else UserRunEnd(s, j + 1)
  }

  /** The end of the run of digits from `j`: `\d+` is greedy. */
  function DigitRunEnd(s: string, j: nat): (r: nat)
    requires j <= |s|
    ensures j <= r <= |s|
    ensures forall m :: j <= m < r ==> IsDigit(s[m])
    ensures r < |s| ==> !IsDigit(s[r])
    decreases |s| - j
  {
    if j == |s| || !IsDigit(s[j]) then j else DigitRunEnd(s, j + 1)
  }

  /** `s[a..b]` is a non-empty maximal run of digits. */
  predicate DigitRun(s: string, a: int, b: int) {
    0 <= a < b <= |s| && (forall m :: a <= m < b ==> IsDigit(s[m])) && (b < |s| ==> !IsDigit(s[b]))
  }

  /** A digit starts at `p`. */
  predicate DigitAt(s: string, p: int) {
    0 <= p < |s| && IsDigit(s[p])
  }

  /**
   * After `tiktok.com/@` at `i`: a name from `i + 12` up to `e`, then
   * `/video/` and a digit, as `[\w.-]+\/video\/\d` matches it.
   */
  ghost predicate NamedVideoAt(s: string, i: int, e: int) {
    0 <= i + 12 < e <= |s| && (forall m :: i + 12 <= m < e ==> UserChar(s[m]))
    && OccursAt(s, "/video/", e) && DigitAt(s, e + 7)
  }

  /** `tiktok.com/` at `i`, then `@name/video/` or `v/`, then at least one digit. */
  ghost predicate TikTokMatchAt(s: string, i: int) {
    OccursAt(s, "tiktok.com/", i)
    && ((i + 11 < |s| && s[i + 11] == '@'
         && exists e :: NamedVideoAt(s, i, e))
        || (OccursAt(s, "v/", i + 11) && DigitAt(s, i + 13)))
  }

  /** The engine's attempt at `i`: the bounds of the captured digits on success. */
  function TikTokAt(s: string, i: nat): (r: Option<(nat, nat)>)
    requires i <= |s|
    ensures r.Some? ==> DigitRun(s, r.value.0, r.value.1)
  {
    if !OccursAt(s, "tiktok.com/", i) then None
    else
      var j := i + 11;
      if j < |s| && s[j] == '@' then
        var e := UserRunEnd(s, j + 1);
        if e > j + 1 && OccursAt(s, "/video/", e) && DigitAt(s, e + 7) then Some((e + 7, DigitRunEnd(s, e + 7)))
        else None
      else if OccursAt(s, "v/", j) && DigitAt(s, j + 2) then Some((j + 2, DigitRunEnd(s, j + 2)))
      else None
  }

  /** A run of user-name characters ended by another character is the greedy run. */
  lemma RunEndUnique(s: string, j: nat, e: nat)
    requires j <= e < |s| && !UserChar(s[e])
    requires forall m :: j <= m < e ==> UserChar(s[m])
    ensures UserRunEnd(s, j) == e
  {
  }

  /** A name run followed by `/video/` ends where the greedy run ends, since `/` is not a name character. */
  lemma NamedVideoEndsRun(s: string, i: nat, e: int)
    requires NamedVideoAt(s, i, e)
    ensures UserRunEnd(s, i + 12) == e
  {
    assert e < |s| && s[e] == '/' by {
      assert s[e..e + 7][0] == "/video/"[0];
    }
    assert !UserChar('/');
    RunEndUnique(s, i + 12, e);
  }

  /** The `@name/video/` branch: the greedy name run works exactly when some name run does. */
  lemma UserVideoIff(s: string, i: nat)
    requires i + 12 <= |s|
    ensures (var e := UserRunEnd(s, i + 12); e > i + 12 && OccursAt(s, "/video/", e) && DigitAt(s, e + 7))
      <==> exists e :: NamedVideoAt(s, i, e)
  {
    var e := UserRunEnd(s, i + 12);
    if e > i + 12 && OccursAt(s, "/video/", e) && DigitAt(s, e + 7) {
      assert NamedVideoAt(s, i, e);
    }
    if exists e' :: NamedVideoAt(s, i, e') {
      var e' :| NamedVideoAt(s, i, e');
      NamedVideoEndsRun(s, i, e');
    }
  }

  /** The attempt at `i` succeeds exactly when the pattern matches there. */
  lemma TikTokAtIff(s: string, i: nat)
    requires i <= |s|
    ensures TikTokAt(s, i).Some? <==> TikTokMatchAt(s, i)
  {
    var j := i + 11;
    if OccursAt(s, "tiktok.com/", i) && j < |s| && s[j] == '@' {
      UserVideoIff(s, i);
      assert !OccursAt(s, "v/", j) by { assert s[j] != 'v'; }
    }
  }

  /** The leftmost match from `i` on. */
  function TikTokFrom(s: string, i: nat): (r: Option<(nat, nat)>)
    requires i <= |s|
    ensures r.Some? ==> DigitRun(s, r.value.0, r.value.1)
    ensures r.Some? ==>
      exists m :: i <= m <= |s| && TikTokAt(s, m) == r && forall m' :: i <= m' < m ==> TikTokAt(s, m').None?
    ensures r.None? <==> forall m :: i <= m <= |s| ==> TikTokAt(s, m).None?
    decreases |s| - i
  {
    if TikTokAt(s, i).Some? then TikTokAt(s, i)
    else if i == |s| then None
    else
      var r := TikTokFrom(s, i + 1);
      TikTokLeftmostStep(s, i, r);
      r
  }

  /** A failed attempt at `i` does not change which later position is the leftmost success. */
  lemma TikTokLeftmostStep(s: string, i: nat, r: Option<(nat, nat)>)
    requires i < |s| && TikTokAt(s, i).None?
    requires r.Some? ==>
      exists m :: i + 1 <= m <= |s| && TikTokAt(s, m) == r && forall m' :: i + 1 <= m' < m ==> TikTokAt(s, m').None?
    ensures r.Some? ==>
      exists m :: i <= m <= |s| && TikTokAt(s, m) == r && forall m' :: i <= m' < m ==> TikTokAt(s, m').None?
  {
    if r.Some? {
      var m :| i + 1 <= m <= |s| && TikTokAt(s, m) == r && forall m' :: i + 1 <= m' < m ==> TikTokAt(s, m').None?;
      assert forall m' :: i <= m' < m ==> TikTokAt(s, m').None?;
    }
  }

  /** The search from `i` returns the attempt at the first position from `i` where one succeeds. */
  lemma TikTokFromFirst(s: string, i: nat, m: nat)
    requires i <= m <= |s| && TikTokAt(s, m).Some?
    requires forall m' :: i <= m' < m ==> TikTokAt(s, m').None?
    ensures TikTokFrom(s, i) == TikTokAt(s, m)
  {
    var r := TikTokFrom(s, i);
    var w :| i <= w <= |s| && TikTokAt(s, w) == r && forall m' :: i <= m' < w ==> TikTokAt(s, m').None?;
    assert w == m;
  }

  const TikTokEmbedPrefix: string := "https://www.tiktok.com/embed/v2/"

  /**
   * The TikTok player address, or `""` when the url does not match: the
   * fixed prefix followed by the digits of the leftmost match.
   */
  function TikTokEmbed(url: string): (r: string)
    ensures r != "" <==> TikTokFrom(url, 0).Some?
    ensures r != "" ==>
      |r| > |TikTokEmbedPrefix| && r[..|TikTokEmbedPrefix|] == TikTokEmbedPrefix
      && forall k :: |TikTokEmbedPrefix| <= k < |r| ==> IsDigit(r[k])
  {
    var found := TikTokFrom(url, 0);
    if found.None? then ""
    else
      var id := url[found.value.0..found.value.1];
      assert forall k :: 0 <= k < |id| ==> IsDigit(id[k]);
      PrefixedKeepsTail(TikTokEmbedPrefix, id);
      TikTokEmbedPrefix + id
  }

  /** A TikTok url gives a player address exactly when the pattern matches somewhere. */
  lemma TikTokEmbedIff(url: string)
    ensures TikTokEmbed(url) != "" <==> exists i :: 0 <= i <= |url| && TikTokMatchAt(url, i)
  {
    var r := TikTokFrom(url, 0);
    if r.Some? {
      var m :| 0 <= m <= |url| && TikTokAt(url, m) == r;
      TikTokAtIff(url, m);
    } else {
      forall i | 0 <= i <= |url| ensures !TikTokMatchAt(url, i) {
        TikTokAtIff(url, i);
      }
    }
  }

  // ---- the TikTok url forms ------------------------------------------------------------

  /** A video id: a non-empty run of digits. */
  predicate VideoId(digits: string) {
    |digits| > 0 && AllDigits(digits)
  }

  /** What may follow the id without extending it: nothing, or a non-digit first. */
  predicate EndsId(rest: string) {
    rest == [] || !IsDigit(rest[0])
  }

  /** A run of digits ended by a non-digit or by the end is the greedy run. */
  lemma DigitRunEndIs(s: string, a: nat, b: nat)
    requires a <= b <= |s|
    requires forall m :: a <= m < b ==> IsDigit(s[m])
    requires b < |s| ==> !IsDigit(s[b])
    ensures DigitRunEnd(s, a) == b
    decreases b - a
  {
    if a < b {
      DigitRunEndIs(s, a + 1, b);
    }
  }

  /** The host cannot start at `m` before `i` when its `k` would be before `i` or on the `ti` at `i`. */
  lemma NoHostAt(s: string, i: nat, m: nat)
    requires i + 1 < |s| && s[i] == 't' && s[i + 1] == 'i'
    requires m < i && forall m' :: 0 <= m' < i ==> s[m'] != 'k'
    ensures !OccursAt(s, "tiktok.com/", m)
  {
    assert s[m + 2] != 'k';
    if m + 11 <= |s| {
      assert s[m..m + 11][2] == s[m + 2];
    }
  }

  /**
   * No TikTok attempt succeeds before `i` when no `k` comes before it and the
   * host starts at `i`: the host's `k` would fall before `i` or on its `ti`.
   */
  lemma NoTikTokBefore(s: string, i: nat)
    requires OccursAt(s, "tiktok.com/", i)
    requires forall m :: 0 <= m < i ==> s[m] != 'k'
    ensures forall m :: 0 <= m < i ==> TikTokAt(s, m).None?
  {
    assert s[i] == 't' && s[i + 1] == 'i' by {
      assert s[i..i + 11][0] == 't' && s[i..i + 11][1] == 'i';
    }
    forall m | 0 <= m < i ensures !OccursAt(s, "tiktok.com/", m) {
      NoHostAt(s, i, m);
    }
  }

  /** The player plays the digits captured by the first position where an attempt succeeds. */
  lemma TikTokPlaysFirstMatch(url: string, m: nat)
    requires m <= |url| && TikTokAt(url, m).Some?
    requires forall m' :: 0 <= m' < m ==> TikTokAt(url, m').None?
    ensures TikTokEmbed(url) == TikTokEmbedPrefix + url[TikTokAt(url, m).value.0..TikTokAt(url, m).value.1]
  {
    TikTokFromFirst(url, 0, m);
  }

  /** A url whose first successful attempt is at `i` plays the digits captured there. */
  lemma TikTokPlayerAt(s: string, i: nat, digits: string)
    requires OccursAt(s, "tiktok.com/", i)
    requires forall m :: 0 <= m < i ==> s[m] != 'k'
    requires TikTokAt(s, i).Some? && s[TikTokAt(s, i).value.0..TikTokAt(s, i).value.1] == digits
    ensures TikTokEmbed(s) == TikTokEmbedPrefix + digits
  {
    NoTikTokBefore(s, i);
    TikTokPlaysFirstMatch(s, i);
  }

  /** The `@name/video/` attempt at `i` captures the whole digit run after `/video/`. */
  lemma UserVideoAt(s: string, i: nat, e: nat, d: nat)
    requires OccursAt(s, "tiktok.com/", i) && i + 11 < |s| && s[i + 11] == '@'
    requires i + 12 < e <= |s| && forall m :: i + 12 <= m < e ==> UserChar(s[m])
    requires OccursAt(s, "/video/", e)
    requires e + 7 < d <= |s| && forall m :: e + 7 <= m < d ==> IsDigit(s[m])
    requires d < |s| ==> !IsDigit(s[d])
    ensures TikTokAt(s, i) == Some((e + 7, d))
  {
    assert s[e] == '/' by { assert s[e..e + 7][0] == '/'; }
    RunEndUnique(s, i + 12, e);
    DigitRunEndIs(s, e + 7, d);
  }

  /** `{pre}tiktok.com/@{user}/video/{digits}{rest}` plays those digits. */
  lemma UserVideoLinkGivesPlayer(pre: string, user: string, digits: string, rest: string)
    requires 'k' !in pre && VideoId(digits) && EndsId(rest)
    requires |user| > 0 && forall k :: 0 <= k < |user| ==> UserChar(user[k])
    ensures TikTokEmbed(pre + "tiktok.com/@" + user + "/video/" + digits + rest) == TikTokEmbedPrefix + digits
  {
    var host, video := "tiktok.com/@", "/video/";
    var s := pre + host + user + video + digits + rest;
    var i := |pre|;
    var e := i + 12 + |user|;
    var d := e + 7 + |digits|;
    forall m | 0 <= m < i ensures s[m] != 'k' {
      assert s[m] == pre[m];
    }
    OccursByChars(s, "tiktok.com/", i);
    assert s[i + 11] == '@';
    forall m | i + 12 <= m < e ensures UserChar(s[m]) {
      assert s[m] == user[m - i - 12];
    }
    OccursByChars(s, video, e);
    forall m | e + 7 <= m < d ensures IsDigit(s[m]) && s[m] == digits[m - e - 7] {
    }
    if d < |s| {
      assert s[d] == rest[0];
    }
    UserVideoAt(s, i, e, d);
    assert s[e + 7..d] == digits;
    TikTokPlayerAt(s, i, digits);
  }

  /** `{pre}tiktok.com/v/{digits}{rest}` plays those digits. */
  lemma ShortVideoLinkGivesPlayer(pre: string, digits: string, rest: string)
    requires 'k' !in pre && VideoId(digits) && EndsId(rest)
    ensures TikTokEmbed(pre + "tiktok.com/v/" + digits + rest) == TikTokEmbedPrefix + digits
  {
    var host := "tiktok.com/v/";
    var s := pre + host + digits + rest;
    var i := |pre|;
    var d := i + 13 + |digits|;
    forall m | 0 <= m < i ensures s[m] != 'k' {
      assert s[m] == pre[m];
    }
    OccursByChars(s, "tiktok.com/", i);
    OccursByChars(s, "v/", i + 11);
    forall m | i + 13 <= m < d ensures IsDigit(s[m]) && s[m] == digits[m - i - 13] {
    }
    if d < |s| {
      assert s[d] == rest[0];
    }
    DigitRunEndIs(s, i + 13, d);
    assert TikTokAt(s, i) == Some((i + 13, d));
    assert s[i + 13..d] == digits;
    TikTokPlayerAt(s, i, digits);
  }

  // ---- the block's view ----------------------------------------------------------------

  /** `getEmbedUrl`: the player address for the chosen platform; an unknown platform has none. */
  function EmbedUrl(e: EmbedType, url: string): (r: string)
    ensures e == UnknownEmbed ==> r == ""
    ensures e == YouTube ==> r == YouTubeEmbed(url)
    ensures e == TikTok ==> r == TikTokEmbed(url)
  {
    match e
    case YouTube => YouTubeEmbed(url)
    case TikTok => TikTokEmbed(url)
    case UnknownEmbed => ""
  }

  /** The block's local state: the typed url and the platform it shows. */
  datatype VideoView = VideoView(url: string, embedType: EmbedType)

  /** The state a block opens with: its url or `""`, its platform or unknown. */
  function OpenView(block: Block): (v: VideoView)
    ensures v.url == block.url.GetOr("") && v.embedType == block.embedType.GetOr(UnknownEmbed)
  {
    VideoView(block.url.GetOr(""), block.embedType.GetOr(UnknownEmbed))
  }

  /** "Change": back to an empty url and an unknown platform. */
  function Change(v: VideoView): (r: VideoView)
    ensures r.url == "" && r.embedType == UnknownEmbed
    ensures !ShowsPlayer(r)
  {
    VideoView("", UnknownEmbed)
  }

  /**
   * Typing `typed` into the url field, followed by the effect: the view takes
   * the text, and when the block is out of step with it the effect stores the
   * detected platform in the view and sends the patch to the block.
   */
  function TypeUrl(v: VideoView, block: Block, typed: string): (r: (VideoView, Option<BlockPatch>))
    ensures r.0.url == typed
    ensures r.1 == SyncPatch(block, typed)
    ensures r.1.Some? ==> r.0.embedType == Detect(typed)
    ensures r.1.None? ==> r.0.embedType == v.embedType
  {
    var p := SyncPatch(block, typed);
    (VideoView(typed, if p.Some? then Detect(typed) else v.embedType), p)
  }

  /** Typing a watch link into a block that does not hold it yet shows the player for its id. */
  lemma TypedWatchLinkShowsPlayer(v: VideoView, block: Block, id: string)
    requires WellFormedId(id) && block.url != Some("https://www." + "youtube.com/watch?v=" + id)
    ensures TypeUrl(v, block, "https://www." + "youtube.com/watch?v=" + id).0.embedType == YouTube
    ensures EmbedUrl(YouTube, "https://www." + "youtube.com/watch?v=" + id) == YouTubeEmbedPrefix + id
  {
    var url := "https://www." + "youtube.com/watch?v=" + id;
    WatchLinkGivesPlayer("https://www.", id);
    OccursByChars(url, "youtube.com", 12);
    DetectsYouTube(url, 12);
  }

  /** A url holding `youtube.com` is detected as YouTube. */
  lemma DetectsYouTube(url: string, k: nat)
    requires OccursAt(url, "youtube.com", k)
    ensures Detect(url) == YouTube
  {
  }

  /** The player is shown exactly when the derived address is non-empty. */
  predicate ShowsPlayer(v: VideoView) {
    EmbedUrl(v.embedType, v.url) != ""
  }
}

=== FILE: wrappers.dfy ===
/** Failure-carrying wrappers shared by every module of the model. */
module Wrappers {

  /** A value that may be absent: the TypeScript `T | undefined`. */
  datatype Option<+T> = None | Some(value: T) {
    function GetOr(default: T): T {
      match this
      case Some(v) => v
      case None => default
    }
  }

  /** Either a computed value or an error description. */
  datatype Result<+R, +E> = Ok(value: R) | Err(error: E)
}

/** Integer helpers for the JavaScript `Math` calls of the model. */
module Arith {

  /** `Math.ceil(a / b)` for a non-negative `a` and a positive `b`: the least `r` with `r * b >= a`. */
  function CeilDiv(a: nat, b: nat): (r: nat)
    requires b > 0
    ensures r * b >= a
    ensures r > 0 ==> (r - 1) * b < a
  {
    (a + b - 1) / b
  }

  function Max(a: int, b: int): (r: int)
    ensures r >= a && r >= b && (r == a || r == b)
  {
    if a >= b then a else b
  }

  function Min(a: int, b: int): (r: int)
    ensures r <= a && r <= b && (r == a || r == b)
  {
    if a <= b then a else b
  }
}
